=== FILE: README.md ===
# SPIR-V front end and anv format/surface state, modelled in Dafny

This project models three pieces of Mesa's Vulkan stack as immutable datatypes and
pure functions, and proves properties of them.

- **The SPIR-V → NIR translator** (`spirv_to_nir.c`). The model covers:
  - the instruction-stream walker and module header check;
  - decoration lists and decoration-group expansion;
  - the `vtn_type` records with their member/type decoration callbacks;
  - the explicit block-layout size;
  - constants and the SSA value trees shaped like their types;
  - vector and composite insert/extract/shuffle/construct and matrix transposition;
  - variables: storage classes, locations, built-ins and the built-in variable cache;
  - access chains, external-block addressing with loads and stores, and ordinary variable loads, stores and copies;
  - the ALU opcode mapping, texture operand parsing, execution modes and the stage mapping.

  Emitted NIR is a small term language (`Nir.Def`) with a lane evaluator, so the vector, constant, block and ALU laws are stated about the values a term computes.
- **Format capabilities in the anv driver** (`anv_formats.c`):
  - the ISL format chosen for an aspect;
  - the linear/tiled/buffer feature sets;
  - the image-format query's usage checks and per-type limits.
- **Gen7 surface and sampler state** (`gen7_state.c`):
  - the buffer surface fields;
  - the surface type of a view;
  - the channel swizzle;
  - the depth, MIP and tiling fields of image views;
  - the sampler's table lookups.

Fatal `assert`s and `unreachable` become `Abort` results (`Wrappers.Result`). SPIR-V words are naturals below 2^32. NIR arithmetic is 32-bit and is written out with `% 2^32`.

The SPIR-V enumerant numbers follow version 1.0 of the Khronos SPIR-V specification, because the header that defines them is not part of this model. The instruction layout follows its section 2.3: the opcode is in the low 16 bits of the first word and the word count in the high 16 bits.

Where the code and its documentation disagree, the model follows the code:
- **No constant deduplication.** `vtn_const_ssa_value` searches `const_table` but never inserts into it. The model therefore builds every constant afresh.
- **`RowMajor` is never set.** No decoration callback handles it.
- **Cache lookups for rewritten built-ins.** `get_builtin_variable` looks up the cache under the requested direction but stores under the direction that `vtn_get_builtin_location` returns.

## Model

| member | source | states |
|---|---|---|
| Walker.FirstWordRoundTrip | src/glsl/nir/spirv/spirv_to_nir.c:190-191 | Opcode and word count packed into a first word are read back unchanged by the low-half/high-half split. |
| Walker.ForeachInstruction | src/glsl/nir/spirv/spirv_to_nir.c:185-206 | The loop computes the recursive walk. A walk that finishes ends exactly at the end of the stream. A walk that stops does so at an in-range, non-Nop instruction the handler refused. |
| Walker.WalkDoneAtEnd | src/glsl/nir/spirv/spirv_to_nir.c:185-206 | Whenever the walk completes, its final position is the end of the words. |
| Walker.WalkStopsAtRefusal | src/glsl/nir/spirv/spirv_to_nir.c:196-202 | A stopped walk's position is an instruction that fits in the stream, is not a Nop, and was refused by the handler. |
| Walker.NopAdvancesOneWord | src/glsl/nir/spirv/spirv_to_nir.c:192-195 | A Nop is skipped by exactly one word, with no handler call. |
| Walker.AcceptingHandlerReachesEnd | src/glsl/nir/spirv/spirv_to_nir.c:185-206 | With a handler that accepts everything, and instructions that all fit, the walk reaches the end of the stream. |
| Walker.ParseHeader | src/glsl/nir/spirv/spirv_to_nir.c:3697-3707 | The header is accepted exactly when all of these hold: there are more than five words, the magic number matches, the version is at least 0x10000, and word 4 is zero. The id bound is word 3. |
| Walker.SplitSections | src/glsl/nir/spirv/spirv_to_nir.c:3697-3732 | Splits the module as follows. The preamble walk starts after the header. The declarations walk starts where the preamble stopped. A bad header is refused. |
| Decorations.Prepend | src/glsl/nir/spirv/spirv_to_nir.c:326-328 | A new decoration becomes the head of its value's list. Every other value's list is unchanged. |
| Decorations.ExpandFlat | src/glsl/nir/spirv/spirv_to_nir.c:236-263 | A list without group links expands to one effective decoration per decoration. Execution-mode entries are skipped. Members get index `scope − Member0`, and whole-value entries get the parent's index. |
| Decorations.NewestFirst | src/glsl/nir/spirv/spirv_to_nir.c:326-328 | After a decoration is added, expansion yields it first, followed by the earlier expansion. |
| Decorations.LinkGroupKeepsWellLinked | src/glsl/nir/spirv/spirv_to_nir.c:332-356 | Linking a group into targets keeps every group reference pointing at a declared group. |
| Decorations.HandleDecorationKeepsWellLinked | src/glsl/nir/spirv/spirv_to_nir.c:292-358 | Every decoration instruction preserves that well-linked invariant. |
| Decorations.GroupLinkExpands | src/glsl/nir/spirv/spirv_to_nir.c:244-258 | A group link recurses into the group's list. A member link passes its member index down; a whole-value link passes −1. |
| Decorations.MemberInsideMemberGroupAborts | src/glsl/nir/spirv/spirv_to_nir.c:248-251 | A member decoration reached while already inside a member is refused. |
| Decorations.ExecutionModes | src/glsl/nir/spirv/spirv_to_nir.c:279-289 | Every yielded entry is an execution mode, and their count is the list length minus the number of ordinary decorations. It is refused exactly when an execution-mode entry carries a group. |
| Decorations.ExecutionModesSelect | src/glsl/nir/spirv/spirv_to_nir.c:279-289 | The yielded entries are the list's execution-mode entries in list order. Entry k is the list's entry idx[k], the indices strictly increase, and every execution-mode entry of the list is among them. |
| Decorations.GroupMemberDecorateUsesTargetAsMember | src/glsl/nir/spirv/spirv_to_nir.c:340-348 | As written, `OpGroupMemberDecorate` records the link with member index equal to the target id word, not the following member word. |
| Decorations.DecorateTouchesOnlyTarget | src/glsl/nir/spirv/spirv_to_nir.c:305-328 | `OpDecorate` prepends one whole-value decoration with its literals to the target and leaves all other values unchanged. |
| ExecModes.StageFor | src/glsl/nir/spirv/spirv_to_nir.c:3670-3688 | A stage exists exactly for the six execution models up to GLCompute. |
| ExecModes.StageModelRoundTrip | src/glsl/nir/spirv/spirv_to_nir.c:3670-3688 | Stage and execution model are inverse to each other. |
| ExecModes.GlPrimitive | src/glsl/nir/spirv/spirv_to_nir.c:3161-3187 | Defined on exactly the ten primitive modes, and refused for all others. |
| ExecModes.VerticesIn | src/glsl/nir/spirv/spirv_to_nir.c:3190-3207 | Defined on exactly the five geometry input modes, with a result in {1, 2, 3, 4, 6}. |
| ExecModes.TablesAgree | src/glsl/nir/spirv/spirv_to_nir.c:3161-3207 | A mode's vertex count is the vertex count of its GL primitive. The modes without a count are the output and tessellation-only ones. |
| ExecModes.OutputPrimitivesDistinct | src/glsl/nir/spirv/spirv_to_nir.c:3161-3187 | The three geometry output modes map to three different primitives. |
| ExecModes.HandleExecutionMode | src/glsl/nir/spirv/spirv_to_nir.c:3282-3376 | The origin modes always succeed and set upper-left exactly for OriginUpperLeft. Each other mode succeeds exactly in its own stage, when its literals are present, and sets its field. EarlyFragmentTests and the depth modes are fragment-only. Replacing maps to "any", and Greater, Less and Unchanged map to themselves. Invocations is geometry-only and stores max(1, lits[0]). OutputVertices stores lits[0]. LocalSize is compute-only and stores the first three literals. The input primitives store their vertex count, and only those that have one succeed. The output primitives store the matching GL primitive. |
| ExecModes.UnswitchedModeIgnored | src/glsl/nir/spirv/spirv_to_nir.c:3286-3375 | A mode number with no case in the switch leaves the shader info unchanged in every stage. So do LocalSizeHint, VecTypeHint and ContractionOff, whose cases only break. The six tessellation-metadata modes, PixelCenterInteger and Xfb are refused in every stage. |
| ExecModes.QuadsRefusedInGeometry | src/glsl/nir/spirv/spirv_to_nir.c:3335-3349 | Quads and Isolines in a geometry shader have no vertex count and are refused. |
| ExecModes.ModeTouchesOwnField | src/glsl/nir/spirv/spirv_to_nir.c:3282-3376 | A mode changes only its own fields: origin, local size, invocations and output vertex count are kept by every other mode. |
| ExecModes.HandleExecutionModes | src/glsl/nir/spirv/spirv_to_nir.c:279-289 | Applying a list succeeds only if its first mode is accepted. |
| ExecModes.LastOriginWins | src/glsl/nir/spirv/spirv_to_nir.c:3288-3293 | After a list of modes in application order ending in an origin mode, the origin is that last-applied one. The modes are applied newest-declared first (see Decorations.NewestFirst), so in module order the first origin mode declared wins. |
| VtnTypes.Append | src/glsl/nir/spirv/spirv_to_nir.c:549-551 | A new record is added above its children; existing records are unchanged. |
| VtnTypes.TypeCopy | src/glsl/nir/spirv/spirv_to_nir.c:368-410 | Copying is defined exactly for vectors, matrices, arrays and structs. It copies the per-kind fields (element and stride, row-major and stride, members and offsets) and the built-in tag. Existing records are untouched. |
| VtnTypes.Update | src/glsl/nir/spirv/spirv_to_nir.c:413-492 | An in-place write changes only the one record. |
| VtnTypes.Relink | src/glsl/nir/spirv/spirv_to_nir.c:441-447 | Points one struct member at a new record and marks the struct as a built-in block, leaving every other record alone. |
| VtnTypes.MemberLayoutDecoration | src/glsl/nir/spirv/spirv_to_nir.c:448-456 | `Offset` records the literal as member m's offset in the struct's record, and no other record changes. `MatrixStride` sets the stride of member m's record in place (the record is shared with every other use of that type), and no other record changes. Every record keeps its GLSL type, and the struct keeps its fields. |
| VtnTypes.MemberBuiltin | src/glsl/nir/spirv/spirv_to_nir.c:441-447 | Built-in tagging keeps the struct well-formed and every existing record's GLSL type. |
| VtnTypes.MemberDecoration | src/glsl/nir/spirv/spirv_to_nir.c:413-458 | A decoration of the whole struct (member < 0) changes nothing, and a member past the fields is refused. RelaxedPrecision and ColMajor change nothing. NoPerspective, Flat, Centroid and Sample set the matching flag of that member's field only. Location succeeds exactly when it has a literal, and sets only that field's location. BuiltIn needs a literal. Offset and MatrixStride succeed exactly when they have a literal and then act as `MemberLayoutDecoration`. Any other decoration is refused. No record's GLSL type or field count changes. |
| VtnTypes.MemberDecorations | src/glsl/nir/spirv/spirv_to_nir.c:636-638 | The same holds across a whole list of member decorations. |
| VtnTypes.TypeDecoration | src/glsl/nir/spirv/spirv_to_nir.c:461-492 | A member decoration is ignored here. `ArrayStride` succeeds exactly when it has a literal, and sets the record's stride to it. `Block` and `BufferBlock` set their flags. Shared/Packed change nothing. `Stream` is accepted only as stream 0 and changes nothing. Any other decoration is refused. Only the decorated record is written, and it keeps its GLSL type. |
| VtnTypes.TypeDecorations | src/glsl/nir/spirv/spirv_to_nir.c:733 | The same holds across the record's decoration list. |
| VtnTypes.TranslateImageFormat | src/glsl/nir/spirv/spirv_to_nir.c:495-542 | Defined exactly on the 40 SPIR-V image formats. |
| VtnTypes.ImageFormatInverse | src/glsl/nir/spirv/spirv_to_nir.c:495-542 | Each GL format maps back to its SPIR-V format, except that `R16ui` maps back to `Rg16ui` (as written). |
| VtnTypes.ImageFormatCollision | src/glsl/nir/spirv/spirv_to_nir.c:535-536 | Two formats share a GL value exactly when they are `Rg16ui` and `R16ui`. |
| VtnTypes.TypeOperand | src/glsl/nir/spirv/spirv_to_nir.c:567-568 | A type operand resolves exactly when its word exists and names a declared type. |
| VtnTypes.TypeOperands | src/glsl/nir/spirv/spirv_to_nir.c:615-619 | A list of operands resolves pointwise to the declared types. |
| VtnTypes.AppendBuilt | src/glsl/nir/spirv/spirv_to_nir.c:549-551 | A freshly built record is appended with the GLSL type it was built with. |
| VtnTypes.SetStructType | src/glsl/nir/spirv/spirv_to_nir.c:636-640 | Installs the struct's final field list, changing no other record. |
| VtnTypes.BuildStruct | src/glsl/nir/spirv/spirv_to_nir.c:612-640 | An `OpTypeStruct` yields a struct record with one member per member operand. |
| VtnTypes.StructShell | src/glsl/nir/spirv/spirv_to_nir.c:612-631 | The struct record before decoration has the operand members and matching fields. |
| VtnTypes.FinishStruct | src/glsl/nir/spirv/spirv_to_nir.c:636-640 | The decorated fields become the struct's GLSL type. |
| VtnTypes.BuildComposite | src/glsl/nir/spirv/spirv_to_nir.c:567-611 | Vector, matrix and array construction only append above the existing records. |
| VtnTypes.BuildImage | src/glsl/nir/spirv/spirv_to_nir.c:664-712 | Image, sampled-image and sampler construction only append above the existing records. |
| VtnTypes.BuildType | src/glsl/nir/spirv/spirv_to_nir.c:545-734 | Every type instruction only appends above the existing records. |
| VtnTypes.HandleType | src/glsl/nir/spirv/spirv_to_nir.c:545-734 | The result id must be fresh, both as a type and as a constant. Only that id is bound, and existing records keep their GLSL types. |
| VtnTypes.PointerAliasesPointee | src/glsl/nir/spirv/spirv_to_nir.c:656-663 | A pointer type is the pointee's own record, shared rather than copied. |
| VtnTypes.ScalarTypes | src/glsl/nir/spirv/spirv_to_nir.c:560-566 | `OpTypeInt` and `OpTypeFloat` give one-lane int and float types. |
| VtnTypes.VectorTypes | src/glsl/nir/spirv/spirv_to_nir.c:567-576 | `OpTypeVector` needs a scalar component and 1..4 lanes, and builds that vector. |
| VtnTypes.BuiltinCopiesMember | src/glsl/nir/spirv/spirv_to_nir.c:441-447 | `BuiltIn` on a member copies the member record before tagging it, so the original shared record is unchanged. The struct becomes a built-in block. |
| VtnTypes.MatrixStrideIsShared | src/glsl/nir/spirv/spirv_to_nir.c:451-453 | As written, `MatrixStride` writes the shared member record in place, so every struct sharing it sees the new stride. |
| VtnTypes.StructExtentIsMax | src/glsl/nir/spirv/spirv_to_nir.c:1560-1569 | The running maximum bounds every field end from `f` on, and equals one of them (or the start value). |
| VtnTypes.StructSizeIsLargestEnd | src/glsl/nir/spirv/spirv_to_nir.c:1560-1569 | A struct's block size is the largest `offset + size` of its fields, and 0 with no fields. |
| VtnTypes.BlockSizeRules | src/glsl/nir/spirv/spirv_to_nir.c:1539-1581 | Vectors take 4 bytes a lane (8 for doubles). Matrices take stride × columns (rows if row-major) and need a stride. Arrays take stride × length and need both; anything else is refused. |
| VtnTypes.ArrayOfTenVectorsIs160 | src/glsl/nir/spirv/spirv_to_nir.c:1572-1575 | Declaring int, vec4 and an array of ten vec4 with stride 16 gives that array a block size of 160. |
| Constants.Columns | src/glsl/nir/spirv/spirv_to_nir.c:767-772 | Column-major flattening has rows × columns words. |
| Constants.ColumnsKeepLanes | src/glsl/nir/spirv/spirv_to_nir.c:767-772 | Column `i`, lane `j` lands at word `rows·i + j`. |
| Constants.FlattenKeepsLanes | src/glsl/nir/spirv/spirv_to_nir.c:767-772 | The same holds after padding to the fixed constant width. |
| Constants.FlattenLanes | src/glsl/nir/spirv/spirv_to_nir.c:774-777 | A vector composite puts part `i`'s first word in lane `i`. |
| Constants.Composite | src/glsl/nir/spirv/spirv_to_nir.c:756-787 | A matrix composite needs one part per column. A vector composite needs one part per lane and more than one lane. Array and struct composites keep the parts as elements. |
| Constants.Parts | src/glsl/nir/spirv/spirv_to_nir.c:759-761 | Component ids resolve pointwise, and any missing id is refused. |
| Constants.HandleConstant | src/glsl/nir/spirv/spirv_to_nir.c:737-798 | A result id already bound, as a type or as a constant, is refused (`vtn_push_value`'s assert at 740). Otherwise only that id is bound, with the declared result type. |
| Constants.LoadConst | src/glsl/nir/spirv/spirv_to_nir.c:84-90 | The immediate evaluates lane by lane to the constant's words. |
| Constants.ColumnWords | src/glsl/nir/spirv/spirv_to_nir.c:100-117 | Column `i` reads words `rows·i .. rows·i + rows`. |
| Constants.ConstSsa | src/glsl/nir/spirv/spirv_to_nir.c:71-148 | The SSA tree built from a constant has the constant's type and shape, fully defined, with no transpose link. |
| Constants.ElementValues | src/glsl/nir/spirv/spirv_to_nir.c:120-140 | Array and struct elements are the element constants' trees, typed by the element types. |
| Constants.MatrixRoundTrip | src/glsl/nir/spirv/spirv_to_nir.c:100-117 | Flattening a matrix constant and splitting it into columns gives back column `i`, lane `j` of part `i`. |
| Constants.VectorRoundTrip | src/glsl/nir/spirv/spirv_to_nir.c:84-90 | A vector constant evaluates, lane `i`, to part `i`. |
| Constants.ScalarConstantValue | src/glsl/nir/spirv/spirv_to_nir.c:744-755 | The value of each scalar constant is: `OpConstantTrue` gives NIR true, `OpConstantFalse` gives NIR false, and `OpConstant` gives its literal. |
| SsaValues.Create | src/glsl/nir/spirv/spirv_to_nir.c:1964-1998 | The value tree has the type's shape, with no definitions and no transpose link. |
| SsaValues.Undef | src/glsl/nir/spirv/spirv_to_nir.c:33-68 | Every leaf of the undefined value is an undef, in a tree of the type's shape. |
| SsaValues.UndefHasCreatedShape | src/glsl/nir/spirv/spirv_to_nir.c:33-68 | The undef tree and the created tree have the same skeleton. |
| SsaValues.Copy | src/glsl/nir/spirv/spirv_to_nir.c:2886-2902 | A deep copy has the same skeleton and the same leaves, with transpose links dropped. |
| SsaValues.CopyOfUnlinked | src/glsl/nir/spirv/spirv_to_nir.c:2886-2902 | Copying a tree without links returns an equal tree. |
| SsaValues.InsertInto | src/glsl/nir/spirv/spirv_to_nir.c:2905-2929 | Insertion along a path changes only the child on that path. |
| SsaValues.Insert | src/glsl/nir/spirv/spirv_to_nir.c:2905-2929 | An empty path is refused. The result has the source's type and no transpose link. |
| SsaValues.ExtractInserted | src/glsl/nir/spirv/spirv_to_nir.c:2905-2954 | Extracting along the insertion path returns the inserted value. When the last index selects a vector component, it returns the inserted scalar's lane. |
| SsaValues.InsertTouchesOnePath | src/glsl/nir/spirv/spirv_to_nir.c:2905-2929 | Insertion works on a copy: every other child equals the copied source. |
| SsaValues.ConstructAggregate | src/glsl/nir/spirv/spirv_to_nir.c:2980-2990 | Extracting child `i` of a constructed aggregate returns operand `i`. |
| SsaValues.Transpose | src/glsl/nir/spirv/spirv_to_nir.c:2379-2406 | The result has the transposed matrix type, and its link points back to the source. |
| SsaValues.TransposeTwice | src/glsl/nir/spirv/spirv_to_nir.c:2381-2382 | Transposing a transpose returns the original value through the link. |
| SsaValues.TransposeValues | src/glsl/nir/spirv/spirv_to_nir.c:2391-2400 | Lane `j` of column `i` of the transpose is lane `i` of column `j` of the source. |
| Vectors.CreateVec | src/glsl/nir/spirv/spirv_to_nir.c:2360-2376 | A vector takes between one and four lanes. |
| Vectors.Extract | src/glsl/nir/spirv/spirv_to_nir.c:2782-2786 | The extracted value is the source lane, one wide. |
| Vectors.Insert | src/glsl/nir/spirv/spirv_to_nir.c:2790-2807 | Only lane `index` is replaced by the inserted value; every other lane is kept. |
| Vectors.ExtractChain | src/glsl/nir/spirv/spirv_to_nir.c:2810-2819 | The select chain yields the indexed lane for an index in range, and lane 0 otherwise. |
| Vectors.ExtractDynamic | src/glsl/nir/spirv/spirv_to_nir.c:2810-2819 | Dynamic extract agrees with static extract at the selected lane. Out-of-range indices fall back to lane 0. |
| Vectors.InsertChain | src/glsl/nir/spirv/spirv_to_nir.c:2822-2831 | The select chain agrees with static insert at the selected lane. |
| Vectors.InsertDynamic | src/glsl/nir/spirv/spirv_to_nir.c:2822-2831 | Dynamic insert agrees with static insert at the selected lane, falling back to lane 0. |
| Vectors.Shuffle | src/glsl/nir/spirv/spirv_to_nir.c:2834-2859 | Shuffle needs 1..4 result lanes and enough indices. The result has that width. |
| Vectors.ShuffleValue | src/glsl/nir/spirv/spirv_to_nir.c:2834-2859 | Result lane `k` reads element `indices[k]` of the concatenated sources, and 0xFFFFFFFF reads an undef 0. |
| Vectors.ShuffleComponent | src/glsl/nir/spirv/spirv_to_nir.c:2842-2855 | The same, for one result lane. |
| Vectors.SpreadIsConcat | src/glsl/nir/spirv/spirv_to_nir.c:2865-2883 | Spreading the sources into lanes lists exactly the concatenation of their values. |
| Vectors.Construct | src/glsl/nir/spirv/spirv_to_nir.c:2865-2883 | The constructed vector evaluates to the concatenation of its sources' values. |
| Derefs.TailFrom | src/glsl/nir/spirv/spirv_to_nir.c:1374-1381 | Stops at the first selector from `p` whose type is a vector or scalar, or at the end. |
| Derefs.Tail | src/glsl/nir/spirv/spirv_to_nir.c:1374-1381 | The deref tail is the first vector-or-scalar link; everything before it is an aggregate. |
| Derefs.ChildAt | src/glsl/nir/spirv/spirv_to_nir.c:1303-1325 | A struct member sits at its `Offset` and has the member's record. An array element or matrix column sits at index × stride and has the element record. A member without a recorded offset is refused (see "Left out"). |
| Derefs.LayoutStep | src/glsl/nir/spirv/spirv_to_nir.c:1303-1325 | The layout of a path is the first child's offset plus the layout of the rest. |
| Derefs.ArrayIndex | src/glsl/nir/spirv/spirv_to_nir.c:1293-1298 | The index term evaluates to base + indirect, at 32 bits. |
| Derefs.BlockOffsetIsLayout | src/glsl/nir/spirv/spirv_to_nir.c:1283-1333 | If the first selector is an array index, the resource index is that index and the type steps to the element; otherwise the index is 0. The byte offset is the layout offset of the remaining selectors up to the tail, at 32 bits. |
| Derefs.BlockOffsetOfField | src/glsl/nir/spirv/spirv_to_nir.c:1299-1301 | A chain starting with a field has index 0 and the field path's layout offset. |
| Derefs.BlockOffsetOfArray | src/glsl/nir/spirv/spirv_to_nir.c:1290-1298 | A chain starting with an array index uses it as the resource index and lays out the rest from the element type. |
| Derefs.BlockArrayAddr | src/glsl/nir/spirv/spirv_to_nir.c:1290-1298 | The array case's address is that index term with the offset loop started at the element. |
| Derefs.BlockOpFor | src/glsl/nir/spirv/spirv_to_nir.c:1343-1360 | The load intrinsic is chosen as follows. A UBO load needs a uniform with a set and binding of at least 0. A push-constant load needs a uniform with set and binding both −1. An SSBO load needs a storage buffer. |
| Derefs.BlockLoadValue | src/glsl/nir/spirv/spirv_to_nir.c:1217-1280 | The loaded tree has the record's type and is complete. Vectors are leaves, and aggregates have one child per element. |
| Derefs.BlockLoadElems | src/glsl/nir/spirv/spirv_to_nir.c:1250-1278 | Each child is loaded at its own offset. |
| Derefs.BlockLoadReads | src/glsl/nir/spirv/spirv_to_nir.c:1217-1280 | Every leaf reached by a path reads the block at the base offset plus that path's layout offset. |
| Derefs.BlockStoreWrites | src/glsl/nir/spirv/spirv_to_nir.c:1426-1463 | For every path to a vector or scalar, a block store contains a store of that leaf's whole definition with a full write mask, at an offset that evaluates to the base offset plus the path's layout offset, at 32 bits. This is the store-side partner of `Derefs.BlockLoadReads`. |
| Derefs.BlockStoreValue | src/glsl/nir/spirv/spirv_to_nir.c:1426-1463 | A block store writes exactly the source's leaves, in order, all to the same block. |
| Derefs.VarLoadValue | src/glsl/nir/spirv/spirv_to_nir.c:1077-1143 | A variable load succeeds exactly for loadable types, and the result is a complete tree of the type. |
| Derefs.VarLoadElems | src/glsl/nir/spirv/spirv_to_nir.c:1100-1140 | Matrix columns are leaf loads with one more selector; other children are recursive loads. |
| Derefs.VarLoadReads | src/glsl/nir/spirv/spirv_to_nir.c:1077-1143 | The leaf at a path is a load of the variable at the prefix extended by that path's selectors. |
| Derefs.VarStoreWrites | src/glsl/nir/spirv/spirv_to_nir.c:1146-1193 | For every path to a vector or scalar, a variable store contains a store of that leaf's whole definition with a full mask, through the prefix extended by the path's selectors. This is the store-side partner of `Derefs.VarLoadReads`. |
| Derefs.VarStoreValue | src/glsl/nir/spirv/spirv_to_nir.c:1146-1193 | A variable store writes exactly the source's leaves, all to this variable below the prefix. |
| Derefs.BlockLoadAt | src/glsl/nir/spirv/spirv_to_nir.c:1336-1365 | A block load is the tree loaded at the computed address with the chosen intrinsic. |
| Derefs.SelectComponent | src/glsl/nir/spirv/spirv_to_nir.c:1411-1420 | A trailing component selector yields the selected lane of the loaded vector. |
| Derefs.VariableLoad | src/glsl/nir/spirv/spirv_to_nir.c:1400-1423 | Loads with no component selector are plain variable loads. A component selector may only come last. |
| Derefs.LoadComponentReads | src/glsl/nir/spirv/spirv_to_nir.c:1400-1423 | A load through a component selector evaluates to that lane of the vector the tail holds. |
| Derefs.VariableStore | src/glsl/nir/spirv/spirv_to_nir.c:1490-1513 | External blocks are only stored when they are storage buffers. Plain stores write the value at the full path. |
| Derefs.ComponentStore | src/glsl/nir/spirv/spirv_to_nir.c:1498-1508 | A component store is one write of the whole vector, with only the selected lane replaced. |
| Derefs.StoreComponent | src/glsl/nir/spirv/spirv_to_nir.c:1502-1507 | The rewritten vector keeps every lane but the selected one, which takes the stored scalar. |
| Derefs.VariableCopy | src/glsl/nir/spirv/spirv_to_nir.c:1516-1533 | A plain copy is one `copy_var`. Copies from a component or an interface variable need a component selector on the destination. |
| Derefs.CopyOutOfBlockRefused | src/glsl/nir/spirv/spirv_to_nir.c:1521-1522 | Copying an interface variable into a whole struct variable is refused. |
| Derefs.StoreWritesLeaves | src/glsl/nir/spirv/spirv_to_nir.c:1146-1193 | A full-path store writes exactly the leaves of the stored value. |
| Variables.KindOfBuiltin | src/glsl/nir/spirv/spirv_to_nir.c:823-931 | Classifies built-ins: those without a slot are unsupported, PrimitiveId and Layer are made outputs, and system values are exactly the system-value built-ins. |
| Variables.BuiltinLocation | src/glsl/nir/spirv/spirv_to_nir.c:823-931 | The slot is the built-in's own slot. The mode is kept, or becomes a system value or an output. PrimitiveId and Layer always become outputs. |
| Variables.SystemValueModes | src/glsl/nir/spirv/spirv_to_nir.c:801-805 | The mode becomes a system value exactly for system-value built-ins declared as inputs or system values. |
| Variables.PerVertexNotSystem | src/glsl/nir/spirv/spirv_to_nir.c:808-820 | Per-vertex built-ins keep their mode. |
| Variables.FragmentNotSystem | src/glsl/nir/spirv/spirv_to_nir.c:866-895 | Fragment built-ins require a fragment shader and keep their in/out mode. |
| Variables.SystemKindModes | src/glsl/nir/spirv/spirv_to_nir.c:896-925 | System-value built-ins are accepted exactly as inputs or system values, and become system values. |
| Variables.OutputRewrites | src/glsl/nir/spirv/spirv_to_nir.c:846-855 | Only PrimitiveId and Layer are rewritten to outputs. |
| Variables.SlotsOfBuiltins | src/glsl/nir/spirv/spirv_to_nir.c:823-931 | Distinct built-ins have distinct slots, except Position and FragCoord. |
| Variables.OwnerOfSlot | src/glsl/nir/spirv/spirv_to_nir.c:823-931 | Each slot names back its built-in. |
| Variables.Cache | src/glsl/nir/spirv/spirv_to_nir.c:1010-1013 | Caching changes only the cache of one direction. |
| Variables.GetBuiltinVariable | src/glsl/nir/spirv/spirv_to_nir.c:1044-1074 | A cache hit returns the cached variable unchanged. A miss creates exactly one fresh variable, provided the built-in has a location. The new variable has the requested type, the location's slot and mode, and is cached under that mode. |
| Variables.BuiltinCreatedOnce | src/glsl/nir/spirv/spirv_to_nir.c:1044-1074 | When the mode is not rewritten, a second request returns the same variable. |
| Variables.BuiltinInputNeverCached | src/glsl/nir/spirv/spirv_to_nir.c:1049-1072 | As written, input PrimitiveId and Layer are cached as outputs, so every input request creates a new variable. |
| Variables.BuiltinDecoration | src/glsl/nir/spirv/spirv_to_nir.c:984-1015 | `BuiltIn` on a variable has two cases. WorkgroupSize becomes a read-only global holding the local size. Any other built-in takes its slot and mode, is read-only as an input, and is cached. |
| Variables.LocatedApplied | src/glsl/nir/spirv/spirv_to_nir.c:995-1013 | Placing a located built-in and caching it satisfies the built-in rule. |
| Variables.DataDecoration | src/glsl/nir/spirv/spirv_to_nir.c:940-983 | Each data decoration writes its own field and nothing else. NoPerspective and Flat set the interpolation. Centroid, Sample and Invariant set their flags. NonWritable sets read-only. Constant also sets read-only, and succeeds exactly when the variable has an initializer. Location, Component, Index, Binding and DescriptorSet succeed exactly when they carry a literal. They set the location, the location fraction, the explicit index and index, the explicit binding and binding, and the descriptor set. |
| Variables.VarDecoration | src/glsl/nir/spirv/spirv_to_nir.c:934-1041 | A decoration changes only the decorated variable and the caches. Ignored decorations change nothing. |
| Variables.BuiltinOnlyDecorates | src/glsl/nir/spirv/spirv_to_nir.c:984-1015 | The built-in rule changes nothing but the variable and the caches. |
| Variables.CacheOnlyDecorates | src/glsl/nir/spirv/spirv_to_nir.c:1010-1013 | Caching plus rewriting the variable's data changes nothing else. |
| Variables.VarDecorations | src/glsl/nir/spirv/spirv_to_nir.c:1719-1720 | A whole decoration list changes only the decorated variable and the caches. |
| Variables.InterfaceType | src/glsl/nir/spirv/spirv_to_nir.c:1607-1615 | The interface type is either the type itself or an array's element, and must be a block, buffer block, sampler or image. |
| Variables.StorageClass | src/glsl/nir/spirv/spirv_to_nir.c:1620-1674 | Maps each storage class to a mode. Buffer blocks become SSBOs, and count one. Push constants need a block and no earlier push constant; they take set and binding −1 and size × 4 uniforms. Inputs are read-only. Other storage classes are refused. |
| Variables.PlaceLocation | src/glsl/nir/spirv/spirv_to_nir.c:1693-1704 | An undecorated input or output is offset from a base: FRAG_RESULT_DATA0 for fragment outputs, VERT_ATTRIB_GENERIC0 for vertex inputs, VARYING_SLOT_VAR0 otherwise. |
| Variables.FinishVariable | src/glsl/nir/spirv/spirv_to_nir.c:1693-1729 | Places the location and applies the push-constant override. Blocks join no list, locals join the local list, and all other variables join the shader list. |
| Variables.HandleVariable | src/glsl/nir/spirv/spirv_to_nir.c:1596-1731 | `OpVariable` binds exactly one id, unbound anywhere in the value table, to a new variable. Its initializer, when present, names a constant. Push constants get −1/−1, and the variable is listed by its mode. |
| Variables.DeclareVariable | src/glsl/nir/spirv/spirv_to_nir.c:1596-1690 | An id already bound in the value table, or an initializer that is not a constant, is refused (`vtn_push_value`'s and `vtn_value`'s asserts). Otherwise the new variable starts undecorated at location 0, with its constant initializer and interface type. |
| Variables.UndecoratedLocation | src/glsl/nir/spirv/spirv_to_nir.c:1693-1704 | Inputs and outputs without Location or BuiltIn get the stage's base location. |
| Variables.NoBuiltinKeepsLocation | src/glsl/nir/spirv/spirv_to_nir.c:934-1041 | Without Location or BuiltIn decorations, a variable's mode and location are kept. |
| Variables.Select | src/glsl/nir/spirv/spirv_to_nir.c:1762-1808 | An index selects a struct member by constant, or an array/matrix/vector element by constant or SSA value. A vector component yields a scalar. A one-lane vector is refused. |
| Variables.BuiltinJump | src/glsl/nir/spirv/spirv_to_nir.c:1810-1848 | A built-in member restarts the chain at the built-in variable. It keeps the first index only for an arrayed geometry input. |
| Variables.ChainStep | src/glsl/nir/spirv/spirv_to_nir.c:1750-1870 | Without built-in members, each index appends one matching selector. |
| Variables.AccessChain | src/glsl/nir/spirv/spirv_to_nir.c:1733-1874 | External blocks keep their block type through the chain. |
| Variables.ChainAppends | src/glsl/nir/spirv/spirv_to_nir.c:1750-1870 | Without built-in members, the chain is the base extended by one matching selector per index. |
| Variables.BuiltinMemberJumps | src/glsl/nir/spirv/spirv_to_nir.c:1810-1848 | Indexing a built-in member reuses the cached built-in variable, or creates a new one. |
| Alu.Sources | src/glsl/nir/spirv/spirv_to_nir.c:2601-2607 | Operand slots past the operand count are null. |
| Alu.Swapped | src/glsl/nir/spirv/spirv_to_nir.c:2772-2776 | Swapping exchanges the first two sources only. |
| Alu.Translate | src/glsl/nir/spirv/spirv_to_nir.c:2593-2779 | More than four operands are refused. |
| Alu.TranslationReadsOperands | src/glsl/nir/spirv/spirv_to_nir.c:2593-2779 | Every translation reads only operands the instruction has. |
| Alu.ReductionShape | src/glsl/nir/spirv/spirv_to_nir.c:2621-2645 | Any/All are defined exactly for 1..4 lanes. One lane is a move; wider inputs use the n-lane any-inequal/all-equal against false/true. |
| Alu.ReductionTooWide | src/glsl/nir/spirv/spirv_to_nir.c:2625-2629 | Wider inputs have no op and are refused. |
| Alu.DotProductShape | src/glsl/nir/spirv/spirv_to_nir.c:2660-2668 | Dot requires equal widths: a multiply for one lane, fdotN otherwise. |
| Alu.SwapOnlyForMirroredComparisons | src/glsl/nir/spirv/spirv_to_nir.c:2694-2701 | Exactly the greater-than and less-than-or-equal comparisons swap their operands. |
| Alu.SwapIsMirror | src/glsl/nir/spirv/spirv_to_nir.c:2690-2705 | A swapped comparison is its mirror's op with the operands exchanged. |
| Alu.SwapGreaterThan | src/glsl/nir/spirv/spirv_to_nir.c:2694-2697 | `a > b` is `b < a`. |
| Alu.SwapLessThanEqual | src/glsl/nir/spirv/spirv_to_nir.c:2698-2701 | `a <= b` is `b >= a`. |
| Alu.FloatCompareTranslation | src/glsl/nir/spirv/spirv_to_nir.c:2685-2705 | Float comparisons translate to their table op, with swap where the table says. |
| Alu.OrderedLikeUnordered | src/glsl/nir/spirv/spirv_to_nir.c:2685-2705 | Each ordered comparison translates exactly like its unordered twin. |
| Alu.UnhandledOpcodesAbort | src/glsl/nir/spirv/spirv_to_nir.c:2749-2769 | SRem, FRem, IsFinite, IsNormal, SignBitSet, LessOrGreater, Ordered and Unordered are refused. |
| Alu.NoEntryAborts | src/glsl/nir/spirv/spirv_to_nir.c:2768-2769 | Opcodes outside the table are refused. |
| Alu.SameOutsideFindings | src/glsl/nir/spirv/spirv_to_nir.c:2593-2779 | The as-written and corrected translations differ only on SMod and the Fwidth family. |
| Alu.SignedModIsFloored | src/glsl/nir/spirv/spirv_to_nir.c:2657 | The SPIR-V signed modulo (sign of the divisor) is floored modulo. |
| Alu.EvalTableOp | src/glsl/nir/spirv/spirv_to_nir.c:2772-2778 | A table entry computes its op lane-wise, on exchanged operands when swapped. |
| Alu.AnyValue | src/glsl/nir/spirv/spirv_to_nir.c:2621-2632 | On booleans, the any-reduction is true exactly when some lane is true. |
| Alu.AllValue | src/glsl/nir/spirv/spirv_to_nir.c:2634-2645 | On booleans, the all-reduction is true exactly when every lane is true. |
| Alu.CorrectedAgrees | src/glsl/nir/spirv/spirv_to_nir.c:2593-2779 | For every integer and boolean opcode, the corrected translation evaluates, lane by lane, to the SPIR-V result. |
| Alu.AsWrittenAgrees | src/glsl/nir/spirv/spirv_to_nir.c:2593-2779 | The translation as written does the same for every such opcode except SMod. |
| Alu.SModAsWritten | src/glsl/nir/spirv/spirv_to_nir.c:2657 | As written, SMod becomes the unsigned `umod`. |
| Alu.SModCounterexample | src/glsl/nir/spirv/spirv_to_nir.c:2657 | −1 SMod 3 is 2 in SPIR-V, but `umod` gives 0 and `imod` gives 2. |
| Alu.SModCorrected | src/glsl/nir/spirv/spirv_to_nir.c:2657 | Corrected, SMod becomes `imod`. |
| Alu.FwidthAsWritten | src/glsl/nir/spirv/spirv_to_nir.c:2728-2742 | As written, Fwidth adds the x-derivatives of source 0 and source 1, a source the instruction does not have. It is refused unless a second operand exists. |
| Alu.FwidthCorrected | src/glsl/nir/spirv/spirv_to_nir.c:2722-2742 | Corrected, Fwidth is abs(DPdx) + abs(DPdy) of its single operand, built from the matching derivative translations. |
| Texture.BaseOp | src/glsl/nir/spirv/spirv_to_nir.c:2080-2122 | Defined exactly for the sampling, fetch, gather and query opcodes. |
| Texture.Step | src/glsl/nir/spirv/spirv_to_nir.c:2124-2159 | A present operand must be allowed and must name what `vtn_ssa_value` accepts (168-170): an SSA value, or a dereference of a scalar or vector, which is loaded. It adds its source kind and consumes one word. An absent operand changes nothing. |
| Texture.FixedSources | src/glsl/nir/spirv/spirv_to_nir.c:2042-2078 | Coordinate and comparator are read from the words right after the sampled image. |
| Texture.DestOf | src/glsl/nir/spirv/spirv_to_nir.c:2169-2176 | Every sampled type except double has a destination type. |
| Texture.SampledOf | src/glsl/nir/spirv/spirv_to_nir.c:2026-2034 | A bare image becomes a sampled image with no separate sampler. |
| Texture.HandleSampledImage | src/glsl/nir/spirv/spirv_to_nir.c:2013-2022 | `OpSampledImage` binds its fresh id to the pair of image and sampler. |
| Texture.HandleTexture | src/glsl/nir/spirv/spirv_to_nir.c:2010-2198 | The result id is fresh and becomes a four-component value. The instruction's sources are the parsed sources, where a scalar or vector dereference (a function parameter) serves as an operand. Dimension, shadow and array flags, texture and sampler come from the sampled image or bare sampler, whose type must be a sampler type that is not double. |
| Texture.TexSources | src/glsl/nir/spirv/spirv_to_nir.c:2042-2161 | Only an opcode with a base operation (sampling, fetch, gather, size, LOD and level queries) yields sources. Their content is stated by `Texture.SourcesMatch` and `Texture.SourcesConsumeWords`. |
| Texture.SourcesConsumeWords | src/glsl/nir/spirv/spirv_to_nir.c:2161 | Every word after the sampled image is consumed: by the fixed sources, the mask, and one word per optional source. |
| Texture.SourcesMatch | src/glsl/nir/spirv/spirv_to_nir.c:2042-2161 | Sources are in rank order, at most eight. There is a coordinate exactly for the coordinate opcodes and a comparator exactly for the Dref opcodes. The mask's bits match the optional sources read and the resulting operation. |
| Texture.BiasNeedsImplicitLod | src/glsl/nir/spirv/spirv_to_nir.c:2127-2131 | Bias on an explicit-LOD sample is refused. |
| Texture.OneOperationModifier | src/glsl/nir/spirv/spirv_to_nir.c:2127-2159 | Bias and gradients never combine, and Sample excludes both. |
| Texture.InertMaskReadsNothing | src/glsl/nir/spirv/spirv_to_nir.c:2124-2159 | A mask with no handled bit reads nothing more. |
| Texture.QuerySizeLodDropsLod | src/glsl/nir/spirv/spirv_to_nir.c:2113-2115 | As written, the LOD operand of `OpImageQuerySizeLod` is read as an image-operands mask, so a size query loses its LOD. |
| Texture.QuerySizeLodRefused | src/glsl/nir/spirv/spirv_to_nir.c:2132-2136 | As written, a LOD id whose bits include Lod is refused. |
| Texture.DrefGatherDropsDref | src/glsl/nir/spirv/spirv_to_nir.c:2069-2078 | As written, `OpImageDrefGather` reads its comparator id as the mask, so the comparator is dropped. |
| Texture.ImageCoord | src/glsl/nir/spirv/spirv_to_nir.c:2201-2212 | The image coordinate always has four lanes, whatever the coordinate's dimension. `Texture.ImageCoordPads` states their values. |
| Texture.ImageCoordPads | src/glsl/nir/spirv/spirv_to_nir.c:2201-2212 | The padded coordinate repeats the last lane: lane `i` is coordinate lane min(i, dim − 1). |
| Formats.FormatOf | src/vulkan/anv_formats.c:38-235 | Stencil is present exactly for S8 and the combined formats. Depth is present exactly for the depth and combined formats. |
| Formats.IslFormatFor | src/vulkan/anv_formats.c:239-257 | Colour always has a format. Depth needs a depth format, and stencil needs stencil. Colour and depth return the surface format; stencil returns R8_UINT. |
| Formats.CombinedAspects | src/vulkan/anv_formats.c:154-156 | For combined formats, depth gives the surface format and stencil gives R8_UINT. |
| Formats.Level | src/vulkan/anv_formats.c:282-284 | The level is gen·10, plus 5 on Haswell. |
| Formats.DepthStencilFeatures | src/vulkan/anv_formats.c:290-298 | Depth/stencil formats have tiled features only. Depth-stencil attachment is always present; sampled and blit-src need gen 8; blit-dst needs a depth format. |
| Formats.ColorFeatures | src/vulkan/anv_formats.c:305-339 | Each colour feature is present exactly when its table threshold is at most the level. The uniform texel buffer also needs an uncompressed format. Storage features follow the storage capability. |
| Formats.FormatPropertiesAsWritten | src/vulkan/anv_formats.c:271-352 | As written, no atomic feature is ever granted. |
| Formats.NoAtomicsAsWritten | src/vulkan/anv_formats.c:334-335 | R32_UINT and R32_SINT get no atomics as written, but do when corrected. |
| Formats.AtomicsForR32 | src/vulkan/anv_formats.c:334-339 | Corrected, the atomic features are granted exactly to listed colour formats whose surface format is R32_UINT or R32_SINT. |
| Formats.CorrectionOnlyAddsAtomics | src/vulkan/anv_formats.c:334-339 | The as-written and corrected feature sets differ only in the atomic bits. |
| Formats.UnsupportedHasNoFeatures | src/vulkan/anv_formats.c:286-287 | Unsupported or unlisted formats have no features at all. |
| Formats.DepthStencilOnlyTiled | src/vulkan/anv_formats.c:290-298 | Depth/stencil formats have at most four tiled features and no linear or buffer features. |
| Formats.ColorThresholds | src/vulkan/anv_formats.c:305-332 | Each colour feature appears exactly when its threshold is reached. Linear and tiled features are equal. |
| Formats.LevelOrdersGenerations | src/vulkan/anv_formats.c:282-284 | The level orders devices by generation. |
| Formats.NewerDeviceKeepsFeatures | src/vulkan/anv_formats.c:271-352 | A device of higher level has every feature a lower one has. |
| Formats.Limits | src/vulkan/anv_formats.c:399-426 | The limits per image type are: 1D is W×1×1; 2D is W×W×1; 3D is W×W×W with one layer. The only sample count is 1 sample, and the resource size is 2^32 − 1. |
| Formats.MipChainCoversWidth | src/vulkan/anv_formats.c:399-426 | The MIP count reaches exactly the maximum width: 2^(mips − 1) = width. |
| Formats.ImageFormatProperties | src/vulkan/anv_formats.c:368-506 | The query returns the all-zero record exactly when the usage checks refuse, and the type's limits otherwise. |
| Formats.ImageQueryIgnoresAtomicGuard | src/vulkan/anv_formats.c:368-506 | The image-format query gives the same answer when computed over the as-written features. It returns zeros exactly when the usage checks refuse those features, because no check reads an atomic bit. |
| Formats.RefusedByChecks | src/vulkan/anv_formats.c:428-468 | A query is refused exactly when one of six checks fails: transfer-src or sampled without sampling, transfer-dst on stencil, storage without storage, or an attachment usage without its feature. |
| Formats.FewerUsagesStillGranted | src/vulkan/anv_formats.c:428-468 | Dropping usages never turns a granted query into a refusal. |
| Formats.UncheckedUsagesGranted | src/vulkan/anv_formats.c:470-478 | Transient and input attachment usages are never refused. |
| Formats.DepthSamplingNeedsGen8 | src/vulkan/anv_formats.c:290-298 | Sampling D32_SFLOAT optimally is refused exactly before gen 8. |
| Formats.StencilNotTransferDst | src/vulkan/anv_formats.c:435-444 | S8 as a transfer destination is always refused. |
| SurfaceState.Minus1 | src/vulkan/gen7_state.c:288-290 | Packed extents are the value minus 1, wrapping at 0. |
| SurfaceState.SurfTypeOf | src/vulkan/gen7_state.c:35-58 | A view has a surface type exactly when the image has the type the view needs; never a buffer. |
| SurfaceState.SurfTypeKeepsDims | src/vulkan/gen7_state.c:35-58 | The surface type has the image's dimensionality. It is a cube surface exactly for non-storage cube views. |
| SurfaceState.StorageOnlyFlattensCubes | src/vulkan/gen7_state.c:46-51 | Storage views are identical except that cubes become 2D. |
| SurfaceState.BufferSurface | src/vulkan/gen7_state.c:60-89 | Width, height and depth fit their 7-, 14- and 6-bit fields. The pitch is stride − 1, the surface is linear, and the base is the offset. |
| SurfaceState.BufferFieldsHoldCount | src/vulkan/gen7_state.c:65-78 | The fields recombine to the element count mod 2^27, so exactly to the count below 2^27. |
| SurfaceState.GenSwizzleAgrees | src/vulkan/gen7_state.c:211-227 | The hardware channel select returns what the component mapping asks for. |
| SurfaceState.IdentityMappingReadsTexel | src/vulkan/gen7_state.c:220-227 | The identity mapping reads each channel from itself. |
| SurfaceState.ViewDepth | src/vulkan/gen7_state.c:259-264 | The view depth is the layer count if above 1, else the image depth if above 1, else 1. |
| SurfaceState.LastLevel | src/vulkan/gen7_state.c:331-332 | The MIP count field is max(levels, 1) − 1. |
| SurfaceState.ImageViewInit | src/vulkan/gen7_state.c:229-376 | Views exist exactly when the image type matches. Each surface state is present exactly when the image's usage needs it. |
| SurfaceState.ViewLevels | src/vulkan/gen7_state.c:331-372 | Sampling and storage states start at the base level and count max(levels, 1) − 1 levels. The render-target state puts the base level in the MIP count and 0 in the minimum LOD. |
| SurfaceState.ViewsShareFields | src/vulkan/gen7_state.c:322-376 | The render-target state differs from the sampling state only in the LOD fields. The storage state differs only in surface type and its lowered format. |
| SurfaceState.TilingFields | src/vulkan/gen7_state.c:279-281 | A surface is tiled exactly when not linear. It walks Y-major exactly for Y tiling. |
| SurfaceState.ExtentFields | src/vulkan/gen7_state.c:288-290 | Width and height fields are the extent minus 1. The depth field is the view depth minus 1. |
| SurfaceState.ChannelsFollowMapping | src/vulkan/gen7_state.c:303-311 | Only Haswell writes channel selects; each channel follows the component mapping. |
| SurfaceState.CreateSampler | src/vulkan/gen7_state.c:132-199 | Anisotropy above 1 forces both filters anisotropic; otherwise neither is. |
| SurfaceState.SamplerTablesInjective | src/vulkan/gen7_state.c:91-119 | The sampler fields determine the create info's mip mode, compare op, address modes, border colour, normalisation and anisotropy. Without anisotropy they also determine the filters. |
| SurfaceState.BorderColorsSpaced | src/vulkan/gen7_state.c:176-178 | Border colour `k` sits 16·k bytes past the border-colour table. |

## Left out

- **Phi resolution** (`vtn_handle_phi_*`, `vtn_get_phi_node_src`). It needs the control-flow graph that `vtn_build_cfg` builds, and that code is not part of this model.
- **Other instruction handlers.** `vtn_handle_image` (image loads, stores and atomics), the matrix ALU and `vtn_matrix_multiply`, function calls, barriers, the CFG walk and `vtn_function_emit`, and the GLSL.std.450 extension handler are not part of this model.
- **Top-level opcode dispatch** (`vtn_handle_body_instruction`, `vtn_handle_preamble_instruction`, `vtn_handle_variable_or_type_instruction`). Only the per-family handlers are modelled. This includes the missing `break` at spirv_to_nir.c:3534-3543 that falls from the atomic cases into the ALU handler.
- **Floating-point semantics.** NIR's float ops are not evaluated. Excluded are the float comparisons' ordered/unordered distinction, FMod, FDiv, derivatives, IsNan/IsInf, and the sampler's LOD bias, minimum/maximum LOD and anisotropy ratio. ALU laws are proved for the integer and boolean opcodes; float opcodes are covered only by their translation.
- **Builder side effects.** Instruction insertion, cursors and `ralloc` ownership are not modelled. Emitted code is a pure term, and the value table is a map.
- **Hardware packing and allocation.** `*_pack`, `alloc_surface_state`, `anv_state_clflush`, and the `fprintf` validation path are not modelled. Neither is `CreateSampler`'s allocation-failure return of `VK_ERROR_OUT_OF_HOST_MEMORY` (gen7_state.c:144-147): SurfaceState.CreateSampler always yields a sampler. Surface and sampler states are records of field values before packing.
- **External driver helpers.** The ISL surface-format helpers and `anv_format_is_depth_or_stencil` are inputs: a capability record per format. The view's minified extent (`iview->extent`, gen7_state.c:253-257, computed with `anv_minify`) is not modelled. Surface alignment, base addresses, and the render-cache mode are not modelled.
- **The format table.** Only representative entries of `anv_formats[]` are modelled: UNDEFINED, R8_UINT, R8G8B8A8_UNORM, R32 UINT/SINT/SFLOAT, the depth, stencil and combined formats, BC1, R4G4_UNORM_PACK8 (an unsupported entry) and R8_UNORM.
- **Sparse image format properties** (anv_formats.c:508-520). The function reports no properties.
- **`unreachable` enum defaults.** Enumerations are closed datatypes, so out-of-range tilings, image types and view types cannot be written.
- **Dispatch on an unknown image type.** `vtn_type_block_size` reaches it only for samplers, images and void.
- **gallium's `svga_draw_elements.c`.** It is unrelated to the translator.
- Decorations.ExpandFlat: group expansion takes a `fuel` bound. The source recurses without a guard, and a cyclic group structure would not terminate there. The lemmas hold for any fuel.
- Variables.AccessChain: its contract states the external-block rule only. The per-index behaviour is stated by Variables.ChainAppends and Variables.BuiltinMemberJumps, for chains without and with built-in members. The base is always a dereference. A chain over a sampled image (spirv_to_nir.c:1736-1745 and 1860-1866) is not modelled. That chain would yield a sampled image that keeps the sampler. As written it cannot succeed: line 1752 reads the base again as a dereference and asserts that kind.
- VtnTypes.BuildComposite: a vector count outside 1..4 and a matrix shape GLSL lacks are refused. The source passes them unchecked to `glsl_vector_type` and `glsl_matrix_type`, which are not part of this model. The model treats the error type those helpers return as a refusal.
- Walker.SplitSections: it does not model the "Entry point not found" check (spirv_to_nir.c:3718-3722) or the execution-mode pass between the two walks. The entry point is recorded by the preamble handler, which is a parameter here. The execution-mode pass is ExecModes.HandleExecutionModes.
- Vectors.Construct: refuses when the sources do not spread to exactly the result's lane count. The source fills the vector's sources without a count check: too few sources leave some unset, and too many write past the four-entry array. The refusal stands for that undefined behaviour.
- SurfaceState.BufferSurface: requires a non-zero stride. The source divides the range by the stride (gen7_state.c:65), so a zero stride is a division by zero there. The Haswell-only channel selects of a buffer surface are not modelled.
- Derefs.ChildAt: refuses a struct member with no `Offset` decoration. The source keeps member offsets in an uninitialised array (spirv_to_nir.c:614) and reads whatever it holds (1319). The refusal stands for that read of an unset value.
- Alu.Translate: its contract states only the operand bound. The values it computes are stated by Alu.CorrectedAgrees, Alu.AsWrittenAgrees and the swap and reduction lemmas.

## Findings

| source | as written | input that shows it | evidently intended | confidence | as-written member | corrected member |
|---|---|---|---|---|---|---|
| src/glsl/nir/spirv/spirv_to_nir.c:2657 | `OpSMod` is translated to the unsigned `umod` | lanes −1 (0xFFFFFFFF) and 3: `umod` gives 0, SPIR-V SMod gives 2 | the signed, floored modulo `imod` | high, not executed | Alu.SModCounterexample | Alu.SModCorrected |
| src/glsl/nir/spirv/spirv_to_nir.c:2728-2742 | Fwidth adds the x-derivatives of `src[0]` and `src[1]`; the unary instruction has no `src[1]` | any `OpFwidth` with one operand: the second source is null | abs(ddx x) + abs(ddy x) of the one operand | high, not executed | Alu.FwidthAsWritten | Alu.FwidthCorrected |
| src/vulkan/anv_formats.c:334-335 | the atomic guard requires the surface format to equal both R32_UINT and R32_SINT | format R32_UINT: no atomic feature is reported | atomics for R32_UINT or R32_SINT | high, not executed | Formats.NoAtomicsAsWritten | Formats.AtomicsForR32 |

The rest of the model uses the corrected members:
- `HandleAluCorrected` is the ALU translation the lane laws are stated for.
- `FormatProperties` is the feature computation that `ImageFormatProperties` uses.

The image-format query is unaffected by the atomic guard, because none of its checks reads an atomic bit (Formats.ImageQueryIgnoresAtomicGuard). Other as-written behaviours are modelled without a corrected version, and their lemmas are named above:
- the `R16ui` format collision;
- the member index of `OpGroupMemberDecorate`;
- the shared `MatrixStride` write;
- the input PrimitiveId/Layer cache miss;
- the QuerySizeLod and DrefGather operand reads.

=== FILE: alu.dfy ===
/** The opcode map of `vtn_handle_alu`.

    Each SPIR-V conversion, arithmetic, relational, logical, bit or derivative
    instruction becomes one NIR ALU operation over the instruction's operands,
    with the first two operands exchanged for the greater-than and
    less-than-or-equal comparisons, which NIR only has the other way round.
    The translation is stated over the operands' component counts; the emitted
    operation is an `AluExpr` term whose integer meaning `EvalAlu` gives, and
    `SpvValue` gives the meaning the SPIR-V specification assigns to the
    instruction, so that the map can be checked opcode by opcode.
 */
module Alu {
  import opened Wrappers
  import opened Spv
  import Nir

  const U32: nat := Nir.U32

  /** Which derivative a `ddx`/`ddy` operation takes. */
  datatype Deriv = Plain | Fine | Coarse

  /** The NIR ALU operations the translator emits. */
  datatype NirOp =
    | Ineg | Fneg | Inot | Imov | Fmov | Fabs
    | Iadd | Fadd | Isub | Fsub | Imul | Fmul
    | Udiv | Idiv | Fdiv | Umod | Imod | Fmod
    | Ushr | Ishr | Ishl | Ior | Ixor | Iand
    | Ieq | Ine | Feq | Fne | Ult | Ilt | Flt | Uge | Ige | Fge
    | F2u | F2i | I2f | U2f
    | Fddx(dx: Deriv) | Fddy(dy: Deriv)
    | BanyInequal(n: nat) | BallIequal(n: nat) | Fdot(n: nat)
    | Bcsel

  /** An emitted term: operand `i` of the instruction, an immediate word,
      the float constant +infinity, or an operation over sub-terms. */
  datatype AluExpr = Src(i: nat) | Const(v: Word) | Infinity | Op(op: NirOp, args: seq<AluExpr>)

  /** How many sources an operation reads. */
  function Arity(op: NirOp): (k: nat)
    ensures 1 <= k <= 3
  {
    if op.Bcsel? then 3 else if IsUnary(op) then 1 else 2
  }

  predicate IsUnary(op: NirOp) {
    || op.Ineg? || op.Fneg? || op.Inot? || op.Imov? || op.Fmov? || op.Fabs?
    || op.F2u? || op.F2i? || op.I2f? || op.U2f? || op.Fddx? || op.Fddy?
  }

  /** The four-entry source array: operand `i` where the instruction has
      one, and the null pointer (`None`) after the last operand. */
  function Sources(n: nat): (src: seq<Option<AluExpr>>)
    requires n <= 4
    ensures |src| == 4
    ensures forall i :: 0 <= i < 4 ==> (src[i].Some? <==> i < n)
    ensures forall i :: 0 <= i < 4 && src[i].Some? ==> src[i].value == Src(i)
  {
    [ if 0 < n then Some(Src(0)) else None, if 1 < n then Some(Src(1)) else None,
      if 2 < n then Some(Src(2)) else None, if 3 < n then Some(Src(3)) else None ]
  }

  function Swapped(src: seq<Option<AluExpr>>): (s: seq<Option<AluExpr>>)
    requires |src| == 4
    ensures |s| == 4 && s[0] == src[1] && s[1] == src[0] && s[2] == src[2] && s[3] == src[3]
  {
    [src[1], src[0], src[2], src[3]]
  }

  /** `nir_build_alu`: the operation over the first `Arity(op)` sources,
      which must all be present (a null source is dereferenced). */
  function Build(op: NirOp, src: seq<Option<AluExpr>>): (r: Result<AluExpr>)
    requires |src| == 4
  {
    var k := Arity(op);
    if src[0].Some? && (k >= 2 ==> src[1].Some?) && (k >= 3 ==> src[2].Some?) then
      Ok(Op(op, if k == 1 then [src[0].value]
                else if k == 2 then [src[0].value, src[1].value]
                else [src[0].value, src[1].value, src[2].value]))
    else
      Abort("an operation reads a source the instruction does not have")
  }

  predicate IsFwidth(opcode: nat) {
    opcode == OpFwidth || opcode == OpFwidthFine || opcode == OpFwidthCoarse
  }

  function FwidthDeriv(opcode: nat): Deriv {
    if opcode == OpFwidthFine then Fine else if opcode == OpFwidthCoarse then Coarse else Plain
  }

  /** The plain part of the switch: opcode to (operation, swap).  `corrected`
      selects the signed modulo for `OpSMod` instead of the unsigned one. */
  function Table(opcode: nat, corrected: bool): (r: Option<(NirOp, bool)>)
    ensures r.Some? ==> !r.value.0.BanyInequal? && !r.value.0.BallIequal?
  {
    if opcode == OpSNegate then Some((Ineg, false))
    else if opcode == OpFNegate then Some((Fneg, false))
    else if opcode == OpNot then Some((Inot, false))
    else if opcode == OpIAdd then Some((Iadd, false))
    else if opcode == OpFAdd then Some((Fadd, false))
    else if opcode == OpISub then Some((Isub, false))
    else if opcode == OpFSub then Some((Fsub, false))
    else if opcode == OpIMul then Some((Imul, false))
    else if opcode == OpFMul then Some((Fmul, false))
    else if opcode == OpUDiv then Some((Udiv, false))
    else if opcode == OpSDiv then Some((Idiv, false))
    else if opcode == OpFDiv then Some((Fdiv, false))
    else if opcode == OpUMod then Some((Umod, false))
    else if opcode == OpSMod then Some((if corrected then Imod else Umod, false))
    else if opcode == OpFMod then Some((Fmod, false))
    else if opcode == OpShiftRightLogical then Some((Ushr, false))
    else if opcode == OpShiftRightArithmetic then Some((Ishr, false))
    else if opcode == OpShiftLeftLogical then Some((Ishl, false))
    else if opcode == OpLogicalOr then Some((Ior, false))
    else if opcode == OpLogicalEqual then Some((Ieq, false))
    else if opcode == OpLogicalNotEqual then Some((Ine, false))
    else if opcode == OpLogicalAnd then Some((Iand, false))
    else if opcode == OpLogicalNot then Some((Inot, false))
    else if opcode == OpBitwiseOr then Some((Ior, false))
    else if opcode == OpBitwiseXor then Some((Ixor, false))
    else if opcode == OpBitwiseAnd then Some((Iand, false))
    else if opcode == OpSelect then Some((Bcsel, false))
    else if opcode == OpIEqual then Some((Ieq, false))
    else if opcode == OpFOrdEqual || opcode == OpFUnordEqual then Some((Feq, false))
    else if opcode == OpINotEqual then Some((Ine, false))
    else if opcode == OpFOrdNotEqual || opcode == OpFUnordNotEqual then Some((Fne, false))
    else if opcode == OpULessThan then Some((Ult, false))
    else if opcode == OpSLessThan then Some((Ilt, false))
    else if opcode == OpFOrdLessThan || opcode == OpFUnordLessThan then Some((Flt, false))
    else if opcode == OpUGreaterThan then Some((Ult, true))
    else if opcode == OpSGreaterThan then Some((Ilt, true))
    else if opcode == OpFOrdGreaterThan || opcode == OpFUnordGreaterThan then Some((Flt, true))
    else if opcode == OpULessThanEqual then Some((Uge, true))
    else if opcode == OpSLessThanEqual then Some((Ige, true))
    else if opcode == OpFOrdLessThanEqual || opcode == OpFUnordLessThanEqual then Some((Fge, true))
    else if opcode == OpUGreaterThanEqual then Some((Uge, false))
    else if opcode == OpSGreaterThanEqual then Some((Ige, false))
    else if opcode == OpFOrdGreaterThanEqual || opcode == OpFUnordGreaterThanEqual then Some((Fge, false))
    else if opcode == OpConvertFToU then Some((F2u, false))
    else if opcode == OpConvertFToS then Some((F2i, false))
    else if opcode == OpConvertSToF then Some((I2f, false))
    else if opcode == OpConvertUToF then Some((U2f, false))
    else if opcode == OpBitcast || opcode == OpUConvert || opcode == OpSConvert then Some((Imov, false))
    else if opcode == OpFConvert then Some((Fmov, false))
    else if opcode == OpDPdx then Some((Fddx(Plain), false))
    else if opcode == OpDPdy then Some((Fddy(Plain), false))
    else if opcode == OpDPdxFine then Some((Fddx(Fine), false))
    else if opcode == OpDPdyFine then Some((Fddy(Fine), false))
    else if opcode == OpDPdxCoarse then Some((Fddx(Coarse), false))
    else if opcode == OpDPdyCoarse then Some((Fddy(Coarse), false))
    else None
  }

  /** Every source index a term reads lies below `n`. */
  predicate ReadsBelow(e: AluExpr, n: nat) {
    match e
    case Src(i) => i < n
    case Op(_, args) => forall j :: 0 <= j < |args| ==> ReadsBelow(args[j], n)
    case _ => true
  }

  /** `fadd(fabs(x), fabs(y))`. */
  function FwidthOf(x: AluExpr, y: AluExpr): AluExpr {
    Op(Fadd, [Op(Fabs, [x]), Op(Fabs, [y])])
  }

  /** The translation of one ALU instruction whose operands have the given
      component counts.  `corrected` switches the two findings of this model
      (signed modulo, and the second derivative of `fwidth`) to the intended
      behaviour; `HandleAlu` is the code as written. */
  function Translate(opcode: nat, widths: seq<nat>, corrected: bool): (r: Result<AluExpr>)
    ensures |widths| > 4 ==> r.Abort?
  {
    if !(|widths| <= 4) then Abort("more operands than the four-entry source array holds") else
    if IsSpecial(opcode) then Special(opcode, widths, corrected)
    else
      var src := Sources(|widths|);
      match Table(opcode, corrected)
      case None => Abort("no NIR equivalent")
      case Some(entry) => Build(entry.0, if entry.1 then Swapped(src) else src)
  }

  /** The opcodes the switch handles outside the plain table. */
  predicate IsSpecial(opcode: nat) {
    || opcode == OpAny || opcode == OpAll || opcode == OpDot
    || opcode == OpVectorTimesScalar || opcode == OpIsNan || opcode == OpIsInf
    || IsFwidth(opcode)
  }

  /** The cases that inspect operand widths or emit more than one operation. */
  function Special(opcode: nat, widths: seq<nat>, corrected: bool): (r: Result<AluExpr>)
    requires IsSpecial(opcode) && |widths| <= 4
  {
    if opcode == OpAny || opcode == OpAll then Reduction(opcode == OpAny, widths)
    else if opcode == OpDot then DotProduct(widths)
    else if IsFwidth(opcode) then Fwidth(FwidthDeriv(opcode), widths, corrected)
    else if opcode == OpVectorTimesScalar then Build(Fmul, Sources(|widths|))
    else if opcode == OpIsNan then
      :- Need(|widths| >= 1, "IsNan reads one operand");
      Ok(Op(Fne, [Src(0), Src(0)]))
    else
      :- Need(|widths| >= 1, "IsInf reads one operand");
      Ok(Op(Feq, [Op(Fabs, [Src(0)]), Infinity]))
  }

  /** `OpAny` (`any`) and `OpAll`: a move for one component, otherwise a
      comparison of every component against false (any) or true (all). */
  function Reduction(any: bool, widths: seq<nat>): (r: Result<AluExpr>)
    requires |widths| <= 4
  {
    if !(|widths| >= 1) then Abort("the reduction reads the width of a missing operand") else
    var n := widths[0];
    var src := Sources(|widths|);
    if n == 1 then Build(Imov, src)
    else if 2 <= n <= 4 then
      Build(if any then BanyInequal(n) else BallIequal(n),
            src[1 := Some(Const(if any then Nir.NirFalse else Nir.NirTrue))])
    else Abort("no reduction of this width")
  }

  /** `OpDot`: a multiply for one component, `fdotN` up to four. */
  function DotProduct(widths: seq<nat>): (r: Result<AluExpr>)
    requires |widths| <= 4
  {
    if !(|widths| >= 2) then Abort("Dot reads two operands") else
    :- Need(widths[0] == widths[1], "Dot operands differ in width");
    var n := widths[0];
    if n == 1 then Build(Fmul, Sources(|widths|))
    else if 2 <= n <= 4 then Build(Fdot(n), Sources(|widths|))
    else Abort("no dot product of this width")
  }

  /** `OpFwidth` and its fine and coarse forms. */
  function Fwidth(d: Deriv, widths: seq<nat>, corrected: bool): (r: Result<AluExpr>)
    requires |widths| <= 4
  {
    if corrected then
      :- Need(|widths| >= 1, "fwidth reads one operand");
      Ok(FwidthOf(Op(Fddx(d), [Src(0)]), Op(Fddy(d), [Src(0)])))
    else
      :- Need(|widths| >= 2, "the second derivative reads the null second source");
      Ok(FwidthOf(Op(Fddx(d), [Src(0)]), Op(Fddx(d), [Src(1)])))
  }

  /** `vtn_handle_alu` as written. */
  function HandleAlu(opcode: nat, widths: seq<nat>): (r: Result<AluExpr>)
    ensures r.Ok? ==> |widths| <= 4
  {
    Translate(opcode, widths, false)
  }

  /** `vtn_handle_alu` with `OpSMod` mapped to a signed modulo and `fwidth`
      built from both derivatives of its one operand. */
  function HandleAluCorrected(opcode: nat, widths: seq<nat>): (r: Result<AluExpr>)
    ensures r.Ok? ==> |widths| <= 4
  {
    Translate(opcode, widths, true)
  }

  // ---------------------------------------------------------------------
  // Integer meaning of emitted terms

  /** Operand values: one sequence of 32-bit components per operand. */
  predicate Words(vals: seq<seq<nat>>) {
    forall i, j :: 0 <= i < |vals| && 0 <= j < |vals[i]| ==> vals[i][j] < U32
  }

  function ToSigned(x: nat): (s: int)
    requires x < U32
    ensures -0x8000_0000 <= s < 0x8000_0000
  {
    if x < 0x8000_0000 then x else x - U32
  }

  /** The low 32 bits of an integer, as a word. */
  function FromSigned(s: int): (x: nat)
    ensures x < U32
  {
    s % U32
  }

  function Bool(b: bool): nat {
    if b then Nir.NirTrue else Nir.NirFalse
  }

  predicate IsBool(x: nat) {
    x == Nir.NirFalse || x == Nir.NirTrue
  }

  function Abs(x: int): (a: int)
    ensures a >= 0
  {
    if x < 0 then -x else x
  }

  /** C's `/` on signed integers: the quotient rounded toward zero. */
  function TruncDiv(x: int, y: int): int
    requires y != 0
  {
    var q := Abs(x) / Abs(y);
    if (x < 0) == (y < 0) then q else -q
  }

  /** C's `%`: what is left after the truncated quotient. */
  function TruncRem(x: int, y: int): int
    requires y != 0
  {
    x - Times(y, TruncDiv(x, y))
  }

  /** Signed multiplication, kept behind a name so that proofs about the
      division helpers stay linear. */
  function Times(a: int, b: int): int {
    a * b
  }

  /** NIR's signed modulo: C's remainder, moved into the divisor's sign. */
  function SignedMod(x: int, y: int): int
    requires y != 0
  {
    var r := TruncRem(x, y);
    if r != 0 && (r < 0) != (y < 0) then r + y else r
  }

  /** `x >> n` with the sign kept (a floored division by `2^n`). */
  function ShiftDown(x: int, n: nat): (r: int)
    ensures x >= 0 ==> r >= 0
    decreases n
  {
    if n == 0 then x else ShiftDown(x / 2, n - 1)
  }

  /** `x << n` before truncation to 32 bits. */
  function ShiftUp(x: nat, n: nat): nat
    decreases n
  {
    if n == 0 then x else ShiftUp(2 * x, n - 1)
  }

  /** The unbounded product, quotient and remainder of two words. */
  function Product(a: nat, b: nat): nat {
    a * b
  }

  function Quotient(a: nat, b: nat): nat
    requires b != 0
  {
    a / b
  }

  function Remainder(a: nat, b: nat): (r: nat)
    requires b != 0
    ensures r < b
  {
    a % b
  }

  /** The two-input bit operations. */
  datatype BitFn = OrBits | AndBits | XorBits

  function ApplyBit(f: BitFn, x: bool, y: bool): bool {
    match f
    case OrBits => x || y
    case AndBits => x && y
    case XorBits => x != y
  }

  /** `f` applied to each bit of the pair of operands. */
  function Bitwise(f: BitFn, a: nat, b: nat): nat
    decreases a + b
  {
    if a == 0 && b == 0 then 0
    else
      (if ApplyBit(f, a % 2 == 1, b % 2 == 1) then 1 else 0)
      + 2 * Bitwise(f, a / 2, b / 2)
  }

  /** The width of a NIR integer component. */
  const WordBits: nat := 32

  function BitOr(a: nat, b: nat): (r: nat)
    requires a < U32 && b < U32
  {
    Bitwise(OrBits, a, b)
  }

  function BitAnd(a: nat, b: nat): (r: nat)
    requires a < U32 && b < U32
  {
    Bitwise(AndBits, a, b)
  }

  function BitXor(a: nat, b: nat): (r: nat)
    requires a < U32 && b < U32
  {
    Bitwise(XorBits, a, b)
  }

  /** Complementing every one of 32 bits. */
  function BitNot(a: nat): (r: nat)
    requires a < U32
  {
    U32 - 1 - a
  }

  /** One component of a per-component NIR integer operation; `None` for
      float operations and for inputs NIR leaves undefined. */
  function NirLane(op: NirOp, a: nat, b: nat, c: nat): (r: Option<int>)
    requires a < U32 && b < U32 && c < U32
  {
    match op
    case Ineg => Some(FromSigned(-(a as int)))
    case Inot => Some(BitNot(a))
    case Imov => Some(a)
    case Iadd => Some(FromSigned(a + b))
    case Isub => Some(FromSigned(a - b))
    case Imul => Some(FromSigned(Product(a, b)))
    case Udiv => if b == 0 then None else Some(Quotient(a, b))
    case Idiv => if b == 0 then None else Some(FromSigned(TruncDiv(ToSigned(a), ToSigned(b))))
    case Umod => if b == 0 then None else Some(Remainder(a, b))
    case Imod => if b == 0 then None else Some(FromSigned(SignedMod(ToSigned(a), ToSigned(b))))
    case Ushr => if b < 32 then Some(ShiftDown(a, b)) else None
    case Ishr => if b < 32 then Some(FromSigned(ShiftDown(ToSigned(a), b))) else None
    case Ishl => if b < 32 then Some(FromSigned(ShiftUp(a, b))) else None
    case Ior => Some(BitOr(a, b))
    case Ixor => Some(BitXor(a, b))
    case Iand => Some(BitAnd(a, b))
    case Ieq => Some(Bool(a == b))
    case Ine => Some(Bool(a != b))
    case Ult => Some(Bool(a < b))
    case Ilt => Some(Bool(ToSigned(a) < ToSigned(b)))
    case Uge => Some(Bool(a >= b))
    case Ige => Some(Bool(ToSigned(a) >= ToSigned(b)))
    case Bcsel => Some(if a != 0 then b else c)
    case _ => None
  }

  /** Component `k` of an operand or immediate; a narrower operand repeats
      its last component, as the builder's swizzle padding does. */
  function Leaf(e: AluExpr, vals: seq<seq<nat>>, k: nat): (r: Option<nat>)
    requires Words(vals)
    ensures r.Some? ==> r.value < U32
  {
    match e
    case Src(i) => if i < |vals| && |vals[i]| > 0 then Some(vals[i][Nir.Pick(|vals[i]|, k)]) else None
    case Const(v) => Some(v)
    case _ => None
  }

  /** Component `k` of an emitted integer operation whose sources are
      operands or immediates.  The `bany`/`ball` reductions compare the
      first `n` components of their two sources and give one boolean. */
  function EvalAlu(e: AluExpr, vals: seq<seq<nat>>, k: nat): (r: Option<int>)
    requires Words(vals)
  {
    match e
    case Op(op, args) =>
      if |args| != Arity(op) then None
      else if op.BanyInequal? || op.BallIequal? then
        if forall j :: 0 <= j < op.n ==> Leaf(args[0], vals, j).Some? && Leaf(args[1], vals, j).Some? then
          if op.BanyInequal? then
            Some(Bool(exists j :: 0 <= j < op.n && Leaf(args[0], vals, j).value != Leaf(args[1], vals, j).value))
          else
            Some(Bool(forall j :: 0 <= j < op.n ==> Leaf(args[0], vals, j).value == Leaf(args[1], vals, j).value))
        else None
      else
        var a := Leaf(args[0], vals, k);
        var b := if |args| > 1 then Leaf(args[1], vals, k) else Some(0);
        var c := if |args| > 2 then Leaf(args[2], vals, k) else Some(0);
        if a.Some? && b.Some? && c.Some? then NirLane(op, a.value, b.value, c.value) else None
    case _ => Leaf(e, vals, k)
  }

  // ---------------------------------------------------------------------
  // What the SPIR-V specification says the integer instructions compute

  /** The floored modulo of `OpSMod`: the sign of a non-zero result is the
      sign of the divisor. */
  function FlooredMod(x: int, y: int): (m: int)
    requires y != 0
    ensures y > 0 ==> 0 <= m < y
    ensures y < 0 ==> y < m <= 0
  {
    var r := x % y;
    if y < 0 && r != 0 then r + y else r
  }

  /** The integer instructions of this model, in four groups. */
  predicate IsArithmetic(opcode: nat) {
    || opcode == OpSNegate || opcode == OpIAdd || opcode == OpISub || opcode == OpIMul
    || opcode == OpUDiv || opcode == OpSDiv || opcode == OpUMod || opcode == OpSMod
  }

  predicate IsBitwise(opcode: nat) {
    || opcode == OpShiftRightLogical || opcode == OpShiftRightArithmetic || opcode == OpShiftLeftLogical
    || opcode == OpBitwiseOr || opcode == OpBitwiseXor || opcode == OpBitwiseAnd || opcode == OpNot
  }

  predicate IsLogical(opcode: nat) {
    || opcode == OpLogicalOr || opcode == OpLogicalAnd || opcode == OpLogicalNot
    || opcode == OpLogicalEqual || opcode == OpLogicalNotEqual || opcode == OpSelect
    || opcode == OpBitcast || opcode == OpUConvert || opcode == OpSConvert
  }

  predicate IsIntCompare(opcode: nat) {
    || opcode == OpIEqual || opcode == OpINotEqual
    || opcode == OpULessThan || opcode == OpSLessThan || opcode == OpUGreaterThan || opcode == OpSGreaterThan
    || opcode == OpULessThanEqual || opcode == OpSLessThanEqual
    || opcode == OpUGreaterThanEqual || opcode == OpSGreaterThanEqual
  }

  /** How many operands each integer instruction takes (0: not an integer
      instruction of this model). */
  function SpvArity(opcode: nat): (k: nat)
    ensures k <= 3
  {
    if || opcode == OpSNegate || opcode == OpNot || opcode == OpLogicalNot
       || opcode == OpBitcast || opcode == OpUConvert || opcode == OpSConvert then 1
    else if opcode == OpSelect then 3
    else if IsArithmetic(opcode) || IsBitwise(opcode) || IsLogical(opcode) || IsIntCompare(opcode) then 2
    else 0
  }

  /** One component of a component-wise integer instruction, over the
      operands' components `a`, `b`, `c`; `None` where SPIR-V leaves the
      result undefined or the operands are not of the required kind.
      OpUConvert and OpSConvert are moves here only because every integer
      of this model is 32 bits wide, so no width changes. */
  function SpvLane(opcode: nat, a: nat, b: nat, c: nat): (r: Option<int>)
    requires a < U32 && b < U32 && c < U32
  {
    if opcode == OpSNegate then Some(FromSigned(-ToSigned(a)))
    else if opcode == OpIAdd then Some(FromSigned(a + b))
    else if opcode == OpISub then Some(FromSigned(a - b))
    else if opcode == OpIMul then Some(FromSigned(Product(a, b)))
    else if opcode == OpUDiv then (if b == 0 then None else Some(Quotient(a, b)))
    else if opcode == OpSDiv then (if b == 0 then None else Some(FromSigned(TruncDiv(ToSigned(a), ToSigned(b)))))
    else if opcode == OpUMod then (if b == 0 then None else Some(Remainder(a, b)))
    else if opcode == OpSMod then (if b == 0 then None else Some(FromSigned(FlooredMod(ToSigned(a), ToSigned(b)))))
    else if opcode == OpShiftRightLogical then (if b < 32 then Some(ShiftDown(a, b)) else None)
    else if opcode == OpShiftRightArithmetic then (if b < 32 then Some(FromSigned(ShiftDown(ToSigned(a), b))) else None)
    else if opcode == OpShiftLeftLogical then (if b < 32 then Some(FromSigned(ShiftUp(a, b))) else None)
    else if opcode == OpBitwiseOr then Some(BitOr(a, b))
    else if opcode == OpBitwiseXor then Some(BitXor(a, b))
    else if opcode == OpBitwiseAnd then Some(BitAnd(a, b))
    else if opcode == OpNot then Some(BitNot(a))
    else if opcode == OpLogicalOr then (if IsBool(a) && IsBool(b) then Some(Bool(a == Nir.NirTrue || b == Nir.NirTrue)) else None)
    else if opcode == OpLogicalAnd then (if IsBool(a) && IsBool(b) then Some(Bool(a == Nir.NirTrue && b == Nir.NirTrue)) else None)
    else if opcode == OpLogicalNot then (if IsBool(a) then Some(Bool(a != Nir.NirTrue)) else None)
    else if opcode == OpLogicalEqual then (if IsBool(a) && IsBool(b) then Some(Bool(a == b)) else None)
    else if opcode == OpLogicalNotEqual then (if IsBool(a) && IsBool(b) then Some(Bool(a != b)) else None)
    else if opcode == OpSelect then (if IsBool(a) then Some(if a == Nir.NirTrue then b else c) else None)
    else if opcode == OpIEqual then Some(Bool(a == b))
    else if opcode == OpINotEqual then Some(Bool(a != b))
    else if opcode == OpULessThan then Some(Bool(a < b))
    else if opcode == OpSLessThan then Some(Bool(ToSigned(a) < ToSigned(b)))
    else if opcode == OpUGreaterThan then Some(Bool(a > b))
    else if opcode == OpSGreaterThan then Some(Bool(ToSigned(a) > ToSigned(b)))
    else if opcode == OpULessThanEqual then Some(Bool(a <= b))
    else if opcode == OpSLessThanEqual then Some(Bool(ToSigned(a) <= ToSigned(b)))
    else if opcode == OpUGreaterThanEqual then Some(Bool(a >= b))
    else if opcode == OpSGreaterThanEqual then Some(Bool(ToSigned(a) >= ToSigned(b)))
    else if opcode == OpBitcast || opcode == OpUConvert || opcode == OpSConvert then Some(a)
    else None
  }

  /** All operands have `n` components. */
  predicate SameWidth(vals: seq<seq<nat>>, n: nat) {
    forall i :: 0 <= i < |vals| ==> |vals[i]| == n
  }

  function Widths(vals: seq<seq<nat>>): (ws: seq<nat>)
    ensures |ws| == |vals|
    ensures forall i :: 0 <= i < |vals| ==> ws[i] == |vals[i]|
  {
    seq(|vals|, i requires 0 <= i < |vals| => |vals[i]|)
  }

  /** Component `k` of the value SPIR-V gives the integer instruction
      `opcode` over operands `vals` of equal width. */
  function SpvValue(opcode: nat, vals: seq<seq<nat>>, k: nat): (r: Option<int>)
    requires Words(vals)
  {
    if opcode == OpAny || opcode == OpAll then
      if |vals| != 1 || !(forall j :: 0 <= j < |vals[0]| ==> IsBool(vals[0][j])) then None
      else if opcode == OpAny then Some(Bool(exists j :: 0 <= j < |vals[0]| && vals[0][j] == Nir.NirTrue))
      else Some(Bool(forall j :: 0 <= j < |vals[0]| ==> vals[0][j] == Nir.NirTrue))
    else if SpvArity(opcode) == 0 || |vals| != SpvArity(opcode) || !(forall i :: 0 <= i < |vals| ==> k < |vals[i]|) then None
    else
      SpvLane(opcode, vals[0][k], if |vals| > 1 then vals[1][k] else 0, if |vals| > 2 then vals[2][k] else 0)
  }

  // ---------------------------------------------------------------------
  // Properties of the map

  /** A built operation reads only the sources it was given. */
  lemma BuildReads(op: NirOp, src: seq<Option<AluExpr>>, n: nat)
    requires |src| == 4
    requires forall i :: 0 <= i < 4 && src[i].Some? ==> ReadsBelow(src[i].value, n)
    ensures Build(op, src).Ok? ==> ReadsBelow(Build(op, src).value, n)
  {
    var r := Build(op, src);
    if r.Ok? {
      var args := r.value.args;
      forall j | 0 <= j < |args|
        ensures ReadsBelow(args[j], n)
      {
        assert args[j] == src[j].value;
      }
    }
  }

  /** The source array holds the instruction's operands and nothing else. */
  lemma SourcesRead(n: nat)
    requires n <= 4
    ensures forall i :: 0 <= i < 4 && Sources(n)[i].Some? ==> ReadsBelow(Sources(n)[i].value, n)
    ensures forall i :: 0 <= i < 4 && Swapped(Sources(n))[i].Some? ==> ReadsBelow(Swapped(Sources(n))[i].value, n)
  {
  }

  lemma SpecialReads(opcode: nat, widths: seq<nat>, corrected: bool)
    requires IsSpecial(opcode) && |widths| <= 4
    ensures Special(opcode, widths, corrected).Ok? ==> ReadsBelow(Special(opcode, widths, corrected).value, |widths|)
  {
    var n := |widths|;
    if opcode == OpAny || opcode == OpAll {
      ReductionReads(opcode == OpAny, widths);
    } else if opcode == OpDot {
      DotProductReads(widths);
    } else if IsFwidth(opcode) {
      FwidthReads(FwidthDeriv(opcode), widths, corrected);
    } else if opcode == OpVectorTimesScalar {
      SourcesRead(n);
      BuildReads(Fmul, Sources(n), n);
    } else if opcode == OpIsInf {
      assert ReadsBelow(Op(Fabs, [Src(0)]), n) ==> ReadsBelow(Op(Feq, [Op(Fabs, [Src(0)]), Infinity]), n);
    }
  }

  lemma ReductionReads(any: bool, widths: seq<nat>)
    requires |widths| <= 4
    ensures Reduction(any, widths).Ok? ==> ReadsBelow(Reduction(any, widths).value, |widths|)
  {
    if Reduction(any, widths).Ok? {
      ReductionShape(any, widths);
      ReductionTermReads(any, widths[0], |widths|);
    }
  }

  /** A reduction term reads only its one operand. */
  lemma ReductionTermReads(any: bool, n: nat, m: nat)
    requires m >= 1
    ensures ReadsBelow(ReductionTerm(any, n), m)
  {
    if n != 1 {
      var args := [Src(0), Const(if any then Nir.NirFalse else Nir.NirTrue)];
      assert ReadsBelow(args[0], m) && ReadsBelow(args[1], m);
    }
  }

  /** A reduction that translates is `ReductionTerm` of its operand's width. */
  lemma ReductionShape(any: bool, widths: seq<nat>)
    requires |widths| <= 4
    ensures Reduction(any, widths).Ok? <==> |widths| >= 1 && 1 <= widths[0] <= 4
    ensures Reduction(any, widths).Ok? ==> Reduction(any, widths).value == ReductionTerm(any, widths[0])
  {
    if |widths| >= 1 {
      if 1 <= widths[0] <= 4 {
        ReductionOk(any, widths);
      } else {
        ReductionTooWide(any, widths);
      }
    }
  }

  lemma ReductionOk(any: bool, widths: seq<nat>)
    requires 1 <= |widths| <= 4 && 1 <= widths[0] <= 4
    ensures Reduction(any, widths) == Ok(ReductionTerm(any, widths[0]))
  {
    if widths[0] == 1 {
      ReductionScalar(any, widths);
    } else {
      ReductionVector(any, widths);
    }
  }

  lemma ReductionScalar(any: bool, widths: seq<nat>)
    requires 1 <= |widths| <= 4 && widths[0] == 1
    ensures Reduction(any, widths) == Ok(Op(Imov, [Src(0)]))
  {
    var src := Sources(|widths|);
    assert src[0] == Some(Src(0));
    BuildPair(Imov, src);
  }

  lemma ReductionVector(any: bool, widths: seq<nat>)
    requires 1 <= |widths| <= 4 && 2 <= widths[0] <= 4
    ensures var n := widths[0];
            var c := Const(if any then Nir.NirFalse else Nir.NirTrue);
            Reduction(any, widths) == Ok(Op(if any then BanyInequal(n) else BallIequal(n), [Src(0), c]))
  {
    var n := widths[0];
    var op := if any then BanyInequal(n) else BallIequal(n);
    var given := Sources(|widths|)[1 := Some(Const(if any then Nir.NirFalse else Nir.NirTrue))];
    assert Reduction(any, widths) == Build(op, given);
    assert given[0] == Some(Src(0));
    BuildPair(op, given);
  }

  lemma ReductionTooWide(any: bool, widths: seq<nat>)
    requires 1 <= |widths| <= 4 && !(1 <= widths[0] <= 4)
    ensures Reduction(any, widths).Abort?
  {
  }

  /** `Build` with the first two sources present. */
  lemma BuildPair(op: NirOp, src: seq<Option<AluExpr>>)
    requires |src| == 4 && src[0].Some? && (Arity(op) >= 2 ==> src[1].Some?) && Arity(op) <= 2
    ensures Build(op, src) == Ok(Op(op, if Arity(op) == 1 then [src[0].value] else [src[0].value, src[1].value]))
  {
  }

  lemma DotProductReads(widths: seq<nat>)
    requires |widths| <= 4
    ensures DotProduct(widths).Ok? ==> ReadsBelow(DotProduct(widths).value, |widths|)
  {
    if DotProduct(widths).Ok? {
      DotProductShape(widths);
    }
  }

  /** A dot product that translates multiplies or dots its two operands. */
  lemma DotProductShape(widths: seq<nat>)
    requires |widths| <= 4
    ensures DotProduct(widths).Ok? ==>
              && 2 <= |widths| && widths[0] == widths[1] && 1 <= widths[0] <= 4
              && DotProduct(widths).value == Op(if widths[0] == 1 then Fmul else Fdot(widths[0]), [Src(0), Src(1)])
  {
    if |widths| >= 2 {
      var src := Sources(|widths|);
      assert src[0] == Some(Src(0)) && src[1] == Some(Src(1));
    }
  }

  lemma FwidthReads(d: Deriv, widths: seq<nat>, corrected: bool)
    requires |widths| <= 4
    ensures Fwidth(d, widths, corrected).Ok? ==> ReadsBelow(Fwidth(d, widths, corrected).value, |widths|)
  {
    var n := |widths|;
    if corrected && n >= 1 {
      FwidthOfReads(Op(Fddx(d), [Src(0)]), Op(Fddy(d), [Src(0)]), n);
    } else if !corrected && n >= 2 {
      FwidthOfReads(Op(Fddx(d), [Src(0)]), Op(Fddx(d), [Src(1)]), n);
    }
  }

  lemma FwidthOfReads(x: AluExpr, y: AluExpr, n: nat)
    requires ReadsBelow(x, n) && ReadsBelow(y, n)
    ensures ReadsBelow(FwidthOf(x, y), n)
  {
    assert ReadsBelow(Op(Fabs, [x]), n) && ReadsBelow(Op(Fabs, [y]), n);
  }

  /** Every translation reads only operands the instruction has. */
  lemma TranslationReadsOperands(opcode: nat, widths: seq<nat>, corrected: bool)
    ensures Translate(opcode, widths, corrected).Ok? ==>
              ReadsBelow(Translate(opcode, widths, corrected).value, |widths|)
  {
    if |widths| <= 4 {
      if IsSpecial(opcode) {
        SpecialReads(opcode, widths, corrected);
      } else if Table(opcode, corrected).Some? {
        var (op, swap) := Table(opcode, corrected).value;
        var src := Sources(|widths|);
        SourcesRead(|widths|);
        BuildReads(op, if swap then Swapped(src) else src, |widths|);
      }
    }
  }

  /** The comparison that computes `opcode` once its operands are exchanged. */
  function Mirror(opcode: nat): nat {
    if opcode == OpUGreaterThan then OpULessThan
    else if opcode == OpSGreaterThan then OpSLessThan
    else if opcode == OpFOrdGreaterThan then OpFOrdLessThan
    else if opcode == OpFUnordGreaterThan then OpFUnordLessThan
    else if opcode == OpULessThanEqual then OpUGreaterThanEqual
    else if opcode == OpSLessThanEqual then OpSGreaterThanEqual
    else if opcode == OpFOrdLessThanEqual then OpFOrdGreaterThanEqual
    else if opcode == OpFUnordLessThanEqual then OpFUnordGreaterThanEqual
    else opcode
  }

  /** The sources a table entry reads: the first `k` operands, with the
      first two exchanged when `swap` is set. */
  function Args(k: nat, swap: bool): (args: seq<AluExpr>)
    requires k <= 3
    ensures |args| == k
    ensures forall i :: 0 <= i < k ==> args[i] == Src(if swap && i < 2 then 1 - i else i)
  {
    var first := if swap then [Src(1), Src(0)] else [Src(0), Src(1)];
    if k == 0 then [] else if k == 1 then [first[0]] else if k == 2 then first else first + [Src(2)]
  }

  /** A table opcode whose operation has all its sources translates to that
      operation over `Args`. */
  lemma TableTranslation(opcode: nat, widths: seq<nat>, corrected: bool, op: NirOp, swap: bool)
    requires !IsSpecial(opcode) && |widths| <= 4 && Table(opcode, corrected) == Some((op, swap))
    requires Arity(op) <= |widths| && (swap ==> Arity(op) == 2)
    ensures Translate(opcode, widths, corrected) == Ok(Op(op, Args(Arity(op), swap)))
  {
    BuildArgs(op, swap, |widths|);
  }

  lemma BuildArgs(op: NirOp, swap: bool, n: nat)
    requires Arity(op) <= n <= 4 && (swap ==> Arity(op) == 2)
    ensures Build(op, if swap then Swapped(Sources(n)) else Sources(n)) == Ok(Op(op, Args(Arity(op), swap)))
  {
    var given := if swap then Swapped(Sources(n)) else Sources(n);
    assert Arity(op) <= 3;
    forall i | 0 <= i < Arity(op)
      ensures given[i] == Some(Src(if swap && i < 2 then 1 - i else i))
    {
    }
    var r := Build(op, given);
    assert r.value.args == Args(Arity(op), swap);
  }

  /** The greater-than and less-than-or-equal comparisons. */
  predicate Swaps(opcode: nat) {
    || opcode == OpUGreaterThan || opcode == OpSGreaterThan
    || opcode == OpFOrdGreaterThan || opcode == OpFUnordGreaterThan
    || opcode == OpULessThanEqual || opcode == OpSLessThanEqual
    || opcode == OpFOrdLessThanEqual || opcode == OpFUnordLessThanEqual
  }

  /** Exactly the greater-than and less-than-or-equal comparisons have the
      swap flag set. */
  lemma SwapOnlyForMirroredComparisons(opcode: nat, corrected: bool)
    ensures (Table(opcode, corrected).Some? && Table(opcode, corrected).value.1) <==> Swaps(opcode)
  {
  }

  /** A swapped comparison computes its mirror over exchanged operands:
      `a > b` as `b < a` and `a <= b` as `b >= a`. */
  lemma SwapIsMirror(opcode: nat, corrected: bool, n: nat, m: nat)
    requires Swaps(opcode)
    ensures Mirror(opcode) != opcode && Table(opcode, corrected).Some?
    ensures var op := Table(opcode, corrected).value.0;
            && Translate(opcode, [n, m], corrected) == Ok(Op(op, [Src(1), Src(0)]))
            && Translate(Mirror(opcode), [n, m], corrected) == Ok(Op(op, [Src(0), Src(1)]))
  {
    if opcode == OpUGreaterThan || opcode == OpSGreaterThan
       || opcode == OpFOrdGreaterThan || opcode == OpFUnordGreaterThan {
      SwapGreaterThan(opcode, corrected, n, m);
    } else {
      SwapLessThanEqual(opcode, corrected, n, m);
    }
  }

  /** The greater-than half of `SwapIsMirror`: each is its less-than with the
      operands exchanged. */
  lemma SwapGreaterThan(opcode: nat, corrected: bool, n: nat, m: nat)
    requires opcode == OpUGreaterThan || opcode == OpSGreaterThan
             || opcode == OpFOrdGreaterThan || opcode == OpFUnordGreaterThan
    ensures Mirror(opcode) != opcode && Table(opcode, corrected).Some?
    ensures var op := Table(opcode, corrected).value.0;
            && Translate(opcode, [n, m], corrected) == Ok(Op(op, [Src(1), Src(0)]))
            && Translate(Mirror(opcode), [n, m], corrected) == Ok(Op(op, [Src(0), Src(1)]))
  {
    if opcode == OpUGreaterThan { SwapCase(opcode, Ult, corrected, n, m); }
    else if opcode == OpSGreaterThan { SwapCase(opcode, Ilt, corrected, n, m); }
    else { SwapCase(opcode, Flt, corrected, n, m); }
  }

  /** The less-than-or-equal half of `SwapIsMirror`: each is its
      greater-than-or-equal with the operands exchanged. */
  lemma SwapLessThanEqual(opcode: nat, corrected: bool, n: nat, m: nat)
    requires opcode == OpULessThanEqual || opcode == OpSLessThanEqual
             || opcode == OpFOrdLessThanEqual || opcode == OpFUnordLessThanEqual
    ensures Mirror(opcode) != opcode && Table(opcode, corrected).Some?
    ensures var op := Table(opcode, corrected).value.0;
            && Translate(opcode, [n, m], corrected) == Ok(Op(op, [Src(1), Src(0)]))
            && Translate(Mirror(opcode), [n, m], corrected) == Ok(Op(op, [Src(0), Src(1)]))
  {
    if opcode == OpULessThanEqual { SwapCase(opcode, Uge, corrected, n, m); }
    else if opcode == OpSLessThanEqual { SwapCase(opcode, Ige, corrected, n, m); }
    else { SwapCase(opcode, Fge, corrected, n, m); }
  }

  lemma SwapCase(opcode: nat, op: NirOp, corrected: bool, n: nat, m: nat)
    requires Mirror(opcode) != opcode && Arity(op) == 2
    requires !IsSpecial(opcode) && !IsSpecial(Mirror(opcode))
    requires Table(opcode, corrected) == Some((op, true))
    requires Table(Mirror(opcode), corrected) == Some((op, false))
    ensures Translate(opcode, [n, m], corrected) == Ok(Op(op, [Src(1), Src(0)]))
    ensures Translate(Mirror(opcode), [n, m], corrected) == Ok(Op(op, [Src(0), Src(1)]))
  {
    TableTranslation(opcode, [n, m], corrected, op, true);
    TableTranslation(Mirror(opcode), [n, m], corrected, op, false);
    assert Args(2, true) == [Src(1), Src(0)];
    assert Args(2, false) == [Src(0), Src(1)];
  }

  /** The float comparisons `OpFOrdEqual` .. `OpFUnordGreaterThanEqual`
      come in ordered/unordered pairs; each pair is one NIR comparison, with
      the operands exchanged for greater-than and less-than-or-equal. */
  function FloatCompare(opcode: nat): (entry: (NirOp, bool))
    requires OpFOrdEqual <= opcode <= OpFUnordGreaterThanEqual
  {
    if opcode <= OpFUnordEqual then (Feq, false)
    else if opcode <= OpFUnordNotEqual then (Fne, false)
    else if opcode <= OpFUnordLessThan then (Flt, false)
    else if opcode <= OpFUnordGreaterThan then (Flt, true)
    else if opcode <= OpFUnordLessThanEqual then (Fge, true)
    else (Fge, false)
  }

  /** The table agrees with `FloatCompare` on every float comparison. */
  lemma FloatCompareEntry(opcode: nat, corrected: bool)
    requires OpFOrdEqual <= opcode <= OpFUnordGreaterThanEqual
    ensures !IsSpecial(opcode) && Table(opcode, corrected) == Some(FloatCompare(opcode))
  {
    if opcode < OpFOrdLessThan {
      FloatCompareLow(opcode, corrected);
    } else {
      FloatCompareHigh(opcode, corrected);
    }
  }

  lemma FloatCompareLow(opcode: nat, corrected: bool)
    requires OpFOrdEqual <= opcode < OpFOrdLessThan
    ensures Table(opcode, corrected) == Some(FloatCompare(opcode))
  {
  }

  lemma FloatCompareHigh(opcode: nat, corrected: bool)
    requires OpFOrdLessThan <= opcode <= OpFUnordGreaterThanEqual
    ensures Table(opcode, corrected) == Some(FloatCompare(opcode))
  {
  }

  /** Every float comparison translates to its `FloatCompare` operation. */
  lemma FloatCompareTranslation(opcode: nat, widths: seq<nat>)
    requires OpFOrdEqual <= opcode <= OpFUnordGreaterThanEqual
    requires 2 <= |widths| <= 4
    ensures HandleAlu(opcode, widths) == Ok(Op(FloatCompare(opcode).0, Args(2, FloatCompare(opcode).1)))
  {
    FloatCompareEntry(opcode, false);
    TableTranslation(opcode, widths, false, FloatCompare(opcode).0, FloatCompare(opcode).1);
  }

  /** The ordered and unordered float comparisons translate alike: the
      distinction is not made. */
  lemma OrderedLikeUnordered(opcode: nat, widths: seq<nat>)
    requires OpFOrdEqual <= opcode < OpFUnordGreaterThanEqual && opcode % 2 == 0
    requires 2 <= |widths| <= 4
    ensures HandleAlu(opcode, widths).Ok?
    ensures HandleAlu(opcode, widths) == HandleAlu(opcode + 1, widths)
  {
    FloatComparePair(opcode);
    FloatCompareTranslation(opcode, widths);
    FloatCompareTranslation(opcode + 1, widths);
  }

  /** An ordered comparison and the unordered one after it share an entry. */
  lemma FloatComparePair(opcode: nat)
    requires OpFOrdEqual <= opcode < OpFUnordGreaterThanEqual && opcode % 2 == 0
    ensures FloatCompare(opcode) == FloatCompare(opcode + 1)
  {
  }

  /** The instructions without a NIR counterpart stop translation. */
  lemma UnhandledOpcodesAbort(opcode: nat, widths: seq<nat>, corrected: bool)
    requires || opcode == OpSRem || opcode == OpFRem || opcode == OpIsFinite || opcode == OpIsNormal
             || opcode == OpSignBitSet || opcode == OpLessOrGreater || opcode == OpOrdered || opcode == OpUnordered
    ensures Translate(opcode, widths, corrected).Abort?
  {
    assert !IsSpecial(opcode) && Table(opcode, corrected).None?;
    NoEntryAborts(opcode, widths, corrected);
  }

  lemma NoEntryAborts(opcode: nat, widths: seq<nat>, corrected: bool)
    requires !IsSpecial(opcode) && Table(opcode, corrected).None?
    ensures Translate(opcode, widths, corrected).Abort?
  {
  }

  /** The two translations differ only where the findings apply. */
  lemma SameOutsideFindings(opcode: nat, widths: seq<nat>)
    requires opcode != OpSMod && !IsFwidth(opcode)
    ensures HandleAlu(opcode, widths) == HandleAluCorrected(opcode, widths)
  {
  }

  // ---------------------------------------------------------------------
  // The integer instructions compute what SPIR-V specifies

  /** C's remainder is smaller in magnitude than the divisor. */
  lemma TruncRemBound(x: int, y: int)
    requires y != 0
    ensures -Abs(y) < TruncRem(x, y) < Abs(y)
  {
    TruncRemMagnitude(x, y);
  }

  /** C's remainder is the remainder of the magnitudes, with the dividend's
      sign. */
  lemma TruncRemMagnitude(x: int, y: int)
    requires y != 0
    ensures TruncRem(x, y) == if x < 0 then -(Abs(x) % Abs(y)) else Abs(x) % Abs(y)
  {
    var q0 := Abs(x) / Abs(y);
    MagnitudeSplit(Abs(x), Abs(y));
    SignedProduct(y, q0);
  }

  /** Euclid's division of magnitudes. */
  lemma MagnitudeSplit(a: nat, b: nat)
    requires b != 0
    ensures a == Product(b, a / b) + a % b
  {
  }

  /** The product of `y` with a quotient signed against it. */
  lemma SignedProduct(y: int, q: nat)
    ensures Times(y, q) == (if y < 0 then -(Product(Abs(y), q) as int) else Product(Abs(y), q))
    ensures Times(y, -(q as int)) == (if y < 0 then Product(Abs(y), q) else -(Product(Abs(y), q) as int))
  {
  }

  /** Two remainders of the same number closer together than the divisor
      are the same remainder. */
  lemma UniqueRemainder(y: int, a: int, b: int, m: int, n: int)
    requires y != 0 && y * a + m == y * b + n
    requires -Abs(y) < m - n < Abs(y)
    ensures m == n
  {
    var d := a - b;
    assert y * d == n - m by {
      assert y * d == y * a - y * b;
    }
    if d > 0 {
      assert Abs(y * d) >= Abs(y) by { MulAtLeast(y, d); }
    } else if d < 0 {
      assert y * d == (-y) * (-d);
      assert Abs(y * d) >= Abs(y) by { MulAtLeast(-y, -d); }
    }
  }

  lemma MulAtLeast(y: int, d: int)
    requires d >= 1
    ensures Abs(y * d) >= Abs(y)
  {
    if y >= 0 {
      assert y * d == y + y * (d - 1);
      assert y * (d - 1) >= 0;
    } else {
      assert (-y) * d == (-y) + (-y) * (d - 1);
      assert (-y) * (d - 1) >= 0;
      assert y * d == -((-y) * d);
    }
  }

  /** NIR's signed modulo leaves a remainder of the divisor's sign. */
  lemma SignedModRemainder(x: int, y: int)
    requires y != 0
    ensures var q := if SignedMod(x, y) == TruncRem(x, y) then TruncDiv(x, y) else TruncDiv(x, y) - 1;
            x == y * q + SignedMod(x, y)
    ensures y > 0 ==> 0 <= SignedMod(x, y) < y
    ensures y < 0 ==> y < SignedMod(x, y) <= 0
  {
    TruncRemBound(x, y);
    var q := TruncDiv(x, y);
    if SignedMod(x, y) != TruncRem(x, y) {
      assert y * (q - 1) == y * q - y;
    }
  }

  /** The floored modulo is a remainder of `x` by `y`. */
  lemma FlooredModRemainder(x: int, y: int)
    requires y != 0
    ensures var q := if FlooredMod(x, y) == x % y then x / y else x / y - 1;
            x == y * q + FlooredMod(x, y)
  {
    if FlooredMod(x, y) != x % y {
      assert y * (x / y - 1) == y * (x / y) - y;
    }
  }

  /** NIR's signed modulo is the floored modulo of `OpSMod`. */
  lemma SignedModIsFloored(x: int, y: int)
    requires y != 0
    ensures SignedMod(x, y) == FlooredMod(x, y)
  {
    SignedModRemainder(x, y);
    FlooredModRemainder(x, y);
    var s := SignedMod(x, y);
    var f := FlooredMod(x, y);
    var qs := if s == TruncRem(x, y) then TruncDiv(x, y) else TruncDiv(x, y) - 1;
    var qf := if f == x % y then x / y else x / y - 1;
    UniqueRemainder(y, qs, qf, s, f);
  }

  /** The operation the corrected table gives an integer instruction, with
      its sources in the order the swap flag gives, computes the
      instruction's component as SPIR-V specifies. */
  predicate LaneMatches(opcode: nat, a: nat, b: nat, c: nat)
    requires a < U32 && b < U32 && c < U32
  {
    && !IsSpecial(opcode)
    && Table(opcode, true).Some?
    && var (op, swap) := Table(opcode, true).value;
    && Arity(op) == SpvArity(opcode)
    && (swap ==> Arity(op) == 2)
    && (if swap then NirLane(op, b, a, c) else NirLane(op, a, b, c)) == SpvLane(opcode, a, b, c)
  }

  lemma ArithmeticLanes(opcode: nat, a: nat, b: nat, c: nat)
    requires IsArithmetic(opcode) && a < U32 && b < U32 && c < U32
    requires SpvLane(opcode, a, b, c).Some?
    ensures LaneMatches(opcode, a, b, c)
  {
    if opcode == OpSNegate || opcode == OpIAdd || opcode == OpISub || opcode == OpIMul {
      RingLanes(opcode, a, b, c);
    } else if opcode == OpSMod {
      assert Table(OpSMod, true) == Some((Imod, false));
      SignedModIsFloored(ToSigned(a), ToSigned(b));
      EntryLane(OpSMod, Imod, a, b, c);
    } else {
      DivisionLanes(opcode, a, b, c);
    }
  }

  /** Negation, addition, subtraction and multiplication wrap alike in both
      languages. */
  lemma RingLanes(opcode: nat, a: nat, b: nat, c: nat)
    requires opcode == OpSNegate || opcode == OpIAdd || opcode == OpISub || opcode == OpIMul
    requires a < U32 && b < U32 && c < U32
    ensures LaneMatches(opcode, a, b, c)
  {
  }

  lemma DivisionLanes(opcode: nat, a: nat, b: nat, c: nat)
    requires opcode == OpUDiv || opcode == OpSDiv || opcode == OpUMod
    requires a < U32 && b < U32 && c < U32
    ensures LaneMatches(opcode, a, b, c)
  {
  }

  lemma BitwiseLanes(opcode: nat, a: nat, b: nat, c: nat)
    requires IsBitwise(opcode) && a < U32 && b < U32 && c < U32
    requires SpvLane(opcode, a, b, c).Some?
    ensures LaneMatches(opcode, a, b, c)
  {
    if opcode == OpShiftRightLogical || opcode == OpShiftRightArithmetic || opcode == OpShiftLeftLogical {
      ShiftLanes(opcode, a, b, c);
    } else {
      BitOpLanes(opcode, a, b, c);
    }
  }

  lemma BitOpLanes(opcode: nat, a: nat, b: nat, c: nat)
    requires (opcode == OpBitwiseOr || opcode == OpBitwiseXor || opcode == OpBitwiseAnd || opcode == OpNot)
    requires a < U32 && b < U32 && c < U32
    ensures LaneMatches(opcode, a, b, c)
  {
    if opcode == OpBitwiseOr {
      assert Table(OpBitwiseOr, true) == Some((Ior, false));
    } else if opcode == OpBitwiseXor {
      assert Table(OpBitwiseXor, true) == Some((Ixor, false));
    } else if opcode == OpBitwiseAnd {
      assert Table(OpBitwiseAnd, true) == Some((Iand, false));
    } else {
      assert Table(OpNot, true) == Some((Inot, false));
    }
  }

  /** NIR's shifts leave a count of 32 or more undefined, as SPIR-V does. */
  lemma ShiftLanes(opcode: nat, a: nat, b: nat, c: nat)
    requires (opcode == OpShiftRightLogical || opcode == OpShiftRightArithmetic || opcode == OpShiftLeftLogical)
    requires a < U32 && b < U32 && c < U32
    ensures LaneMatches(opcode, a, b, c)
  {
    if opcode == OpShiftRightLogical {
      assert Table(OpShiftRightLogical, true) == Some((Ushr, false));
    } else if opcode == OpShiftRightArithmetic {
      assert Table(OpShiftRightArithmetic, true) == Some((Ishr, false));
    } else {
      assert Table(OpShiftLeftLogical, true) == Some((Ishl, false));
    }
  }

  /** All `w` low bits set. */
  function Ones(w: nat): nat {
    Nir.Pow2(w) - 1
  }

  /** On operands whose low `w` bits are all equal, each bit operation
      gives all zeros or all ones. */
  lemma {:induction false} UniformBits(f: BitFn, x: bool, y: bool, w: nat)
    ensures Bitwise(f, if x then Ones(w) else 0, if y then Ones(w) else 0)
              == (if ApplyBit(f, x, y) then Ones(w) else 0)
  {
    if w > 0 {
      UniformBits(f, x, y, w - 1);
      assert Ones(w) == 2 * Ones(w - 1) + 1;
      assert Ones(w) % 2 == 1 && Ones(w) / 2 == Ones(w - 1);
    }
  }

  lemma {:induction false} Pow2Sum(a: nat, b: nat)
    ensures Nir.Pow2(a + b) == Nir.Pow2(a) * Nir.Pow2(b)
  {
    if a > 0 {
      Pow2Sum(a - 1, b);
    }
  }

  lemma WordOnes()
    ensures Ones(WordBits) == Nir.NirTrue
  {
    assert Nir.Pow2(4) == 16;
    Pow2Sum(4, 4);
    assert Nir.Pow2(8) == 256;
    Pow2Sum(8, 8);
    assert Nir.Pow2(16) == 0x1_0000;
    Pow2Sum(16, 16);
  }

  /** On NIR booleans the bitwise operations are the logical ones. */
  lemma BooleanBits(a: nat, b: nat)
    requires IsBool(a) && IsBool(b)
    ensures BitOr(a, b) == Bool(a == Nir.NirTrue || b == Nir.NirTrue)
    ensures BitAnd(a, b) == Bool(a == Nir.NirTrue && b == Nir.NirTrue)
  {
    WordOnes();
    UniformBits(OrBits, a == Nir.NirTrue, b == Nir.NirTrue, WordBits);
    UniformBits(AndBits, a == Nir.NirTrue, b == Nir.NirTrue, WordBits);
  }

  lemma LogicalLanes(opcode: nat, a: nat, b: nat, c: nat)
    requires IsLogical(opcode) && a < U32 && b < U32 && c < U32
    requires SpvLane(opcode, a, b, c).Some?
    ensures LaneMatches(opcode, a, b, c)
  {
    if opcode == OpLogicalOr || opcode == OpLogicalAnd {
      assert IsBool(a) && IsBool(b);
      LogicalOrAndLanes(opcode, a, b, c);
    } else if opcode == OpLogicalNot {
      assert IsBool(a);
      LogicalNotLane(a, b, c);
    } else {
      LogicalRestLanes(opcode, a, b, c);
    }
  }

  lemma LogicalRestLanes(opcode: nat, a: nat, b: nat, c: nat)
    requires IsLogical(opcode) && a < U32 && b < U32 && c < U32
    requires opcode != OpLogicalOr && opcode != OpLogicalAnd && opcode != OpLogicalNot
    requires opcode == OpLogicalEqual || opcode == OpLogicalNotEqual || opcode == OpSelect ==> IsBool(a)
    requires opcode == OpLogicalEqual || opcode == OpLogicalNotEqual ==> IsBool(b)
    ensures LaneMatches(opcode, a, b, c)
  {
    if opcode == OpLogicalEqual || opcode == OpLogicalNotEqual || opcode == OpSelect {
      BooleanCompareLanes(opcode, a, b, c);
    } else {
      ConversionLanes(opcode, a, b, c);
    }
  }

  lemma BooleanCompareLanes(opcode: nat, a: nat, b: nat, c: nat)
    requires opcode == OpLogicalEqual || opcode == OpLogicalNotEqual || opcode == OpSelect
    requires IsBool(a) && b < U32 && c < U32
    requires opcode != OpSelect ==> IsBool(b)
    ensures LaneMatches(opcode, a, b, c)
  {
    if opcode == OpLogicalEqual {
      assert Table(OpLogicalEqual, true) == Some((Ieq, false));
      EntryLane(OpLogicalEqual, Ieq, a, b, c);
    } else if opcode == OpLogicalNotEqual {
      assert Table(OpLogicalNotEqual, true) == Some((Ine, false));
      EntryLane(OpLogicalNotEqual, Ine, a, b, c);
    } else {
      assert Table(OpSelect, true) == Some((Bcsel, false));
      EntryLane(OpSelect, Bcsel, a, b, c);
    }
  }

  /** The conversions between integers of one width (every integer of this
      model is 32 bits wide) are moves. */
  lemma ConversionLanes(opcode: nat, a: nat, b: nat, c: nat)
    requires opcode == OpBitcast || opcode == OpUConvert || opcode == OpSConvert
    requires a < U32 && b < U32 && c < U32
    ensures LaneMatches(opcode, a, b, c)
  {
    if opcode == OpBitcast {
      assert Table(OpBitcast, true) == Some((Imov, false));
      EntryLane(OpBitcast, Imov, a, b, c);
    } else if opcode == OpUConvert {
      assert Table(OpUConvert, true) == Some((Imov, false));
      EntryLane(OpUConvert, Imov, a, b, c);
    } else {
      assert Table(OpSConvert, true) == Some((Imov, false));
      EntryLane(OpSConvert, Imov, a, b, c);
    }
  }

  lemma LogicalOrAndLanes(opcode: nat, a: nat, b: nat, c: nat)
    requires (opcode == OpLogicalOr || opcode == OpLogicalAnd) && c < U32
    requires IsBool(a) && IsBool(b)
    ensures LaneMatches(opcode, a, b, c)
  {
    if opcode == OpLogicalOr {
      LogicalOrValue(a, b, c);
      TableEntry(OpLogicalOr, Ior);
      EntryLane(OpLogicalOr, Ior, a, b, c);
    } else {
      LogicalAndValue(a, b, c);
      TableEntry(OpLogicalAnd, Iand);
      EntryLane(OpLogicalAnd, Iand, a, b, c);
    }
  }

  /** `ior` on NIR booleans is `OpLogicalOr`. */
  lemma LogicalOrValue(a: nat, b: nat, c: nat)
    requires IsBool(a) && IsBool(b) && c < U32
    ensures NirLane(Ior, a, b, c) == SpvLane(OpLogicalOr, a, b, c)
  {
    BooleanBits(a, b);
  }

  /** `iand` on NIR booleans is `OpLogicalAnd`. */
  lemma LogicalAndValue(a: nat, b: nat, c: nat)
    requires IsBool(a) && IsBool(b) && c < U32
    ensures NirLane(Iand, a, b, c) == SpvLane(OpLogicalAnd, a, b, c)
  {
    BooleanBits(a, b);
  }

  /** The corrected table's unswapped entries for the logical instructions. */
  lemma TableEntry(opcode: nat, op: NirOp)
    requires (opcode == OpLogicalOr && op == Ior) || (opcode == OpLogicalAnd && op == Iand)
    ensures !IsSpecial(opcode) && Table(opcode, true) == Some((op, false)) && Arity(op) == SpvArity(opcode)
  {
  }

  /** An unswapped table entry whose operation computes the instruction's
      component. */
  lemma EntryLane(opcode: nat, op: NirOp, a: nat, b: nat, c: nat)
    requires a < U32 && b < U32 && c < U32
    requires !IsSpecial(opcode) && Table(opcode, true) == Some((op, false)) && Arity(op) == SpvArity(opcode)
    requires NirLane(op, a, b, c) == SpvLane(opcode, a, b, c)
    ensures LaneMatches(opcode, a, b, c)
  {
  }

  lemma LogicalNotLane(a: nat, b: nat, c: nat)
    requires IsBool(a) && b < U32 && c < U32
    ensures LaneMatches(OpLogicalNot, a, b, c)
  {
    assert Table(OpLogicalNot, true) == Some((Inot, false));
  }

  lemma CompareLanes(opcode: nat, a: nat, b: nat, c: nat)
    requires IsIntCompare(opcode) && a < U32 && b < U32 && c < U32
    requires SpvLane(opcode, a, b, c).Some?
    ensures LaneMatches(opcode, a, b, c)
  {
    if opcode == OpULessThan || opcode == OpUGreaterThan
       || opcode == OpULessThanEqual || opcode == OpUGreaterThanEqual {
      UnsignedCompareLanes(opcode, a, b, c);
    } else if opcode == OpSLessThan || opcode == OpSGreaterThan
       || opcode == OpSLessThanEqual || opcode == OpSGreaterThanEqual {
      SignedCompareLanes(opcode, a, b, c);
    }
  }

  lemma UnsignedCompareLanes(opcode: nat, a: nat, b: nat, c: nat)
    requires opcode == OpULessThan || opcode == OpUGreaterThan
             || opcode == OpULessThanEqual || opcode == OpUGreaterThanEqual
    requires a < U32 && b < U32 && c < U32
    ensures LaneMatches(opcode, a, b, c)
  {
  }

  lemma SignedCompareLanes(opcode: nat, a: nat, b: nat, c: nat)
    requires opcode == OpSLessThan || opcode == OpSGreaterThan
             || opcode == OpSLessThanEqual || opcode == OpSGreaterThanEqual
    requires a < U32 && b < U32 && c < U32
    ensures LaneMatches(opcode, a, b, c)
  {
  }

  /** What the translated operation evaluates to over equal-width operands:
      its lane function over the operands' components, in table order. */
  lemma EvalTableOp(op: NirOp, swap: bool, vals: seq<seq<nat>>, n: nat, k: nat)
    requires Words(vals) && SameWidth(vals, n) && k < n
    requires Arity(op) <= |vals| && (swap ==> Arity(op) == 2)
    requires !op.BanyInequal? && !op.BallIequal?
    ensures var x := vals[0][k];
            var y := if Arity(op) > 1 then vals[1][k] else 0;
            var z := if Arity(op) > 2 then vals[2][k] else 0;
            EvalAlu(Op(op, Args(Arity(op), swap)), vals, k) ==
              (if swap then NirLane(op, y, x, z) else NirLane(op, x, y, z))
  {
    var args := Args(Arity(op), swap);
    assert Leaf(args[0], vals, k) == Some(vals[if swap then 1 else 0][k]);
    if Arity(op) > 1 {
      assert Leaf(args[1], vals, k) == Some(vals[if swap then 0 else 1][k]);
    }
    if Arity(op) > 2 {
      assert Leaf(args[2], vals, k) == Some(vals[2][k]);
    }
  }

  /** The term `OpAny` (`any`) or `OpAll` becomes for an `n`-wide operand. */
  function ReductionTerm(any: bool, n: nat): AluExpr {
    if n == 1 then Op(Imov, [Src(0)])
    else Op(if any then BanyInequal(n) else BallIequal(n), [Src(0), Const(if any then Nir.NirFalse else Nir.NirTrue)])
  }

  lemma ReductionTranslation(opcode: nat, n: nat, corrected: bool)
    requires opcode == OpAny || opcode == OpAll
    requires 1 <= n <= 4
    ensures Translate(opcode, [n], corrected) == Ok(ReductionTerm(opcode == OpAny, n))
  {
    ReductionShape(opcode == OpAny, [n]);
  }

  /** `any` and `all` over a vector of NIR booleans. */
  lemma ReductionValue(opcode: nat, vals: seq<seq<nat>>, n: nat, k: nat)
    requires opcode == OpAny || opcode == OpAll
    requires Words(vals) && SameWidth(vals, n) && 1 <= n <= 4 && k < n
    requires SpvValue(opcode, vals, k).Some?
    ensures EvalAlu(ReductionTerm(opcode == OpAny, n), vals, k) == SpvValue(opcode, vals, k)
  {
    assert |vals| == 1 && |vals[0]| == n;
    assert forall j :: 0 <= j < n ==> IsBool(vals[0][j]);
    if n == 1 {
      assert k == 0 && Leaf(Src(0), vals, 0) == Some(vals[0][0]);
    } else if opcode == OpAny {
      AnyValue(vals, n, k);
    } else {
      AllValue(vals, n, k);
    }
  }

  lemma AnyValue(vals: seq<seq<nat>>, n: nat, k: nat)
    requires Words(vals) && |vals| == 1 && |vals[0]| == n && 2 <= n <= 4
    requires forall j :: 0 <= j < n ==> IsBool(vals[0][j])
    ensures EvalAlu(ReductionTerm(true, n), vals, k) == Some(Bool(exists j :: 0 <= j < n && vals[0][j] == Nir.NirTrue))
  {
    var e := ReductionTerm(true, n);
    var a := e.args;
    assert e.op == BanyInequal(n) && a == [Src(0), Const(Nir.NirFalse)];
    forall j | 0 <= j < n
      ensures Leaf(a[0], vals, j) == Some(vals[0][j]) && Leaf(a[1], vals, j) == Some(Nir.NirFalse)
    {
    }
    var lhs := exists j :: 0 <= j < n && Leaf(a[0], vals, j).value != Leaf(a[1], vals, j).value;
    var rhs := exists j :: 0 <= j < n && vals[0][j] == Nir.NirTrue;
    if lhs {
      var j :| 0 <= j < n && Leaf(a[0], vals, j).value != Leaf(a[1], vals, j).value;
      assert vals[0][j] == Nir.NirTrue;
    }
    if rhs {
      var j :| 0 <= j < n && vals[0][j] == Nir.NirTrue;
      assert Leaf(a[0], vals, j).value != Leaf(a[1], vals, j).value;
    }
    assert EvalAlu(e, vals, k) == Some(Bool(lhs));
  }

  lemma AllValue(vals: seq<seq<nat>>, n: nat, k: nat)
    requires Words(vals) && |vals| == 1 && |vals[0]| == n && 2 <= n <= 4
    requires forall j :: 0 <= j < n ==> IsBool(vals[0][j])
    ensures EvalAlu(ReductionTerm(false, n), vals, k) == Some(Bool(forall j :: 0 <= j < n ==> vals[0][j] == Nir.NirTrue))
  {
    var e := ReductionTerm(false, n);
    var a := e.args;
    assert e.op == BallIequal(n) && a == [Src(0), Const(Nir.NirTrue)];
    forall j | 0 <= j < n
      ensures Leaf(a[0], vals, j) == Some(vals[0][j]) && Leaf(a[1], vals, j) == Some(Nir.NirTrue)
    {
    }
    var lhs := forall j :: 0 <= j < n ==> Leaf(a[0], vals, j).value == Leaf(a[1], vals, j).value;
    var rhs := forall j :: 0 <= j < n ==> vals[0][j] == Nir.NirTrue;
    assert lhs == rhs;
    assert EvalAlu(e, vals, k) == Some(Bool(lhs));
  }

  /** The corrected map: every integer instruction of this model, over
      operands of equal width up to four components, translates, and the
      translation computes the value SPIR-V specifies wherever SPIR-V
      defines one. */
  lemma CorrectedAgrees(opcode: nat, vals: seq<seq<nat>>, n: nat, k: nat)
    requires Words(vals) && SameWidth(vals, n) && 1 <= n <= 4 && k < n
    requires SpvValue(opcode, vals, k).Some?
    ensures HandleAluCorrected(opcode, Widths(vals)).Ok?
    ensures EvalAlu(HandleAluCorrected(opcode, Widths(vals)).value, vals, k) == SpvValue(opcode, vals, k)
  {
    if opcode == OpAny || opcode == OpAll {
      assert Widths(vals) == [n];
      ReductionTranslation(opcode, n, true);
      ReductionValue(opcode, vals, n, k);
    } else {
      ComponentwiseAgrees(opcode, vals, n, k);
    }
  }

  lemma ComponentwiseAgrees(opcode: nat, vals: seq<seq<nat>>, n: nat, k: nat)
    requires opcode != OpAny && opcode != OpAll
    requires Words(vals) && SameWidth(vals, n) && 1 <= n <= 4 && k < n
    requires SpvValue(opcode, vals, k).Some?
    ensures HandleAluCorrected(opcode, Widths(vals)).Ok?
    ensures EvalAlu(HandleAluCorrected(opcode, Widths(vals)).value, vals, k) == SpvValue(opcode, vals, k)
  {
    assert |vals| == SpvArity(opcode) && |vals| <= 3;
    var x := vals[0][k];
    var y := if |vals| > 1 then vals[1][k] else 0;
    var z := if |vals| > 2 then vals[2][k] else 0;
    assert SpvValue(opcode, vals, k) == SpvLane(opcode, x, y, z);
    if IsArithmetic(opcode) { ArithmeticLanes(opcode, x, y, z); }
    else if IsBitwise(opcode) { BitwiseLanes(opcode, x, y, z); }
    else if IsLogical(opcode) { LogicalLanes(opcode, x, y, z); }
    else { CompareLanes(opcode, x, y, z); }
    assert LaneMatches(opcode, x, y, z);
    var op := Table(opcode, true).value.0;
    var swap := Table(opcode, true).value.1;
    assert Arity(op) == |vals| && (swap ==> Arity(op) == 2);
    TableTranslation(opcode, Widths(vals), true, op, swap);
    EvalTableOp(op, swap, vals, n, k);
  }

  /** The map as written agrees with SPIR-V everywhere except `OpSMod`. */
  lemma AsWrittenAgrees(opcode: nat, vals: seq<seq<nat>>, n: nat, k: nat)
    requires opcode != OpSMod
    requires Words(vals) && SameWidth(vals, n) && 1 <= n <= 4 && k < n
    requires SpvValue(opcode, vals, k).Some?
    ensures HandleAlu(opcode, Widths(vals)).Ok?
    ensures EvalAlu(HandleAlu(opcode, Widths(vals)).value, vals, k) == SpvValue(opcode, vals, k)
  {
    assert !IsFwidth(opcode);
    SameOutsideFindings(opcode, Widths(vals));
    CorrectedAgrees(opcode, vals, n, k);
  }

  /** `OpSMod` as written emits the unsigned `umod`. */
  lemma SModAsWritten(widths: seq<nat>)
    requires 2 <= |widths| <= 4
    ensures HandleAlu(OpSMod, widths) == Ok(Op(Umod, [Src(0), Src(1)]))
  {
    assert !IsSpecial(OpSMod) && Table(OpSMod, false) == Some((Umod, false));
    TableTranslation(OpSMod, widths, false, Umod, false);
    assert Args(2, false) == [Src(0), Src(1)];
  }

  /** Corrected, `OpSMod` emits the signed `imod`. */
  lemma SModCorrected(widths: seq<nat>)
    requires 2 <= |widths| <= 4
    ensures HandleAluCorrected(OpSMod, widths) == Ok(Op(Imod, [Src(0), Src(1)]))
  {
    assert !IsSpecial(OpSMod) && Table(OpSMod, true) == Some((Imod, false));
    TableTranslation(OpSMod, widths, true, Imod, false);
    assert Args(2, false) == [Src(0), Src(1)];
  }

  /** For -1 mod 3, `umod` gives 0 where SPIR-V's floored modulo and `imod`
      give 2. */
  lemma SModCounterexample()
    ensures EvalAlu(Op(Umod, [Src(0), Src(1)]), [[0xFFFF_FFFF], [3]], 0) == Some(0)
    ensures EvalAlu(Op(Imod, [Src(0), Src(1)]), [[0xFFFF_FFFF], [3]], 0) == Some(2)
    ensures SpvValue(OpSMod, [[0xFFFF_FFFF], [3]], 0) == Some(2)
  {
    var vals: seq<seq<nat>> := [[0xFFFF_FFFF], [3]];
    MinusOneModThree(vals);
    assert EvalAlu(Op(Umod, [Src(0), Src(1)]), vals, 0) == NirLane(Umod, 0xFFFF_FFFF, 3, 0);
    assert EvalAlu(Op(Imod, [Src(0), Src(1)]), vals, 0) == NirLane(Imod, 0xFFFF_FFFF, 3, 0);
    assert SpvValue(OpSMod, vals, 0) == SpvLane(OpSMod, 0xFFFF_FFFF, 3, 0);
  }

  /** The lanes of the counterexample: -1 and 3. */
  lemma MinusOneModThree(vals: seq<seq<nat>>)
    requires vals == [[0xFFFF_FFFF], [3]]
    ensures Words(vals)
    ensures Leaf(Src(0), vals, 0) == Some(0xFFFF_FFFF) && Leaf(Src(1), vals, 0) == Some(3)
    ensures NirLane(Umod, 0xFFFF_FFFF, 3, 0) == Some(0)
    ensures NirLane(Imod, 0xFFFF_FFFF, 3, 0) == Some(2)
    ensures SpvLane(OpSMod, 0xFFFF_FFFF, 3, 0) == Some(2)
  {
    assert ToSigned(0xFFFF_FFFF) == -1;
    assert FlooredMod(-1, 3) == 2;
    assert SignedMod(-1, 3) == 2;
  }

  /** The `fwidth` opcodes go to `Fwidth` with their derivative kind. */
  lemma FwidthDispatch(opcode: nat, widths: seq<nat>, corrected: bool)
    requires IsFwidth(opcode) && |widths| <= 4
    ensures Translate(opcode, widths, corrected) == Fwidth(FwidthDeriv(opcode), widths, corrected)
  {
  }

  /** `fwidth` as written takes its second derivative from a second source
      the one-operand instruction does not have: with one operand it fails,
      and with two it differentiates both in x. */
  lemma FwidthAsWritten(opcode: nat, widths: seq<nat>)
    requires IsFwidth(opcode)
    ensures |widths| < 2 ==> HandleAlu(opcode, widths).Abort?
    ensures 2 <= |widths| <= 4 ==>
              HandleAlu(opcode, widths) ==
              Ok(FwidthOf(Op(Fddx(FwidthDeriv(opcode)), [Src(0)]), Op(Fddx(FwidthDeriv(opcode)), [Src(1)])))
  {
    if |widths| <= 4 {
      FwidthDispatch(opcode, widths, false);
    }
  }

  /** The x derivative two opcodes before each `fwidth` opcode. */
  lemma DerivativeX(opcode: nat, n: nat)
    requires IsFwidth(opcode)
    ensures HandleAluCorrected(opcode - 2, [n]) == Ok(Op(Fddx(FwidthDeriv(opcode)), [Src(0)]))
  {
    var o := opcode - 2;
    var op := Fddx(FwidthDeriv(opcode));
    assert !IsSpecial(o) && Table(o, true) == Some((op, false));
    TableTranslation(o, [n], true, op, false);
  }

  /** The y derivative one opcode before each `fwidth` opcode. */
  lemma DerivativeY(opcode: nat, n: nat)
    requires IsFwidth(opcode)
    ensures HandleAluCorrected(opcode - 1, [n]) == Ok(Op(Fddy(FwidthDeriv(opcode)), [Src(0)]))
  {
    var o := opcode - 1;
    var op := Fddy(FwidthDeriv(opcode));
    assert !IsSpecial(o) && Table(o, true) == Some((op, false));
    TableTranslation(o, [n], true, op, false);
  }

  /** Corrected `fwidth` is the sum of the absolute values of the two
      derivative instructions two and one opcodes before it, applied to its
      one operand. */
  lemma FwidthCorrected(opcode: nat, n: nat)
    requires IsFwidth(opcode)
    ensures HandleAluCorrected(opcode - 2, [n]).Ok? && HandleAluCorrected(opcode - 1, [n]).Ok?
    ensures HandleAluCorrected(opcode, [n]) ==
              Ok(FwidthOf(HandleAluCorrected(opcode - 2, [n]).value, HandleAluCorrected(opcode - 1, [n]).value))
  {
    DerivativeX(opcode, n);
    DerivativeY(opcode, n);
    FwidthDispatch(opcode, [n], true);
  }
}

=== FILE: anv_formats.dfy ===
/** Format capabilities of the Vulkan driver: the hardware surface format an
    image aspect is read through, the format-feature sets a device offers
    for linear images, tiled images and buffers, and the limits an
    image-format query reports.

    Feature, usage and aspect flags are modelled as sets of enumerants
    rather than bit masks; OR of masks is union and a bit test is
    membership.  The hardware surface-format table and the ISL helpers the
    feature computation consults (`surface_formats[]`,
    `isl_format_is_compressed`, `isl_is_storage_image_format`,
    `anv_format_is_depth_or_stencil`) are not part of this model: their
    answers for a format arrive as a `Caps` record.
 */
module Formats {
  import opened Wrappers
  import Nir

  // ---------------------------------------------------------------------
  // Formats

  /** The hardware (ISL) surface formats the model names; every other one
      is `IslOther`. */
  datatype IslFormat =
    | IslUnsupported | IslRaw | IslR8Uint | IslR8Unorm | IslR16Unorm | IslR24UnormX8Typeless
    | IslR32Float | IslR32Sint | IslR32Uint | IslR8G8B8A8Unorm
    | IslOther(id: nat)

  /** `struct anv_format`: the surface format, the depth format (0 for
      none) and whether the format has a stencil aspect. */
  datatype Format = Format(surface: IslFormat, depthFormat: nat, hasStencil: bool)

  /** A representative part of the Vulkan format table. */
  datatype VkFormat =
    | Undefined | R4G4UnormPack8 | R8Unorm | R8Uint | R32Uint | R32Sint | R32Sfloat | R8G8B8A8Unorm
    | D16Unorm | X8D24UnormPack32 | D32Sfloat | S8Uint | D16UnormS8Uint | D24UnormS8Uint
    | D32SfloatS8Uint | Bc1RgbUnormBlock

  /** The hardware depth formats the table names (non-zero). */
  const D16UnormDepth: nat := 1
  const D24UnormX8UintDepth: nat := 2
  const D32FloatDepth: nat := 3

  /** `anv_format_for_vk_format`: the table entry of a Vulkan format. */
  function FormatOf(vk: VkFormat): (f: Format)
    ensures f.hasStencil <==> vk in {S8Uint, D16UnormS8Uint, D24UnormS8Uint, D32SfloatS8Uint}
    ensures f.depthFormat != 0 <==> vk in {D16Unorm, X8D24UnormPack32, D32Sfloat, D16UnormS8Uint, D24UnormS8Uint, D32SfloatS8Uint}
  {
    match vk
    case Undefined => Format(IslRaw, 0, false)
    case R4G4UnormPack8 => Format(IslUnsupported, 0, false)
    case R8Unorm => Format(IslR8Unorm, 0, false)
    case R8Uint => Format(IslR8Uint, 0, false)
    case R32Uint => Format(IslR32Uint, 0, false)
    case R32Sint => Format(IslR32Sint, 0, false)
    case R32Sfloat => Format(IslR32Float, 0, false)
    case R8G8B8A8Unorm => Format(IslR8G8B8A8Unorm, 0, false)
    case D16Unorm => Format(IslR16Unorm, D16UnormDepth, false)
    case X8D24UnormPack32 => Format(IslR24UnormX8Typeless, D24UnormX8UintDepth, false)
    case D32Sfloat => Format(IslR32Float, D32FloatDepth, false)
    case S8Uint => Format(IslR8Uint, 0, true)
    case D16UnormS8Uint => Format(IslR16Unorm, D16UnormDepth, true)
    case D24UnormS8Uint => Format(IslR24UnormX8Typeless, D24UnormX8UintDepth, true)
    case D32SfloatS8Uint => Format(IslR32Float, D32FloatDepth, true)
    case Bc1RgbUnormBlock => Format(IslUnsupported, 0, false)
  }

  /** The image aspects; exactly one is passed. */
  datatype Aspect = ColorAspect | DepthAspect | StencilAspect | MetadataAspect

  /** `anv_get_isl_format`: colour and depth are read through the surface
      format (depth only for a format with a depth format), stencil as
      8-bit unsigned integers (only for a format with stencil). */
  function IslFormatFor(f: Format, aspect: Aspect): (r: Result<IslFormat>)
    ensures r.Ok? <==> (|| aspect == ColorAspect
                        || (aspect == DepthAspect && f.depthFormat != 0)
                        || (aspect == StencilAspect && f.hasStencil))
    ensures r.Ok? && aspect != StencilAspect ==> r.value == f.surface
    ensures r.Ok? && aspect == StencilAspect ==> r.value == IslR8Uint
  {
    match aspect
    case ColorAspect => Ok(f.surface)
    case DepthAspect =>
      if f.depthFormat == 0 then Abort("no depth") else Ok(f.surface)
    case StencilAspect =>
      if !f.hasStencil then Abort("no stencil") else Ok(IslR8Uint)
    case MetadataAspect => Abort("bad aspect")
  }

  /** A combined depth/stencil format answers for each of its two aspects,
      and the two differ unless its surface format is itself `R8_UINT`. */
  lemma CombinedAspects(vk: VkFormat)
    requires vk in {D16UnormS8Uint, D24UnormS8Uint, D32SfloatS8Uint}
    ensures IslFormatFor(FormatOf(vk), DepthAspect) == Ok(FormatOf(vk).surface)
    ensures IslFormatFor(FormatOf(vk), StencilAspect) == Ok(IslR8Uint)
    ensures FormatOf(vk).surface != IslR8Uint
  {
  }

  /** A stencil-only format has no depth aspect, and a depth-only format
      no stencil aspect. */
  lemma SingleAspects()
    ensures IslFormatFor(FormatOf(S8Uint), DepthAspect).Abort?
    ensures IslFormatFor(FormatOf(S8Uint), StencilAspect) == Ok(IslR8Uint)
    ensures IslFormatFor(FormatOf(D32Sfloat), StencilAspect).Abort?
    ensures IslFormatFor(FormatOf(D32Sfloat), DepthAspect) == Ok(IslR32Float)
  {
  }

  // ---------------------------------------------------------------------
  // Format features

  /** The device: hardware generation and whether it is Haswell. */
  datatype Device = Device(gen: nat, haswell: bool)

  /** The generation scale the surface-format table uses: ten times the
      generation, plus five on Haswell (so Haswell is "7.5"). */
  function Level(d: Device): (n: nat)
    ensures n / 10 == d.gen && n % 10 == (if d.haswell then 5 else 0)
  {
    d.gen * 10 + (if d.haswell then 5 else 0)
  }

  /** The surface-format table's entry for a colour format: whether it
      is listed, and from which generation level it supports sampling,
      rendering, blending and vertex fetch. */
  datatype SurfaceInfo = SurfaceInfo(listed: bool, sampling: nat, renderTarget: nat, alphaBlend: nat, inputVb: nat)

  /** What the helpers outside this model say about a format: whether it is
      a depth or stencil format, its table entry, whether it is compressed
      and whether it can back a storage image. */
  datatype Caps = Caps(depthOrStencil: bool, info: SurfaceInfo, compressed: bool, storageImage: bool)

  datatype Feature =
    | SampledImage | StorageImage | StorageImageAtomic | UniformTexelBuffer | StorageTexelBuffer
    | StorageTexelBufferAtomic | VertexBuffer | ColorAttachment | ColorAttachmentBlend
    | DepthStencilAttachment | BlitSrc | BlitDst

  /** `VkFormatProperties`: the features of linear images, of optimally
      tiled images and of buffers. */
  datatype Props = Props(linear: set<Feature>, tiled: set<Feature>, buffer: set<Feature>)

  const NoFeatures := Props({}, {}, {})

  /** `anv_physical_device_get_format_properties`, with the atomic-feature
      guard's value passed in (see `AtomicGuardAsWritten` and
      `AtomicGuard`). */
  function FeaturesWith(d: Device, f: Format, c: Caps, atomic: bool): (r: Props)
  {
    if f.surface == IslUnsupported then NoFeatures
    else if c.depthOrStencil then DepthStencilFeatures(d, f)
    else if !c.info.listed then NoFeatures
    else ColorFeatures(Level(d), c, atomic)
  }

  /** Depth and stencil formats: only tiled images, always as an
      attachment, sampled and blitted from on gen8 and later, blitted to
      when the format has depth. */
  function DepthStencilFeatures(d: Device, f: Format): (r: Props)
    ensures r.linear == {} && r.buffer == {}
    ensures forall x :: x in r.tiled <==> (|| x == DepthStencilAttachment
                                           || (x in {SampledImage, BlitSrc} && d.gen >= 8)
                                           || (x == BlitDst && f.depthFormat != 0))
  {
    var t := {DepthStencilAttachment}
             + (if d.gen >= 8 then {SampledImage, BlitSrc} else {})
             + (if f.depthFormat != 0 then {BlitDst} else {});
    Props({}, t, {})
  }

  /** The features both linear and tiled colour images get. */
  function ImageFeatures(level: nat, c: Caps, atomic: bool): (s: set<Feature>)
  {
    (if c.info.sampling <= level then {SampledImage, BlitSrc} else {})
    + (if c.info.renderTarget <= level then {ColorAttachment, BlitDst} else {})
    + (if c.info.alphaBlend <= level then {ColorAttachmentBlend} else {})
    + (if c.storageImage then {StorageImage} else {})
    + (if atomic then {StorageImageAtomic} else {})
  }

  /** The features colour buffers get. */
  function BufferFeatures(level: nat, c: Caps, atomic: bool): (s: set<Feature>)
  {
    (if c.info.sampling <= level && !c.compressed then {UniformTexelBuffer} else {})
    + (if c.info.inputVb <= level then {VertexBuffer} else {})
    + (if c.storageImage then {StorageTexelBuffer} else {})
    + (if atomic then {StorageTexelBufferAtomic} else {})
  }

  /** Colour formats: each capability the surface-format table grants at
      or below the device's level, identical for linear and tiled images. */
  function ColorFeatures(level: nat, c: Caps, atomic: bool): (r: Props)
    ensures r.linear == r.tiled
    ensures forall x :: x in r.tiled <==> (|| (x in {SampledImage, BlitSrc} && c.info.sampling <= level)
                                           || (x in {ColorAttachment, BlitDst} && c.info.renderTarget <= level)
                                           || (x == ColorAttachmentBlend && c.info.alphaBlend <= level)
                                           || (x == StorageImage && c.storageImage)
                                           || (x == StorageImageAtomic && atomic))
    ensures forall x :: x in r.buffer <==> (|| (x == UniformTexelBuffer && c.info.sampling <= level && !c.compressed)
                                            || (x == VertexBuffer && c.info.inputVb <= level)
                                            || (x == StorageTexelBuffer && c.storageImage)
                                            || (x == StorageTexelBufferAtomic && atomic))
  {
    var s := ImageFeatures(level, c, atomic);
    Props(s, s, BufferFeatures(level, c, atomic))
  }

  /** The atomic-feature guard as written: the surface format must equal
      both 32-bit integer formats at once. */
  predicate AtomicGuardAsWritten(f: Format) {
    f.surface == IslR32Sint && f.surface == IslR32Uint
  }

  /** The guard as evidently intended: either 32-bit integer format. */
  predicate AtomicGuard(f: Format) {
    f.surface == IslR32Sint || f.surface == IslR32Uint
  }

  /** The features as the code is written. */
  function FormatPropertiesAsWritten(d: Device, f: Format, c: Caps): (r: Props)
    ensures StorageImageAtomic !in r.linear && StorageImageAtomic !in r.tiled
    ensures StorageTexelBufferAtomic !in r.buffer
  {
    FeaturesWith(d, f, c, AtomicGuardAsWritten(f))
  }

  /** The features with the atomic guard corrected. */
  function FormatProperties(d: Device, f: Format, c: Caps): (r: Props)
  {
    FeaturesWith(d, f, c, AtomicGuard(f))
  }

  /** As written, no format ever gets an atomic feature, not even the two
      32-bit integer formats the guard names. */
  lemma NoAtomicsAsWritten(d: Device, c: Caps)
    requires !c.depthOrStencil && c.info.listed
    ensures StorageImageAtomic !in FormatPropertiesAsWritten(d, FormatOf(R32Uint), c).tiled
    ensures StorageImageAtomic !in FormatPropertiesAsWritten(d, FormatOf(R32Sint), c).tiled
    ensures StorageImageAtomic in FormatProperties(d, FormatOf(R32Uint), c).tiled
    ensures StorageImageAtomic in FormatProperties(d, FormatOf(R32Sint), c).tiled
  {
  }

  /** With the corrected guard, exactly the supported 32-bit integer colour
      formats get the atomic features, on images and buffers alike. */
  lemma AtomicsForR32(d: Device, f: Format, c: Caps)
    ensures var r := FormatProperties(d, f, c);
            && (StorageImageAtomic in r.tiled <==> AtomicGuard(f) && !c.depthOrStencil && c.info.listed)
            && (StorageImageAtomic in r.linear <==> StorageImageAtomic in r.tiled)
            && (StorageTexelBufferAtomic in r.buffer <==> StorageImageAtomic in r.tiled)
  {
  }

  /** The corrected features differ from the written ones only in the two
      atomic features. */
  lemma CorrectionOnlyAddsAtomics(d: Device, f: Format, c: Caps)
    ensures var a, b := FormatPropertiesAsWritten(d, f, c), FormatProperties(d, f, c);
            && a.linear == b.linear - {StorageImageAtomic}
            && a.tiled == b.tiled - {StorageImageAtomic}
            && a.buffer == b.buffer - {StorageTexelBufferAtomic}
  {
    var a, b := FormatPropertiesAsWritten(d, f, c), FormatProperties(d, f, c);
    if f.surface != IslUnsupported && !c.depthOrStencil && c.info.listed {
      assert a.tiled == b.tiled - {StorageImageAtomic};
      assert a.buffer == b.buffer - {StorageTexelBufferAtomic};
    }
  }

  /** An unsupported surface format, or a colour format missing from the
      surface-format table, has no feature at all. */
  lemma UnsupportedHasNoFeatures(d: Device, f: Format, c: Caps)
    requires f.surface == IslUnsupported || (!c.depthOrStencil && !c.info.listed)
    ensures FormatProperties(d, f, c) == NoFeatures
    ensures FormatPropertiesAsWritten(d, f, c) == NoFeatures
  {
  }

  /** A supported depth or stencil format: no linear or buffer feature;
      tiled images get the attachment always, sampling and blit source
      from gen8 on, blit destination when it has depth. */
  lemma DepthStencilOnlyTiled(d: Device, f: Format, c: Caps)
    requires f.surface != IslUnsupported && c.depthOrStencil
    ensures var r := FormatProperties(d, f, c);
            && r.linear == {} && r.buffer == {}
            && DepthStencilAttachment in r.tiled
            && (SampledImage in r.tiled <==> d.gen >= 8)
            && (BlitSrc in r.tiled <==> d.gen >= 8)
            && (BlitDst in r.tiled <==> f.depthFormat != 0)
            && |r.tiled| <= 4
  {
    var t := FormatProperties(d, f, c).tiled;
    assert t <= {DepthStencilAttachment, SampledImage, BlitSrc, BlitDst};
    SubsetCard(t, {DepthStencilAttachment, SampledImage, BlitSrc, BlitDst});
  }

  lemma SubsetCard<T>(a: set<T>, b: set<T>)
    requires a <= b
    ensures |a| <= |b|
  {
    if a != {} {
      var x :| x in a;
      SubsetCard(a - {x}, b - {x});
    }
  }

  /** A supported colour format's features follow the table's thresholds
      against the device level: each capability is granted exactly when
      its threshold is at most the level. */
  lemma ColorThresholds(d: Device, f: Format, c: Caps)
    requires f.surface != IslUnsupported && !c.depthOrStencil && c.info.listed
    ensures var r := FormatProperties(d, f, c);
            && r.linear == r.tiled
            && (SampledImage in r.tiled <==> c.info.sampling <= Level(d))
            && (ColorAttachment in r.tiled <==> c.info.renderTarget <= Level(d))
            && (ColorAttachmentBlend in r.tiled <==> c.info.alphaBlend <= Level(d))
            && (VertexBuffer in r.buffer <==> c.info.inputVb <= Level(d))
            && (UniformTexelBuffer in r.buffer <==> SampledImage in r.tiled && !c.compressed)
            && (StorageImage in r.tiled <==> c.storageImage)
            && (StorageTexelBuffer in r.buffer <==> c.storageImage)
            && DepthStencilAttachment !in r.tiled
  {
  }

  /** The level orders devices: a later generation always ranks higher,
      and Haswell sits between gen7 and gen8. */
  lemma LevelOrdersGenerations(d: Device, e: Device)
    ensures Level(d) <= Level(e) ==> d.gen <= e.gen
    ensures d.gen < e.gen ==> Level(d) < Level(e)
  {
  }

  /** A device that ranks at least as high offers every feature a lower one
      offers, for every format. */
  lemma NewerDeviceKeepsFeatures(d: Device, e: Device, f: Format, c: Caps)
    requires Level(d) <= Level(e)
    ensures var a, b := FormatProperties(d, f, c), FormatProperties(e, f, c);
            a.linear <= b.linear && a.tiled <= b.tiled && a.buffer <= b.buffer
  {
    LevelOrdersGenerations(d, e);
  }

  // ---------------------------------------------------------------------
  // Image-format query

  datatype ImageType = Image1D | Image2D | Image3D

  datatype Tiling = Linear | Optimal

  datatype Usage =
    | TransferSrc | TransferDst | Sampled | Storage | ColorAttachmentUsage
    | DepthStencilAttachmentUsage | TransientAttachment | InputAttachment

  /** `VkImageFormatProperties`. */
  datatype ImageProps = ImageProps(
    width: nat, height: nat, depth: nat, maxMipLevels: nat, maxArrayLayers: nat,
    sampleCounts: set<nat>, maxResourceSize: nat)

  const UInt32Max: nat := 0xFFFF_FFFF

  /** The all-zero record an unsupported combination gets. */
  const NoImage := ImageProps(0, 0, 0, 0, 0, {}, 0)

  /** The largest image of each type: 1D and 2D images up to 16384 texels
      wide, 3D up to 2048 on each side; 1D and 2D up to 2048 layers, 3D
      one; a single sample; resources up to the 32-bit limit. */
  function Limits(t: ImageType): (r: ImageProps)
    ensures r.sampleCounts == {1} && r.maxResourceSize == UInt32Max
    ensures t == Image1D ==> r.height == 1 && r.depth == 1
    ensures t == Image2D ==> r.height == r.width && r.depth == 1
    ensures t == Image3D ==> r.height == r.width && r.depth == r.width && r.maxArrayLayers == 1
  {
    match t
    case Image1D => ImageProps(16384, 1, 1, 15, 2048, {1}, UInt32Max)
    case Image2D => ImageProps(16384, 16384, 1, 15, 2048, {1}, UInt32Max)
    case Image3D => ImageProps(2048, 2048, 2048, 12, 1, {1}, UInt32Max)
  }

  /** The mip-level limit is a full chain for the widest image: log2 of
      the width, plus one. */
  lemma MipChainCoversWidth(t: ImageType)
    ensures Limits(t).maxMipLevels >= 1 && Nir.Pow2(Limits(t).maxMipLevels - 1) == Limits(t).width
  {
    assert Nir.Pow2(11) == 2048;
    if t != Image3D {
      assert Nir.Pow2(14) == 8 * Nir.Pow2(11);
    }
  }

  /** The feature a usage needs in the queried tiling, if any. */
  function Needed(u: Usage): Option<Feature> {
    match u
    case TransferSrc => Some(SampledImage)
    case Sampled => Some(SampledImage)
    case Storage => Some(StorageImage)
    case ColorAttachmentUsage => Some(ColorAttachment)
    case DepthStencilAttachmentUsage => Some(DepthStencilAttachment)
    case TransferDst => None
    case TransientAttachment => None
    case InputAttachment => None
  }

  /** Whether the query refuses: a requested usage whose feature the tiling
      lacks, or a transfer destination on a stencil format. */
  predicate Refused(usage: set<Usage>, features: set<Feature>, hasStencil: bool) {
    || (exists u :: u in usage && Needed(u).Some? && Needed(u).value !in features)
    || (TransferDst in usage && hasStencil)
  }

  /** `anv_GetPhysicalDeviceImageFormatProperties`: the type's limits,
      unless one of the usage checks fails, in which case every field is
      zero.  The call succeeds either way. */
  function ImageFormatProperties(d: Device, f: Format, c: Caps, t: ImageType, tiling: Tiling,
                                 usage: set<Usage>): (r: ImageProps)
    ensures r == NoImage || r == Limits(t)
    ensures var props := FormatProperties(d, f, c);
            var features := if tiling == Linear then props.linear else props.tiled;
            r == NoImage <==> Refused(usage, features, f.hasStencil)
  {
    var props := FormatProperties(d, f, c);
    var features := if tiling == Linear then props.linear else props.tiled;
    RefusedByChecks(usage, features, f.hasStencil);
    if TransferSrc in usage && SampledImage !in features then NoImage
    else if TransferDst in usage && f.hasStencil then NoImage
    else if Sampled in usage && SampledImage !in features then NoImage
    else if Storage in usage && StorageImage !in features then NoImage
    else if ColorAttachmentUsage in usage && ColorAttachment !in features then NoImage
    else if DepthStencilAttachmentUsage in usage && DepthStencilAttachment !in features then NoImage
    else Limits(t)
  }

  /** The image-format query answers the same over the features as
      written: none of its checks reads an atomic feature, so the atomic
      guard's bug never reaches it. */
  lemma ImageQueryIgnoresAtomicGuard(d: Device, f: Format, c: Caps, t: ImageType, tiling: Tiling, usage: set<Usage>)
    ensures var written := FormatPropertiesAsWritten(d, f, c);
            var features := if tiling == Linear then written.linear else written.tiled;
            ImageFormatProperties(d, f, c, t, tiling, usage)
            == (if Refused(usage, features, f.hasStencil) then NoImage else Limits(t))
  {
  }

  /** The query's checks, one usage at a time, refuse exactly when
      `Refused` says. */
  lemma RefusedByChecks(usage: set<Usage>, features: set<Feature>, hasStencil: bool)
    ensures Refused(usage, features, hasStencil) <==>
              || (TransferSrc in usage && SampledImage !in features)
              || (TransferDst in usage && hasStencil)
              || (Sampled in usage && SampledImage !in features)
              || (Storage in usage && StorageImage !in features)
              || (ColorAttachmentUsage in usage && ColorAttachment !in features)
              || (DepthStencilAttachmentUsage in usage && DepthStencilAttachment !in features)
  {
    if exists u :: u in usage && Needed(u).Some? && Needed(u).value !in features {
      var u :| u in usage && Needed(u).Some? && Needed(u).value !in features;
      assert u in {TransferSrc, Sampled, Storage, ColorAttachmentUsage, DepthStencilAttachmentUsage};
    }
  }

  /** Asking for less never turns a granted query into a refused one. */
  lemma FewerUsagesStillGranted(d: Device, f: Format, c: Caps, t: ImageType, tiling: Tiling,
                                usage: set<Usage>, fewer: set<Usage>)
    requires fewer <= usage && ImageFormatProperties(d, f, c, t, tiling, usage) == Limits(t)
    ensures ImageFormatProperties(d, f, c, t, tiling, fewer) == Limits(t)
  {
    assert Limits(t) != NoImage;
  }

  /** A query with no usage, or only usages that need nothing, reports the
      type's limits. */
  lemma UncheckedUsagesGranted(d: Device, f: Format, c: Caps, t: ImageType, tiling: Tiling,
                               usage: set<Usage>)
    requires usage <= {TransientAttachment, InputAttachment}
    ensures ImageFormatProperties(d, f, c, t, tiling, usage) == Limits(t)
  {
  }

  /** Sampling a depth format through an optimally tiled image is refused
      on gen7 and Haswell and granted from gen8 on. */
  lemma DepthSamplingNeedsGen8(d: Device, c: Caps, t: ImageType)
    requires c.depthOrStencil
    ensures var r := ImageFormatProperties(d, FormatOf(D32Sfloat), c, t, Optimal, {Sampled});
            r == NoImage <==> d.gen < 8
  {
    var f := FormatOf(D32Sfloat);
    DepthStencilOnlyTiled(d, f, c);
    RefusedByChecks({Sampled}, FormatProperties(d, f, c).tiled, f.hasStencil);
  }

  /** A stencil format can never be a transfer destination, whatever else
      it supports. */
  lemma StencilNotTransferDst(d: Device, c: Caps, t: ImageType, tiling: Tiling, usage: set<Usage>)
    requires TransferDst in usage
    ensures ImageFormatProperties(d, FormatOf(S8Uint), c, t, tiling, usage) == NoImage
  {
  }
}

=== FILE: constants.dfy ===
/** Constants (`vtn_handle_constant`) and their SSA values
    (`vtn_const_ssa_value`).

    A `nir_constant` holds a 16-word value array and, for arrays and structs,
    a list of element constants.  A composite of scalars is flattened into the
    value array (a matrix column-major, `rows * i + j` for column `i` lane
    `j`); building the SSA value splits the array back into columns.
 */
module Constants {
  import opened Wrappers
  import opened Spv
  import opened Glsl
  import opened Nir
  import opened SsaValues

  /** The size of `nir_constant`'s value array. */
  const ValueWords: nat := 16

  datatype Constant = Constant(values: seq<Word>, elements: seq<Constant>)

  /** A constant as `rzalloc` makes it: all value words zero, no elements. */
  const Zero: Constant := Constant([0, 0, 0, 0, 0, 0, 0, 0, 0, 0, 0, 0, 0, 0, 0, 0], [])

  /** Lane-major words of the columns: the first `rows` words of each part,
      column after column. */
  function Columns(parts: seq<Constant>, rows: nat): (ws: seq<Word>)
    requires forall i :: 0 <= i < |parts| ==> rows <= |parts[i].values|
    ensures |ws| == rows * |parts|
    decreases |parts|
  {
    if |parts| == 0 then []
    else parts[0].values[..rows] + Columns(parts[1..], rows)
  }

  /** The value array of a matrix constant: column `i` lane `j` at
      `rows * i + j`, zero past the last column. */
  function FlattenColumns(parts: seq<Constant>, rows: nat): (vs: seq<Word>)
    requires rows * |parts| <= ValueWords
    requires forall i :: 0 <= i < |parts| ==> rows <= |parts[i].values|
    ensures |vs| == ValueWords
  {
    Columns(parts, rows) + seq(ValueWords - rows * |parts|, _ => 0)
  }

  /** Slot `rows * i + j` of the column words is lane `j` of column `i`. */
  lemma {:induction false} ColumnsKeepLanes(parts: seq<Constant>, rows: nat, i: nat, j: nat)
    requires forall c :: 0 <= c < |parts| ==> rows <= |parts[c].values|
    requires i < |parts| && j < rows
    ensures rows * i + j < rows * |parts|
    ensures Columns(parts, rows)[rows * i + j] == parts[i].values[j]
    decreases i
  {
    var head := parts[0].values[..rows];
    var rest := Columns(parts[1..], rows);
    assert Columns(parts, rows) == head + rest;
    MulSucc(rows, |parts| - 1);
    if i == 0 {
      assert rows * i + j == j;
    } else {
      ColumnsKeepLanes(parts[1..], rows, i - 1, j);
      MulSucc(rows, i - 1);
      var p := rows * (i - 1) + j;
      assert rows * i + j == rows + p;
      assert parts[1..][i - 1] == parts[i];
      assert (head + rest)[rows + p] == rest[p];
    }
  }

  lemma MulSucc(a: nat, b: nat)
    ensures a * (b + 1) == a + a * b
  {
  }

  /** The word slot `rows * i + j` of a flattened matrix is lane `j` of
      column `i`: flattening loses nothing. */
  lemma FlattenKeepsLanes(parts: seq<Constant>, rows: nat, i: nat, j: nat)
    requires rows * |parts| <= ValueWords
    requires forall c :: 0 <= c < |parts| ==> rows <= |parts[c].values|
    requires i < |parts| && j < rows
    ensures rows * i + j < ValueWords
    ensures FlattenColumns(parts, rows)[rows * i + j] == parts[i].values[j]
  {
    ColumnsKeepLanes(parts, rows, i, j);
  }

  lemma MulMonotone(a: nat, b: nat, c: nat)
    requires b <= c
    ensures a * b <= a * c
  {
  }

  /** The value array of a vector constant: lane `i` is the first word of
      component constant `i`. */
  function FlattenLanes(parts: seq<Constant>): (vs: seq<Word>)
    requires |parts| <= ValueWords
    requires forall i :: 0 <= i < |parts| ==> 1 <= |parts[i].values|
    ensures |vs| == ValueWords
    ensures forall i :: 0 <= i < |parts| ==> vs[i] == parts[i].values[0]
  {
    seq(ValueWords, k requires 0 <= k < ValueWords => if k < |parts| then parts[k].values[0] else 0)
  }

  /** Every constant the handler makes has the full value array. */
  predicate Sized(c: Constant) {
    |c.values| == ValueWords && forall i :: 0 <= i < |c.elements| ==> Sized(c.elements[i])
  }

  /** The `OpConstantComposite` case: component constants `parts` combined
      into a constant of type `t`.  A numeric composite is flattened (matrix
      columns or vector lanes, the count matching the type); arrays and
      structs keep the parts as elements.  Double-precision composites are
      not handled. */
  function Composite(t: GType, parts: seq<Constant>): (r: Result<Constant>)
    requires forall i :: 0 <= i < |parts| ==> Sized(parts[i])
    ensures r.Ok? ==> Sized(r.value)
    ensures r.Ok? && t.GMat? ==> |parts| == t.cols
    ensures r.Ok? && t.GVec? ==> |parts| == t.n && t.n > 1
    ensures r.Ok? && (t.GArray? || t.GStruct?) ==> r.value.elements == parts
  {
    match KindOf(t)
    case Numeric(b) =>
      if b == DoubleT then Abort("unsupported type for constants")
      else if t.GMat? then
        if t.cols != |parts| then Abort("matrix column count mismatch")
        else if t.rows * t.cols > ValueWords then Abort("value array overflow")
        else
          forall i | 0 <= i < |parts| ensures t.rows <= |parts[i].values| {
            assert Sized(parts[i]);
            MulMonotone(t.rows, 1, t.cols);
          }
          Ok(Constant(FlattenColumns(parts, t.rows), []))
      else if !IsVector(t) then Abort("composite of scalar type")
      else if VectorElements(t) != |parts| then Abort("vector component count mismatch")
      else if |parts| > ValueWords then Abort("value array overflow")
      else
        forall i | 0 <= i < |parts| ensures |parts[i].values| == ValueWords {
          assert Sized(parts[i]);
        }
        Ok(Constant(FlattenLanes(parts), []))
    case ArrayKind => Ok(Zero.(elements := parts))
    case StructKind => Ok(Zero.(elements := parts))
    case _ => Abort("unsupported type for constants")
  }

  /** A defined constant: its type and value. */
  datatype ConstEntry = ConstEntry(ty: GType, c: Constant)

  /** What constant handling reads and writes: the declared types, the
      constants made so far, and the id bound of the module. */
  datatype ConstTable = ConstTable(bound: nat, types: map<nat, GType>, consts: map<nat, ConstEntry>)

  predicate TableSized(t: ConstTable) {
    forall id :: id in t.consts ==> Sized(t.consts[id].c)
  }

  function Parts(t: ConstTable, ids: seq<Word>): (r: Result<seq<Constant>>)
    ensures r.Ok? ==> |r.value| == |ids|
    ensures r.Ok? ==> forall i :: 0 <= i < |ids| ==> ids[i] in t.consts && r.value[i] == t.consts[ids[i]].c
    ensures r.Abort? <==> exists i :: 0 <= i < |ids| && ids[i] !in t.consts
    decreases |ids|
  {
    if |ids| == 0 then Ok([])
    else if ids[0] !in t.consts then Abort("operand is not a constant")
    else
      var rest :- Parts(t, ids[1..]);
      assert forall i :: 1 <= i < |ids| ==> ids[i] == ids[1..][i - 1];
      Ok([t.consts[ids[0]].c] + rest)
  }

  /** `vtn_handle_constant` for one instruction `inst` (word 0 included):
      result type in word 1, result id in word 2. */
  function HandleConstant(t: ConstTable, opcode: nat, inst: seq<Word>): (r: Result<ConstTable>)
    requires TableSized(t)
    ensures r.Ok? ==> TableSized(r.value) && r.value.types == t.types && r.value.bound == t.bound
    ensures |inst| >= 3 && (inst[2] in t.types || inst[2] in t.consts) ==> r.Abort?
    ensures r.Ok? ==> |inst| >= 3 && inst[2] !in t.consts && inst[2] !in t.types && inst[1] in t.types
    ensures r.Ok? ==> inst[2] in r.value.consts && r.value.consts == t.consts[inst[2] := r.value.consts[inst[2]]]
    ensures r.Ok? ==> r.value.consts[inst[2]].ty == t.types[inst[1]]
  {
    if |inst| < 3 then Abort("truncated constant instruction")
    else if inst[2] >= t.bound || inst[2] in t.types || inst[2] in t.consts then Abort("bad result id")
    else if inst[1] !in t.types then Abort("result type is not a type")
    else
      var ty := t.types[inst[1]];
      var c :-
        if opcode == OpConstantTrue || opcode == OpConstantFalse then
          if ty != GVec(BoolT, 1) then Abort("boolean constant of non-boolean type")
          else Ok(Zero.(values := Zero.values[0 := if opcode == OpConstantTrue then NirTrue else NirFalse]))
        else if opcode == OpConstant then
          if !IsScalar(ty) then Abort("constant of non-scalar type")
          else if |inst| < 4 then Abort("truncated constant instruction")
          else Ok(Zero.(values := Zero.values[0 := inst[3]]))
        else if opcode == OpConstantComposite then
          var parts :- Parts(t, inst[3..]);
          Composite(ty, parts)
        else Abort("unhandled constant opcode");
      Ok(t.(consts := t.consts[inst[2] := ConstEntry(ty, c)]))
  }

  /** The SSA definition of a flattened vector or scalar: an immediate. */
  function LoadConst(vs: seq<Word>): (d: Def)
    ensures Width(d) == |vs|
    ensures forall env, k :: 0 <= k < |vs| ==> EvalLane(env, d, k) == vs[k]
  {
    Imm(vs)
  }

  /** Column `i` of a flattened matrix with `rows` rows. */
  function ColumnWords(vs: seq<Word>, rows: nat, i: nat): (col: seq<Word>)
    requires rows * (i + 1) <= |vs|
    ensures |col| == rows
    ensures forall j :: 0 <= j < rows ==> rows * i + j < |vs| && col[j] == vs[rows * i + j]
  {
    assert rows * (i + 1) == rows * i + rows;
    vs[rows * i .. rows * i + rows]
  }

  /** `vtn_const_ssa_value`: the SSA value of constant `c` at type `t`.
      Vectors and scalars become one immediate; a matrix one immediate per
      column; arrays and structs one value per element constant. */
  function ConstSsa(c: Constant, t: GType): (r: Result<Ssa>)
    requires Sized(c)
    ensures r.Ok? ==> r.value.ty == t && Shaped(r.value) && Complete(r.value) && Unlinked(r.value)
    decreases t, 1, 0
  {
    match t
    case GVec(_, n) =>
      if n > ValueWords then Abort("value array overflow")
      else Ok(Ssa(t, Some(LoadConst(c.values[..n])), [], None))
    case GMat(b, rows, cols) =>
      if rows * cols > ValueWords then Abort("value array overflow")
      else
        var cs := seq(cols, i requires 0 <= i < cols =>
                    MulBound(rows, i, cols);
                    Ssa(GVec(b, rows), Some(LoadConst(ColumnWords(c.values, rows, i))), [], None));
        Ok(Ssa(t, None, cs, None))
    case GArray(_, _) =>
      if |c.elements| < Length(t) then Abort("missing element constant")
      else
        var es :- ElementValues(c.elements, t, 0);
        Ok(Ssa(t, None, es, None))
    case GStruct(_) =>
      if |c.elements| < Length(t) then Abort("missing element constant")
      else
        var es :- ElementValues(c.elements, t, 0);
        Ok(Ssa(t, None, es, None))
    case _ => Abort("bad constant type")
  }

  lemma MulBound(rows: nat, i: nat, cols: nat)
    requires i < cols
    ensures rows * (i + 1) <= rows * cols
  {
    MulMonotone(rows, i + 1, cols);
  }

  /** The values of elements `i` onwards of an array or struct constant,
      each at its child type. */
  function ElementValues(cs: seq<Constant>, t: GType, i: nat): (r: Result<seq<Ssa>>)
    requires t.GArray? || t.GStruct?
    requires i <= Length(t) <= |cs|
    requires forall k :: 0 <= k < |cs| ==> Sized(cs[k])
    ensures r.Ok? ==> |r.value| == Length(t) - i
    ensures r.Ok? ==> forall k :: 0 <= k < |r.value| ==>
              ConstSsa(cs[i + k], ChildType(t, i + k)) == Ok(r.value[k])
              && r.value[k].ty == ChildType(t, i + k) && Shaped(r.value[k])
              && Complete(r.value[k]) && Unlinked(r.value[k])
    decreases t, 0, Length(t) - i
  {
    if i == Length(t) then Ok([])
    else
      var child := if t.GArray? then t.elem else t.fields[i].ty;
      assert child == ChildType(t, i);
      var v :- ConstSsa(cs[i], child);
      var rest :- ElementValues(cs, t, i + 1);
      Ok([v] + rest)
  }

  /** A matrix constant round trip: `OpConstantComposite` flattens the
      columns column-major and `vtn_const_ssa_value` splits them back, so
      component `j` of column `i` of the SSA value is lane `j` of the `i`-th
      column constant. */
  lemma MatrixRoundTrip(env: Env, t: GType, parts: seq<Constant>, i: nat, j: nat)
    requires forall k :: 0 <= k < |parts| ==> Sized(parts[k])
    requires t.GMat? && Composite(t, parts).Ok?
    requires i < t.cols && j < t.rows
    ensures ConstSsa(Composite(t, parts).value, t).Ok?
    ensures EvalLane(env, Column(ConstSsa(Composite(t, parts).value, t).value, i), j) == parts[i].values[j]
  {
    var c := Composite(t, parts).value;
    var v := ConstSsa(c, t).value;
    forall k | 0 <= k < |parts| ensures t.rows <= |parts[k].values| {
      assert Sized(parts[k]);
      MulMonotone(t.rows, 1, t.cols);
    }
    FlattenKeepsLanes(parts, t.rows, i, j);
    MulBound(t.rows, i, t.cols);
    assert Column(v, i) == LoadConst(ColumnWords(c.values, t.rows, i));
  }

  /** A vector constant round trip: component `i` of the SSA value is the
      value of the `i`-th component constant. */
  lemma VectorRoundTrip(env: Env, t: GType, parts: seq<Constant>, i: nat)
    requires forall k :: 0 <= k < |parts| ==> Sized(parts[k])
    requires t.GVec? && Composite(t, parts).Ok?
    requires i < t.n
    ensures ConstSsa(Composite(t, parts).value, t).Ok?
    ensures EvalLane(env, ConstSsa(Composite(t, parts).value, t).value.def.value, i) == parts[i].values[0]
  {
  }

  /** `OpConstant`, `OpConstantTrue` and `OpConstantFalse` give a scalar
      whose SSA value is the literal word, `NIR_TRUE` or `NIR_FALSE`. */
  lemma ScalarConstantValue(env: Env, t: ConstTable, opcode: nat, inst: seq<Word>)
    requires TableSized(t)
    requires opcode == OpConstant || opcode == OpConstantTrue || opcode == OpConstantFalse
    requires HandleConstant(t, opcode, inst).Ok?
    ensures var e := HandleConstant(t, opcode, inst).value.consts[inst[2]];
            var v := ConstSsa(e.c, e.ty);
            v.Ok? && v.value.def.Some?
            && EvalLane(env, v.value.def.value, 0)
               == if opcode == OpConstantTrue then NirTrue
                  else if opcode == OpConstantFalse then NirFalse
                  else inst[3]
  {
  }
}

=== FILE: decorations.dfy ===
/** The decoration store (section 3.20 of the SPIR-V specification).

    Every value id owns a list of decorations, newest first, because each new
    decoration is linked in at the head.  `OpDecorationGroup` names a group,
    `OpGroupDecorate`/`OpGroupMemberDecorate` link a group into a target's list,
    and iteration expands those links recursively, handing the callback one
    effective decoration at a time together with the struct member it applies
    to (-1 for the whole value).  Execution modes share the list but are only
    seen by the execution-mode iteration.
 */
module Decorations {
  import opened Spv
  import opened Wrappers

  datatype Scope = WholeValue | Member(index: nat) | ExecutionMode

  /** One list entry: `kind` is the decoration (or execution mode) enumerant,
      `literals` the operand words that follow it; a group link has `group` set. */
  datatype Decoration = Decoration(scope: Scope, kind: nat, literals: seq<Word>, group: Option<nat>)

  /** Decorations of every value id below `bound`, and the ids declared as groups. */
  datatype DecorationTable = DecorationTable(bound: nat, lists: map<nat, seq<Decoration>>, groups: set<nat>)

  function DecorationsOf(t: DecorationTable, id: nat): seq<Decoration> {
    if id in t.lists then t.lists[id] else []
  }

  /** Links `d` in at the head of `id`'s list. */
  function Prepend(t: DecorationTable, id: nat, d: Decoration): (t': DecorationTable)
    ensures DecorationsOf(t', id) == [d] + DecorationsOf(t, id)
    ensures forall other :: other != id ==> DecorationsOf(t', other) == DecorationsOf(t, other)
    ensures t'.bound == t.bound && t'.groups == t.groups
  {
    t.(lists := t.lists[id := [d] + DecorationsOf(t, id)])
  }

  /** The linking loop of `OpGroupDecorate` / `OpGroupMemberDecorate` over the
      remaining operand words.  For the member form the source reads the member
      index from the target word itself and then skips the real member literal. */
  function LinkGroup(t: DecorationTable, g: nat, ws: seq<Word>, perMember: bool): Result<DecorationTable>
    decreases |ws|
  {
    if |ws| == 0 then Ok(t)
    else if ws[0] >= t.bound then Abort("decorated id out of range")
    else
      var target := ws[0];
      var scope := if perMember then Member(target) else WholeValue;
      var t' := Prepend(t, target, Decoration(scope, 0, [], Some(g)));
      var step := if perMember then 2 else 1;
      LinkGroup(t', g, if |ws| <= step then [] else ws[step..], perMember)
  }

  /** `vtn_handle_decoration` on one instruction `inst` (first word included). */
  function HandleDecoration(t: DecorationTable, opcode: nat, inst: seq<Word>): Result<DecorationTable>
  {
    if |inst| < 2 then Abort("decoration instruction without a target")
    else
      var target := inst[1];
      if opcode == OpDecorationGroup then
        if target >= t.bound then Abort("group id out of range")
        else if target in t.groups then Abort("value defined twice")
        else Ok(t.(groups := t.groups + {target}))
      else if opcode == OpDecorate || opcode == OpExecutionMode then
        if target >= t.bound then Abort("decorated id out of range")
        else if |inst| < 3 then Abort("decoration operand missing")
        else
          var scope := if opcode == OpDecorate then WholeValue else ExecutionMode;
          Ok(Prepend(t, target, Decoration(scope, inst[2], inst[3..], None)))
      else if opcode == OpMemberDecorate then
        if target >= t.bound then Abort("decorated id out of range")
        else if |inst| < 4 then Abort("decoration operand missing")
        else Ok(Prepend(t, target, Decoration(Member(inst[2]), inst[3], inst[4..], None)))
      else if opcode == OpGroupDecorate || opcode == OpGroupMemberDecorate then
        if target !in t.groups then Abort("not a decoration group")
        else LinkGroup(t, target, inst[2..], opcode == OpGroupMemberDecorate)
      else Abort("unhandled decoration opcode")
  }

  /** What the callback receives: the member index (-1 for the whole value)
      and the decoration itself. */
  datatype Effective = Effective(member: int, dec: Decoration)

  /** `_foreach_decoration_helper` over one list, in list order.  Group links
      recurse into the group's own list; `fuel` bounds that recursion, which the
      source leaves unbounded. */
  function ExpandList(t: DecorationTable, parent: int, list: seq<Decoration>, fuel: nat): Result<seq<Effective>>
    decreases fuel, |list|
  {
    if |list| == 0 then Ok([])
    else
      var dec := list[0];
      var head :-
        match dec.scope
        case ExecutionMode => Ok([])
        case WholeValue => ExpandOne(t, parent, dec, fuel)
        case Member(i) =>
          if parent != -1 then Abort("member decoration inside a member group")
          else ExpandOne(t, i, dec, fuel);
      var rest :- ExpandList(t, parent, list[1..], fuel);
      Ok(head + rest)
  }

  function ExpandOne(t: DecorationTable, member: int, dec: Decoration, fuel: nat): Result<seq<Effective>>
    decreases fuel, 0
  {
    match dec.group
    case None => Ok([Effective(member, dec)])
    case Some(g) =>
      if fuel == 0 then Abort("decoration groups nested too deeply")
      else ExpandList(t, member, DecorationsOf(t, g), fuel - 1)
  }

  /** `vtn_foreach_decoration`: top-level expansion of a value's list. */
  function ForeachDecoration(t: DecorationTable, id: nat, fuel: nat): Result<seq<Effective>> {
    ExpandList(t, -1, DecorationsOf(t, id), fuel)
  }

  /** Reference meaning of a list without group links, read at top level:
      execution modes dropped, whole-value entries at -1, member entries at their index. */
  function FlatEffective(list: seq<Decoration>): seq<Effective> {
    if |list| == 0 then []
    else
      var d := list[0];
      var head := match d.scope
                  case ExecutionMode => []
                  case WholeValue => [Effective(-1, d)]
                  case Member(i) => [Effective(i, d)];
      head + FlatEffective(list[1..])
  }

  predicate NoGroups(list: seq<Decoration>) {
    forall k :: 0 <= k < |list| ==> list[k].group.None?
  }

  function CountDecorations(list: seq<Decoration>): nat {
    if |list| == 0 then 0
    else (if list[0].scope.ExecutionMode? then 0 else 1) + CountDecorations(list[1..])
  }

  /** Without group links the callback fires once per non-execution-mode entry,
      newest first, with the member index the entry's scope names. */
  lemma {:induction false} ExpandFlat(t: DecorationTable, list: seq<Decoration>, fuel: nat)
    requires NoGroups(list)
    ensures ExpandList(t, -1, list, fuel) == Ok(FlatEffective(list))
    ensures |FlatEffective(list)| == CountDecorations(list)
    decreases |list|
  {
    if |list| > 0 {
      assert NoGroups(list[1..]) by {
        forall k | 0 <= k < |list[1..]| ensures list[1..][k].group.None? {
          assert list[1..][k] == list[k + 1];
        }
      }
      ExpandFlat(t, list[1..], fuel);
    }
  }

  /** Every group link in `list` names a declared group. */
  predicate Linked(groups: set<nat>, list: seq<Decoration>) {
    forall k :: 0 <= k < |list| && list[k].group.Some? ==> list[k].group.value in groups
  }

  /** The table invariant: group links only ever point at declared groups. */
  predicate WellLinked(t: DecorationTable) {
    forall id :: id in t.lists ==> Linked(t.groups, t.lists[id])
  }

  lemma LinkedOf(t: DecorationTable, id: nat)
    requires WellLinked(t)
    ensures Linked(t.groups, DecorationsOf(t, id))
  {
  }

  lemma LinkedTail(groups: set<nat>, list: seq<Decoration>)
    requires |list| > 0 && Linked(groups, list)
    ensures Linked(groups, list[1..])
  {
    forall k | 0 <= k < |list[1..]| && list[1..][k].group.Some?
      ensures list[1..][k].group.value in groups
    {
      assert list[1..][k] == list[k + 1];
    }
  }

  /** Expansion only consults the lists of groups: two tables that agree on
      those expand every linked list alike. */
  lemma {:induction false} ExpandFrame(t: DecorationTable, t': DecorationTable, parent: int,
                                       list: seq<Decoration>, fuel: nat)
    requires WellLinked(t) && Linked(t.groups, list) && t'.groups == t.groups
    requires forall g :: g in t.groups ==> DecorationsOf(t', g) == DecorationsOf(t, g)
    ensures ExpandList(t', parent, list, fuel) == ExpandList(t, parent, list, fuel)
    decreases fuel, |list|
  {
    if |list| > 0 {
      var dec := list[0];
      LinkedTail(t.groups, list);
      ExpandFrame(t, t', parent, list[1..], fuel);
      if dec.group.Some? && fuel > 0 {
        var g := dec.group.value;
        LinkedOf(t, g);
        var m := match dec.scope
                 case Member(i) => i as int
                 case _ => parent;
        ExpandFrame(t, t', m, DecorationsOf(t, g), fuel - 1);
      }
    }
  }

  /** Adding a plain whole-value decoration to a value that is not a group puts
      it first in that value's iteration, ahead of everything added before. */
  lemma NewestFirst(t: DecorationTable, id: nat, kind: nat, lits: seq<Word>, fuel: nat)
    requires WellLinked(t) && id !in t.groups
    requires ForeachDecoration(t, id, fuel).Ok?
    ensures ForeachDecoration(Prepend(t, id, Decoration(WholeValue, kind, lits, None)), id, fuel)
            == Ok([Effective(-1, Decoration(WholeValue, kind, lits, None))]
                  + ForeachDecoration(t, id, fuel).value)
  {
    var d := Decoration(WholeValue, kind, lits, None);
    var t' := Prepend(t, id, d);
    assert DecorationsOf(t', id)[1..] == DecorationsOf(t, id);
    LinkedOf(t, id);
    ExpandFrame(t, t', -1, DecorationsOf(t, id), fuel);
    assert ExpandOne(t', -1, d, fuel) == Ok([Effective(-1, d)]);
    assert ForeachDecoration(t', id, fuel)
        == ExpandList(t', -1, [d] + DecorationsOf(t, id), fuel);
  }

  lemma {:induction false} LinkGroupKeepsWellLinked(t: DecorationTable, g: nat, ws: seq<Word>, perMember: bool)
    requires WellLinked(t) && g in t.groups
    ensures LinkGroup(t, g, ws, perMember).Ok? ==>
              WellLinked(LinkGroup(t, g, ws, perMember).value)
              && LinkGroup(t, g, ws, perMember).value.groups == t.groups
    decreases |ws|
  {
    if |ws| > 0 && ws[0] < t.bound {
      var target := ws[0];
      var scope := if perMember then Member(target) else WholeValue;
      var t' := Prepend(t, target, Decoration(scope, 0, [], Some(g)));
      LinkedOf(t, target);
      assert WellLinked(t');
      var step := if perMember then 2 else 1;
      LinkGroupKeepsWellLinked(t', g, if |ws| <= step then [] else ws[step..], perMember);
    }
  }

  /** Every decoration instruction keeps group links pointing at groups. */
  lemma HandleDecorationKeepsWellLinked(t: DecorationTable, opcode: nat, inst: seq<Word>)
    requires WellLinked(t)
    ensures HandleDecoration(t, opcode, inst).Ok? ==> WellLinked(HandleDecoration(t, opcode, inst).value)
  {
    if |inst| >= 2 {
      var target := inst[1];
      if opcode == OpDecorationGroup {
        var t' := t.(groups := t.groups + {target});
        forall id | id in t'.lists ensures Linked(t'.groups, t'.lists[id]) {
          assert Linked(t.groups, t.lists[id]);
        }
      } else if opcode == OpGroupDecorate || opcode == OpGroupMemberDecorate {
        if target in t.groups {
          LinkGroupKeepsWellLinked(t, target, inst[2..], opcode == OpGroupMemberDecorate);
        }
      } else if target < t.bound {
        LinkedOf(t, target);
      }
    }
  }

  /** A whole-value group link at top level yields the group's own decorations,
      each with its own member index; a member-scoped link hands the member index
      down to the group's whole-value decorations. */
  lemma GroupLinkExpands(t: DecorationTable, g: nat, scope: Scope, fuel: nat)
    requires scope.WholeValue? || scope.Member?
    requires fuel > 0
    ensures var link := Decoration(scope, 0, [], Some(g));
            var m := if scope.Member? then scope.index as int else -1;
            ExpandList(t, -1, [link], fuel) == ExpandList(t, m, DecorationsOf(t, g), fuel - 1)
  {
    var link := Decoration(scope, 0, [], Some(g));
    var m := if scope.Member? then scope.index as int else -1;
    assert [link][1..] == [];
    match ExpandList(t, m, DecorationsOf(t, g), fuel - 1)
    case Ok(v) => assert v + [] == v;
    case Abort(_) =>
  }

  /** A member decoration reached through a member-scoped group link aborts. */
  lemma MemberInsideMemberGroupAborts(t: DecorationTable, member: nat, d: Decoration, fuel: nat)
    requires d.scope.Member?
    ensures ExpandList(t, member, [d], fuel).Abort?
  {
  }

  /** `vtn_foreach_execution_mode`: only execution-mode entries, which may not
      be group links. */
  function ExecutionModes(list: seq<Decoration>): (r: Result<seq<Decoration>>)
    ensures r.Ok? ==> forall k :: 0 <= k < |r.value| ==> r.value[k].scope.ExecutionMode?
    ensures r.Ok? ==> |r.value| == |list| - CountDecorations(list)
    ensures r.Abort? <==> exists k :: 0 <= k < |list| && list[k].scope.ExecutionMode? && list[k].group.Some?
  {
    if |list| == 0 then Ok([])
    else
      var d := list[0];
      var rest := ExecutionModes(list[1..]);
      if d.scope.ExecutionMode? && d.group.Some? then
        assert list[0].scope.ExecutionMode? && list[0].group.Some?;
        Abort("execution mode in a decoration group")
      else if rest.Abort? then
        ghost var k :| 0 <= k < |list[1..]| && list[1..][k].scope.ExecutionMode? && list[1..][k].group.Some?;
        assert list[k + 1] == list[1..][k];
        rest
      else
        assert forall k :: 1 <= k < |list| ==> list[k] == list[1..][k - 1];
        if d.scope.ExecutionMode? then Ok([d] + rest.value) else rest
  }

  /** The entries `ExecutionModes` yields are the list's execution-mode
      entries, in list order: entry `k` is the list's entry `idx[k]`, the
      indices increase, and every execution-mode entry is among them. */
  lemma {:induction false} ExecutionModesSelect(list: seq<Decoration>) returns (idx: seq<nat>)
    requires ExecutionModes(list).Ok?
    ensures Selects(list, ExecutionModes(list).value, idx)
    decreases |list|
  {
    if |list| == 0 {
      idx := [];
    } else {
      var rest := ExecutionModesSelect(list[1..]);
      var shifted := Shift(rest);
      SelectsShifted(list, ExecutionModes(list[1..]).value, rest);
      if list[0].scope.ExecutionMode? {
        assert ExecutionModes(list).value == [list[0]] + ExecutionModes(list[1..]).value;
        idx := [0] + shifted;
        SelectsHead(list, ExecutionModes(list[1..]).value, shifted);
      } else {
        assert ExecutionModes(list).value == ExecutionModes(list[1..]).value;
        idx := shifted;
      }
    }
  }

  /** `r` is the entries of `list` at the increasing indices `idx`, and
      these include every execution-mode entry. */
  predicate Selects(list: seq<Decoration>, r: seq<Decoration>, idx: seq<nat>) {
    && |idx| == |r|
    && (forall k :: 0 <= k < |idx| ==> idx[k] < |list| && r[k] == list[idx[k]])
    && (forall i, j :: 0 <= i < j < |idx| ==> idx[i] < idx[j])
    && (forall j :: 0 <= j < |list| && list[j].scope.ExecutionMode? ==> j in idx)
  }

  /** Indices into a list's tail, as indices into the list. */
  function Shift(idx: seq<nat>): (r: seq<nat>)
    ensures |r| == |idx| && forall k :: 0 <= k < |idx| ==> r[k] == idx[k] + 1
  {
    seq(|idx|, i requires 0 <= i < |idx| => idx[i] + 1)
  }

  /** A selection from the tail, shifted, selects the same entries from the
      whole list, except that it misses the head. */
  lemma SelectsShifted(list: seq<Decoration>, r: seq<Decoration>, rest: seq<nat>)
    requires |list| > 0 && Selects(list[1..], r, rest)
    ensures var sh := Shift(rest);
            && |sh| == |r|
            && (forall k :: 0 <= k < |sh| ==> 0 < sh[k] < |list| && r[k] == list[sh[k]])
            && (forall i, j :: 0 <= i < j < |sh| ==> sh[i] < sh[j])
            && (forall j :: 1 <= j < |list| && list[j].scope.ExecutionMode? ==> j in sh)
            && (!list[0].scope.ExecutionMode? ==> Selects(list, r, sh))
  {
    var sh := Shift(rest);
    forall j | 1 <= j < |list| && list[j].scope.ExecutionMode?
      ensures j in sh
    {
      assert list[1..][j - 1] == list[j];
      var i :| 0 <= i < |rest| && rest[i] == j - 1;
      assert sh[i] == j;
    }
  }

  /** Adding the head in front of a shifted selection selects it too. */
  lemma SelectsHead(list: seq<Decoration>, r: seq<Decoration>, sh: seq<nat>)
    requires |list| > 0 && |sh| == |r|
    requires forall k :: 0 <= k < |sh| ==> 0 < sh[k] < |list| && r[k] == list[sh[k]]
    requires forall i, j :: 0 <= i < j < |sh| ==> sh[i] < sh[j]
    requires forall j :: 1 <= j < |list| && list[j].scope.ExecutionMode? ==> j in sh
    ensures Selects(list, [list[0]] + r, [0] + sh)
  {
    var idx := [0] + sh;
    assert forall k :: 1 <= k < |idx| ==> idx[k] == sh[k - 1];
    assert 0 in idx;
  }

  /** `OpGroupMemberDecorate` as written: the link on `target` is scoped to
      member `target`, whatever member literal follows it. */
  lemma GroupMemberDecorateUsesTargetAsMember(t: DecorationTable, g: nat, target: Word, member: Word)
    requires g in t.groups && target < t.bound && g < 0x1_0000_0000
    ensures var inst := [0, g as Word, target, member];
            HandleDecoration(t, OpGroupMemberDecorate, inst).Ok?
            && DecorationsOf(HandleDecoration(t, OpGroupMemberDecorate, inst).value, target)
               == [Decoration(Member(target), 0, [], Some(g))] + DecorationsOf(t, target)
  {
    var inst := [0, g as Word, target, member];
    assert inst[2..] == [target, member];
    var t' := Prepend(t, target, Decoration(Member(target), 0, [], Some(g)));
    assert LinkGroup(t', g, [], true) == Ok(t');
  }

  /** `OpDecorate` links exactly one entry onto its target and leaves every
      other list alone. */
  lemma DecorateTouchesOnlyTarget(t: DecorationTable, inst: seq<Word>)
    requires |inst| >= 3 && inst[1] < t.bound
    ensures var r := HandleDecoration(t, OpDecorate, inst);
            r.Ok?
            && DecorationsOf(r.value, inst[1]) == [Decoration(WholeValue, inst[2], inst[3..], None)] + DecorationsOf(t, inst[1])
            && (forall other :: other != inst[1] ==> DecorationsOf(r.value, other) == DecorationsOf(t, other))
  {
  }
}

=== FILE: derefs.dfy ===
/** Loads, stores and copies through variable dereference chains
    (`vtn_variable_load`, `vtn_variable_store`, `vtn_variable_copy`).

    A dereference is a variable followed by selectors: struct fields and
    array (or matrix column) indices, which are constants or SSA values.  Its
    tail is the first link of vector or scalar type; one more array selector
    after the tail picks a single component.  Variables of uniform and
    storage blocks are not dereferenced in NIR at all: the chain is turned
    into a block index and a byte offset computed from the `Offset`,
    `ArrayStride` and `MatrixStride` decorations, and the access becomes
    block load or store intrinsics.
 */
module Derefs {
  import opened Wrappers
  import opened Glsl
  import opened Nir
  import opened VtnTypes
  import opened SsaValues
  import Vectors

  /** One link of a dereference chain and the GLSL type it leads to. */
  datatype Selector = Selector(step: Step, ty: GType)

  /** The parts of a `nir_variable` the modelled code reads. */
  datatype Variable = Variable(id: nat, ty: GType, mode: Mode, descSet: int, binding: int, iface: Option<GType>)

  datatype Deref = Deref(v: Variable, sels: seq<Selector>)

  /** The type at link `p`: the variable for 0, selector `p - 1` otherwise. */
  function TypeAt(d: Deref, p: nat): GType
    requires p <= |d.sels|
  {
    if p == 0 then d.v.ty else d.sels[p - 1].ty
  }

  function TailFrom(d: Deref, p: nat): (t: nat)
    requires p <= |d.sels|
    ensures p <= t <= |d.sels|
    ensures t < |d.sels| ==> IsVectorOrScalar(TypeAt(d, t))
    ensures forall q :: p <= q < t ==> !IsVectorOrScalar(TypeAt(d, q))
    decreases |d.sels| - p
  {
    if p == |d.sels| || IsVectorOrScalar(TypeAt(d, p)) then p else TailFrom(d, p + 1)
  }

  /** `get_deref_tail`: the first link of vector or scalar type, or the last
      link when there is none.  The three clauses pin the position down. */
  function Tail(d: Deref): (t: nat)
    ensures t <= |d.sels|
    ensures t < |d.sels| ==> IsVectorOrScalar(TypeAt(d, t))
    ensures forall q :: 0 <= q < t ==> !IsVectorOrScalar(TypeAt(d, q))
  {
    TailFrom(d, 0)
  }

  function Steps(sels: seq<Selector>): (ss: seq<Step>)
    ensures |ss| == |sels| && forall i :: 0 <= i < |sels| ==> ss[i] == sels[i].step
  {
    seq(|sels|, i requires 0 <= i < |sels| => sels[i].step)
  }

  /** `variable_is_external_block`. */
  predicate IsExternalBlock(v: Variable) {
    v.iface.Some? && v.iface.value.GStruct? && (v.mode == Uniform || v.mode == ShaderStorage)
  }

  // ---------------------------------------------------------------------
  // Block layout

  /** The record and byte offset of child `i` of record `ty` in a block:
      struct members sit at their `Offset`, array elements and matrix
      columns at `i` times the stride. */
  function ChildAt(a: Arena, ty: TypeRef, i: nat): (r: Result<(TypeRef, nat)>)
    requires Wf(a) && ty < |a|
    ensures r.Ok? ==> r.value.0 < |a| && a[r.value.0].height < a[ty].height
    ensures a[ty].glsl.GStruct? ==>
              (r.Ok? <==> i < |a[ty].members| && i < |a[ty].offsets| && a[ty].offsets[i].Some?)
              && (r.Ok? ==> r.value == (a[ty].members[i], a[ty].offsets[i].value))
    ensures !a[ty].glsl.GStruct? ==>
              (r.Ok? <==> a[ty].elem.Some?) && (r.Ok? ==> r.value == (a[ty].elem.value, i * a[ty].stride))
  {
    var n := a[ty];
    assert NodeWf(a, n);
    if n.glsl.GStruct? then
      if i >= |n.members| || n.offsets[i].None? then Abort("member without an offset")
      else
        assert n.members[i] in Children(n);
        Ok((n.members[i], n.offsets[i].value))
    else if n.elem.None? then Abort("no element type")
    else
      assert n.elem.value in Children(n);
      Ok((n.elem.value, i * n.stride))
  }

  /** The reference layout: the record reached from `ty` by the child
      indices `path`, and its byte offset as an unbounded integer. */
  function Layout(a: Arena, ty: TypeRef, path: seq<nat>): (r: Result<(TypeRef, nat)>)
    requires Wf(a) && ty < |a|
    ensures r.Ok? ==> r.value.0 < |a|
    decreases |path|
  {
    if |path| == 0 then Ok((ty, 0))
    else
      var c :- ChildAt(a, ty, path[0]);
      var rest :- Layout(a, c.0, path[1..]);
      Ok((rest.0, c.1 + rest.1))
  }

  /** One step of the layout: the child's record and offset, then the rest. */
  lemma LayoutStep(a: Arena, ty: TypeRef, path: seq<nat>)
    requires Wf(a) && ty < |a| && |path| > 0 && ChildAt(a, ty, path[0]).Ok?
    ensures var c := ChildAt(a, ty, path[0]).value;
            var rest := Layout(a, c.0, path[1..]);
            Layout(a, ty, path).Ok? == rest.Ok?
            && (rest.Ok? ==> Layout(a, ty, path).value == (rest.value.0, c.1 + rest.value.1))
  {
  }

  /** The index a selector stands for once evaluated, before any 32-bit
      wrap-around. */
  function IndexOf(env: Env, s: Step): nat {
    match s
    case Direct(n) => n
    case Indirect(base, ix) => base + EvalLane(env, ix, 0)
    case Field(f) => f
  }

  function Indices(env: Env, sels: seq<Selector>): (r: seq<nat>)
    ensures |r| == |sels| && forall i :: 0 <= i < |sels| ==> r[i] == IndexOf(env, sels[i].step)
  {
    seq(|sels|, i requires 0 <= i < |sels| => IndexOf(env, sels[i].step))
  }

  /** The NIR value of an array selector's index: `imm(base_offset)`, plus
      the indirect source when there is one. */
  function ArrayIndex(s: Step): (r: Def)
    requires !s.Field?
    ensures forall env :: EvalLane(env, r, 0) == IndexOf(env, s) % U32
  {
    match s
    case Direct(n) => ImmInt(n)
    case Indirect(base, ix) =>
      assert forall env :: EvalLane(env, Iadd(ImmInt(base), ix), 0) == (base + EvalLane(env, ix, 0)) % U32 by {
        forall env ensures EvalLane(env, Iadd(ImmInt(base), ix), 0) == (base + EvalLane(env, ix, 0)) % U32 {
          ModAddLeft(base, EvalLane(env, ix, 0));
        }
      }
      Iadd(ImmInt(base), ix)
  }

  /** The offset loop of `vtn_block_get_offset`, from link `pos` up to the
      tail: a struct selector adds the member's `Offset`, an array selector
      adds its index times the stride. */
  function OffsetFrom(a: Arena, sels: seq<Selector>, pos: nat, tail: nat, ty: TypeRef, acc: Def): (r: Result<(TypeRef, Def)>)
    requires Wf(a) && ty < |a| && pos <= tail <= |sels|
    ensures r.Ok? ==> r.value.0 < |a|
    decreases tail - pos
  {
    if pos == tail then Ok((ty, acc))
    else
      var n := a[ty];
      assert NodeWf(a, n);
      var s := sels[pos].step;
      if s.Field? then
        if s.index >= |n.members| || n.offsets[s.index].None? then Abort("member without an offset")
        else
          assert n.members[s.index] in Children(n);
          OffsetFrom(a, sels, pos + 1, tail, n.members[s.index], Iadd(acc, ImmInt(n.offsets[s.index].value)))
      else if n.elem.None? then Abort("array selector on a type without elements")
      else
        assert n.elem.value in Children(n);
        OffsetFrom(a, sels, pos + 1, tail, n.elem.value, Iadd(acc, Imul(ArrayIndex(s), ImmInt(n.stride))))
  }

  /** Where a block access goes: the intrinsic, the binding, and the block
      array index. */
  datatype Block = Block(op: BlockOp, descSet: int, binding: int, mode: Mode, index: Def)

  datatype Addr = Addr(ty: TypeRef, index: Def, offset: Def)

  /** `vtn_block_get_offset`: a first array selector picks the block out of an
      array of blocks; the rest of the chain up to the tail becomes a byte
      offset. */
  function BlockGetOffset(a: Arena, d: Deref, ty: TypeRef, tail: nat): (r: Result<Addr>)
    requires Wf(a) && ty < |a| && tail <= |d.sels|
    ensures r.Ok? ==> r.value.ty < |a|
  {
    if |d.sels| == 0 then Abort("block access without a selector")
    else if !d.sels[0].step.Field? then
      if a[ty].elem.None? then Abort("array selector on a type without elements")
      else if tail < 1 then Abort("tail before the block array selector")
      else
        assert NodeWf(a, a[ty]) && a[ty].elem.value in Children(a[ty]);
        var p :- OffsetFrom(a, d.sels, 1, tail, a[ty].elem.value, ImmInt(0));
        Ok(Addr(p.0, ArrayIndex(d.sels[0].step), p.1))
    else
      var p :- OffsetFrom(a, d.sels, 0, tail, ty, ImmInt(0));
      Ok(Addr(p.0, ImmInt(0), p.1))
  }

  /** Adding `x` and then `y` at 32 bits is adding `x + y` once. */
  lemma AddTwice(o: nat, x: nat, y: nat)
    ensures ((o + x % U32) % U32 + y) % U32 == (o + (x + y)) % U32
  {
    ModAddLeft(o + x % U32, y);
    ModAddLeft(x, o + y);
  }

  /** A struct selector's step: add the member offset at 32 bits. */
  lemma FieldStepEval(env: Env, acc: Def, o: nat)
    ensures EvalLane(env, Iadd(acc, ImmInt(o)), 0) == (EvalLane(env, acc, 0) + o % U32) % U32
  {
  }

  /** An array selector's step: add index times stride at 32 bits. */
  lemma ArrayStepEval(env: Env, acc: Def, s: Step, stride: nat)
    requires !s.Field? && stride < U32
    ensures EvalLane(env, Iadd(acc, Imul(ArrayIndex(s), ImmInt(stride))), 0)
            == (EvalLane(env, acc, 0) + (IndexOf(env, s) * stride) % U32) % U32
  {
    var i := IndexOf(env, s);
    var off := Imul(ArrayIndex(s), ImmInt(stride));
    assert EvalLane(env, off, 0) == (i % U32 * stride) % U32;
    ModMulLeft(i, stride);
  }

  /** Two links of the offset chain at 32 bits: the running offset `x` after
      adding `c` and then `r` to `a` is `a + (c + r)` reduced once. */
  lemma SumStep(x: nat, e: nat, r: nat, a: nat, c: nat)
    requires e == (a + c % U32) % U32 && SumsTo(x, e, r)
    ensures SumsTo(x, a, c + r)
  {
    AddTwice(a, c, r);
  }


  /** The emitted offset evaluates to the reference layout's offset, reduced
      to 32 bits, and reaches the same record. */
  lemma {:induction false} OffsetFromIsLayout(env: Env, a: Arena, sels: seq<Selector>, pos: nat, tail: nat, ty: TypeRef, acc: Def)
    requires Wf(a) && ty < |a| && pos <= tail <= |sels|
    requires OffsetFrom(a, sels, pos, tail, ty, acc).Ok?
    ensures OffsetAgrees(env, a, sels, pos, tail, ty, acc)
    decreases tail - pos
  {
    if pos == tail {
      var A := EvalLane(env, acc, 0);
      assert Indices(env, sels[pos..tail]) == [];
      assert A < U32 && (A + 0) % U32 == A;
    } else {
      var c, next := OffsetFromNext(env, a, sels, pos, tail, ty, acc);
      OffsetFromIsLayout(env, a, sels, pos + 1, tail, c.0, next);
      OffsetFromStep(env, a, sels, pos, tail, ty, acc, c, next);
    }
  }

  /** What `OffsetFromIsLayout` states for one start: the emitted offset and
      record agree with the reference layout of the indices. */
  predicate OffsetAgrees(env: Env, a: Arena, sels: seq<Selector>, pos: nat, tail: nat, ty: TypeRef, acc: Def)
    requires Wf(a) && ty < |a| && pos <= tail <= |sels|
  {
    var l := Layout(a, ty, Indices(env, sels[pos..tail]));
    var r := OffsetFrom(a, sels, pos, tail, ty, acc);
    r.Ok? && l.Ok? && r.value.0 == l.value.0 && SumsTo(EvalLane(env, r.value.1, 0), EvalLane(env, acc, 0), l.value.1)
  }

  /** `x` is `a + l` at 32 bits. */
  predicate SumsTo(x: nat, a: nat, l: nat) {
    x == (a + l) % U32
  }

  /** One link of the offset loop: the child it moves to, the offset it adds
      (the child's layout offset at 32 bits), and the loop continuing there. */
  lemma OffsetFromNext(env: Env, a: Arena, sels: seq<Selector>, pos: nat, tail: nat, ty: TypeRef, acc: Def)
      returns (c: (TypeRef, nat), next: Def)
    requires Wf(a) && ty < |a| && pos < tail <= |sels|
    requires OffsetFrom(a, sels, pos, tail, ty, acc).Ok?
    ensures ChildAt(a, ty, IndexOf(env, sels[pos].step)) == Ok(c)
    ensures EvalLane(env, next, 0) == (EvalLane(env, acc, 0) + c.1 % U32) % U32
    ensures OffsetFrom(a, sels, pos, tail, ty, acc) == OffsetFrom(a, sels, pos + 1, tail, c.0, next)
  {
    var n := a[ty];
    assert NodeWf(a, n);
    var s := sels[pos].step;
    if s.Field? {
      next := Iadd(acc, ImmInt(n.offsets[s.index].value));
      FieldStepEval(env, acc, n.offsets[s.index].value);
    } else {
      next := Iadd(acc, Imul(ArrayIndex(s), ImmInt(n.stride)));
      assert n.stride < U32;
      ArrayStepEval(env, acc, s, n.stride);
    }
    c := ChildAt(a, ty, IndexOf(env, s)).value;
  }

  lemma OffsetFromStep(env: Env, a: Arena, sels: seq<Selector>, pos: nat, tail: nat, ty: TypeRef, acc: Def,
                       c: (TypeRef, nat), next: Def)
    requires Wf(a) && ty < |a| && pos < tail <= |sels| && c.0 < |a|
    requires ChildAt(a, ty, IndexOf(env, sels[pos].step)) == Ok(c)
    requires EvalLane(env, next, 0) == (EvalLane(env, acc, 0) + c.1 % U32) % U32
    requires OffsetFrom(a, sels, pos, tail, ty, acc) == OffsetFrom(a, sels, pos + 1, tail, c.0, next)
    requires OffsetAgrees(env, a, sels, pos + 1, tail, c.0, next)
    ensures OffsetAgrees(env, a, sels, pos, tail, ty, acc)
  {
    var q, l := AgreesParts(env, a, sels, pos + 1, tail, c.0, next);
    var x, e, b := EvalLane(env, q.1, 0), EvalLane(env, next, 0), EvalLane(env, acc, 0);
    var sum: nat := c.1 + l.1;
    SumStep(x, e, l.1, b, c.1);
    LayoutOfLink(env, a, sels, pos, tail, ty, c);
    AgreesOf(env, a, sels, pos, tail, ty, acc, q, (l.0, sum));
  }

  /** `OffsetAgrees` from its parts. */
  lemma AgreesOf(env: Env, a: Arena, sels: seq<Selector>, pos: nat, tail: nat, ty: TypeRef, acc: Def,
                 q: (TypeRef, Def), l: (TypeRef, nat))
    requires Wf(a) && ty < |a| && pos <= tail <= |sels|
    requires OffsetFrom(a, sels, pos, tail, ty, acc) == Ok(q)
    requires Layout(a, ty, Indices(env, sels[pos..tail])) == Ok(l)
    requires q.0 == l.0 && SumsTo(EvalLane(env, q.1, 0), EvalLane(env, acc, 0), l.1)
    ensures OffsetAgrees(env, a, sels, pos, tail, ty, acc)
  {
  }

  /** The parts of `OffsetAgrees`, named. */
  lemma AgreesParts(env: Env, a: Arena, sels: seq<Selector>, pos: nat, tail: nat, ty: TypeRef, acc: Def)
      returns (q: (TypeRef, Def), l: (TypeRef, nat))
    requires Wf(a) && ty < |a| && pos <= tail <= |sels|
    requires OffsetAgrees(env, a, sels, pos, tail, ty, acc)
    ensures OffsetFrom(a, sels, pos, tail, ty, acc) == Ok(q)
    ensures Layout(a, ty, Indices(env, sels[pos..tail])) == Ok(l)
    ensures q.0 == l.0 && SumsTo(EvalLane(env, q.1, 0), EvalLane(env, acc, 0), l.1)
  {
    q := OffsetFrom(a, sels, pos, tail, ty, acc).value;
    l := Layout(a, ty, Indices(env, sels[pos..tail])).value;
  }

  /** The reference layout from link `pos` is the child's offset plus the
      layout from the next link. */
  lemma LayoutOfLink(env: Env, a: Arena, sels: seq<Selector>, pos: nat, tail: nat, ty: TypeRef, c: (TypeRef, nat))
    requires Wf(a) && ty < |a| && pos < tail <= |sels| && c.0 < |a|
    requires ChildAt(a, ty, IndexOf(env, sels[pos].step)) == Ok(c)
    ensures var rest := Layout(a, c.0, Indices(env, sels[pos + 1..tail]));
            Layout(a, ty, Indices(env, sels[pos..tail]))
            == if rest.Ok? then Ok((rest.value.0, c.1 + rest.value.1)) else rest
  {
    var path := Indices(env, sels[pos..tail]);
    assert path[0] == IndexOf(env, sels[pos].step);
    assert path[1..] == Indices(env, sels[pos + 1..tail]);
    LayoutStep(a, ty, path);
  }

  /** The block index is the first array selector's index (0 when the chain
      starts with a field); the offset is the reference layout of the
      selectors after it, up to the tail, reduced to 32 bits. */
  lemma BlockOffsetIsLayout(env: Env, a: Arena, d: Deref, ty: TypeRef, tail: nat)
    requires Wf(a) && ty < |a| && tail <= |d.sels|
    requires BlockGetOffset(a, d, ty, tail).Ok?
    ensures |d.sels| > 0
    ensures !d.sels[0].step.Field? ==> 1 <= tail && a[ty].elem.Some? && a[ty].elem.value < |a|
    ensures var r := BlockGetOffset(a, d, ty, tail).value;
            var first := if d.sels[0].step.Field? then 0 else 1;
            var base := if first == 1 then a[ty].elem.value else ty;
            var l := Layout(a, base, Indices(env, d.sels[first..tail]));
            l.Ok? && r.ty == l.value.0 && EvalLane(env, r.offset, 0) == l.value.1 % U32
            && EvalLane(env, r.index, 0) == if first == 1 then IndexOf(env, d.sels[0].step) % U32 else 0
  {
    if d.sels[0].step.Field? {
      BlockOffsetOfField(env, a, d, ty, tail);
    } else {
      BlockOffsetOfArray(env, a, d, ty, tail);
    }
  }

  lemma BlockOffsetOfField(env: Env, a: Arena, d: Deref, ty: TypeRef, tail: nat)
    requires Wf(a) && ty < |a| && tail <= |d.sels| && |d.sels| > 0 && d.sels[0].step.Field?
    requires BlockGetOffset(a, d, ty, tail).Ok?
    ensures var r := BlockGetOffset(a, d, ty, tail).value;
            var l := Layout(a, ty, Indices(env, d.sels[0..tail]));
            l.Ok? && r.ty == l.value.0 && EvalLane(env, r.offset, 0) == l.value.1 % U32
            && EvalLane(env, r.index, 0) == 0
  {
    var zero := ImmInt(0);
    var q := OffsetFrom(a, d.sels, 0, tail, ty, zero);
    assert BlockGetOffset(a, d, ty, tail) == Ok(Addr(q.value.0, zero, q.value.1));
    OffsetFromIsLayout(env, a, d.sels, 0, tail, ty, zero);
    assert EvalLane(env, zero, 0) == 0;
  }

  lemma BlockOffsetOfArray(env: Env, a: Arena, d: Deref, ty: TypeRef, tail: nat)
    requires Wf(a) && ty < |a| && tail <= |d.sels| && |d.sels| > 0 && !d.sels[0].step.Field?
    requires BlockGetOffset(a, d, ty, tail).Ok?
    ensures 1 <= tail && a[ty].elem.Some? && a[ty].elem.value < |a|
    ensures var r := BlockGetOffset(a, d, ty, tail).value;
            var l := Layout(a, a[ty].elem.value, Indices(env, d.sels[1..tail]));
            l.Ok? && r.ty == l.value.0 && EvalLane(env, r.offset, 0) == l.value.1 % U32
            && EvalLane(env, r.index, 0) == IndexOf(env, d.sels[0].step) % U32
  {
    BlockArrayAddr(a, d, ty, tail);
    BlockArrayOffset(env, a, d, ty, tail);
  }

  /** The offset part of `BlockOffsetOfArray`. */
  lemma BlockArrayOffset(env: Env, a: Arena, d: Deref, ty: TypeRef, tail: nat)
    requires Wf(a) && ty < |a| && tail <= |d.sels| && |d.sels| > 0 && !d.sels[0].step.Field?
    requires 1 <= tail && a[ty].elem.Some? && a[ty].elem.value < |a|
    requires OffsetFrom(a, d.sels, 1, tail, a[ty].elem.value, ImmInt(0)).Ok?
    ensures var q := OffsetFrom(a, d.sels, 1, tail, a[ty].elem.value, ImmInt(0)).value;
            var l := Layout(a, a[ty].elem.value, Indices(env, d.sels[1..tail]));
            l.Ok? && q.0 == l.value.0 && EvalLane(env, q.1, 0) == l.value.1 % U32
  {
    var zero := ImmInt(0);
    OffsetFromIsLayout(env, a, d.sels, 1, tail, a[ty].elem.value, zero);
    assert EvalLane(env, zero, 0) == 0;
  }

  /** A block access through an array of blocks: the block index is the first
      selector's and the offset loop starts at the element record. */
  lemma BlockArrayAddr(a: Arena, d: Deref, ty: TypeRef, tail: nat)
    requires Wf(a) && ty < |a| && tail <= |d.sels| && |d.sels| > 0 && !d.sels[0].step.Field?
    requires BlockGetOffset(a, d, ty, tail).Ok?
    ensures 1 <= tail && a[ty].elem.Some? && a[ty].elem.value < |a|
    ensures var q := OffsetFrom(a, d.sels, 1, tail, a[ty].elem.value, ImmInt(0));
            q.Ok? && BlockGetOffset(a, d, ty, tail) == Ok(Addr(q.value.0, ArrayIndex(d.sels[0].step), q.value.1))
  {
    assert NodeWf(a, a[ty]);
    assert a[ty].elem.value in Children(a[ty]);
  }

  // ---------------------------------------------------------------------
  // Block loads and stores

  /** The intrinsic `vtn_block_load` picks: a UBO load for a uniform with a
      descriptor set (whose binding must then be set too), a push constant
      load for a uniform with set and binding -1, an SSBO load for storage. */
  function BlockOpFor(v: Variable): (r: Result<BlockOp>)
    ensures r == Ok(LoadUbo) <==> v.mode == Uniform && v.descSet >= 0 && v.binding >= 0
    ensures r == Ok(LoadPushConstant) <==> v.mode == Uniform && v.descSet == -1 && v.binding == -1
    ensures r == Ok(LoadSsbo) <==> v.mode == ShaderStorage
    ensures r.Ok? ==> r.value != StoreSsbo
  {
    if v.mode == Uniform then
      if v.descSet >= 0 then
        if v.binding >= 0 then Ok(LoadUbo) else Abort("UBO without a binding")
      else if v.descSet == -1 && v.binding == -1 then Ok(LoadPushConstant)
      else Abort("push constant with a binding")
    else if v.mode == ShaderStorage then Ok(LoadSsbo)
    else Abort("block load from a variable that is not a block")
  }

  /** A vector or scalar read from a block; booleans are fixed up from
      zero/nonzero to `NIR_FALSE`/`NIR_TRUE`.  A push constant load takes no
      block index. */
  function BlockLeaf(blk: Block, offset: Def, t: GType): Def
    requires t.GVec?
  {
    var index := if blk.op == LoadPushConstant then ImmInt(0) else blk.index;
    var raw := BlockLoad(blk.op, blk.descSet, blk.binding, blk.mode, index, offset, t.n);
    if t.base == BoolT then Ine(raw, ImmInt(0)) else raw
  }

  /** Component `k` of a block read of type `t` at byte `offset`. */
  function BlockLeafValue(env: Env, blk: Block, offset: nat, t: GType, k: nat): nat
    requires t.GVec?
  {
    var index := if blk.op == LoadPushConstant then 0 else EvalLane(env, blk.index, 0);
    var raw := Get(env.block(blk.op, blk.descSet, blk.binding, index, offset, t.n), k);
    if t.base == BoolT then (if raw != 0 then NirTrue else NirFalse) else raw
  }

  lemma BlockLeafReads(env: Env, blk: Block, offset: Def, t: GType, k: nat)
    requires t.GVec? && k < t.n
    ensures EvalLane(env, BlockLeaf(blk, offset, t), k) == BlockLeafValue(env, blk, EvalLane(env, offset, 0), t, k)
  {
  }

  /** `_vtn_block_load`: the value tree of record `ty` read from the block at
      `offset`, one load per vector or scalar. */
  function BlockLoadValue(a: Arena, blk: Block, offset: Def, ty: TypeRef): (r: Result<Ssa>)
    requires Wf(a) && ty < |a|
    ensures r.Ok? ==> r.value.ty == a[ty].glsl && Complete(r.value) && Unlinked(r.value)
    ensures r.Ok? ==> (a[ty].glsl.GVec? <==> r.value.def.Some?)
    ensures r.Ok? && !a[ty].glsl.GVec? ==> |r.value.elems| == Length(a[ty].glsl)
    decreases a[ty].height, 2, 0
  {
    var t := a[ty].glsl;
    if t.GVec? then Ok(Ssa(t, Some(BlockLeaf(blk, offset, t)), [], None))
    else
      var es :- BlockLoadElems(a, blk, offset, ty, 0);
      Ok(Ssa(t, None, es, None))
  }

  /** Child `i` of record `ty`, loaded at its offset from `offset`. */
  function ChildLoad(a: Arena, blk: Block, offset: Def, ty: TypeRef, i: nat): (r: Result<Ssa>)
    requires Wf(a) && ty < |a|
    ensures r.Ok? ==> Complete(r.value) && Unlinked(r.value)
    decreases a[ty].height, 0, 0
  {
    var c :- ChildAt(a, ty, i);
    BlockLoadValue(a, blk, Iadd(offset, ImmInt(c.1)), c.0)
  }

  function BlockLoadElems(a: Arena, blk: Block, offset: Def, ty: TypeRef, i: nat): (r: Result<seq<Ssa>>)
    requires Wf(a) && ty < |a| && i <= Length(a[ty].glsl)
    ensures r.Ok? ==> |r.value| == Length(a[ty].glsl) - i
    ensures r.Ok? ==> forall k :: 0 <= k < |r.value| ==> ChildLoad(a, blk, offset, ty, i + k) == Ok(r.value[k])
    ensures r.Ok? ==> forall k :: 0 <= k < |r.value| ==> Complete(r.value[k]) && Unlinked(r.value[k])
    decreases a[ty].height, 1, Length(a[ty].glsl) - i
  {
    if i == Length(a[ty].glsl) then Ok([])
    else
      var v :- ChildLoad(a, blk, offset, ty, i);
      var rest :- BlockLoadElems(a, blk, offset, ty, i + 1);
      Ok([v] + rest)
  }

  /** The indices of `path` stay within the lengths of the types they index. */
  predicate Within(a: Arena, ty: TypeRef, path: seq<nat>)
    requires Wf(a) && ty < |a|
    decreases |path|
  {
    |path| == 0
    || (path[0] < Length(a[ty].glsl) && ChildAt(a, ty, path[0]).Ok?
        && Within(a, ChildAt(a, ty, path[0]).value.0, path[1..]))
  }

  /** Every part of a value loaded from a block comes from the place the
      reference layout gives it: extracting along `path` reaches a value of
      the record's type, and a vector or scalar reached that way reads the
      block at the loaded offset plus the layout offset, at 32 bits. */
  lemma {:induction false} BlockLoadReads(env: Env, a: Arena, blk: Block, offset: Def, ty: TypeRef, path: seq<nat>)
    requires Wf(a) && ty < |a|
    requires BlockLoadValue(a, blk, offset, ty).Ok? && Within(a, ty, path)
    ensures ReadsAt(env, a, blk, BlockLoadValue(a, blk, offset, ty).value, EvalLane(env, offset, 0), ty, path)
    decreases |path|
  {
    if |path| == 0 {
      BlockLoadHere(env, a, blk, offset, ty);
    } else {
      var c := ChildAt(a, ty, path[0]).value;
      var offset' := Iadd(offset, ImmInt(c.1));
      BlockLoadChild(a, blk, offset, ty, path);
      BlockLoadReads(env, a, blk, offset', c.0, path[1..]);
      BlockLoadLink(env, a, blk, offset, ty, path, c);
    }
  }

  /** `BlockLoadStep` for the value `BlockLoadValue` builds at `offset`. */
  lemma BlockLoadLink(env: Env, a: Arena, blk: Block, offset: Def, ty: TypeRef, path: seq<nat>, c: (TypeRef, nat))
    requires Wf(a) && ty < |a| && |path| > 0 && ChildAt(a, ty, path[0]) == Ok(c)
    requires BlockLoadValue(a, blk, offset, ty).Ok? && Within(a, ty, path)
    requires BlockLoadValue(a, blk, Iadd(offset, ImmInt(c.1)), c.0).Ok?
    requires ReadsAt(env, a, blk, BlockLoadValue(a, blk, Iadd(offset, ImmInt(c.1)), c.0).value,
                     EvalLane(env, Iadd(offset, ImmInt(c.1)), 0), c.0, path[1..])
    ensures ReadsAt(env, a, blk, BlockLoadValue(a, blk, offset, ty).value, EvalLane(env, offset, 0), ty, path)
  {
    var offset' := Iadd(offset, ImmInt(c.1));
    BlockLoadChild(a, blk, offset, ty, path);
    FieldStepEval(env, offset, c.1);
    BlockLoadStep(env, a, blk, BlockLoadValue(a, blk, offset, ty).value, EvalLane(env, offset, 0), ty, path,
                  c, BlockLoadValue(a, blk, offset', c.0).value, EvalLane(env, offset', 0));
  }

  /** What `BlockLoadReads` states about one record and path, for a block
      offset whose value is `base`. */
  predicate ReadsAt(env: Env, a: Arena, blk: Block, v: Ssa, base: nat, ty: TypeRef, path: seq<nat>)
    requires Wf(a) && ty < |a|
  {
    Layout(a, ty, path).Ok?
    && var l := Layout(a, ty, path).value;
       var x := Extract(v, path);
       x.Ok? && x.value.ty == a[l.0].glsl
       && LeafReads(env, blk, x.value, (base + l.1) % U32)
  }

  /** The inductive step of `BlockLoadReads`. */
  lemma BlockLoadStep(env: Env, a: Arena, blk: Block, v: Ssa, base: nat, ty: TypeRef, path: seq<nat>,
                      c: (TypeRef, nat), child: Ssa, base': nat)
    requires Wf(a) && ty < |a| && |path| > 0 && ChildAt(a, ty, path[0]) == Ok(c) && c.0 < |a|
    requires base' == (base + c.1 % U32) % U32
    requires Extract(v, path) == Extract(child, path[1..])
    requires ReadsAt(env, a, blk, child, base', c.0, path[1..])
    ensures ReadsAt(env, a, blk, v, base, ty, path)
  {
    var rest, x := ReadsParts(env, a, blk, child, base', c.0, path[1..]);
    LayoutStep(a, ty, path);
    SumStep((base' + rest.1) % U32, base', rest.1, base, c.1);
  }

  /** The parts of `ReadsAt`, named. */
  lemma ReadsParts(env: Env, a: Arena, blk: Block, v: Ssa, base: nat, ty: TypeRef, path: seq<nat>)
      returns (l: (TypeRef, nat), x: Ssa)
    requires Wf(a) && ty < |a| && ReadsAt(env, a, blk, v, base, ty, path)
    ensures Layout(a, ty, path) == Ok(l) && Extract(v, path) == Ok(x)
    ensures x.ty == a[l.0].glsl && LeafReads(env, blk, x, (base + l.1) % U32)
  {
    l := Layout(a, ty, path).value;
    x := Extract(v, path).value;
  }

  lemma BlockLoadHere(env: Env, a: Arena, blk: Block, offset: Def, ty: TypeRef)
    requires Wf(a) && ty < |a| && BlockLoadValue(a, blk, offset, ty).Ok?
    ensures ReadsAt(env, a, blk, BlockLoadValue(a, blk, offset, ty).value, EvalLane(env, offset, 0), ty, [])
  {
    var v := BlockLoadValue(a, blk, offset, ty).value;
    var A := EvalLane(env, offset, 0);
    assert (A + 0) % U32 == A;
    if a[ty].glsl.GVec? {
      forall k | 0 <= k < a[ty].glsl.n
        ensures EvalLane(env, v.def.value, k) == BlockLeafValue(env, blk, EvalLane(env, offset, 0), a[ty].glsl, k)
      {
        BlockLeafReads(env, blk, offset, a[ty].glsl, k);
      }
    }
  }

  /** A vector or scalar value `x` reads the block at byte `off`. */
  predicate LeafReads(env: Env, blk: Block, x: Ssa, off: nat) {
    x.ty.GVec? ==>
      x.def.Some? && forall k :: 0 <= k < x.ty.n ==> EvalLane(env, x.def.value, k) == BlockLeafValue(env, blk, off, x.ty, k)
  }

  /** Extracting along a path from a loaded record goes through the child
      loaded at the first index's offset. */
  lemma BlockLoadChild(a: Arena, blk: Block, offset: Def, ty: TypeRef, path: seq<nat>)
    requires Wf(a) && ty < |a| && |path| > 0
    requires BlockLoadValue(a, blk, offset, ty).Ok? && Within(a, ty, path)
    ensures ChildAt(a, ty, path[0]).Ok?
    ensures var c := ChildAt(a, ty, path[0]).value;
            var child := BlockLoadValue(a, blk, Iadd(offset, ImmInt(c.1)), c.0);
            child.Ok? && Within(a, c.0, path[1..])
            && Extract(BlockLoadValue(a, blk, offset, ty).value, path) == Extract(child.value, path[1..])
  {
    var v := BlockLoadValue(a, blk, offset, ty).value;
    var es := BlockLoadElems(a, blk, offset, ty, 0);
    assert !a[ty].glsl.GVec? && es.Ok? && v.elems == es.value;
    assert ChildLoad(a, blk, offset, ty, 0 + path[0]) == Ok(v.elems[path[0]]);
  }

  /** `(1 << n) - 1`: the write mask covering `n` components. */
  function Mask(n: nat): nat {
    Pow2(n) - 1
  }

  /** The side effects of a load/store sequence: variable stores, block
      stores and whole-variable copies, in emission order. */
  datatype Effect =
    | StoreVar(variable: nat, path: seq<Step>, value: Def, mask: nat)
    | StoreBlock(blk: Block, offset: Def, value: Def, mask: nat)
    | CopyVar(dest: Deref, src: Deref)

  /** The values written by a list of stores, in order. */
  function Stored(es: seq<Effect>): seq<Def> {
    if |es| == 0 then []
    else (if es[0].CopyVar? then [] else [es[0].value]) + Stored(es[1..])
  }

  lemma {:induction false} StoredAppend(x: seq<Effect>, y: seq<Effect>)
    ensures Stored(x + y) == Stored(x) + Stored(y)
    decreases |x|
  {
    if |x| == 0 {
      assert x + y == y;
    } else {
      var h := if x[0].CopyVar? then [] else [x[0].value];
      assert (x + y)[0] == x[0] && (x + y)[1..] == x[1..] + y;
      StoredAppend(x[1..], y);
      assert Stored(x + y) == h + (Stored(x[1..]) + Stored(y));
      assert h + (Stored(x[1..]) + Stored(y)) == (h + Stored(x[1..])) + Stored(y);
    }
  }

  lemma LeavesOfStep(vs: seq<Ssa>, i: nat)
    requires i < |vs| && forall k :: i <= k < |vs| ==> Complete(vs[k])
    ensures LeavesOf(vs[i..]) == Leaves(vs[i]) + LeavesOf(vs[i + 1..])
  {
    assert vs[i..][1..] == vs[i + 1..];
  }

  /** `_vtn_block_store`: one SSBO store per vector or scalar of `src`, each
      at its member's offset with a full write mask; the value must have the
      record's type at every level. */
  function BlockStoreValue(a: Arena, blk: Block, src: Ssa, offset: Def, ty: TypeRef): (r: Result<seq<Effect>>)
    requires Wf(a) && ty < |a|
    ensures r.Ok? ==> src.ty == a[ty].glsl
    ensures r.Ok? ==> forall e :: e in r.value ==> e.StoreBlock? && e.blk == blk
    ensures r.Ok? && Shaped(src) ==> Complete(src) && Stored(r.value) == Leaves(src)
    decreases a[ty].height, 1, 0
  {
    var t := a[ty].glsl;
    if src.ty != t then Abort("stored value has another type")
    else if t.GVec? then
      if src.def.None? then Abort("vector without a definition")
      else
        var r := [StoreBlock(blk, offset, src.def.value, Mask(t.n))];
        assert Stored(r) == [src.def.value] + Stored([]);
        Ok(r)
    else
      var r :- BlockStoreElems(a, blk, src, offset, ty, 0);
      assert Shaped(src) ==> src.elems[0..] == src.elems;
      Ok(r)
  }

  function BlockStoreElems(a: Arena, blk: Block, src: Ssa, offset: Def, ty: TypeRef, i: nat): (r: Result<seq<Effect>>)
    requires Wf(a) && ty < |a| && !a[ty].glsl.GVec? && src.ty == a[ty].glsl
    ensures r.Ok? ==> forall e :: e in r.value ==> e.StoreBlock? && e.blk == blk
    ensures r.Ok? && Shaped(src) && i <= |src.elems| ==>
              (forall k :: i <= k < |src.elems| ==> Complete(src.elems[k]))
              && Stored(r.value) == LeavesOf(src.elems[i..])
    decreases a[ty].height, 0, Length(a[ty].glsl) - i
  {
    if i >= Length(a[ty].glsl) then Ok([])
    else if i >= |src.elems| then Abort("value has too few elements")
    else
      var c :- ChildAt(a, ty, i);
      var first :- BlockStoreValue(a, blk, src.elems[i], Iadd(offset, ImmInt(c.1)), c.0);
      var rest :- BlockStoreElems(a, blk, src, offset, ty, i + 1);
      StoreElemsLink(blk, src, i, first, rest);
      Ok(first + rest)
  }

  /** One step of `BlockStoreElems`: the stores for child `i` followed by
      those for the later children store the leaves of children `i..`. */
  lemma StoreElemsLink(blk: Block, src: Ssa, i: nat, first: seq<Effect>, rest: seq<Effect>)
    requires i < |src.elems|
    requires forall e :: e in first ==> e.StoreBlock? && e.blk == blk
    requires forall e :: e in rest ==> e.StoreBlock? && e.blk == blk
    requires Shaped(src.elems[i]) ==> Complete(src.elems[i]) && Stored(first) == Leaves(src.elems[i])
    requires Shaped(src) && i + 1 <= |src.elems| ==>
               (forall k :: i + 1 <= k < |src.elems| ==> Complete(src.elems[k]))
               && Stored(rest) == LeavesOf(src.elems[i + 1..])
    ensures forall e :: e in first + rest ==> e.StoreBlock? && e.blk == blk
    ensures Shaped(src) ==>
              (forall k :: i <= k < |src.elems| ==> Complete(src.elems[k]))
              && Stored(first + rest) == LeavesOf(src.elems[i..])
  {
    AllBlockStores(blk, first, rest);
    if Shaped(src) {
      StoredLink(src, i, first, rest);
    }
  }

  /** Two lists of stores to `blk` concatenate to one. */
  lemma AllBlockStores(blk: Block, first: seq<Effect>, rest: seq<Effect>)
    requires forall e :: e in first ==> e.StoreBlock? && e.blk == blk
    requires forall e :: e in rest ==> e.StoreBlock? && e.blk == blk
    ensures forall e :: e in first + rest ==> e.StoreBlock? && e.blk == blk
  {
    forall e | e in first + rest
      ensures e.StoreBlock? && e.blk == blk
    {
      assert e in first || e in rest;
    }
  }

  /** The stored values of child `i` followed by those of children `i + 1..`
      are the leaves of children `i..`. */
  lemma StoredLink(src: Ssa, i: nat, first: seq<Effect>, rest: seq<Effect>)
    requires i < |src.elems| && Shaped(src)
    requires Shaped(src.elems[i]) ==> Complete(src.elems[i]) && Stored(first) == Leaves(src.elems[i])
    requires (forall k :: i + 1 <= k < |src.elems| ==> Complete(src.elems[k]))
             && Stored(rest) == LeavesOf(src.elems[i + 1..])
    ensures (forall k :: i <= k < |src.elems| ==> Complete(src.elems[k]))
            && Stored(first + rest) == LeavesOf(src.elems[i..])
  {
    StoredAppend(first, rest);
    ShapedChild(src, i);
    assert Complete(src.elems[i]);
    LeavesOfStep(src.elems, i);
  }

  lemma ShapedChild(v: Ssa, i: nat)
    requires Shaped(v) && i < |v.elems|
    ensures Shaped(v.elems[i])
  {
    assert !v.ty.GVec?;
  }

  /** `path` leads from record `ty` through records that are not vectors,
      each index in range and each child laid out, to a vector or scalar:
      the leaves `_vtn_block_store` writes one store each. */
  predicate LeafPath(a: Arena, ty: TypeRef, path: seq<nat>)
    requires Wf(a) && ty < |a|
    decreases |path|
  {
    if |path| == 0 then a[ty].glsl.GVec?
    else !a[ty].glsl.GVec? && path[0] < Length(a[ty].glsl) && ChildAt(a, ty, path[0]).Ok?
         && LeafPath(a, ChildAt(a, ty, path[0]).value.0, path[1..])
  }

  /** The partner of `BlockLoadReads`: every vector or scalar of a value
      stored to a block is written, whole, where the reference layout puts
      it: at the store's offset plus the layout offset of its path, at 32
      bits.  `o` is the offset expression of that store. */
  lemma {:induction false} BlockStoreWrites(env: Env, a: Arena, blk: Block, src: Ssa, offset: Def, ty: TypeRef, path: seq<nat>)
      returns (o: Def)
    requires Wf(a) && ty < |a|
    requires BlockStoreValue(a, blk, src, offset, ty).Ok? && LeafPath(a, ty, path)
    ensures WritesAt(env, a, blk, BlockStoreValue(a, blk, src, offset, ty).value, EvalLane(env, offset, 0), ty, src, path, o)
    decreases |path|
  {
    if |path| == 0 {
      o := offset;
      BlockStoreHere(env, a, blk, src, offset, ty);
    } else {
      var c, x := BlockStoreChild(a, blk, src, offset, ty, path);
      var offset' := Iadd(offset, ImmInt(c.1));
      o := BlockStoreWrites(env, a, blk, x, offset', c.0, path[1..]);
      FieldStepEval(env, offset, c.1);
      BlockStoreStep(env, a, blk, BlockStoreValue(a, blk, src, offset, ty).value,
                     BlockStoreValue(a, blk, x, offset', c.0).value, EvalLane(env, offset, 0),
                     EvalLane(env, offset', 0), ty, path, c, src, x, o);
    }
  }

  /** What `BlockStoreWrites` states about one leaf path: among the stores
      `es` is one writing the leaf's whole definition with a full mask at an
      offset `o` that evaluates to `base` plus the path's layout offset. */
  predicate WritesAt(env: Env, a: Arena, blk: Block, es: seq<Effect>, base: nat, ty: TypeRef, src: Ssa,
                     path: seq<nat>, o: Def)
    requires Wf(a) && ty < |a|
  {
    Layout(a, ty, path).Ok? && Extract(src, path).Ok?
    && var x := Extract(src, path).value;
       x.ty.GVec? && x.def.Some?
       && StoreBlock(blk, o, x.def.value, Mask(x.ty.n)) in es
       && EvalLane(env, o, 0) == (base + Layout(a, ty, path).value.1) % U32
  }

  /** The inductive step of `BlockStoreWrites`. */
  lemma BlockStoreStep(env: Env, a: Arena, blk: Block, es: seq<Effect>, es': seq<Effect>, base: nat, base': nat,
                       ty: TypeRef, path: seq<nat>, c: (TypeRef, nat), src: Ssa, x: Ssa, o: Def)
    requires Wf(a) && ty < |a| && |path| > 0 && ChildAt(a, ty, path[0]) == Ok(c) && c.0 < |a|
    requires base' == (base + c.1 % U32) % U32
    requires Extract(src, path) == Extract(x, path[1..])
    requires forall e :: e in es' ==> e in es
    requires WritesAt(env, a, blk, es', base', c.0, x, path[1..], o)
    ensures WritesAt(env, a, blk, es, base, ty, src, path, o)
  {
    LayoutStep(a, ty, path);
    var l := Layout(a, c.0, path[1..]).value;
    SumStep(EvalLane(env, o, 0), base', l.1, base, c.1);
  }

  /** A vector or scalar is stored whole at the store's own offset. */
  lemma BlockStoreHere(env: Env, a: Arena, blk: Block, src: Ssa, offset: Def, ty: TypeRef)
    requires Wf(a) && ty < |a| && a[ty].glsl.GVec?
    requires BlockStoreValue(a, blk, src, offset, ty).Ok?
    ensures WritesAt(env, a, blk, BlockStoreValue(a, blk, src, offset, ty).value, EvalLane(env, offset, 0), ty, src, [], offset)
  {
    assert EvalLane(env, offset, 0) < U32;
  }

  /** The child a leaf path passes through first: its stores, at its
      member's offset, are among the record's, and extracting along the
      path goes through it. */
  lemma BlockStoreChild(a: Arena, blk: Block, src: Ssa, offset: Def, ty: TypeRef, path: seq<nat>)
      returns (c: (TypeRef, nat), x: Ssa)
    requires Wf(a) && ty < |a| && |path| > 0
    requires BlockStoreValue(a, blk, src, offset, ty).Ok? && LeafPath(a, ty, path)
    ensures ChildAt(a, ty, path[0]) == Ok(c) && c.0 < |a|
    ensures var s := BlockStoreValue(a, blk, x, Iadd(offset, ImmInt(c.1)), c.0);
            s.Ok? && LeafPath(a, c.0, path[1..]) && Extract(src, path) == Extract(x, path[1..])
            && forall e :: e in s.value ==> e in BlockStoreValue(a, blk, src, offset, ty).value
  {
    assert BlockStoreValue(a, blk, src, offset, ty).value == BlockStoreElems(a, blk, src, offset, ty, 0).value;
    StoreElemsHas(a, blk, src, offset, ty, 0, path[0]);
    c := ChildAt(a, ty, path[0]).value;
    x := src.elems[path[0]];
  }

  /** The stores of child `j` are among those `BlockStoreElems` emits from
      child `i` on. */
  lemma {:induction false} StoreElemsHas(a: Arena, blk: Block, src: Ssa, offset: Def, ty: TypeRef, i: nat, j: nat)
    requires Wf(a) && ty < |a| && !a[ty].glsl.GVec? && src.ty == a[ty].glsl
    requires BlockStoreElems(a, blk, src, offset, ty, i).Ok? && i <= j < Length(a[ty].glsl)
    ensures j < |src.elems| && ChildAt(a, ty, j).Ok?
    ensures var c := ChildAt(a, ty, j).value;
            var s := BlockStoreValue(a, blk, src.elems[j], Iadd(offset, ImmInt(c.1)), c.0);
            s.Ok? && forall e :: e in s.value ==> e in BlockStoreElems(a, blk, src, offset, ty, i).value
    decreases j - i
  {
    if j > i {
      StoreElemsHas(a, blk, src, offset, ty, i + 1, j);
    }
  }

  // ---------------------------------------------------------------------
  // Variable loads and stores

  /** A vector or scalar read through a variable dereference; booleans in
      uniforms are fixed up like block booleans. */
  function VarLeaf(v: Variable, path: seq<Step>, t: GType): Def
    requires t.GVec?
  {
    var raw := VarLoad(v.id, path, t.n);
    if v.mode == Uniform && t.base == BoolT then Ine(raw, ImmInt(0)) else raw
  }

  /** The selector `_vtn_variable_load` and `_vtn_variable_store` append for
      child `i`: a field of a struct, a constant index otherwise. */
  function ChildStep(t: GType, i: nat): Step {
    if t.GStruct? then Step.Field(i) else Direct(i)
  }

  /** The selectors that lead from a value of type `t` along `path`. */
  function PathSteps(t: GType, path: seq<nat>): (ss: seq<Step>)
    ensures |ss| == |path|
    decreases |path|
  {
    if |path| == 0 then [] else [ChildStep(t, path[0])] + PathSteps(ChildType(t, path[0]), path[1..])
  }

  /** `_vtn_variable_load`: a load of every vector or scalar of type `t`
      through the dereference extended by its own selectors. */
  function VarLoadValue(v: Variable, prefix: seq<Step>, t: GType): (r: Result<Ssa>)
    ensures r.Ok? ==> r.value.ty == t && Shaped(r.value) && Complete(r.value) && Unlinked(r.value)
    ensures r.Ok? <==> VarLoadable(t)
    decreases t, 1, 0
  {
    if t.GVec? then Ok(Ssa(t, Some(VarLeaf(v, prefix, t)), [], None))
    else if t.GMat? || t.GArray? || t.GStruct? then
      var es :- VarLoadElems(v, prefix, t, 0);
      Ok(Ssa(t, None, es, None))
    else Abort("load of a value that is not a vector, matrix, array or struct")
  }

  /** A type `_vtn_variable_load` can load: vectors, scalars, and matrices,
      arrays and structs of loadable types. */
  predicate VarLoadable(t: GType) {
    match t
    case GVec(_, _) => true
    case GMat(_, _, _) => true
    case GArray(e, len) => len == 0 || VarLoadable(e)
    case GStruct(fs) => forall i :: 0 <= i < |fs| ==> VarLoadable(fs[i].ty)
    case _ => false
  }

  function VarLoadElems(v: Variable, prefix: seq<Step>, t: GType, i: nat): (r: Result<seq<Ssa>>)
    requires t.GMat? || t.GArray? || t.GStruct?
    requires i <= Length(t)
    ensures r.Ok? ==> |r.value| == Length(t) - i
    ensures r.Ok? ==> forall k :: 0 <= k < |r.value| ==>
              r.value[k].ty == ChildType(t, i + k) && Shaped(r.value[k]) && Complete(r.value[k])
              && Unlinked(r.value[k])
              && (t.GMat? ==> r.value[k] == Ssa(ChildType(t, i + k), Some(VarLeaf(v, prefix + [Direct(i + k)], ChildType(t, i + k))), [], None))
              && (!t.GMat? ==> VarLoadValue(v, prefix + [ChildStep(t, i + k)], ChildType(t, i + k)) == Ok(r.value[k]))
    ensures r.Ok? <==> t.GMat? || (t.GArray? && (i < t.len ==> VarLoadable(t.elem)))
                       || (t.GStruct? && forall k :: i <= k < |t.fields| ==> VarLoadable(t.fields[k].ty))
    decreases t, 0, Length(t) - i
  {
    if i == Length(t) then Ok([])
    else
      var ct := ChildType(t, i);
      var first :-
        if t.GMat? then Ok(Ssa(ct, Some(VarLeaf(v, prefix + [Direct(i)], ct)), [], None))
        else if t.GArray? then VarLoadValue(v, prefix + [Direct(i)], t.elem)
        else VarLoadValue(v, prefix + [Step.Field(i)], t.fields[i].ty);
      var rest :- VarLoadElems(v, prefix, t, i + 1);
      Ok([first] + rest)
  }

  /** The loaded tree reads the variable where it stands: the vector or
      scalar reached along `path` is the load through the dereference
      extended by the selectors for `path`. */
  lemma {:induction false} VarLoadReads(v: Variable, prefix: seq<Step>, t: GType, path: seq<nat>)
    requires VarLoadValue(v, prefix, t).Ok?
    requires path != [] ==> path[0] < Length(t)
    requires VarLoadPath(t, path)
    ensures var x := Extract(VarLoadValue(v, prefix, t).value, path);
            x.Ok? && x.value.ty == PathType(t, path) && PathType(t, path).GVec?
            && x.value.def == Some(VarLeaf(v, prefix + PathSteps(t, path), PathType(t, path)))
    decreases |path|
  {
    if |path| > 0 {
      var i := path[0];
      var ct := ChildType(t, i);
      var x := VarLoadChild(v, prefix, t, i);
      VarPathStep(prefix, t, path);
      if t.GMat? {
        assert path[1..] == [];
        assert PathSteps(ct, []) == [] && PathType(ct, []) == ct && ChildStep(t, i) == Direct(i);
        assert prefix + [Direct(i)] + [] == prefix + [Direct(i)];
      } else {
        VarLoadReads(v, prefix + [ChildStep(t, i)], ct, path[1..]);
      }
    } else {
      assert PathSteps(t, path) == [] && prefix + [] == prefix;
      assert VarLoadValue(v, prefix, t).value == Ssa(t, Some(VarLeaf(v, prefix, t)), [], None);
    }
  }

  /** Child `i` of a loaded tree, and where extracting through it leads. */
  lemma VarLoadChild(v: Variable, prefix: seq<Step>, t: GType, i: nat) returns (x: Ssa)
    requires VarLoadValue(v, prefix, t).Ok? && i < Length(t)
    ensures var r := VarLoadValue(v, prefix, t).value;
            !t.GVec? && i < |r.elems| && r.elems[i] == x
            && (forall path :: |path| > 0 && path[0] == i ==> Extract(r, path) == Extract(x, path[1..]))
    ensures t.GMat? ==> x == Ssa(ChildType(t, i), Some(VarLeaf(v, prefix + [Direct(i)], ChildType(t, i))), [], None)
    ensures !t.GMat? ==> VarLoadValue(v, prefix + [ChildStep(t, i)], ChildType(t, i)) == Ok(x)
  {
    var r := VarLoadValue(v, prefix, t).value;
    assert r.elems == VarLoadElems(v, prefix, t, 0).value;
    x := r.elems[0 + i];
  }

  /** The selectors and type at the end of `path` through its first child. */
  lemma VarPathStep(prefix: seq<Step>, t: GType, path: seq<nat>)
    requires |path| > 0
    ensures prefix + PathSteps(t, path) == (prefix + [ChildStep(t, path[0])]) + PathSteps(ChildType(t, path[0]), path[1..])
    ensures PathType(t, path) == PathType(ChildType(t, path[0]), path[1..])
  {
  }

  /** `path` leads from a value of type `t` to a vector or scalar, each index
      in range. */
  predicate VarLoadPath(t: GType, path: seq<nat>)
    decreases |path|
  {
    if |path| == 0 then t.GVec?
    else !t.GVec? && path[0] < Length(t) && VarLoadPath(ChildType(t, path[0]), path[1..])
  }

  function PathType(t: GType, path: seq<nat>): GType
    decreases |path|
  {
    if |path| == 0 then t else PathType(ChildType(t, path[0]), path[1..])
  }

  /** `_vtn_variable_store`: one store per vector or scalar of `src`, each
      through the dereference extended by its own selectors and with a full
      write mask. */
  function VarStoreValue(v: Variable, prefix: seq<Step>, src: Ssa): (r: Result<seq<Effect>>)
    ensures r.Ok? ==> forall e :: e in r.value ==> e.StoreVar? && e.variable == v.id && prefix <= e.path
    ensures r.Ok? && Shaped(src) ==> Complete(src) && Stored(r.value) == Leaves(src)
    decreases src, 1, 0
  {
    if src.ty.GVec? then
      if src.def.None? then Abort("vector without a definition")
      else
        var r := [StoreVar(v.id, prefix, src.def.value, Mask(src.ty.n))];
        assert Stored(r) == [src.def.value] + Stored([]);
        Ok(r)
    else if src.ty.GMat? || src.ty.GArray? || src.ty.GStruct? then
      var r :- VarStoreElems(v, prefix, src, 0);
      assert Shaped(src) ==> src.elems[0..] == src.elems;
      Ok(r)
    else Abort("store of a value that is not a vector, matrix, array or struct")
  }

  function VarStoreElems(v: Variable, prefix: seq<Step>, src: Ssa, i: nat): (r: Result<seq<Effect>>)
    ensures r.Ok? ==> forall e :: e in r.value ==> e.StoreVar? && e.variable == v.id && prefix <= e.path
    ensures r.Ok? && Shaped(src) && !src.ty.GVec? && i <= |src.elems| ==>
              (forall k :: i <= k < |src.elems| ==> Complete(src.elems[k]))
              && Stored(r.value) == LeavesOf(src.elems[i..])
    decreases src, 0, Length(src.ty) - i
  {
    if i >= Length(src.ty) then Ok([])
    else if i >= |src.elems| then Abort("value has too few elements")
    else
      var first :- VarStoreValue(v, prefix + [ChildStep(src.ty, i)], src.elems[i]);
      var rest :- VarStoreElems(v, prefix, src, i + 1);
      StoredAppend(first, rest);
      assert forall e :: e in first ==> prefix <= prefix + [ChildStep(src.ty, i)] <= e.path;
      if Shaped(src) && !src.ty.GVec? then
        assert Shaped(src.elems[i]);
        LeavesOfStep(src.elems, i);
        Ok(first + rest)
      else Ok(first + rest)
  }

  /** The partner of `VarLoadReads`: every vector or scalar of a value
      stored through a dereference is written, whole, through the
      dereference extended by the selectors of its path. */
  lemma {:induction false} VarStoreWrites(v: Variable, prefix: seq<Step>, src: Ssa, path: seq<nat>)
    requires VarStoreValue(v, prefix, src).Ok? && Shaped(src) && VarLoadPath(src.ty, path)
    ensures var x := Extract(src, path);
            x.Ok? && x.value.ty == PathType(src.ty, path) && x.value.ty.GVec? && x.value.def.Some?
            && StoreVar(v.id, prefix + PathSteps(src.ty, path), x.value.def.value, Mask(x.value.ty.n))
               in VarStoreValue(v, prefix, src).value
    decreases |path|
  {
    if |path| == 0 {
      assert prefix + PathSteps(src.ty, path) == prefix;
    } else {
      var i := path[0];
      assert VarStoreValue(v, prefix, src).value == VarStoreElems(v, prefix, src, 0).value;
      VarStoreElemsHas(v, prefix, src, 0, i);
      ShapedChild(src, i);
      VarStoreWrites(v, prefix + [ChildStep(src.ty, i)], src.elems[i], path[1..]);
      VarPathStep(prefix, src.ty, path);
      assert Extract(src, path) == Extract(src.elems[i], path[1..]);
    }
  }

  /** The stores of child `j` are among those `VarStoreElems` emits from
      child `i` on. */
  lemma {:induction false} VarStoreElemsHas(v: Variable, prefix: seq<Step>, src: Ssa, i: nat, j: nat)
    requires VarStoreElems(v, prefix, src, i).Ok? && i <= j < Length(src.ty)
    ensures j < |src.elems|
    ensures var s := VarStoreValue(v, prefix + [ChildStep(src.ty, j)], src.elems[j]);
            s.Ok? && forall e :: e in s.value ==> e in VarStoreElems(v, prefix, src, i).value
    decreases j - i
  {
    if j > i {
      VarStoreElemsHas(v, prefix, src, i + 1, j);
    }
  }

  // ---------------------------------------------------------------------
  // The entry points

  /** `vtn_block_load` up to the tail of `d`. */
  function BlockLoadAt(a: Arena, d: Deref, ty: TypeRef, tail: nat): (r: Result<Ssa>)
    requires Wf(a) && ty < |a| && tail <= |d.sels|
    ensures r.Ok? ==> BlockGetOffset(a, d, ty, tail).Ok? && BlockOpFor(d.v).Ok?
    ensures r.Ok? ==> var p := BlockGetOffset(a, d, ty, tail).value;
              r == BlockLoadValue(a, Block(BlockOpFor(d.v).value, d.v.descSet, d.v.binding, d.v.mode, p.index), p.offset, p.ty)
  {
    var p :- BlockGetOffset(a, d, ty, tail);
    var op :- BlockOpFor(d.v);
    BlockLoadValue(a, Block(op, d.v.descSet, d.v.binding, d.v.mode, p.index), p.offset, p.ty)
  }

  /** The component selector after the tail: it must be the last selector and
      an array index; a constant index extracts statically, an SSA index
      through the select chain.  The selector's base offset is not added to
      an SSA index. */
  function SelectComponent(val: Ssa, sel: Selector, last: bool): (r: Result<Ssa>)
    ensures r.Ok? ==> last && !sel.step.Field? && val.ty.GVec? && val.def.Some?
    ensures r.Ok? ==> r.value.ty == sel.ty && r.value.def.Some? && r.value.elems == []
    ensures r.Ok? ==> forall env :: EvalLane(env, r.value.def.value, 0) == EvalLane(env, val.def.value, ComponentOf(env, sel.step, Width(val.def.value)))
  {
    if !last then Abort("component selector is not the last selector")
    else if sel.step.Field? then Abort("field selector on a vector")
    else if !val.ty.GVec? || val.def.None? then Abort("component of a non-vector")
    else
      var src := val.def.value;
      match sel.step
      case Direct(n) => Ok(Ssa(sel.ty, Some(Vectors.Extract(src, n)), [], None))
      case Indirect(_, ix) =>
        if Width(src) > 4 then Abort("bad vector size")
        else
          Ok(Ssa(sel.ty, Some(Vectors.ExtractDynamic(src, ix)), [], None))
  }

  /** The component a component selector reads from a `w`-wide vector. */
  function ComponentOf(env: Env, s: Step, w: nat): nat {
    match s
    case Direct(n) => n
    case Indirect(_, ix) => Vectors.Selected(EvalLane(env, ix, 0), w)
    case Field(_) => 0
  }

  /** `vtn_variable_load`. */
  function VariableLoad(a: Arena, d: Deref, ty: TypeRef): (r: Result<Ssa>)
    requires Wf(a) && ty < |a|
    ensures r.Ok? && !IsExternalBlock(d.v) && Tail(d) == |d.sels| ==>
              r == VarLoadValue(d.v, Steps(d.sels), TypeAt(d, |d.sels|))
    ensures r.Ok? && Tail(d) < |d.sels| ==> Tail(d) + 1 == |d.sels| && !d.sels[Tail(d)].step.Field?
  {
    var tail := Tail(d);
    var val :-
      if IsExternalBlock(d.v) then BlockLoadAt(a, d, ty, tail)
      else VarLoadValue(d.v, Steps(d.sels[..tail]), TypeAt(d, tail));
    if tail == |d.sels| then
      assert d.sels[..tail] == d.sels;
      Ok(val)
    else SelectComponent(val, d.sels[tail], tail + 1 == |d.sels|)
  }

  /** Loading one component of a variable's vector reads that component of
      the vector loaded through the chain up to the tail. */
  lemma LoadComponentReads(env: Env, a: Arena, d: Deref, ty: TypeRef)
    requires Wf(a) && ty < |a| && !IsExternalBlock(d.v)
    requires VariableLoad(a, d, ty).Ok? && Tail(d) < |d.sels|
    ensures var t := Tail(d);
            var leaf := VarLeaf(d.v, Steps(d.sels[..t]), TypeAt(d, t));
            var r := VariableLoad(a, d, ty).value;
            r.ty == d.sels[t].ty && r.def.Some?
            && EvalLane(env, r.def.value, 0) == EvalLane(env, leaf, ComponentOf(env, d.sels[t].step, Width(leaf)))
  {
  }

  /** `vtn_variable_store`.  A block store needs a storage block; a store of
      one component loads the vector, inserts the component and stores the
      whole vector back. */
  function VariableStore(a: Arena, src: Ssa, d: Deref, ty: TypeRef): (r: Result<seq<Effect>>)
    requires Wf(a) && ty < |a|
    ensures r.Ok? && IsExternalBlock(d.v) ==> d.v.mode == ShaderStorage
    ensures r.Ok? && !IsExternalBlock(d.v) && Tail(d) == |d.sels| ==>
              r == VarStoreValue(d.v, Steps(d.sels), src)
  {
    var tail := Tail(d);
    if IsExternalBlock(d.v) then
      if d.v.mode != ShaderStorage then Abort("store to a uniform block")
      else
        var p :- BlockGetOffset(a, d, ty, tail);
        BlockStoreValue(a, Block(StoreSsbo, d.v.descSet, d.v.binding, d.v.mode, p.index), src, p.offset, p.ty)
    else if tail < |d.sels| then ComponentStore(src, d, tail)
    else
      assert d.sels[..tail] == d.sels;
      VarStoreValue(d.v, Steps(d.sels), src)
  }

  /** A store through the component selector at `tail`: load the vector,
      insert the component, store the whole vector back. */
  function ComponentStore(src: Ssa, d: Deref, tail: nat): (r: Result<seq<Effect>>)
    requires tail < |d.sels|
    ensures r.Ok? ==> tail + 1 == |d.sels| && TypeAt(d, tail).GVec? && src.def.Some?
                      && |r.value| == 1 && r.value[0].StoreVar?
                      && r.value[0].path == Steps(d.sels[..tail])
    ensures r.Ok? ==> var leaf := VarLeaf(d.v, Steps(d.sels[..tail]), TypeAt(d, tail));
                      var w := r.value[0].value;
                      r.value[0].variable == d.v.id && Width(w) == Width(leaf)
                      && forall env, k :: 0 <= k < Width(leaf) ==>
                           EvalLane(env, w, k)
                           == if k == ComponentOf(env, d.sels[tail].step, Width(leaf)) then EvalLane(env, src.def.value, 0)
                              else EvalLane(env, leaf, k)
  {
    var prefix := Steps(d.sels[..tail]);
    var cur :- VarLoadValue(d.v, prefix, TypeAt(d, tail));
    var d' :- StoreComponent(cur, src, d.sels[tail], tail + 1 == |d.sels|);
    VarStoreValue(d.v, prefix, cur.(def := Some(d')))
  }

  /** The vector with one component replaced, for a store through a
      component selector. */
  function StoreComponent(cur: Ssa, src: Ssa, sel: Selector, last: bool): (r: Result<Def>)
    ensures r.Ok? ==> last && cur.def.Some? && src.def.Some? && !sel.step.Field?
    ensures r.Ok? ==> Width(r.value) == Width(cur.def.value)
    ensures r.Ok? ==> forall env, k :: 0 <= k < Width(cur.def.value) ==>
              EvalLane(env, r.value, k)
              == if k == ComponentOf(env, sel.step, Width(cur.def.value)) then EvalLane(env, src.def.value, 0)
                 else EvalLane(env, cur.def.value, k)
  {
    if !last then Abort("component selector is not the last selector")
    else if cur.def.None? || src.def.None? then Abort("vector without a definition")
    else
      match sel.step
      case Field(_) => Abort("field selector on a vector")
      case Direct(n) => Vectors.Insert(cur.def.value, src.def.value, n)
      case Indirect(_, ix) =>
        if Width(ix) != 1 then Abort("vector index is not a scalar")
        else
          var w := Width(cur.def.value);
          var r :- Vectors.InsertDynamic(cur.def.value, src.def.value, ix);
          assert forall env, k :: 0 <= k < w ==>
                   EvalLane(env, r, k)
                   == if k == Vectors.Selected(EvalLane(env, ix, 0), w) then EvalLane(env, src.def.value, 0)
                      else EvalLane(env, cur.def.value, k) by {
            forall env, k | 0 <= k < w
              ensures EvalLane(env, r, k)
                      == if k == Vectors.Selected(EvalLane(env, ix, 0), w) then EvalLane(env, src.def.value, 0)
                         else EvalLane(env, cur.def.value, k)
            {
              var s := Vectors.Selected(EvalLane(env, ix, 0), w);
              assert Vectors.Insert(cur.def.value, src.def.value, s).Ok?;
            }
          }
          Ok(r)
  }

  /** `vtn_variable_copy`: a copy through a component selector or out of an
      interface variable is a load and a store, and the source insists that
      the destination then ends in a component selector too; any other copy
      is one `copy_var`. */
  function VariableCopy(a: Arena, src: Deref, dest: Deref, ty: TypeRef): (r: Result<seq<Effect>>)
    requires Wf(a) && ty < |a|
    ensures (Tail(src) < |src.sels| || src.v.iface.Some?) && r.Ok? ==> Tail(dest) < |dest.sels|
    ensures Tail(src) == |src.sels| && src.v.iface.None? ==> r == Ok([CopyVar(dest, src)])
  {
    if Tail(src) < |src.sels| || src.v.iface.Some? then
      if Tail(dest) == |dest.sels| then Abort("copy into a chain without a component selector")
      else
        var val :- VariableLoad(a, src, ty);
        VariableStore(a, val, dest, ty)
    else Ok([CopyVar(dest, src)])
  }

  /** Copying a whole uniform block member into a local struct is refused:
      the source's check that the destination ends in a component selector
      applies to every copy out of an interface variable. */
  lemma CopyOutOfBlockRefused(a: Arena, src: Deref, dest: Deref, ty: TypeRef)
    requires Wf(a) && ty < |a|
    requires src.v.iface.Some? && dest.sels == [] && dest.v.ty.GStruct?
    ensures VariableCopy(a, src, dest, ty).Abort?
  {
  }

  /** A store of a whole value writes exactly the value's vectors and
      scalars, in order. */
  lemma StoreWritesLeaves(a: Arena, src: Ssa, d: Deref, ty: TypeRef)
    requires Wf(a) && ty < |a| && Shaped(src)
    requires VariableStore(a, src, d, ty).Ok? && Tail(d) == |d.sels|
    ensures Complete(src) && Stored(VariableStore(a, src, d, ty).value) == Leaves(src)
  {
  }
}

=== FILE: exec_modes.dfy ===
/** Execution models and execution modes of an entry point: the shader stage
    a model selects (`stage_for_execution_model`), the two primitive tables
    (`gl_primitive_from_spv_execution_mode`,
    `vertices_in_from_spv_execution_mode`) and the per-mode updates of the
    shader info (`vtn_handle_execution_mode`).
 */
module ExecModes {
  import opened Wrappers
  import opened Spv

  /** `gl_shader_stage`, for the stages SPIR-V can name. */
  datatype Stage = Vertex | TessCtrl | TessEval | Geometry | Fragment | Compute

  /** `stage_for_execution_model`: `Kernel` and unknown models are refused. */
  function StageFor(model: nat): (r: Result<Stage>)
    ensures r.Ok? <==> model <= ModelGLCompute
  {
    if model == ModelVertex then Ok(Vertex)
    else if model == ModelTessellationControl then Ok(TessCtrl)
    else if model == ModelTessellationEvaluation then Ok(TessEval)
    else if model == ModelGeometry then Ok(Geometry)
    else if model == ModelFragment then Ok(Fragment)
    else if model == ModelGLCompute then Ok(Compute)
    else Abort("unsupported execution model")
  }

  /** The execution model that names each stage. */
  function ModelOf(s: Stage): nat {
    match s
    case Vertex => ModelVertex
    case TessCtrl => ModelTessellationControl
    case TessEval => ModelTessellationEvaluation
    case Geometry => ModelGeometry
    case Fragment => ModelFragment
    case Compute => ModelGLCompute
  }

  /** Every stage is reached from exactly its own model, and every accepted
      model is the model of the stage it selects. */
  lemma StageModelRoundTrip(s: Stage, model: nat)
    ensures StageFor(ModelOf(s)) == Ok(s)
    ensures StageFor(model).Ok? ==> ModelOf(StageFor(model).value) == model
  {
  }

  // GL primitive enumerants the table returns.
  const GlPoints: nat := 0
  const GlLines: nat := 1
  const GlLineStrip: nat := 3
  const GlTriangles: nat := 4
  const GlTriangleStrip: nat := 5
  const GlQuads: nat := 7
  const GlLineStripAdjacency: nat := 0x000A
  const GlTrianglesAdjacency: nat := 0x000C
  const GlIsolines: nat := 0x8E7A

  /** `gl_primitive_from_spv_execution_mode`; any other mode fails the
      source's assertion. */
  function GlPrimitive(mode: nat): (r: Result<nat>)
    ensures r.Ok? <==> mode in {ModeInputPoints, ModeOutputPoints, ModeInputLines, ModeInputLinesAdjacency,
                                ModeTriangles, ModeInputTrianglesAdjacency, ModeQuads, ModeIsolines,
                                ModeOutputLineStrip, ModeOutputTriangleStrip}
  {
    if mode == ModeInputPoints || mode == ModeOutputPoints then Ok(GlPoints)
    else if mode == ModeInputLines then Ok(GlLines)
    else if mode == ModeInputLinesAdjacency then Ok(GlLineStripAdjacency)
    else if mode == ModeTriangles then Ok(GlTriangles)
    else if mode == ModeInputTrianglesAdjacency then Ok(GlTrianglesAdjacency)
    else if mode == ModeQuads then Ok(GlQuads)
    else if mode == ModeIsolines then Ok(GlIsolines)
    else if mode == ModeOutputLineStrip then Ok(GlLineStrip)
    else if mode == ModeOutputTriangleStrip then Ok(GlTriangleStrip)
    else Abort("invalid primitive type")
  }

  /** `vertices_in_from_spv_execution_mode`: the vertex count of one input
      primitive of a geometry shader. */
  function VerticesIn(mode: nat): (r: Result<nat>)
    ensures r.Ok? <==> mode in {ModeInputPoints, ModeInputLines, ModeInputLinesAdjacency,
                                ModeTriangles, ModeInputTrianglesAdjacency}
    ensures r.Ok? ==> r.value in {1, 2, 3, 4, 6}
  {
    if mode == ModeInputPoints then Ok(1)
    else if mode == ModeInputLines then Ok(2)
    else if mode == ModeInputLinesAdjacency then Ok(4)
    else if mode == ModeTriangles then Ok(3)
    else if mode == ModeInputTrianglesAdjacency then Ok(6)
    else Abort("invalid geometry shader input mode")
  }

  /** Vertices per primitive of the GL input primitives, as the GL defines
      them: a point 1, a line 2, a line with adjacency 4, a triangle 3, a
      triangle with adjacency 6. */
  function GlVerticesPerPrimitive(prim: nat): Option<nat> {
    if prim == GlPoints then Some(1)
    else if prim == GlLines then Some(2)
    else if prim == GlLineStripAdjacency then Some(4)
    else if prim == GlTriangles then Some(3)
    else if prim == GlTrianglesAdjacency then Some(6)
    else None
  }

  /** The two tables agree: every geometry input mode has a GL primitive
      whose vertex count is the mode's `vertices_in`, and the modes without a
      vertex count are exactly those whose primitive has none or that only
      describe output. */
  lemma TablesAgree(mode: nat)
    ensures VerticesIn(mode).Ok? ==>
              GlPrimitive(mode).Ok? && GlVerticesPerPrimitive(GlPrimitive(mode).value) == Some(VerticesIn(mode).value)
    ensures GlPrimitive(mode).Ok? && !VerticesIn(mode).Ok? ==>
              mode in {ModeOutputPoints, ModeQuads, ModeIsolines, ModeOutputLineStrip, ModeOutputTriangleStrip}
  {
  }

  /** The output primitives a geometry shader can declare are distinct. */
  lemma OutputPrimitivesDistinct()
    ensures GlPrimitive(ModeOutputPoints) != GlPrimitive(ModeOutputLineStrip)
    ensures GlPrimitive(ModeOutputPoints) != GlPrimitive(ModeOutputTriangleStrip)
    ensures GlPrimitive(ModeOutputLineStrip) != GlPrimitive(ModeOutputTriangleStrip)
  {
  }

  datatype DepthLayout = DepthNone | DepthAny | DepthGreater | DepthLess | DepthUnchanged

  /** The shader info fields the execution modes write. */
  datatype Info = Info(
    originUpperLeft: bool,
    earlyFragmentTests: bool,
    invocations: nat,
    depthLayout: DepthLayout,
    localSize: seq<Word>,
    verticesOut: nat,
    verticesIn: nat,
    outputPrimitive: nat)

  const NoInfo: Info := Info(false, false, 0, DepthNone, [0, 0, 0], 0, 0, 0)

  /** The geometry input primitives, `InputPoints` through `Isolines`. */
  predicate InputPrimitiveMode(mode: nat) {
    ModeInputPoints <= mode <= ModeIsolines
  }

  /** The geometry output primitives, `OutputPoints` through `OutputTriangleStrip`. */
  predicate OutputPrimitiveMode(mode: nat) {
    ModeOutputPoints <= mode <= ModeOutputTriangleStrip
  }

  /** `DepthReplacing` and the three depth-layout modes. */
  predicate DepthMode(mode: nat) {
    mode == ModeDepthReplacing || ModeDepthGreater <= mode <= ModeDepthUnchanged
  }

  /** The depth layout a depth mode selects: `DepthReplacing` asks only for "any". */
  function DepthLayoutOf(mode: nat): DepthLayout {
    if mode == ModeDepthReplacing then DepthAny
    else if mode == ModeDepthGreater then DepthGreater
    else if mode == ModeDepthLess then DepthLess
    else DepthUnchanged
  }

  /** `vtn_handle_execution_mode` for one mode with operand `lits`.  Each
      stage-specific mode asserts the stage; tessellation metadata and the
      two rejected modes fail their assertions, and a mode without a case
      changes nothing. */
  function HandleExecutionMode(info: Info, stage: Stage, mode: nat, lits: seq<Word>): (r: Result<Info>)
    ensures mode == ModeOriginUpperLeft || mode == ModeOriginLowerLeft ==>
              r.Ok? && r.value.originUpperLeft == (mode == ModeOriginUpperLeft)
    ensures mode == ModeEarlyFragmentTests ==>
              (r.Ok? <==> stage == Fragment) && (r.Ok? ==> r.value.earlyFragmentTests)
    ensures mode == ModeInvocations ==>
              (r.Ok? <==> stage == Geometry && |lits| >= 1)
              && (r.Ok? ==> r.value.invocations == (if lits[0] >= 1 then lits[0] else 1))
    ensures DepthMode(mode) ==>
              (r.Ok? <==> stage == Fragment)
              && (r.Ok? ==> r.value.depthLayout == DepthLayoutOf(mode))
    ensures mode == ModeLocalSize ==>
              (r.Ok? <==> stage == Compute && |lits| >= 3) && (r.Ok? ==> r.value.localSize == lits[..3])
    ensures mode == ModeOutputVertices ==>
              (r.Ok? <==> stage == Geometry && |lits| >= 1) && (r.Ok? ==> r.value.verticesOut == lits[0])
    ensures InputPrimitiveMode(mode) ==>
              (r.Ok? <==> stage == Geometry && VerticesIn(mode).Ok?)
              && (r.Ok? ==> r.value.verticesIn == VerticesIn(mode).value)
    ensures OutputPrimitiveMode(mode) ==>
              (r.Ok? <==> stage == Geometry) && (r.Ok? ==> r.value.outputPrimitive == GlPrimitive(mode).value)
  {
    if mode == ModeOriginUpperLeft || mode == ModeOriginLowerLeft then
      Ok(info.(originUpperLeft := mode == ModeOriginUpperLeft))
    else if mode == ModeEarlyFragmentTests then
      if stage != Fragment then Abort("early fragment tests outside a fragment shader")
      else Ok(info.(earlyFragmentTests := true))
    else if mode == ModeInvocations then
      if stage != Geometry then Abort("invocations outside a geometry shader")
      else if |lits| < 1 then Abort("operand missing")
      else Ok(info.(invocations := if lits[0] >= 1 then lits[0] else 1))
    else if DepthMode(mode) then
      if stage != Fragment then Abort("depth layout outside a fragment shader")
      else
        Ok(info.(depthLayout := DepthLayoutOf(mode)))
    else if mode == ModeLocalSize then
      if stage != Compute then Abort("local size outside a compute shader")
      else if |lits| < 3 then Abort("operand missing")
      else Ok(info.(localSize := lits[..3]))
    else if mode == ModeLocalSizeHint then Ok(info)
    else if mode == ModeOutputVertices then
      if stage != Geometry then Abort("output vertices outside a geometry shader")
      else if |lits| < 1 then Abort("operand missing")
      else Ok(info.(verticesOut := lits[0]))
    else if InputPrimitiveMode(mode) then
      if stage != Geometry then Abort("tessellation shaders not yet supported")
      else
        var n :- VerticesIn(mode);
        Ok(info.(verticesIn := n))
    else if OutputPrimitiveMode(mode) then
      if stage != Geometry then Abort("output primitive outside a geometry shader")
      else
        Ok(info.(outputPrimitive := GlPrimitive(mode).value))
    else if TessellationMetadataMode(mode) then Abort("no tessellation metadata")
    else if UnhandledMode(mode) then Abort("unhandled execution mode")
    else Ok(info)
  }

  /** The tessellation modes whose metadata the handler does not record yet:
      the three spacings, the two vertex orders and `PointMode`. */
  predicate TessellationMetadataMode(mode: nat) {
    ModeSpacingEqual <= mode <= ModeVertexOrderCcw || mode == ModePointMode
  }

  /** The modes the handler names only to reject: `PixelCenterInteger` and `Xfb`. */
  predicate UnhandledMode(mode: nat) {
    mode == ModePixelCenterInteger || mode == ModeXfb
  }

  /** Every mode with a case of its own in the handler's switch: every number
      from `Invocations` (0) to `ContractionOff` (31) except 13, which SPIR-V
      does not assign. */
  predicate SwitchedMode(mode: nat) {
    mode <= ModeContractionOff && mode != 13
  }

  /** The switch has no default: a mode number without a case (an unassigned
      one, or one from a later SPIR-V version) falls through and leaves the
      shader info as it was, in every stage, and so do the three hint modes
      whose cases only break.  The tessellation metadata modes and the two
      rejected modes fail whatever the stage. */
  lemma UnswitchedModeIgnored(info: Info, stage: Stage, mode: nat, lits: seq<Word>)
    ensures !SwitchedMode(mode) ==> HandleExecutionMode(info, stage, mode, lits) == Ok(info)
    ensures mode == ModeLocalSizeHint || mode == ModeVecTypeHint || mode == ModeContractionOff ==>
              HandleExecutionMode(info, stage, mode, lits) == Ok(info)
    ensures TessellationMetadataMode(mode) || UnhandledMode(mode) ==>
              HandleExecutionMode(info, stage, mode, lits).Abort?
  {
  }

  /** Quads and isolines are accepted by the dispatch but have no vertex
      count, so a geometry shader declaring them fails. */
  lemma QuadsRefusedInGeometry(info: Info, lits: seq<Word>)
    ensures HandleExecutionMode(info, Geometry, ModeQuads, lits).Abort?
    ensures HandleExecutionMode(info, Geometry, ModeIsolines, lits).Abort?
  {
  }

  /** A mode touches only its own field. */
  lemma ModeTouchesOwnField(info: Info, stage: Stage, mode: nat, lits: seq<Word>)
    requires HandleExecutionMode(info, stage, mode, lits).Ok?
    ensures var i := HandleExecutionMode(info, stage, mode, lits).value;
            (mode != ModeOriginUpperLeft && mode != ModeOriginLowerLeft ==> i.originUpperLeft == info.originUpperLeft)
            && (mode != ModeLocalSize ==> i.localSize == info.localSize)
            && (mode != ModeInvocations ==> i.invocations == info.invocations)
            && (mode != ModeOutputVertices ==> i.verticesOut == info.verticesOut)
  {
  }

  /** The execution modes of an entry point, applied in list order. */
  function HandleExecutionModes(info: Info, stage: Stage, modes: seq<(nat, seq<Word>)>): (r: Result<Info>)
    ensures r.Ok? && |modes| > 0 ==>
              HandleExecutionMode(info, stage, modes[0].0, modes[0].1).Ok?
    decreases |modes|
  {
    if |modes| == 0 then Ok(info)
    else
      var i :- HandleExecutionMode(info, stage, modes[0].0, modes[0].1);
      HandleExecutionModes(i, stage, modes[1..])
  }

  /** The last origin mode wins. */
  lemma {:induction false} LastOriginWins(info: Info, stage: Stage, modes: seq<(nat, seq<Word>)>)
    requires HandleExecutionModes(info, stage, modes).Ok?
    requires |modes| > 0 && modes[|modes| - 1].0 in {ModeOriginUpperLeft, ModeOriginLowerLeft}
    ensures HandleExecutionModes(info, stage, modes).value.originUpperLeft
            == (modes[|modes| - 1].0 == ModeOriginUpperLeft)
    decreases |modes|
  {
    var i := HandleExecutionMode(info, stage, modes[0].0, modes[0].1).value;
    if |modes| > 1 {
      assert modes[1..][|modes[1..]| - 1] == modes[|modes| - 1];
      LastOriginWins(i, stage, modes[1..]);
    } else {
      assert HandleExecutionModes(i, stage, modes[1..]) == Ok(i);
    }
  }
}

=== FILE: gen7_state.dfy ===
/** Gen7 / Haswell surface and sampler state: the field values the driver
    computes before packing them into a RENDER_SURFACE_STATE or
    SAMPLER_STATE.  Hardware enumerants are named, not numbered; the
    packing itself, state allocation and cache flushes are not part of
    this model.  Unsigned 32-bit fields wrap explicitly; a shift right by
    `k` followed by a mask is written as division by 2^k and remainder,
    which is exact on unsigned values.
 */
module SurfaceState {
  import opened Wrappers
  import Formats

  type Word32 = x: nat | x < 0x1_0000_0000

  const Two32: nat := 0x1_0000_0000

  /** Unsigned 32-bit `x - 1`: zero wraps to the largest value. */
  function Minus1(x: Word32): (r: Word32)
    ensures x >= 1 ==> r + 1 == x
    ensures x == 0 ==> r == Two32 - 1
  {
    (x + Two32 - 1) % Two32
  }

  // ---------------------------------------------------------------------
  // Surface type

  datatype ViewType = View1D | View1DArray | View2D | View2DArray | ViewCube | ViewCubeArray | View3D

  datatype SurfType = Surf1D | Surf2D | Surf3D | SurfCube | SurfBuffer

  /** The image type a view type may look at. */
  function ViewedType(v: ViewType): Formats.ImageType {
    match v
    case View1D => Formats.Image1D
    case View1DArray => Formats.Image1D
    case View3D => Formats.Image3D
    case _ => Formats.Image2D
  }

  /** `anv_surftype`: the surface type of a view, checking that the image
      has the type the view needs; a cube view of a storage image is a 2D
      surface. */
  function SurfTypeOf(image: Formats.ImageType, v: ViewType, storage: bool): (r: Result<SurfType>)
    ensures r.Ok? <==> image == ViewedType(v)
    ensures r.Ok? ==> r.value != SurfBuffer
  {
    match v
    case View1D | View1DArray =>
      if image != Formats.Image1D then Abort("not 1D") else Ok(Surf1D)
    case ViewCube | ViewCubeArray =>
      if image != Formats.Image2D then Abort("not 2D") else Ok(if storage then Surf2D else SurfCube)
    case View2D | View2DArray =>
      if image != Formats.Image2D then Abort("not 2D") else Ok(Surf2D)
    case View3D =>
      if image != Formats.Image3D then Abort("not 3D") else Ok(Surf3D)
  }

  /** The number of dimensions a surface type or image type addresses. */
  function SurfDims(s: SurfType): nat {
    match s
    case Surf1D => 1
    case Surf2D => 2
    case SurfCube => 2
    case Surf3D => 3
    case SurfBuffer => 1
  }

  function ImageDims(t: Formats.ImageType): nat {
    match t
    case Image1D => 1
    case Image2D => 2
    case Image3D => 3
  }

  /** The surface addresses as many dimensions as the image has; only a
      cube view that is not a storage view gives a cube surface. */
  lemma SurfTypeKeepsDims(image: Formats.ImageType, v: ViewType, storage: bool)
    requires SurfTypeOf(image, v, storage).Ok?
    ensures SurfDims(SurfTypeOf(image, v, storage).value) == ImageDims(image)
    ensures SurfTypeOf(image, v, storage).value == SurfCube <==> !storage && v in {ViewCube, ViewCubeArray}
  {
  }

  /** Storage and non-storage views of the same image differ only in
      turning a cube into a 2D surface. */
  lemma StorageOnlyFlattensCubes(image: Formats.ImageType, v: ViewType)
    requires SurfTypeOf(image, v, false).Ok?
    ensures SurfTypeOf(image, v, true).Ok?
    ensures var a, b := SurfTypeOf(image, v, false).value, SurfTypeOf(image, v, true).value;
            b == (if a == SurfCube then Surf2D else a)
  {
  }

  // ---------------------------------------------------------------------
  // Buffer surfaces

  /** A RENDER_SURFACE_STATE describing a buffer: the element count split
      over the 7-bit Width, 14-bit Height and 6-bit Depth fields, the
      stride less one as the pitch, linear layout. */
  datatype BufferState = BufferState(
    format: Formats.IslFormat, width: nat, height: nat, depth: nat, pitch: Word32,
    tiled: bool, base: Word32)

  /** `fill_buffer_surface_state`: a buffer of `range` bytes holding
      elements `stride` bytes apart, starting at `offset`.  A zero stride
      divides by zero in the source, so callers must not pass one. */
  function BufferSurface(format: Formats.IslFormat, offset: Word32, range: Word32, stride: Word32): (r: BufferState)
    requires stride > 0
    ensures r.width < 0x80 && r.height < 0x4000 && r.depth < 0x40
    ensures r.pitch + 1 == stride && !r.tiled && r.base == offset && r.format == format
  {
    var n := range / stride;
    BufferState(format, n % 0x80, (n / 0x80) % 0x4000, (n / 0x20_0000) % 0x40, Minus1(stride), false, offset)
  }

  /** The element count the three fields encode. */
  function Elements(b: BufferState): nat {
    b.width + b.height * 0x80 + b.depth * 0x20_0000
  }

  /** The fields hold the element count modulo 2^27, so exactly when the
      buffer has fewer than 2^27 elements. */
  lemma BufferFieldsHoldCount(format: Formats.IslFormat, offset: Word32, range: Word32, stride: Word32)
    requires stride > 0
    ensures var n := range / stride;
            && Elements(BufferSurface(format, offset, range, stride)) == n % 0x800_0000
            && (n < 0x800_0000 ==> Elements(BufferSurface(format, offset, range, stride)) == n)
  {
    var n := range / stride;
    SplitBits(n);
  }

  /** Splitting a number at bits 7 and 21 and gluing the pieces back gives
      its low 27 bits. */
  lemma SplitBits(n: nat)
    ensures n % 0x80 + ((n / 0x80) % 0x4000) * 0x80 + ((n / 0x20_0000) % 0x40) * 0x20_0000 == n % 0x800_0000
  {
    var q := n / 0x80;
    assert n == q * 0x80 + n % 0x80;
    assert q / 0x4000 == n / 0x20_0000;
    assert q == (q / 0x4000) * 0x4000 + q % 0x4000;
    var h := n / 0x20_0000;
    assert h == (h / 0x40) * 0x40 + h % 0x40;
    assert h / 0x40 == n / 0x800_0000;
    assert n == (n / 0x800_0000) * 0x800_0000 + n % 0x800_0000;
  }

  // ---------------------------------------------------------------------
  // Channel selection (Haswell)

  datatype ComponentSwizzle = Identity | SwizzleZero | SwizzleOne | SwizzleR | SwizzleG | SwizzleB | SwizzleA

  /** The component a swizzle is written for. */
  datatype Channel = Red | Green | Blue | Alpha

  /** The hardware's shader channel selects. */
  datatype Scs = ScsZero | ScsOne | ScsRed | ScsGreen | ScsBlue | ScsAlpha

  function ChannelSwizzle(c: Channel): ComponentSwizzle {
    match c
    case Red => SwizzleR
    case Green => SwizzleG
    case Blue => SwizzleB
    case Alpha => SwizzleA
  }

  /** `vk_to_gen_swizzle_map`. */
  function ScsOf(s: ComponentSwizzle): Scs
    requires s != Identity
  {
    match s
    case SwizzleZero => ScsZero
    case SwizzleOne => ScsOne
    case SwizzleR => ScsRed
    case SwizzleG => ScsGreen
    case SwizzleB => ScsBlue
    case SwizzleA => ScsAlpha
  }

  /** `vk_to_gen_swizzle`: the identity swizzle selects the component's own
      channel, every other swizzle its own entry. */
  function GenSwizzle(s: ComponentSwizzle, c: Channel): (r: Scs)
  {
    if s == Identity then ScsOf(ChannelSwizzle(c)) else ScsOf(s)
  }

  /** A texel's four channel values. */
  datatype Texel = Texel(r: int, g: int, b: int, a: int)

  function At(t: Texel, c: Channel): int {
    match c
    case Red => t.r
    case Green => t.g
    case Blue => t.b
    case Alpha => t.a
  }

  /** What the hardware returns for a channel select. */
  function Selected(s: Scs, t: Texel): int {
    match s
    case ScsZero => 0
    case ScsOne => 1
    case ScsRed => t.r
    case ScsGreen => t.g
    case ScsBlue => t.b
    case ScsAlpha => t.a
  }

  /** What a Vulkan component mapping asks for component `c`. */
  function Mapped(s: ComponentSwizzle, c: Channel, t: Texel): int {
    match s
    case Identity => At(t, c)
    case SwizzleZero => 0
    case SwizzleOne => 1
    case SwizzleR => t.r
    case SwizzleG => t.g
    case SwizzleB => t.b
    case SwizzleA => t.a
  }

  /** The hardware channel select returns what the component mapping asks
      for, for every swizzle, component and texel. */
  lemma GenSwizzleAgrees(s: ComponentSwizzle, c: Channel, t: Texel)
    ensures Selected(GenSwizzle(s, c), t) == Mapped(s, c, t)
  {
  }

  /** An all-identity mapping reads every channel unchanged. */
  lemma IdentityMappingReadsTexel(t: Texel)
    ensures Selected(GenSwizzle(Identity, Red), t) == t.r && Selected(GenSwizzle(Identity, Green), t) == t.g
    ensures Selected(GenSwizzle(Identity, Blue), t) == t.b && Selected(GenSwizzle(Identity, Alpha), t) == t.a
  {
    GenSwizzleAgrees(Identity, Red, t);
    GenSwizzleAgrees(Identity, Green, t);
    GenSwizzleAgrees(Identity, Blue, t);
    GenSwizzleAgrees(Identity, Alpha, t);
  }

  // ---------------------------------------------------------------------
  // Image views

  datatype Tiling = TilingLinear | TilingW | TilingX | TilingY0 | TilingYf | TilingYs

  datatype TileWalk = XMajor | YMajor

  /** The image a view looks at: its type, extent, layer count, tiling and
      row pitch, and which surface states its usage needs. */
  datatype Image = Image(
    kind: Formats.ImageType, width: Word32, height: Word32, depth: Word32, arraySize: nat,
    tiling: Tiling, rowPitch: Word32, needsNonRt: bool, needsRt: bool, needsStorage: bool)

  /** `VkImageSubresourceRange`. */
  datatype Range = Range(baseMipLevel: Word32, levelCount: Word32, baseArrayLayer: Word32, layerCount: Word32)

  datatype Swizzles = Swizzles(r: ComponentSwizzle, g: ComponentSwizzle, b: ComponentSwizzle, a: ComponentSwizzle)

  /** `VkImageViewCreateInfo`, with the view format's surface format. */
  datatype ViewInfo = ViewInfo(viewType: ViewType, format: Formats.IslFormat, range: Range, components: Swizzles)

  /** The fields of RENDER_SURFACE_STATE the view code sets; the channel
      selects exist on Haswell only. */
  datatype Surface = Surface(
    surfType: SurfType, array: bool, format: Formats.IslFormat, tiled: bool, walk: TileWalk,
    height: Word32, width: Word32, depth: Word32, pitch: Word32, minArrayElement: Word32,
    mipCountLod: Word32, surfaceMinLod: Word32, channels: Option<seq<Scs>>)

  /** The surface states a view gets: sampling (non-render-target), render
      target and storage, each only when the image needs it. */
  datatype Views = Views(nonRt: Option<Surface>, rt: Option<Surface>, storage: Option<Surface>)

  /** The depth a view spans: its layer count when that exceeds one, else
      the image's depth when that exceeds one, else one. */
  function ViewDepth(layerCount: Word32, imageDepth: Word32): (d: Word32)
    ensures d >= 1
    ensures layerCount > 1 ==> d == layerCount
    ensures layerCount <= 1 && imageDepth > 1 ==> d == imageDepth
    ensures layerCount <= 1 && imageDepth <= 1 ==> d == 1
  {
    if layerCount > 1 then layerCount else if imageDepth > 1 then imageDepth else 1
  }

  /** `MAX2(levelCount, 1) - 1`. */
  function LastLevel(levelCount: Word32): (n: Word32)
    ensures n + 1 == (if levelCount == 0 then 1 else levelCount)
  {
    if levelCount == 0 then 0 else levelCount - 1
  }

  /** The state every surface of the view starts from. */
  function Template(image: Image, info: ViewInfo, haswell: bool, surf: SurfType): (s: Surface)
  {
    var c := info.components;
    Surface(
      surf, image.arraySize > 1, info.format, image.tiling != TilingLinear,
      if image.tiling == TilingY0 then YMajor else XMajor,
      Minus1(image.height), Minus1(image.width), Minus1(ViewDepth(info.range.layerCount, image.depth)),
      Minus1(image.rowPitch), info.range.baseArrayLayer, 0, 0,
      if haswell then Some([GenSwizzle(c.r, Red), GenSwizzle(c.g, Green), GenSwizzle(c.b, Blue), GenSwizzle(c.a, Alpha)])
      else None)
  }

  /** `image_view_init`: the template, then for the sampling state the
      view's first level and level count, for the render-target state the
      level rendered to, and for the storage state the storage surface
      type and the lowered storage format `lowered` (what the format
      library answers) with the sampling state's level fields. */
  function ImageViewInit(image: Image, info: ViewInfo, haswell: bool, lowered: Formats.IslFormat): (r: Result<Views>)
    ensures r.Ok? <==> image.kind == ViewedType(info.viewType)
    ensures r.Ok? ==> (r.value.nonRt.Some? <==> image.needsNonRt) && (r.value.rt.Some? <==> image.needsRt)
                      && (r.value.storage.Some? <==> image.needsStorage)
  {
    var surf :- SurfTypeOf(image.kind, info.viewType, false);
    var t := Template(image, info, haswell, surf);
    var range := info.range;
    var nonRt := t.(surfaceMinLod := range.baseMipLevel, mipCountLod := LastLevel(range.levelCount));
    var rt := t.(mipCountLod := range.baseMipLevel, surfaceMinLod := 0);
    var storageSurf := SurfTypeOf(image.kind, info.viewType, true).value;
    var storage := nonRt.(surfType := storageSurf, format := lowered);
    Ok(Views(if image.needsNonRt then Some(nonRt) else None,
             if image.needsRt then Some(rt) else None,
             if image.needsStorage then Some(storage) else None))
  }

  /** The sampler reaches levels `[SurfaceMinLOD, SurfaceMinLOD +
      MIPCountLOD]`: for the sampling and storage states, exactly the
      view's levels (at least one); the render-target state renders to the
      view's first level and ignores SurfaceMinLOD. */
  lemma ViewLevels(image: Image, info: ViewInfo, haswell: bool, lowered: Formats.IslFormat)
    requires ImageViewInit(image, info, haswell, lowered).Ok?
    ensures var v := ImageViewInit(image, info, haswell, lowered).value;
            var r := info.range;
            && (v.nonRt.Some? ==> v.nonRt.value.surfaceMinLod == r.baseMipLevel
                                  && v.nonRt.value.mipCountLod + 1 == (if r.levelCount == 0 then 1 else r.levelCount))
            && (v.storage.Some? ==> v.storage.value.surfaceMinLod == r.baseMipLevel
                                    && v.storage.value.mipCountLod + 1 == (if r.levelCount == 0 then 1 else r.levelCount))
            && (v.rt.Some? ==> v.rt.value.mipCountLod == r.baseMipLevel && v.rt.value.surfaceMinLod == 0)
  {
  }

  /** Everything but the level fields is common to the three states, except
      that the storage state has the storage surface type and the lowered
      format; a storage state is never a cube. */
  lemma ViewsShareFields(image: Image, info: ViewInfo, haswell: bool, lowered: Formats.IslFormat)
    requires ImageViewInit(image, info, haswell, lowered).Ok?
    requires image.needsNonRt && image.needsRt && image.needsStorage
    ensures var v := ImageViewInit(image, info, haswell, lowered).value;
            var a, b, c := v.nonRt.value, v.rt.value, v.storage.value;
            && b == a.(mipCountLod := b.mipCountLod, surfaceMinLod := b.surfaceMinLod)
            && c == a.(surfType := c.surfType, format := lowered)
            && c.surfType != SurfCube && c.format == lowered
            && a.format == info.format
  {
  }

  /** The surface is tiled exactly when the image's tiling is not linear,
      and walks Y-major exactly for Y tiling; an untiled surface walks
      X-major, as the hardware requires. */
  lemma TilingFields(image: Image, info: ViewInfo, haswell: bool, surf: SurfType)
    ensures var s := Template(image, info, haswell, surf);
            && (s.tiled <==> image.tiling != TilingLinear)
            && (s.walk == YMajor <==> image.tiling == TilingY0)
            && (!s.tiled ==> s.walk == XMajor)
  {
  }

  /** The size fields hold each extent less one, and the depth field the
      layer count, or the image depth, or one, less one. */
  lemma ExtentFields(image: Image, info: ViewInfo, haswell: bool, surf: SurfType)
    requires image.width >= 1 && image.height >= 1
    ensures var s := Template(image, info, haswell, surf);
            && s.width + 1 == image.width && s.height + 1 == image.height
            && s.depth + 1 == ViewDepth(info.range.layerCount, image.depth)
            && (info.range.layerCount > 1 ==> s.depth + 1 == info.range.layerCount)
  {
  }

  /** On Haswell the channel selects return what the view's component
      mapping asks for; gen7 has no channel selects. */
  lemma ChannelsFollowMapping(image: Image, info: ViewInfo, haswell: bool, surf: SurfType, t: Texel)
    ensures var s := Template(image, info, haswell, surf);
            && (s.channels.Some? <==> haswell)
            && (haswell ==> |s.channels.value| == 4
                            && Selected(s.channels.value[0], t) == Mapped(info.components.r, Red, t)
                            && Selected(s.channels.value[1], t) == Mapped(info.components.g, Green, t)
                            && Selected(s.channels.value[2], t) == Mapped(info.components.b, Blue, t)
                            && Selected(s.channels.value[3], t) == Mapped(info.components.a, Alpha, t))
  {
    var c := info.components;
    GenSwizzleAgrees(c.r, Red, t);
    GenSwizzleAgrees(c.g, Green, t);
    GenSwizzleAgrees(c.b, Blue, t);
    GenSwizzleAgrees(c.a, Alpha, t);
  }

  // ---------------------------------------------------------------------
  // Samplers

  datatype Filter = FilterNearest | FilterLinear

  datatype MipmapMode = MipmapBase | MipmapNearest | MipmapLinear

  datatype AddressMode = Repeat | MirroredRepeat | ClampToEdge | MirrorClampToEdge | ClampToBorder

  datatype CompareOp = Never | Less | Equal | LessOrEqual | Greater | NotEqual | GreaterOrEqual | Always

  datatype MapFilter = MapNearest | MapLinear | MapAnisotropic

  datatype MipFilter = MipNone | MipNearest | MipLinear

  datatype Tcm = TcmWrap | TcmMirror | TcmClamp | TcmMirrorOnce | TcmClampBorder

  datatype Prefilter =
    | PrefilterNever | PrefilterLess | PrefilterEqual | PrefilterLEqual
    | PrefilterGreater | PrefilterNotEqual | PrefilterGEqual | PrefilterAlways

  /** `VkSamplerCreateInfo` without its floating-point fields; whether the
      maximum anisotropy exceeds one arrives as `anisotropic`. */
  datatype SamplerInfo = SamplerInfo(
    magFilter: Filter, minFilter: Filter, mipmapMode: MipmapMode,
    addressU: AddressMode, addressV: AddressMode, addressW: AddressMode,
    compareOp: CompareOp, borderColor: Word32, anisotropic: bool, unnormalized: bool)

  /** The integer fields of SAMPLER_STATE. */
  datatype Sampler = Sampler(
    mipFilter: MipFilter, magFilter: MapFilter, minFilter: MapFilter, shadow: Prefilter,
    borderColorPointer: Word32, tcx: Tcm, tcy: Tcm, tcz: Tcm, nonNormalized: bool)

  function MapFilterOf(f: Filter): MapFilter {
    match f
    case FilterNearest => MapNearest
    case FilterLinear => MapLinear
  }

  function MipFilterOf(m: MipmapMode): MipFilter {
    match m
    case MipmapBase => MipNone
    case MipmapNearest => MipNearest
    case MipmapLinear => MipLinear
  }

  function TcmOf(a: AddressMode): Tcm {
    match a
    case Repeat => TcmWrap
    case MirroredRepeat => TcmMirror
    case ClampToEdge => TcmClamp
    case MirrorClampToEdge => TcmMirrorOnce
    case ClampToBorder => TcmClampBorder
  }

  function PrefilterOf(c: CompareOp): Prefilter {
    match c
    case Never => PrefilterNever
    case Less => PrefilterLess
    case Equal => PrefilterEqual
    case LessOrEqual => PrefilterLEqual
    case Greater => PrefilterGreater
    case NotEqual => PrefilterNotEqual
    case GreaterOrEqual => PrefilterGEqual
    case Always => PrefilterAlways
  }

  /** Each border colour's four 32-bit floats sit 16 bytes after the
      previous one's, from the device's border-colour block at
      `borderColors`; the field is 32 bits wide. */
  function BorderColorPointer(borderColors: Word32, borderColor: Word32): (p: Word32)
  {
    (borderColors + borderColor * 16) % Two32
  }

  /** `CreateSampler`: anisotropic filtering overrides both filters, the
      other fields come from the translation tables. */
  function CreateSampler(info: SamplerInfo, borderColors: Word32): (s: Sampler)
    ensures info.anisotropic ==> s.magFilter == MapAnisotropic && s.minFilter == MapAnisotropic
    ensures !info.anisotropic ==> s.magFilter != MapAnisotropic && s.minFilter != MapAnisotropic
  {
    var mag := if info.anisotropic then MapAnisotropic else MapFilterOf(info.magFilter);
    var min := if info.anisotropic then MapAnisotropic else MapFilterOf(info.minFilter);
    Sampler(MipFilterOf(info.mipmapMode), mag, min, PrefilterOf(info.compareOp),
            BorderColorPointer(borderColors, info.borderColor),
            TcmOf(info.addressU), TcmOf(info.addressV), TcmOf(info.addressW), info.unnormalized)
  }

  /** No two Vulkan settings share a hardware setting: the translation
      tables lose nothing, so the hardware state determines every integer
      field of the request except the filters an anisotropic sampler
      overrides. */
  lemma SamplerTablesInjective(a: SamplerInfo, b: SamplerInfo, borderColors: Word32)
    requires a.borderColor < 6 && b.borderColor < 6 && borderColors + 96 <= Two32
    requires CreateSampler(a, borderColors) == CreateSampler(b, borderColors)
    ensures a.mipmapMode == b.mipmapMode && a.compareOp == b.compareOp
    ensures a.addressU == b.addressU && a.addressV == b.addressV && a.addressW == b.addressW
    ensures a.borderColor == b.borderColor && a.unnormalized == b.unnormalized
    ensures a.anisotropic == b.anisotropic
    ensures !a.anisotropic ==> a.magFilter == b.magFilter && a.minFilter == b.minFilter
  {
    BorderColorsSpaced(borderColors, a.borderColor);
    BorderColorsSpaced(borderColors, b.borderColor);
  }

  /** While the border-colour block fits below 2^32, colour `k`'s pointer
      is `16 k` bytes past the block's start. */
  lemma BorderColorsSpaced(borderColors: Word32, k: Word32)
    requires borderColors + 16 * k < Two32
    ensures BorderColorPointer(borderColors, k) == borderColors + 16 * k
  {
  }
}

=== FILE: glsl.dfy ===
/** The GLSL value types the translator produces (`struct glsl_type`), reduced
    to what the modelled code inspects: base type, vector width, matrix shape,
    array length, struct fields, and the sampler/image/function shapes.
 */
module Glsl {

  datatype Base = BoolT | IntT | UintT | FloatT | DoubleT

  datatype SamplerDim = Dim1D | Dim2D | Dim3D | DimCube | DimRect | DimBuf

  /** Interpolation qualifier a struct member can carry. */
  datatype Interp = InterpNone | InterpFlat | InterpNoPerspective

  /** A struct member: its type and the per-member qualifiers that member
      decorations set (location -1 means none). */
  datatype Field = Field(ty: GType, location: int, interp: Interp, centroid: bool, sample: bool)

  /** `GVec(b, 1)` is the scalar of base `b`; a matrix is `rows` by `cols`. */
  datatype GType =
    | GVoid
    | GVec(base: Base, n: nat)
    | GMat(base: Base, rows: nat, cols: nat)
    | GArray(elem: GType, len: nat)
    | GStruct(fields: seq<Field>)
    | GSampler(dim: SamplerDim, shadow: bool, arrayed: bool, sampled: Base)
    | GImage(dim: SamplerDim, arrayed: bool, sampled: Base)
    | GFunction(ret: GType, params: seq<GType>)

  /** `glsl_get_base_type`, with the non-numeric kinds spelled out. */
  datatype Kind = Numeric(b: Base) | ArrayKind | StructKind | SamplerKind | ImageKind | VoidKind | FunctionKind

  function KindOf(t: GType): Kind {
    match t
    case GVoid => VoidKind
    case GVec(b, _) => Numeric(b)
    case GMat(b, _, _) => Numeric(b)
    case GArray(_, _) => ArrayKind
    case GStruct(_) => StructKind
    case GSampler(_, _, _, _) => SamplerKind
    case GImage(_, _, _) => ImageKind
    case GFunction(_, _) => FunctionKind
  }

  predicate IsScalar(t: GType) {
    t.GVec? && t.n == 1
  }

  predicate IsVector(t: GType) {
    t.GVec? && t.n > 1
  }

  predicate IsVectorOrScalar(t: GType) {
    t.GVec?
  }

  /** `glsl_get_vector_elements`: the lane count, rows for a matrix, 0 otherwise. */
  function VectorElements(t: GType): nat {
    match t
    case GVec(_, n) => n
    case GMat(_, rows, _) => rows
    case _ => 0
  }

  /** `glsl_get_matrix_columns`: 1 for vectors and scalars, 0 for aggregates. */
  function MatrixColumns(t: GType): nat {
    match t
    case GVec(_, _) => 1
    case GMat(_, _, cols) => cols
    case _ => 0
  }

  /** `glsl_get_length`: columns of a matrix, length of an array, field count
      of a struct, 0 otherwise. */
  function Length(t: GType): nat {
    match t
    case GMat(_, _, cols) => cols
    case GArray(_, len) => len
    case GStruct(fields) => |fields|
    case _ => 0
  }

  /** `glsl_get_column_type`: one column of a matrix is a vector of `rows`. */
  function ColumnType(t: GType): GType
    requires t.GMat?
  {
    GVec(t.base, t.rows)
  }

  /** The transposed shape of a matrix. */
  function Transposed(t: GType): (r: GType)
    requires t.GMat?
    ensures r.GMat? && r.base == t.base && r.rows == t.cols && r.cols == t.rows
  {
    GMat(t.base, t.cols, t.rows)
  }

  /** `glsl_vector_type`: only one to four lanes exist. */
  function VectorType(b: Base, n: nat): (r: GType)
    requires 1 <= n <= 4
    ensures IsVectorOrScalar(r) && VectorElements(r) == n && KindOf(r) == Numeric(b)
  {
    GVec(b, n)
  }

  /** `glsl_matrix_type` yields a matrix only for float and double bases with
      two to four rows and columns. */
  predicate MatrixExists(b: Base, rows: nat, cols: nat) {
    (b == FloatT || b == DoubleT) && 2 <= rows <= 4 && 2 <= cols <= 4
  }

  /** The bare sampler the translator gives `OpTypeSampler`. */
  const BareSampler: GType := GSampler(Dim2D, false, false, FloatT)
}

=== FILE: nir.dfy ===
/** The NIR values the translator emits, as terms with an evaluator.

    The translator builds NIR instructions through a builder; the model keeps
    each emitted SSA definition as a `Def` term naming the operation and its
    sources, so that what an emitted sequence computes can be stated by
    evaluating it.  Components are 32-bit words held as naturals below 2^32;
    per-component operations whose sources differ in width repeat the last
    component of the narrower source, as the builder's swizzle padding does.
 */
module Nir {

  const U32: nat := 0x1_0000_0000

  /** `NIR_TRUE` (all bits set) and `NIR_FALSE`. */
  const NirTrue: nat := 0xFFFF_FFFF
  const NirFalse: nat := 0

  /** Which intrinsic a block load or store uses. */
  datatype BlockOp = LoadUbo | LoadSsbo | LoadPushConstant | StoreSsbo

  /** NIR variable modes the modelled code distinguishes. */
  datatype Mode = ShaderIn | ShaderOut | Global | Local | Uniform | ShaderStorage | SystemValue

  /** One link of a variable dereference path: a constant array index, an
      array index `base + ix` computed at run time, or a struct field. */
  datatype Step = Direct(n: nat) | Indirect(base: nat, ix: Def) | Field(index: nat)

  /** One component of a `vecN`: component `comp` of `src`. */
  datatype Lane = Lane(src: Def, comp: nat)

  datatype Def =
    | Imm(vals: seq<nat>)                      // load_const / imm_int
    | Undef(width: nat)                        // ssa_undef
    | Input(id: nat, width: nat)               // a definition made elsewhere
    | Swizzle(src: Def, comps: seq<nat>)       // fmov with a swizzle
    | Vec(lanes: seq<Lane>)                    // fmov / vec2 / vec3 / vec4
    | Bcsel(cond: Def, ifTrue: Def, ifFalse: Def)
    | Ieq(a: Def, b: Def)
    | Ine(a: Def, b: Def)
    | Iadd(a: Def, b: Def)
    | Imul(a: Def, b: Def)
    | BlockLoad(op: BlockOp, descSet: int, binding: int, mode: Mode, index: Def, offset: Def, width: nat)
    | VarLoad(variable: nat, path: seq<Step>, width: nat)   // load_var through a deref path

  /** `nir_imm_int`. */
  function ImmInt(v: nat): Def {
    Imm([v % U32])
  }

  /** Number of components a definition has. */
  function Width(d: Def): nat {
    match d
    case Imm(vs) => |vs|
    case Undef(w) => w
    case Input(_, w) => w
    case Swizzle(_, cs) => |cs|
    case Vec(ls) => |ls|
    case Bcsel(c, t, f) => Max(Width(c), Max(Width(t), Width(f)))
    case Ieq(a, b) => Max(Width(a), Width(b))
    case Ine(a, b) => Max(Width(a), Width(b))
    case Iadd(a, b) => Max(Width(a), Width(b))
    case Imul(a, b) => Max(Width(a), Width(b))
    case BlockLoad(_, _, _, _, _, _, w) => w
    case VarLoad(_, _, w) => w
  }

  /** `1 << n` on unbounded integers. */
  function Pow2(n: nat): (p: nat)
    ensures p >= 1
  {
    if n == 0 then 1 else 2 * Pow2(n - 1)
  }

  function Max(a: nat, b: nat): nat {
    if a >= b then a else b
  }

  /** What evaluation reads from outside the emitted terms: earlier
      definitions, block memory, and variables. */
  datatype Env = Env(
    input: (nat, nat) -> seq<nat>,
    block: (BlockOp, int, int, nat, nat, nat) -> seq<nat>,
    variable: (nat, seq<nat>, nat) -> seq<nat>)

  /** Component `k` of an outside value, as a 32-bit word (0 past its end). */
  function Get(v: seq<nat>, k: nat): nat {
    if k < |v| then v[k] % U32 else 0
  }

  /** Which component of a `w`-wide source a per-component operation reads
      for result component `k`: the last one once `k` runs past the source. */
  function Pick(w: nat, k: nat): nat {
    if k < w then k else if w == 0 then 0 else w - 1
  }

  /** Component `k` of the value of `d`.  Undefined components read 0. */
  function EvalLane(env: Env, d: Def, k: nat): (r: nat)
    ensures r < U32
  {
    match d
    case Imm(vs) => if k < |vs| then vs[k] % U32 else 0
    case Undef(_) => 0
    case Input(id, w) => Get(env.input(id, w), k)
    case Swizzle(src, cs) => if k < |cs| then EvalLane(env, src, cs[k]) else 0
    case Vec(ls) => if k < |ls| then EvalLane(env, ls[k].src, ls[k].comp) else 0
    case Bcsel(c, t, f) =>
      if EvalLane(env, c, Pick(Width(c), k)) != 0 then EvalLane(env, t, Pick(Width(t), k))
      else EvalLane(env, f, Pick(Width(f), k))
    case Ieq(a, b) =>
      if EvalLane(env, a, Pick(Width(a), k)) == EvalLane(env, b, Pick(Width(b), k)) then NirTrue else NirFalse
    case Ine(a, b) =>
      if EvalLane(env, a, Pick(Width(a), k)) != EvalLane(env, b, Pick(Width(b), k)) then NirTrue else NirFalse
    case Iadd(a, b) => (EvalLane(env, a, Pick(Width(a), k)) + EvalLane(env, b, Pick(Width(b), k))) % U32
    case Imul(a, b) => (EvalLane(env, a, Pick(Width(a), k)) * EvalLane(env, b, Pick(Width(b), k))) % U32
    case BlockLoad(op, ds, binding, _, index, offset, w) =>
      Get(env.block(op, ds, binding, EvalLane(env, index, 0), EvalLane(env, offset, 0), w), k)
    case VarLoad(x, path, w) =>
      var idx := seq(|path|, i requires 0 <= i < |path| =>
                   match path[i]
                   case Direct(n) => n
                   case Indirect(base, ix) => (base + EvalLane(env, ix, 0)) % U32
                   case Field(f) => f);
      Get(env.variable(x, idx, w), k)
  }

  /** The whole value of `d`, one word per component. */
  function Eval(env: Env, d: Def): (r: seq<nat>)
    ensures |r| == Width(d)
    ensures forall k :: 0 <= k < |r| ==> r[k] == EvalLane(env, d, k)
  {
    seq(Width(d), k requires 0 <= k => EvalLane(env, d, k))
  }

  /** The single component of a one-wide definition. */
  function Scalar(env: Env, d: Def): nat {
    EvalLane(env, d, 0)
  }

  /** The index a step selects once evaluated. */
  function StepValue(env: Env, s: Step): nat {
    match s
    case Direct(n) => n
    case Indirect(base, ix) => (base + EvalLane(env, ix, 0)) % U32
    case Field(f) => f
  }

  /** Adding at 32 bits: reducing an operand first changes nothing. */
  lemma ModAddLeft(x: nat, y: nat)
    ensures (x % U32 + y) % U32 == (x + y) % U32
  {
    var q := x / U32;
    assert x == U32 * q + x % U32;
    assert x + y == U32 * q + (x % U32 + y);
    ModShift(x % U32 + y, q);
  }

  lemma ModShift(z: nat, q: nat)
    ensures (U32 * q + z) % U32 == z % U32
  {
  }

  /** Multiplying at 32 bits: reducing an operand first changes nothing. */
  lemma ModMulLeft(x: nat, y: nat)
    ensures (x % U32 * y) % U32 == (x * y) % U32
  {
    var q := x / U32;
    assert x == U32 * q + x % U32;
    assert x * y == U32 * (q * y) + x % U32 * y by {
      assert x * y == (U32 * q + x % U32) * y;
    }
    ModShift(x % U32 * y, q * y);
  }
}

=== FILE: spv.dfy ===
/** Numeric enumerants of the SPIR-V binary form (version 1.0 of the Khronos
    SPIR-V specification, section 3) that the translator compares words against.
    Only the values the modelled code inspects are listed.
 */
module Spv {

  /** A 32-bit word of the module. */
  type Word = x: int | 0 <= x < 0x1_0000_0000

  const MagicNumber: Word := 0x0723_0203
  /** The header check demands a version word of at least 1.0. */
  const MinVersion: Word := 0x0001_0000

  /** `SpvOpCodeMask` and `SpvWordCountShift`: opcode in the low half-word,
      word count in the high half-word (section 2.3). */
  const OpCodeMod: nat := 0x1_0000

  // Opcodes (section 3.32)
  const OpNop: nat := 0
  const OpExecutionMode: nat := 16
  const OpDecorate: nat := 71
  const OpMemberDecorate: nat := 72
  const OpDecorationGroup: nat := 73
  const OpGroupDecorate: nat := 74
  const OpGroupMemberDecorate: nat := 75
  const OpTypeVoid: nat := 19
  const OpTypeBool: nat := 20
  const OpTypeInt: nat := 21
  const OpTypeFloat: nat := 22
  const OpTypeVector: nat := 23
  const OpTypeMatrix: nat := 24
  const OpTypeImage: nat := 25
  const OpTypeSampler: nat := 26
  const OpTypeSampledImage: nat := 27
  const OpTypeArray: nat := 28
  const OpTypeRuntimeArray: nat := 29
  const OpTypeStruct: nat := 30
  const OpTypePointer: nat := 32
  const OpTypeFunction: nat := 33
  const OpConstantTrue: nat := 41
  const OpSampledImage: nat := 86
  const OpImageSampleImplicitLod: nat := 87
  const OpImageSampleExplicitLod: nat := 88
  const OpImageSampleDrefImplicitLod: nat := 89
  const OpImageSampleDrefExplicitLod: nat := 90
  const OpImageSampleProjImplicitLod: nat := 91
  const OpImageSampleProjExplicitLod: nat := 92
  const OpImageSampleProjDrefImplicitLod: nat := 93
  const OpImageSampleProjDrefExplicitLod: nat := 94
  const OpImageFetch: nat := 95
  const OpImageGather: nat := 96
  const OpImageDrefGather: nat := 97
  const OpImageQuerySizeLod: nat := 103
  const OpImageQuerySize: nat := 104
  const OpImageQueryLod: nat := 105
  const OpImageQueryLevels: nat := 106
  const OpImageQuerySamples: nat := 107
  const OpConstantFalse: nat := 42
  const OpConstant: nat := 43
  const OpConstantComposite: nat := 44

  // Conversion, arithmetic, relational, logical, bit and derivative opcodes
  const OpConvertFToU: nat := 109
  const OpConvertFToS: nat := 110
  const OpConvertSToF: nat := 111
  const OpConvertUToF: nat := 112
  const OpUConvert: nat := 113
  const OpSConvert: nat := 114
  const OpFConvert: nat := 115
  const OpBitcast: nat := 124
  const OpSNegate: nat := 126
  const OpFNegate: nat := 127
  const OpIAdd: nat := 128
  const OpFAdd: nat := 129
  const OpISub: nat := 130
  const OpFSub: nat := 131
  const OpIMul: nat := 132
  const OpFMul: nat := 133
  const OpUDiv: nat := 134
  const OpSDiv: nat := 135
  const OpFDiv: nat := 136
  const OpUMod: nat := 137
  const OpSRem: nat := 138
  const OpSMod: nat := 139
  const OpFRem: nat := 140
  const OpFMod: nat := 141
  const OpVectorTimesScalar: nat := 142
  const OpDot: nat := 148
  const OpAny: nat := 154
  const OpAll: nat := 155
  const OpIsNan: nat := 156
  const OpIsInf: nat := 157
  const OpIsFinite: nat := 158
  const OpIsNormal: nat := 159
  const OpSignBitSet: nat := 160
  const OpLessOrGreater: nat := 161
  const OpOrdered: nat := 162
  const OpUnordered: nat := 163
  const OpLogicalEqual: nat := 164
  const OpLogicalNotEqual: nat := 165
  const OpLogicalOr: nat := 166
  const OpLogicalAnd: nat := 167
  const OpLogicalNot: nat := 168
  const OpSelect: nat := 169
  const OpIEqual: nat := 170
  const OpINotEqual: nat := 171
  const OpUGreaterThan: nat := 172
  const OpSGreaterThan: nat := 173
  const OpUGreaterThanEqual: nat := 174
  const OpSGreaterThanEqual: nat := 175
  const OpULessThan: nat := 176
  const OpSLessThan: nat := 177
  const OpULessThanEqual: nat := 178
  const OpSLessThanEqual: nat := 179
  const OpFOrdEqual: nat := 180
  const OpFUnordEqual: nat := 181
  const OpFOrdNotEqual: nat := 182
  const OpFUnordNotEqual: nat := 183
  const OpFOrdLessThan: nat := 184
  const OpFUnordLessThan: nat := 185
  const OpFOrdGreaterThan: nat := 186
  const OpFUnordGreaterThan: nat := 187
  const OpFOrdLessThanEqual: nat := 188
  const OpFUnordLessThanEqual: nat := 189
  const OpFOrdGreaterThanEqual: nat := 190
  const OpFUnordGreaterThanEqual: nat := 191
  const OpShiftRightLogical: nat := 194
  const OpShiftRightArithmetic: nat := 195
  const OpShiftLeftLogical: nat := 196
  const OpBitwiseOr: nat := 197
  const OpBitwiseXor: nat := 198
  const OpBitwiseAnd: nat := 199
  const OpNot: nat := 200
  const OpDPdx: nat := 207
  const OpDPdy: nat := 208
  const OpFwidth: nat := 209
  const OpDPdxFine: nat := 210
  const OpDPdyFine: nat := 211
  const OpFwidthFine: nat := 212
  const OpDPdxCoarse: nat := 213
  const OpDPdyCoarse: nat := 214
  const OpFwidthCoarse: nat := 215

  // Decorations (section 3.20)
  const DecRelaxedPrecision: nat := 0
  const DecSpecId: nat := 1
  const DecBlock: nat := 2
  const DecBufferBlock: nat := 3
  const DecRowMajor: nat := 4
  const DecColMajor: nat := 5
  const DecArrayStride: nat := 6
  const DecMatrixStride: nat := 7
  const DecGLSLShared: nat := 8
  const DecGLSLPacked: nat := 9
  const DecCPacked: nat := 10
  const DecBuiltIn: nat := 11
  const DecNoPerspective: nat := 13
  const DecFlat: nat := 14
  const DecPatch: nat := 15
  const DecCentroid: nat := 16
  const DecSample: nat := 17
  const DecInvariant: nat := 18
  const DecRestrict: nat := 19
  const DecAliased: nat := 20
  const DecVolatile: nat := 21
  const DecConstant: nat := 22
  const DecCoherent: nat := 23
  const DecNonWritable: nat := 24
  const DecNonReadable: nat := 25
  const DecUniform: nat := 26
  const DecSaturatedConversion: nat := 28
  const DecStream: nat := 29
  const DecLocation: nat := 30
  const DecComponent: nat := 31
  const DecIndex: nat := 32
  const DecBinding: nat := 33
  const DecDescriptorSet: nat := 34
  const DecOffset: nat := 35
  const DecXfbBuffer: nat := 36
  const DecFuncParamAttr: nat := 38
  const DecFPRoundingMode: nat := 39
  const DecFPFastMathMode: nat := 40
  const DecLinkageAttributes: nat := 41

  // Built-ins (section 3.21)
  const BuiltInPosition: nat := 0
  const BuiltInPointSize: nat := 1
  const BuiltInClipDistance: nat := 3
  const BuiltInCullDistance: nat := 4
  const BuiltInVertexId: nat := 5
  const BuiltInInstanceId: nat := 6
  const BuiltInPrimitiveId: nat := 7
  const BuiltInInvocationId: nat := 8
  const BuiltInLayer: nat := 9
  const BuiltInTessLevelOuter: nat := 11
  const BuiltInTessLevelInner: nat := 12
  const BuiltInTessCoord: nat := 13
  const BuiltInPatchVertices: nat := 14
  const BuiltInFragCoord: nat := 15
  const BuiltInPointCoord: nat := 16
  const BuiltInFrontFacing: nat := 17
  const BuiltInSampleId: nat := 18
  const BuiltInSamplePosition: nat := 19
  const BuiltInSampleMask: nat := 20
  const BuiltInFragDepth: nat := 22
  const BuiltInHelperInvocation: nat := 23
  const BuiltInNumWorkgroups: nat := 24
  const BuiltInWorkgroupSize: nat := 25
  const BuiltInWorkgroupId: nat := 26
  const BuiltInLocalInvocationId: nat := 27
  const BuiltInGlobalInvocationId: nat := 28
  const BuiltInLocalInvocationIndex: nat := 29

  // Storage classes (section 3.7)
  const StorageUniformConstant: nat := 0
  const StorageInput: nat := 1
  const StorageUniform: nat := 2
  const StorageOutput: nat := 3
  const StorageWorkgroup: nat := 4
  const StorageCrossWorkgroup: nat := 5
  const StoragePrivate: nat := 6
  const StorageFunction: nat := 7
  const StorageGeneric: nat := 8
  const StoragePushConstant: nat := 9
  const StorageAtomicCounter: nat := 10

  // Execution models (section 3.3)
  const ModelVertex: nat := 0
  const ModelTessellationControl: nat := 1
  const ModelTessellationEvaluation: nat := 2
  const ModelGeometry: nat := 3
  const ModelFragment: nat := 4
  const ModelGLCompute: nat := 5
  const ModelKernel: nat := 6

  // Execution modes (section 3.6)
  const ModeInvocations: nat := 0
  const ModeSpacingEqual: nat := 1
  const ModeSpacingFractionalEven: nat := 2
  const ModeSpacingFractionalOdd: nat := 3
  const ModeVertexOrderCw: nat := 4
  const ModeVertexOrderCcw: nat := 5
  const ModePixelCenterInteger: nat := 6
  const ModeOriginUpperLeft: nat := 7
  const ModeOriginLowerLeft: nat := 8
  const ModeEarlyFragmentTests: nat := 9
  const ModePointMode: nat := 10
  const ModeXfb: nat := 11
  const ModeDepthReplacing: nat := 12
  const ModeDepthGreater: nat := 14
  const ModeDepthLess: nat := 15
  const ModeDepthUnchanged: nat := 16
  const ModeLocalSize: nat := 17
  const ModeLocalSizeHint: nat := 18
  const ModeInputPoints: nat := 19
  const ModeInputLines: nat := 20
  const ModeInputLinesAdjacency: nat := 21
  const ModeTriangles: nat := 22
  const ModeInputTrianglesAdjacency: nat := 23
  const ModeQuads: nat := 24
  const ModeIsolines: nat := 25
  const ModeOutputVertices: nat := 26
  const ModeOutputPoints: nat := 27
  const ModeOutputLineStrip: nat := 28
  const ModeOutputTriangleStrip: nat := 29
  const ModeVecTypeHint: nat := 30
  const ModeContractionOff: nat := 31

  // Image operand mask bits (section 3.14)
  const ImageOperandsBias: nat := 0x01
  const ImageOperandsLod: nat := 0x02
  const ImageOperandsGrad: nat := 0x04
  const ImageOperandsConstOffset: nat := 0x08
  const ImageOperandsOffset: nat := 0x10
  const ImageOperandsConstOffsets: nat := 0x20
  const ImageOperandsSample: nat := 0x40

  // Image dimensionality (section 3.8)
  const Dim1D: nat := 0
  const Dim2D: nat := 1
  const Dim3D: nat := 2
  const DimCube: nat := 3
  const DimRect: nat := 4
  const DimBuffer: nat := 5

  /** Bit `bit` (a power of two below 2^32) is set in `mask`. */
  predicate HasBit(mask: nat, bit: nat)
    requires bit > 0
  {
    (mask / bit) % 2 == 1
  }
}

=== FILE: ssa.dfy ===
/** SSA value trees (`struct vtn_ssa_value`): a value of vector or scalar type
    is one NIR definition; a matrix, array or struct value holds one child
    value per column, element or field.  A value may also carry a link to the
    value it was transposed from, which `vtn_transpose` uses as a cache.
 */
module SsaValues {
  import opened Wrappers
  import opened Glsl
  import opened Nir
  import Vectors

  datatype Ssa = Ssa(ty: GType, def: Option<Def>, elems: seq<Ssa>, transposed: Option<Ssa>)

  /** The type of child `i` of a value of type `t`: a column of a matrix, the
      element of an array, field `i` of a struct. */
  function ChildType(t: GType, i: nat): GType {
    match t
    case GMat(b, rows, _) => GVec(b, rows)
    case GArray(e, _) => e
    case GStruct(fs) => if i < |fs| then fs[i].ty else GVoid
    case _ => GVoid
  }

  /** A value is shaped like its type: vectors and scalars have no children,
      every other type has `glsl_get_length` children of the child types. */
  predicate Shaped(v: Ssa) {
    if v.ty.GVec? then v.elems == []
    else v.def.None? && |v.elems| == Length(v.ty)
         && forall i :: 0 <= i < |v.elems| ==> v.elems[i].ty == ChildType(v.ty, i) && Shaped(v.elems[i])
  }

  /** Every vector or scalar in the tree has its definition. */
  predicate Complete(v: Ssa) {
    (v.ty.GVec? ==> v.def.Some?) && forall i :: 0 <= i < |v.elems| ==> Complete(v.elems[i])
  }

  /** No node of the tree carries a transpose link. */
  predicate Unlinked(v: Ssa) {
    v.transposed.None? && forall i :: 0 <= i < |v.elems| ==> Unlinked(v.elems[i])
  }

  /** The tree with every definition and every link dropped: its shape. */
  function Skeleton(v: Ssa): (r: Ssa) {
    Ssa(v.ty, None, seq(|v.elems|, i requires 0 <= i < |v.elems| => Skeleton(v.elems[i])), None)
  }

  /** The definitions at the vector and scalar leaves, left to right. */
  function Leaves(v: Ssa): seq<Def>
    requires Complete(v)
  {
    if v.ty.GVec? then [v.def.value] else LeavesOf(v.elems)
  }

  function LeavesOf(vs: seq<Ssa>): seq<Def>
    requires forall i :: 0 <= i < |vs| ==> Complete(vs[i])
    decreases vs
  {
    if |vs| == 0 then [] else Leaves(vs[0]) + LeavesOf(vs[1..])
  }

  /** A vector or scalar value without its definition yet. */
  function Blank(t: GType): Ssa {
    Ssa(t, None, [], None)
  }

  /** `vtn_create_ssa_value`: the tree of type `t`, definitions left empty. */
  function Create(t: GType): (r: Ssa)
    ensures r.ty == t && Shaped(r) && Unlinked(r)
    ensures forall i :: 0 <= i < |r.elems| ==> r.elems[i].def.None?
  {
    match t
    case GVec(_, _) => Blank(t)
    case GMat(b, rows, cols) => Ssa(t, None, seq(cols, _ => Blank(GVec(b, rows))), None)
    case GArray(e, len) => Ssa(t, None, seq(len, _ => Create(e)), None)
    case GStruct(fs) => Ssa(t, None, seq(|fs|, i requires 0 <= i < |fs| => Create(fs[i].ty)), None)
    case _ => Blank(t)
  }

  /** `vtn_undef_ssa_value`: the tree of type `t`, every vector or scalar an
      undefined definition of its width. */
  function Undef(t: GType): (r: Ssa)
    ensures r.ty == t && Shaped(r) && Complete(r) && Unlinked(r)
    ensures AllUndef(Leaves(r))
  {
    match t
    case GVec(_, n) => Ssa(t, Some(Nir.Undef(n)), [], None)
    case GMat(b, rows, cols) =>
      var r := Ssa(t, None, seq(cols, _ => Ssa(GVec(b, rows), Some(Nir.Undef(rows)), [], None)), None);
      assert forall i :: 0 <= i < cols ==> Leaves(r.elems[i]) == [Nir.Undef(rows)];
      UndefLeaves(r.elems);
      r
    case GArray(e, len) =>
      var r := Ssa(t, None, seq(len, _ => Undef(e)), None);
      UndefLeaves(r.elems);
      r
    case GStruct(fs) =>
      var r := Ssa(t, None, seq(|fs|, i requires 0 <= i < |fs| => Undef(fs[i].ty)), None);
      UndefLeaves(r.elems);
      r
    case _ =>
      var r := Ssa(t, None, [], None);
      assert Leaves(r) == [];
      r
  }

  predicate AllUndef(ds: seq<Def>) {
    forall k :: 0 <= k < |ds| ==> ds[k].Undef?
  }

  lemma {:induction false} UndefLeaves(vs: seq<Ssa>)
    requires forall i :: 0 <= i < |vs| ==> Complete(vs[i]) && AllUndef(Leaves(vs[i]))
    ensures AllUndef(LeavesOf(vs))
    decreases |vs|
  {
    if |vs| > 0 {
      UndefLeaves(vs[1..]);
      assert LeavesOf(vs) == Leaves(vs[0]) + LeavesOf(vs[1..]);
    }
  }

  /** An undefined value has exactly the shape a created value has. */
  lemma {:induction false} UndefHasCreatedShape(t: GType)
    ensures Skeleton(Undef(t)) == Skeleton(Create(t))
  {
    match t
    case GVec(_, _) =>
    case GMat(b, rows, cols) =>
      assert Skeleton(Undef(t)).elems == Skeleton(Create(t)).elems;
    case GArray(e, len) =>
      UndefHasCreatedShape(e);
      assert Skeleton(Undef(t)).elems == Skeleton(Create(t)).elems;
    case GStruct(fs) =>
      forall i | 0 <= i < |fs| ensures Skeleton(Undef(fs[i].ty)) == Skeleton(Create(fs[i].ty)) {
        UndefHasCreatedShape(fs[i].ty);
      }
      assert Skeleton(Undef(t)).elems == Skeleton(Create(t)).elems;
    case _ =>
  }

  /** `vtn_composite_copy`: a fresh tree with the same type and definitions
      and no transpose links. */
  function Copy(v: Ssa): (r: Ssa)
    requires Shaped(v)
    ensures r.ty == v.ty && Shaped(r) && Unlinked(r) && Skeleton(r) == Skeleton(v)
    ensures |r.elems| == |v.elems|
    ensures v.ty.GVec? ==> r.def == v.def
    ensures Complete(v) ==> Complete(r) && Leaves(r) == Leaves(v)
  {
    if v.ty.GVec? then Ssa(v.ty, v.def, [], None)
    else
      var es := seq(Length(v.ty), i requires 0 <= i < Length(v.ty) => Copy(v.elems[i]));
      var r := Ssa(v.ty, None, es, None);
      assert Skeleton(r).elems == Skeleton(v).elems;
      if Complete(v) then
        CopyLeaves(v.elems, es);
        r
      else r
  }

  lemma {:induction false} CopyLeaves(vs: seq<Ssa>, ws: seq<Ssa>)
    requires |vs| == |ws|
    requires forall i :: 0 <= i < |vs| ==> Complete(vs[i]) && Complete(ws[i]) && Leaves(ws[i]) == Leaves(vs[i])
    ensures LeavesOf(ws) == LeavesOf(vs)
    decreases |vs|
  {
    if |vs| > 0 {
      CopyLeaves(vs[1..], ws[1..]);
    }
  }

  /** Copying a value with no transpose links gives the value back. */
  lemma {:induction false} CopyOfUnlinked(v: Ssa)
    requires Shaped(v) && Unlinked(v)
    ensures Copy(v) == v
  {
    if !v.ty.GVec? {
      forall i | 0 <= i < |v.elems| ensures Copy(v.elems[i]) == v.elems[i] {
        CopyOfUnlinked(v.elems[i]);
      }
      assert Copy(v).elems == v.elems;
    }
  }

  /** A scalar of the base type of `t`. */
  function ScalarOf(t: GType): GType
    requires t.GVec?
  {
    GVec(t.base, 1)
  }

  /** `vtn_composite_extract`: follow `path` down the tree; an index reaching
      a vector or scalar selects one component, and must be the last index. */
  function Extract(v: Ssa, path: seq<nat>): (r: Result<Ssa>)
    decreases |path|
  {
    if |path| == 0 then Ok(v)
    else if v.ty.GVec? then
      if |path| != 1 then Abort("component index before the last index")
      else if v.def.None? then Abort("vector without a definition")
      else Ok(Ssa(ScalarOf(v.ty), Some(Vectors.Extract(v.def.value, path[0])), [], None))
    else if path[0] >= |v.elems| then Abort("index out of range")
    else Extract(v.elems[path[0]], path[1..])
  }

  /** The insertion into an already copied tree: the last index either
      selects a component of a vector, or replaces a child by `ins` itself
      (which is shared, not copied). */
  function InsertInto(cur: Ssa, ins: Ssa, path: seq<nat>): (r: Result<Ssa>)
    requires |path| >= 1
    ensures r.Ok? ==> r.value.ty == cur.ty && |r.value.elems| == |cur.elems|
    ensures r.Ok? ==> forall j :: 0 <= j < |cur.elems| && j != path[0] ==> r.value.elems[j] == cur.elems[j]
    decreases |path|
  {
    if |path| == 1 && cur.ty.GVec? then
      if cur.def.None? || ins.def.None? then Abort("vector without a definition")
      else
        var d :- Vectors.Insert(cur.def.value, ins.def.value, path[0]);
        Ok(cur.(def := Some(d)))
    else if cur.ty.GVec? || path[0] >= |cur.elems| then Abort("index out of range")
    else if |path| == 1 then Ok(cur.(elems := cur.elems[path[0] := ins]))
    else
      var c :- InsertInto(cur.elems[path[0]], ins, path[1..]);
      Ok(cur.(elems := cur.elems[path[0] := c]))
  }

  /** `vtn_composite_insert`: insert into a copy of `src`; at least one index
      is needed. */
  function Insert(src: Ssa, ins: Ssa, path: seq<nat>): (r: Result<Ssa>)
    requires Shaped(src)
    ensures r.Ok? ==> r.value.ty == src.ty && r.value.transposed.None?
    ensures |path| == 0 ==> r.Abort?
  {
    if |path| == 0 then Abort("composite insert without an index")
    else InsertInto(Copy(src), ins, path)
  }

  /** Extracting at the path just inserted at gives back what was inserted:
      the inserted value itself, or, when the last index selects a vector
      component, that component of the inserted value. */
  lemma {:induction false} ExtractInserted(cur: Ssa, ins: Ssa, path: seq<nat>)
    requires |path| >= 1 && InsertInto(cur, ins, path).Ok?
    ensures var r := InsertInto(cur, ins, path).value;
            var c := Extract(cur, path[..|path| - 1]);
            c.Ok? && Extract(r, path).Ok?
            && (c.value.ty.GVec? ==>
                  c.value.def.Some? && ins.def.Some? && Extract(r, path).value.def.Some?
                  && forall env :: path[|path| - 1] < Width(c.value.def.value) ==>
                       EvalLane(env, Extract(r, path).value.def.value, 0) == EvalLane(env, ins.def.value, 0))
            && (!c.value.ty.GVec? ==> Extract(r, path).value == ins)
    decreases |path|
  {
    var r := InsertInto(cur, ins, path).value;
    if |path| == 1 {
      assert path[..0] == [];
      if cur.ty.GVec? {
        var d := Vectors.Insert(cur.def.value, ins.def.value, path[0]).value;
        assert r.def == Some(d) && Width(d) == Width(cur.def.value);
      }
    } else {
      var c := InsertInto(cur.elems[path[0]], ins, path[1..]).value;
      ExtractInserted(cur.elems[path[0]], ins, path[1..]);
      assert r.elems[path[0]] == c;
      assert path[1..][..|path[1..]| - 1] == path[..|path| - 1][1..];
      assert Extract(cur, path[..|path| - 1]) == Extract(cur.elems[path[0]], path[1..][..|path[1..]| - 1]);
      assert Extract(r, path) == Extract(c, path[1..]);
    }
  }

  /** Composite insert leaves `src` itself as it was, and the result differs
      from a copy of `src` only under the first index. */
  lemma InsertTouchesOnePath(src: Ssa, ins: Ssa, path: seq<nat>, j: nat)
    requires Shaped(src) && Insert(src, ins, path).Ok?
    requires j < |src.elems| && j != path[0]
    ensures Insert(src, ins, path).value.elems[j] == Copy(src).elems[j]
  {
  }

  /** `OpCompositeConstruct` of a matrix, array or struct: the operands become
      the children as they are. */
  function ConstructAggregate(t: GType, operands: seq<Ssa>): (r: Ssa)
    requires !t.GVec?
    ensures forall i :: 0 <= i < |operands| ==> Extract(r, [i]) == Ok(operands[i])
  {
    Ssa(t, None, operands, None)
  }

  /** The definition of column `j` of a matrix value. */
  function Column(m: Ssa, j: nat): Def
    requires Shaped(m) && Complete(m) && m.ty.GMat? && j < m.ty.cols
  {
    assert m.elems[j].ty == ChildType(m.ty, j) && Complete(m.elems[j]);
    m.elems[j].def.value
  }

  /** `vtn_transpose`: a cached link is returned as it is; otherwise a new
      matrix whose column `i` gathers component `i` of every source column,
      linked back to the source. */
  function Transpose(src: Ssa): (r: Ssa)
    requires Shaped(src) && Complete(src) && src.ty.GMat?
    ensures src.transposed.None? ==> r.transposed == Some(src)
    ensures src.transposed.None? ==> r.ty == Transposed(src.ty) && Shaped(r) && Complete(r)
  {
    if src.transposed.Some? then src.transposed.value
    else
      var rows := src.ty.rows;
      var cols := src.ty.cols;
      var column := (i: nat) => Ssa(GVec(src.ty.base, cols),
                                   Some(Vec(seq(cols, j requires 0 <= j < cols => Lane(Column(src, j), i)))),
                                   [], None);
      Ssa(Transposed(src.ty), None, seq(rows, i requires 0 <= i < rows => column(i)), Some(src))
  }

  /** Transposing a transpose gives back the original value itself. */
  lemma TransposeTwice(m: Ssa)
    requires Shaped(m) && Complete(m) && m.ty.GMat? && m.transposed.None?
    ensures Transpose(Transpose(m)) == m
  {
  }

  /** Component `j` of column `i` of the transpose is component `i` of column
      `j` of the source. */
  lemma TransposeValues(env: Env, m: Ssa, i: nat, j: nat)
    requires Shaped(m) && Complete(m) && m.ty.GMat? && m.transposed.None?
    requires i < m.ty.rows && j < m.ty.cols
    ensures Transpose(m).elems[i].def.Some?
    ensures EvalLane(env, Transpose(m).elems[i].def.value, j) == EvalLane(env, Column(m, j), i)
  {
  }
}

=== FILE: texture.dfy ===
/** The texture instructions of `vtn_handle_texture` and the coordinate
    padding of `get_image_coord`.

    A texture instruction names its result, a sampled image (or a bare
    sampler), then a fixed list of operands that depends on the opcode (the
    coordinate, the depth-comparison value) and finally, optionally, an
    image-operands mask (section 3.14 of the Khronos SPIR-V specification)
    followed by one id per set bit.  The handler turns each operand into a
    typed NIR texture source, adjusts the base texture operation for bias,
    gradients and multisample fetches, and insists that every word of the
    instruction was read.  Ids are looked up in a map standing for the
    builder's value table.
 */
module Texture {
  import opened Wrappers
  import opened Spv
  import opened Glsl
  import Nir

  /** The NIR texture operations (`nir_texop`) the handler picks. */
  datatype TexOp = Tex | Txb | Txl | Txd | Txf | TxfMs | Txs | LodQuery | Tg4 | QueryLevels

  /** The NIR texture source kinds (`nir_tex_src_type`) it emits, in the
      order in which the handler can emit them. */
  datatype SrcKind = Coord | Comparitor | Bias | LodSrc | Ddx | Ddy | Offset | MsIndex

  /** The destination type the sampler's result type selects. */
  datatype DestType = DestFloat | DestInt | DestUint | DestBool

  /** What an id names, as far as the texture handler looks: a sampled image
      (its image and sampler dereferences and the sampler's type), a variable
      dereference of type `ty`, or an SSA value of `width` components. */
  datatype Value =
    | SampledImage(image: Option<Word>, sampler: Word, samplerType: GType)
    | Deref(ty: GType)
    | SsaVec(width: nat)

  /** The operation and sources of a texture instruction: source `i` has
      kind `kinds[i]` and the value of id `ids[i]`; `operands` is the
      image-operands word read, if any. */
  datatype Sources = Sources(
    op: TexOp, kinds: seq<SrcKind>, ids: seq<Word>, operands: Option<Word>, coordComponents: nat)

  /** The emitted `nir_tex_instr`. */
  datatype TexInstr = TexInstr(
    sources: Sources, dim: SamplerDim, dest: DestType, isArray: bool, isShadow: bool,
    texture: Option<Word>, sampler: Word)

  /** The optional operands read so far: the current operation, the sources
      emitted and the index of the next word. */
  datatype Parse = Parse(op: TexOp, kinds: seq<SrcKind>, ids: seq<Word>, idx: nat)

  // ---------------------------------------------------------------------
  // Opcode classes

  /** The opcodes whose first operand after the sampled image is the
      coordinate. */
  predicate HasCoord(opcode: nat) {
    (OpImageSampleImplicitLod <= opcode <= OpImageDrefGather) || opcode == OpImageQueryLod
  }

  /** The opcodes whose next operand is the depth-comparison value. */
  predicate IsDref(opcode: nat) {
    || opcode == OpImageSampleDrefImplicitLod || opcode == OpImageSampleDrefExplicitLod
    || opcode == OpImageSampleProjDrefImplicitLod || opcode == OpImageSampleProjDrefExplicitLod
  }

  /** The fixed sources an opcode reads before the optional mask. */
  function FixedKinds(opcode: nat): (ks: seq<SrcKind>)
    ensures |ks| <= 2
  {
    (if HasCoord(opcode) then [Coord] else []) + (if IsDref(opcode) then [Comparitor] else [])
  }

  /** The base texture operation of each opcode; the sample-count query and
      everything else is refused. */
  function BaseOp(opcode: nat): (r: Result<TexOp>)
    ensures r.Ok? <==> (OpImageSampleImplicitLod <= opcode <= OpImageDrefGather)
                       || (OpImageQuerySizeLod <= opcode <= OpImageQueryLevels)
  {
    if opcode == OpImageSampleImplicitLod || opcode == OpImageSampleDrefImplicitLod
       || opcode == OpImageSampleProjImplicitLod || opcode == OpImageSampleProjDrefImplicitLod then Ok(Tex)
    else if opcode == OpImageSampleExplicitLod || opcode == OpImageSampleDrefExplicitLod
       || opcode == OpImageSampleProjExplicitLod || opcode == OpImageSampleProjDrefExplicitLod then Ok(Txl)
    else if opcode == OpImageFetch then Ok(Txf)
    else if opcode == OpImageGather || opcode == OpImageDrefGather then Ok(Tg4)
    else if opcode == OpImageQuerySizeLod || opcode == OpImageQuerySize then Ok(Txs)
    else if opcode == OpImageQueryLod then Ok(LodQuery)
    else if opcode == OpImageQueryLevels then Ok(QueryLevels)
    else Abort("bad opcode")
  }

  /** The position of each source kind in the order the handler emits them. */
  function Rank(k: SrcKind): (n: nat)
    ensures n < 8
  {
    match k
    case Coord => 0
    case Comparitor => 1
    case Bias => 2
    case LodSrc => 3
    case Ddx => 4
    case Ddy => 5
    case Offset => 6
    case MsIndex => 7
  }

  // ---------------------------------------------------------------------
  // Reading operands

  /** What `vtn_ssa_value` turns into a single NIR value: an SSA value, or a
      dereference of a scalar or vector (how function parameters arrive),
      which it loads. */
  predicate IsSsaOperand(v: Value) {
    v.SsaVec? || (v.Deref? && IsVectorOrScalar(v.ty))
  }

  /** The component count of such an operand: a loaded dereference has its
      type's width. */
  function OperandWidth(v: Value): nat
    requires IsSsaOperand(v)
  {
    if v.SsaVec? then v.width else VectorElements(v.ty)
  }

  /** `vtn_tex_src`: the word at `idx` must name a value `vtn_ssa_value`
      accepts.  A read past the instruction's last word is refused: the
      handler's final check that it consumed exactly the instruction's words
      fails on it. */
  predicate ReadsSsa(values: map<Word, Value>, w: seq<Word>, idx: nat) {
    idx < |w| && w[idx] in values && IsSsaOperand(values[w[idx]])
  }

  /** One optional operand: when `present`, a source of `kind` read at the
      next word, provided the operation so far allows it (the handler's
      asserts), and `op'` as the operation from then on. */
  function Step(values: map<Word, Value>, w: seq<Word>, p: Parse, present: bool, kind: SrcKind,
                allowed: bool, op': TexOp): (r: Result<Parse>)
    ensures !present ==> r == Ok(p)
    ensures present ==> (r.Ok? <==> allowed && ReadsSsa(values, w, p.idx))
    ensures r.Ok? && present ==> r.value == Parse(op', p.kinds + [kind], p.ids + [w[p.idx]], p.idx + 1)
  {
    if !present then Ok(p)
    else if !allowed then Abort("not allowed")
    else if !ReadsSsa(values, w, p.idx) then Abort("bad source")
    else Ok(Parse(op', p.kinds + [kind], p.ids + [w[p.idx]], p.idx + 1))
  }

  /** The coordinate and depth-comparison sources, read from word 4 on, and
      the coordinate's component count (0 without a coordinate). */
  function FixedSources(values: map<Word, Value>, opcode: nat, w: seq<Word>): (r: Result<(seq<Word>, nat)>)
    requires |w| >= 4
    ensures r.Ok? ==> 4 + |FixedKinds(opcode)| <= |w| && r.value.0 == w[4..4 + |FixedKinds(opcode)|]
  {
    if HasCoord(opcode) && !ReadsSsa(values, w, 4) then Abort("bad coordinate")
    else
      var comps: nat := if HasCoord(opcode) then OperandWidth(values[w[4]]) else 0;
      var at := if HasCoord(opcode) then 5 else 4;
      if IsDref(opcode) && !ReadsSsa(values, w, at) then Abort("bad comparitor")
      else Ok((w[4..4 + |FixedKinds(opcode)|], comps))
  }

  /** The optional part: nothing when the fixed operands end the
      instruction, otherwise the image-operands mask and one source per set
      bit in the order of section 3.14, with the base operation turned into
      `txb` by a bias, `txd` by gradients and `txf_ms` by a sample index. */
  function Optional(values: map<Word, Value>, w: seq<Word>, idx: nat, base: TexOp): (r: Result<Parse>)
  {
    if idx >= |w| then Ok(Parse(base, [], [], idx))
    else
      var p4 :- Modifiers(values, w, Parse(base, [], [], idx + 1), DecodeMask(w[idx]));
      Tail(values, w, p4, DecodeMask(w[idx]))
  }

  /** The image-operands mask, bit by bit (section 3.14 of the SPIR-V
      specification). */
  datatype Mask = Mask(bias: bool, lod: bool, grad: bool, constOffset: bool, offset: bool,
                       constOffsets: bool, sample: bool)

  /** The bits of a mask word. */
  function DecodeMask(m: Word): Mask
  {
    Mask(HasBit(m, ImageOperandsBias), HasBit(m, ImageOperandsLod), HasBit(m, ImageOperandsGrad),
         HasBit(m, ImageOperandsConstOffset), HasBit(m, ImageOperandsOffset),
         HasBit(m, ImageOperandsConstOffsets), HasBit(m, ImageOperandsSample))
  }

  /** The bias, LOD and gradient operands. */
  function Modifiers(values: map<Word, Value>, w: seq<Word>, p0: Parse, m: Mask): (r: Result<Parse>)
  {
    var p2 :- BiasLod(values, w, p0, m);
    Gradients(values, w, p2, m)
  }

  /** The bias and LOD operands. */
  function BiasLod(values: map<Word, Value>, w: seq<Word>, p0: Parse, m: Mask): (r: Result<Parse>)
  {
    var p1 :- Step(values, w, p0, m.bias, Bias, p0.op == Tex, Txb);
    Step(values, w, p1, m.lod, LodSrc, LodAllowed(p1.op), p1.op)
  }

  /** The operations an explicit level of detail goes with. */
  predicate LodAllowed(op: TexOp) {
    op == Txl || op == Txf || op == Txs
  }

  /** The two gradient operands. */
  function Gradients(values: map<Word, Value>, w: seq<Word>, p2: Parse, m: Mask): (r: Result<Parse>)
  {
    var p3 :- Step(values, w, p2, m.grad, Ddx, p2.op == Tex, Txd);
    Step(values, w, p3, m.grad, Ddy, true, Txd)
  }

  /** The offset and sample-index operands; constant offsets are refused. */
  function Tail(values: map<Word, Value>, w: seq<Word>, p4: Parse, m: Mask): (r: Result<Parse>)
  {
    var p5 :- Step(values, w, p4, m.offset || m.constOffset,
                   Offset, true, p4.op);
    :- Need(!m.constOffsets, "constant offsets");
    Step(values, w, p5, m.sample, MsIndex, p5.op == Txf, TxfMs)
  }

  /** The sampler's result type as the instruction's destination type. */
  function DestOf(b: Base): (r: Result<DestType>)
    ensures r.Ok? <==> b != DoubleT
  {
    match b
    case FloatT => Ok(DestFloat)
    case IntT => Ok(DestInt)
    case UintT => Ok(DestUint)
    case BoolT => Ok(DestBool)
    case DoubleT => Abort("bad result type")
  }

  /** What `w[3]` names: a sampled image as it is, a bare sampler
      dereference as a sampled image without an image. */
  function SampledOf(values: map<Word, Value>, id: Word): (r: Result<Value>)
    ensures r.Ok? <==> id in values && !values[id].SsaVec?
    ensures r.Ok? ==> r.value.SampledImage?
                      && (values[id].Deref? ==> r.value == SampledImage(None, id, values[id].ty))
                      && (values[id].SampledImage? ==> r.value == values[id])
  {
    if id !in values then Abort("unknown id")
    else match values[id]
      case SampledImage(_, _, _) => Ok(values[id])
      case Deref(ty) => Ok(SampledImage(None, id, ty))
      case SsaVec(_) => Abort("not sampled")
  }

  // ---------------------------------------------------------------------
  // The handler

  /** `OpSampledImage`: result `w[2]` pairs the image dereference `w[3]`
      with the sampler dereference `w[4]`. */
  function HandleSampledImage(values: map<Word, Value>, w: seq<Word>): (r: Result<map<Word, Value>>)
    ensures r.Ok? <==> |w| >= 5 && w[2] !in values
                       && w[3] in values && values[w[3]].Deref? && w[4] in values && values[w[4]].Deref?
    ensures r.Ok? ==> r.value == values[w[2] := SampledImage(Some(w[3]), w[4], values[w[4]].ty)]
  {
    if !(|w| >= 5) then Abort("too short") else
    :- Need(w[2] !in values, "redefined");
    :- Need(w[3] in values && values[w[3]].Deref?, "bad image");
    :- Need(w[4] in values && values[w[4]].Deref?, "bad sampler");
    Ok(values[w[2] := SampledImage(Some(w[3]), w[4], values[w[4]].ty)])
  }

  /** Every other texture opcode: result `w[2]`, a four-component float
      value, is the emitted texture instruction, whose sampler state comes
      from the sampler's type. */
  function HandleTexture(values: map<Word, Value>, opcode: nat, w: seq<Word>): (r: Result<(map<Word, Value>, TexInstr)>)
    ensures r.Ok? ==> |w| >= 4 && w[2] !in values && r.value.0 == values[w[2] := SsaVec(4)]
    ensures r.Ok? ==> TexSources(values, opcode, w) == Ok(r.value.1.sources)
    ensures r.Ok? ==> SampledOf(values, w[3]).Ok?
                      && var s := SampledOf(values, w[3]).value;
                      && s.samplerType.GSampler? && s.samplerType.sampled != DoubleT
                      && r.value.1.dim == s.samplerType.dim && r.value.1.isShadow == s.samplerType.shadow
                      && r.value.1.isArray == s.samplerType.arrayed
                      && r.value.1.texture == s.image && r.value.1.sampler == s.sampler
  {
    if !(|w| >= 4) then Abort("too short") else
    :- Need(w[2] !in values, "redefined");
    var sampled :- SampledOf(values, w[3]);
    var srcs :- TexSources(values, opcode, w);
    var st := sampled.samplerType;
    :- Need(st.GSampler?, "not a sampler type");
    var dest :- DestOf(st.sampled);
    Ok((values[w[2] := SsaVec(4)],
        TexInstr(srcs, st.dim, dest, st.arrayed, st.shadow, sampled.image, sampled.sampler)))
  }

  /** The operation and sources of a texture opcode's instruction: the
      fixed sources, then the optional ones, and no word left over. */
  function TexSources(values: map<Word, Value>, opcode: nat, w: seq<Word>): (r: Result<Sources>)
    requires |w| >= 4
    ensures r.Ok? ==> BaseOp(opcode).Ok?
  {
    var fixed :- FixedSources(values, opcode, w);
    var base :- BaseOp(opcode);
    var idx := 4 + |FixedKinds(opcode)|;
    var p :- Optional(values, w, idx, base);
    :- Need(p.idx == |w|, "left over");
    var operands := if idx < |w| then Some(w[idx]) else None;
    Ok(Sources(p.op, FixedKinds(opcode) + p.kinds, fixed.0 + p.ids, operands, fixed.1))
  }

  // ---------------------------------------------------------------------
  // What the sources say

  /** Each kind at most once, in the emission order. */
  predicate Ranked(kinds: seq<SrcKind>) {
    forall i, j :: 0 <= i < j < |kinds| ==> Rank(kinds[i]) < Rank(kinds[j])
  }

  /** Every kind in `kinds` ranks below `n`. */
  predicate Below(kinds: seq<SrcKind>, n: nat) {
    forall i :: 0 <= i < |kinds| ==> Rank(kinds[i]) < n
  }

  /** The optional sources read so far are the words from `start` on, ranked. */
  predicate ReadFrom(w: seq<Word>, start: nat, p: Parse) {
    start <= p.idx <= |w| && p.ids == w[start..p.idx] && |p.kinds| == |p.ids| && Ranked(p.kinds)
  }

  /** The operand words an instruction accounts for, in instruction order:
      the fixed sources' ids, then the mask and the optional sources' ids. */
  function Words(s: Sources, fixed: nat): seq<Word>
    requires fixed <= |s.ids|
  {
    s.ids[..fixed] + (if s.operands.Some? then [s.operands.value] else []) + s.ids[fixed..]
  }

  /** Whether mask `m` asks for a source of kind `k`: the gradient bit
      brings both gradients, either offset bit the offset. */
  predicate Requested(m: Mask, k: SrcKind) {
    match k
    case Coord => false
    case Comparitor => false
    case Bias => m.bias
    case LodSrc => m.lod
    case Ddx => m.grad
    case Ddy => m.grad
    case Offset => m.offset || m.constOffset
    case MsIndex => m.sample
  }

  /** The optional sources are exactly the ones the mask asks for, and the
      mask has no constant-offsets bit. */
  predicate MaskMatches(m: Mask, kinds: seq<SrcKind>) {
    && (forall k :: k in kinds <==> Requested(m, k))
    && !m.constOffsets
  }

  /** The operation the mask leaves: `txb` for a bias on `tex`, `txd` for
      gradients on `tex`, `txf_ms` for a sample index on `txf`, the base
      operation otherwise; a LOD only goes with `txl`, `txf` or `txs`. */
  predicate OpMatches(m: Mask, base: TexOp, op: TexOp) {
    && (m.bias ==> base == Tex && op == Txb)
    && (m.grad ==> base == Tex && op == Txd)
    && (m.sample ==> base == Txf && op == TxfMs)
    && (!m.bias && !m.grad && !m.sample
        ==> op == base)
    && (m.lod ==> LodAllowed(base))
  }

  /** One step keeps the sources read from `start` on and ranked, and adds
      `kind` exactly when the operand is present. */
  lemma StepRead(values: map<Word, Value>, w: seq<Word>, start: nat, p: Parse, present: bool,
                 kind: SrcKind, allowed: bool, op': TexOp)
    requires ReadFrom(w, start, p) && Below(p.kinds, Rank(kind))
    requires Step(values, w, p, present, kind, allowed, op').Ok?
    ensures var q := Step(values, w, p, present, kind, allowed, op').value;
            && ReadFrom(w, start, q) && Below(q.kinds, Rank(kind) + 1)
            && (forall k :: k in q.kinds <==> k in p.kinds || (present && k == kind))
            && q.op == (if present then op' else p.op)
  {
    if present {
      assert w[start..p.idx] + [w[p.idx]] == w[start..p.idx + 1];
    }
  }

  /** The bias and LOD sources are there exactly when their bits are; a
      bias needs `tex` and makes it `txb`, and a LOD needs `txl`, `txf` or
      `txs`, so the two never go together. */
  lemma BiasLodParts(values: map<Word, Value>, w: seq<Word>, p0: Parse, m: Mask)
    requires p0.kinds == [] && p0.ids == [] && p0.idx <= |w| && BiasLod(values, w, p0, m).Ok?
    ensures var p := BiasLod(values, w, p0, m).value;
            && ReadFrom(w, p0.idx, p) && Below(p.kinds, Rank(Ddx))
            && (forall k :: k in p.kinds <==> Requested(m, k) && Rank(k) < Rank(Ddx))
            && (m.bias ==> p0.op == Tex && p.op == Txb)
            && (!m.bias ==> p.op == p0.op)
            && (m.lod ==> LodAllowed(p0.op) && !m.bias)
  {
    var bias := m.bias;
    var p1 := Step(values, w, p0, bias, Bias, p0.op == Tex, Txb).value;
    StepRead(values, w, p0.idx, p0, bias, Bias, p0.op == Tex, Txb);
    StepRead(values, w, p0.idx, p1, m.lod, LodSrc, LodAllowed(p1.op), p1.op);
  }

  /** Both gradient sources are there exactly when the gradient bit is; they
      need `tex` and make it `txd`. */
  lemma GradientsParts(values: map<Word, Value>, w: seq<Word>, start: nat, p2: Parse, m: Mask)
    requires ReadFrom(w, start, p2) && Below(p2.kinds, Rank(Ddx)) && Gradients(values, w, p2, m).Ok?
    ensures var p := Gradients(values, w, p2, m).value;
            && ReadFrom(w, start, p) && Below(p.kinds, Rank(Offset))
            && (forall k :: k in p.kinds <==> k in p2.kinds || (Requested(m, k) && Rank(Ddx) <= Rank(k) < Rank(Offset)))
            && (m.grad ==> p2.op == Tex && p.op == Txd)
            && (!m.grad ==> p.op == p2.op)
  {
    var grad := m.grad;
    var p3 := Step(values, w, p2, grad, Ddx, p2.op == Tex, Txd).value;
    StepRead(values, w, start, p2, grad, Ddx, p2.op == Tex, Txd);
    StepRead(values, w, start, p3, grad, Ddy, true, Txd);
  }

  /** The bias, LOD and gradient sources are there exactly when their bits
      are, and the operation changes as the mask says. */
  lemma ModifiersParts(values: map<Word, Value>, w: seq<Word>, p0: Parse, m: Mask)
    requires p0.kinds == [] && p0.ids == [] && p0.idx <= |w| && Modifiers(values, w, p0, m).Ok?
    ensures var p := Modifiers(values, w, p0, m).value;
            && ReadFrom(w, p0.idx, p) && Below(p.kinds, Rank(Offset))
            && (forall k :: k in p.kinds <==> Requested(m, k) && Rank(k) < Rank(Offset))
            && (m.bias ==> p0.op == Tex && p.op == Txb && !m.grad)
            && (m.grad ==> p0.op == Tex && p.op == Txd)
            && (!m.bias && !m.grad ==> p.op == p0.op)
            && (m.lod ==> LodAllowed(p0.op))
  {
    var p2 := BiasLod(values, w, p0, m).value;
    BiasLodParts(values, w, p0, m);
    GradientsParts(values, w, p0.idx, p2, m);
  }

  /** The offset and sample-index sources are there exactly when their bits
      are; a sample index turns `txf` into `txf_ms`. */
  lemma TailParts(values: map<Word, Value>, w: seq<Word>, start: nat, p4: Parse, m: Mask)
    requires ReadFrom(w, start, p4) && Below(p4.kinds, Rank(Offset)) && Tail(values, w, p4, m).Ok?
    ensures var p := Tail(values, w, p4, m).value;
            && ReadFrom(w, start, p)
            && (forall k :: k in p.kinds <==> k in p4.kinds || (Requested(m, k) && Rank(k) >= Rank(Offset)))
            && !m.constOffsets
            && (m.sample ==> p4.op == Txf && p.op == TxfMs)
            && (!m.sample ==> p.op == p4.op)
  {
    var off := m.offset || m.constOffset;
    var p5 := Step(values, w, p4, off, Offset, true, p4.op).value;
    StepRead(values, w, start, p4, off, Offset, true, p4.op);
    StepRead(values, w, start, p5, m.sample, MsIndex, p5.op == Txf, TxfMs);
  }

  /** The optional part reads the words after the mask, one source per set
      bit, in rank order, and leaves the operation the mask selects. */
  lemma OptionalParts(values: map<Word, Value>, w: seq<Word>, idx: nat, base: TexOp)
    requires Optional(values, w, idx, base).Ok? && idx <= |w|
    ensures var p := Optional(values, w, idx, base).value;
            if idx < |w| then ReadFrom(w, idx + 1, p) && MaskMatches(DecodeMask(w[idx]), p.kinds)
                              && OpMatches(DecodeMask(w[idx]), base, p.op)
            else p == Parse(base, [], [], idx)
  {
    if idx < |w| {
      var m := DecodeMask(w[idx]);
      var p0 := Parse(base, [], [], idx + 1);
      var p4 := Modifiers(values, w, p0, m).value;
      ModifiersParts(values, w, p0, m);
      TailParts(values, w, idx + 1, p4, m);
      var p := Tail(values, w, p4, m).value;
      MaskOf(m, base, p4.kinds, p4.op, p.kinds, p.op);
    }
  }

  /** What the two halves of the optional part establish, put together. */
  lemma MaskOf(m: Mask, base: TexOp, k4: seq<SrcKind>, op4: TexOp, ks: seq<SrcKind>, op: TexOp)
    requires forall k :: k in k4 <==> Requested(m, k) && Rank(k) < Rank(Offset)
    requires m.bias ==> base == Tex && op4 == Txb && !m.grad
    requires m.grad ==> base == Tex && op4 == Txd
    requires !m.bias && !m.grad ==> op4 == base
    requires m.lod ==> LodAllowed(base)
    requires forall k :: k in ks <==> k in k4 || (Requested(m, k) && Rank(k) >= Rank(Offset))
    requires !m.constOffsets
    requires m.sample ==> op4 == Txf && op == TxfMs
    requires !m.sample ==> op == op4
    ensures MaskMatches(m, ks) && OpMatches(m, base, op)
  {
  }

  /** A ranked list has at most one source per kind, so the handler's
      eight-entry source array is enough. */
  lemma RankedFits(kinds: seq<SrcKind>)
    requires Ranked(kinds)
    ensures |kinds| <= 8
  {
    if |kinds| > 0 {
      RankAtLeastIndex(kinds, |kinds| - 1);
    }
  }

  lemma {:induction false} RankAtLeastIndex(kinds: seq<SrcKind>, i: nat)
    requires Ranked(kinds) && i < |kinds|
    ensures Rank(kinds[i]) >= i
  {
    if i > 0 {
      RankAtLeastIndex(kinds, i - 1);
    }
  }

  lemma RankedJoin(a: seq<SrcKind>, b: seq<SrcKind>)
    requires Ranked(a) && Ranked(b) && Below(a, 2)
    requires forall k :: k in b ==> Rank(k) >= 2
    ensures Ranked(a + b)
  {
    forall i, j | 0 <= i < j < |a + b| ensures Rank((a + b)[i]) < Rank((a + b)[j]) {
      if j < |a| {
        assert (a + b)[i] == a[i] && (a + b)[j] == a[j];
      } else if i < |a| {
        assert (a + b)[i] == a[i] && (a + b)[j] == b[j - |a|] && b[j - |a|] in b;
      } else {
        assert (a + b)[i] == b[i - |a|] && (a + b)[j] == b[j - |a|];
      }
    }
  }

  /** The pieces `TexSources` assembles its result from. */
  lemma SourcesSplit(values: map<Word, Value>, opcode: nat, w: seq<Word>) returns (idx: nat, p: Parse)
    requires |w| >= 4 && TexSources(values, opcode, w).Ok?
    ensures var s := TexSources(values, opcode, w).value;
            && idx == 4 + |FixedKinds(opcode)| <= |w| && p.idx == |w|
            && Optional(values, w, idx, BaseOp(opcode).value) == Ok(p)
            && s.kinds == FixedKinds(opcode) + p.kinds && s.ids == w[4..idx] + p.ids && s.op == p.op
            && s.operands == (if idx < |w| then Some(w[idx]) else None)
  {
    idx := 4 + |FixedKinds(opcode)|;
    p := Optional(values, w, idx, BaseOp(opcode).value).value;
  }

  /** Every operand word after the sampled image is accounted for: the
      instruction's sources, with the mask between the fixed and the
      optional ones, are exactly those words in order. */
  lemma SourcesConsumeWords(values: map<Word, Value>, opcode: nat, w: seq<Word>)
    requires |w| >= 4 && TexSources(values, opcode, w).Ok?
    ensures var s := TexSources(values, opcode, w).value;
            |FixedKinds(opcode)| <= |s.ids| && |s.kinds| == |s.ids|
            && w[4..] == Words(s, |FixedKinds(opcode)|)
  {
    var s := TexSources(values, opcode, w).value;
    var idx, p := SourcesSplit(values, opcode, w);
    OptionalParts(values, w, idx, BaseOp(opcode).value);
    var f := |FixedKinds(opcode)|;
    assert s.ids[..f] == w[4..idx] && s.ids[f..] == p.ids;
    if idx < |w| {
      assert w[4..] == w[4..idx] + [w[idx]] + w[idx + 1..];
    } else {
      assert w[4..] == w[4..idx];
    }
  }

  /** The sources are ranked, so there are at most eight; the coordinate
      and comparison value are there exactly for the opcodes that take
      them; each optional source is there exactly when its mask bit is, and
      the operation is the one the opcode and the mask select. */
  lemma SourcesMatch(values: map<Word, Value>, opcode: nat, w: seq<Word>)
    requires |w| >= 4 && TexSources(values, opcode, w).Ok?
    ensures var s := TexSources(values, opcode, w).value;
            && Ranked(s.kinds) && |s.kinds| <= 8
            && (HasCoord(opcode) <==> Coord in s.kinds) && (IsDref(opcode) <==> Comparitor in s.kinds)
            && (s.operands.Some? ==> MaskMatches(DecodeMask(s.operands.value), s.kinds[|FixedKinds(opcode)|..])
                                     && OpMatches(DecodeMask(s.operands.value), BaseOp(opcode).value, s.op))
            && (s.operands.None? ==> s.kinds == FixedKinds(opcode) && s.op == BaseOp(opcode).value)
  {
    var s := TexSources(values, opcode, w).value;
    var idx, p := SourcesSplit(values, opcode, w);
    OptionalParts(values, w, idx, BaseOp(opcode).value);
    assert s.kinds[|FixedKinds(opcode)|..] == p.kinds;
    if idx < |w| {
      FixedJoin(opcode, p.kinds);
    } else {
      assert s.kinds == FixedKinds(opcode) + [];
      FixedJoin(opcode, []);
    }
    RankedFits(s.kinds);
  }

  /** The fixed sources joined with ranked optional ones, neither a
      coordinate nor a comparison value, stay ranked, and say which fixed
      sources the opcode takes. */
  lemma FixedJoin(opcode: nat, ks: seq<SrcKind>)
    requires Ranked(ks) && Coord !in ks && Comparitor !in ks
    ensures Ranked(FixedKinds(opcode) + ks)
    ensures HasCoord(opcode) <==> Coord in FixedKinds(opcode) + ks
    ensures IsDref(opcode) <==> Comparitor in FixedKinds(opcode) + ks
  {
    var fk := FixedKinds(opcode);
    if HasCoord(opcode) && IsDref(opcode) {
      assert fk == [Coord, Comparitor];
    } else if HasCoord(opcode) {
      assert fk == [Coord];
    } else {
      assert fk == [];
    }
    forall k | k in ks ensures Rank(k) >= 2 {
    }
    RankedJoin(fk, ks);
  }

  // ---------------------------------------------------------------------
  // Consequences

  /** A bias on an explicit-LOD sample is refused: a bias needs `tex`. */
  lemma BiasNeedsImplicitLod(values: map<Word, Value>, opcode: nat, w: seq<Word>)
    requires opcode == OpImageSampleExplicitLod || opcode == OpImageSampleDrefExplicitLod
    requires |w| > 4 + |FixedKinds(opcode)| && DecodeMask(w[4 + |FixedKinds(opcode)|]).bias
    ensures HandleTexture(values, opcode, w).Abort?
  {
    if HandleTexture(values, opcode, w).Ok? {
      var idx, p := SourcesSplit(values, opcode, w);
      SourcesMatch(values, opcode, w);
    }
  }

  /** Bias and gradients together are refused, and so is a sample index
      together with either. */
  lemma OneOperationModifier(values: map<Word, Value>, opcode: nat, w: seq<Word>)
    requires HandleTexture(values, opcode, w).Ok?
    ensures var s := HandleTexture(values, opcode, w).value.1.sources;
            s.operands.Some? ==>
              (DecodeMask(s.operands.value).bias ==> !DecodeMask(s.operands.value).grad)
              && (DecodeMask(s.operands.value).sample ==>
                    !DecodeMask(s.operands.value).bias && !DecodeMask(s.operands.value).grad)
  {
    SourcesMatch(values, opcode, w);
  }

  /** A mask that asks for no source and has no constant-offsets bit. */
  predicate Inert(m: Mask) {
    !m.constOffsets && forall k :: !Requested(m, k)
  }

  /** An inert mask reads nothing after itself and leaves the base
      operation. */
  lemma InertMaskReadsNothing(values: map<Word, Value>, w: seq<Word>, idx: nat, base: TexOp)
    requires idx < |w| && Inert(DecodeMask(w[idx]))
    ensures Optional(values, w, idx, base) == Ok(Parse(base, [], [], idx + 1))
  {
    var m, p0 := DecodeMask(w[idx]), Parse(base, [], [], idx + 1);
    assert !Requested(m, Bias) && !Requested(m, LodSrc) && !Requested(m, Ddx);
    assert BiasLod(values, w, p0, m) == Ok(p0);
    assert Modifiers(values, w, p0, m) == Ok(p0);
    assert !Requested(m, Offset) && !Requested(m, MsIndex);
    assert Tail(values, w, p0, m) == Ok(p0);
  }

  /** 128 is an inert mask: no bit the handler knows is set in it. */
  lemma InertExample()
    ensures Inert(DecodeMask(128))
  {
    assert DecodeMask(128) == Mask(false, false, false, false, false, false, false);
  }

  /** A sampled image or sampler the handler accepts. */
  predicate Samples(values: map<Word, Value>, id: Word) {
    && SampledOf(values, id).Ok?
    && SampledOf(values, id).value.samplerType.GSampler?
    && SampledOf(values, id).value.samplerType.sampled != DoubleT
  }

  /** As written, `OpImageQuerySizeLod` has no fixed source, so the id of its
      level-of-detail operand is read as an image-operands mask: an id that
      is inert as a mask (128, say) is silently dropped, leaving a size
      query with no LOD source. */
  lemma QuerySizeLodDropsLod(values: map<Word, Value>, w: seq<Word>)
    requires |w| == 5 && w[2] !in values && Samples(values, w[3]) && Inert(DecodeMask(w[4]))
    ensures HandleTexture(values, OpImageQuerySizeLod, w).Ok?
    ensures var s := HandleTexture(values, OpImageQuerySizeLod, w).value.1.sources;
            s.op == Txs && s.kinds == [] && s.operands == Some(w[4])
  {
    assert FixedKinds(OpImageQuerySizeLod) == [];
    InertMaskReadsNothing(values, w, 4, Txs);
  }

  /** As written, the same reading refuses a size query whose LOD operand's
      id has bit 1 set (id 2, say): that is the LOD bit, so the handler
      looks for one more operand word past the end of the instruction. */
  lemma QuerySizeLodRefused(values: map<Word, Value>, w: seq<Word>)
    requires |w| == 5 && DecodeMask(w[4]).lod
    ensures HandleTexture(values, OpImageQuerySizeLod, w).Abort?
  {
    assert FixedKinds(OpImageQuerySizeLod) == [];
    assert BiasLod(values, w, Parse(Txs, [], [], 5), DecodeMask(w[4])).Abort?;
    assert Optional(values, w, 4, Txs).Abort?;
    assert TexSources(values, OpImageQuerySizeLod, w).Abort?;
  }

  /** As written, `OpImageDrefGather` reads only the coordinate as a fixed
      source, so its depth-comparison operand is read as the mask: with an
      id that is inert as a mask the comparison value never reaches the
      instruction. */
  lemma DrefGatherDropsDref(values: map<Word, Value>, w: seq<Word>)
    requires |w| == 6 && w[2] !in values && Samples(values, w[3]) && ReadsSsa(values, w, 4) && Inert(DecodeMask(w[5]))
    ensures HandleTexture(values, OpImageDrefGather, w).Ok?
    ensures var s := HandleTexture(values, OpImageDrefGather, w).value.1.sources;
            s.op == Tg4 && s.kinds == [Coord] && s.ids == [w[4]] && s.operands == Some(w[5])
  {
    assert FixedKinds(OpImageDrefGather) == [Coord];
    InertMaskReadsNothing(values, w, 5, Tg4);
  }

  // ---------------------------------------------------------------------
  // get_image_coord

  /** `get_image_coord`: the image intrinsics take a four-component
      coordinate, so lane `i` reads lane `min(i, dim - 1)` of the
      coordinate, with `dim - 1` computed on unsigned 32-bit integers (a
      zero-lane type makes it 2^32 - 1, so no lane is clamped). */
  function ImageCoord(coord: Nir.Def, dim: nat): (r: Nir.Def)
    ensures Nir.Width(r) == 4
  {
    var last := (dim + Nir.U32 - 1) % Nir.U32;
    Nir.Swizzle(coord, seq(4, i requires 0 <= i < 4 => if i <= last then i else last))
  }

  /** The padded coordinate keeps the coordinate's lanes and repeats its
      last lane: exactly the padding per-component operations apply to a
      narrower source. */
  lemma ImageCoordPads(env: Nir.Env, coord: Nir.Def, dim: nat, i: nat)
    requires 1 <= dim <= 4 && i < 4
    ensures Nir.EvalLane(env, ImageCoord(coord, dim), i) == Nir.EvalLane(env, coord, Nir.Pick(dim, i))
    ensures i < dim ==> Nir.EvalLane(env, ImageCoord(coord, dim), i) == Nir.EvalLane(env, coord, i)
  {
    assert (dim + Nir.U32 - 1) % Nir.U32 == dim - 1;
  }
}

=== FILE: variables.dfy ===
/** Variable declarations and access chains (`vtn_handle_variables`,
    `var_decoration_cb`, `get_builtin_variable`, `vtn_get_builtin_location`).

    `OpVariable` creates a NIR variable whose mode follows the storage class,
    applies the variable's decorations to it, places a location that no
    decoration made final after the stage's first generic slot, and lists it
    with the shader or the function.  `OpAccessChain` appends one selector
    per index to the base dereference, except that reaching a member marked
    `BuiltIn` throws the chain away and continues from the built-in's own
    variable, which is created on first use and cached per built-in and
    direction.

    Variables live in a map keyed by identity so that a variable cached as a
    built-in and later decorated again is the same variable: declared
    variables are keyed by their SPIR-V result id, variables the translator
    creates for built-ins by fresh numbers from `bound` upwards.
 */
module Variables {
  import opened Wrappers
  import opened Spv
  import opened Glsl
  import opened Nir
  import opened VtnTypes
  import opened Decorations
  import opened ExecModes
  import Derefs

  // ---------------------------------------------------------------------
  // Locations

  /** The named varying slots, system values and fragment results the
      built-ins resolve to (`VARYING_SLOT_*`, `SYSTEM_VALUE_*`,
      `FRAG_RESULT_*`). */
  datatype Slot =
    | VaryingPos | VaryingPsiz | VaryingClipDist0 | VaryingPrimitiveId | VaryingLayer
    | VaryingPntc | VaryingFace | FragResultDepth
    | SysVertexIdZeroBase | SysInstanceId | SysInvocationId | SysSampleId | SysSamplePos
    | SysSampleMaskIn | SysNumWorkGroups | SysWorkGroupId | SysLocalInvocationId
    | SysLocalInvocationIndex | SysGlobalInvocationId

  /** The first generic slot a relative location counts from. */
  datatype LocationBase = FragResultData0 | VertAttribGeneric0 | VaryingSlotVar0

  /** `data.location`: a number as decorated, a number counted from a
      generic base, or a named slot. */
  datatype Location = At(n: int) | From(base: LocationBase, n: int) | Named(slot: Slot)

  /** `validate_per_vertex_mode`: per-vertex outputs of vertex shaders, and
      per-vertex inputs or outputs of geometry shaders. */
  function PerVertexMode(stage: Stage, mode: Mode): Check {
    match stage
    case Vertex => Need(mode == ShaderOut, "per-vertex built-in must be an output")
    case Geometry => Need(mode == ShaderOut || mode == ShaderIn, "per-vertex built-in must be an input or output")
    case _ => Fail("invalid shader stage for a per-vertex built-in")
  }

  /** `set_mode_system_value`: only an input becomes a system value. */
  function SystemValueMode(mode: Mode): Result<Mode> {
    if mode == SystemValue || mode == ShaderIn then Ok(SystemValue)
    else Abort("system value declared with another mode")
  }

  /** A fragment-shader-only built-in of direction `dir`. */
  function FragmentOnly(stage: Stage, mode: Mode, dir: Mode, slot: Slot): Result<(Slot, Mode)> {
    if stage != Fragment then Abort("fragment built-in outside a fragment shader")
    else if mode != dir then Abort("fragment built-in with the wrong direction")
    else Ok((slot, mode))
  }

  predicate IsSystemValueBuiltin(builtin: nat) {
    (builtin == BuiltInVertexId || builtin == BuiltInInstanceId || builtin == BuiltInInvocationId || builtin == BuiltInSampleId || builtin == BuiltInSamplePosition || builtin == BuiltInSampleMask || builtin == BuiltInNumWorkgroups || builtin == BuiltInWorkgroupId || builtin == BuiltInLocalInvocationId || builtin == BuiltInLocalInvocationIndex || builtin == BuiltInGlobalInvocationId)
  }

  /** The slot of a system-value built-in. */
  function SystemSlot(builtin: nat): Slot
    requires IsSystemValueBuiltin(builtin)
  {
    if builtin == BuiltInVertexId then SysVertexIdZeroBase
    else if builtin == BuiltInInstanceId then SysInstanceId
    else if builtin == BuiltInInvocationId then SysInvocationId
    else if builtin == BuiltInSampleId then SysSampleId
    else if builtin == BuiltInSamplePosition then SysSamplePos
    else if builtin == BuiltInSampleMask then SysSampleMaskIn
    else if builtin == BuiltInNumWorkgroups then SysNumWorkGroups
    else if builtin == BuiltInWorkgroupId then SysWorkGroupId
    else if builtin == BuiltInLocalInvocationId then SysLocalInvocationId
    else if builtin == BuiltInLocalInvocationIndex then SysLocalInvocationIndex
    else SysGlobalInvocationId
  }

  /** The slot each supported built-in resolves to. */
  function BuiltinSlot(builtin: nat): Option<Slot> {
    if builtin == BuiltInPosition then Some(VaryingPos)
    else if builtin == BuiltInPointSize then Some(VaryingPsiz)
    else if builtin == BuiltInClipDistance then Some(VaryingClipDist0)
    else if builtin == BuiltInPrimitiveId then Some(VaryingPrimitiveId)
    else if builtin == BuiltInLayer then Some(VaryingLayer)
    else if builtin == BuiltInFragCoord then Some(VaryingPos)
    else if builtin == BuiltInPointCoord then Some(VaryingPntc)
    else if builtin == BuiltInFrontFacing then Some(VaryingFace)
    else if builtin == BuiltInFragDepth then Some(FragResultDepth)
    else if IsSystemValueBuiltin(builtin) then Some(SystemSlot(builtin))
    else None
  }

  /** How `vtn_get_builtin_location` treats a built-in: per-vertex
      varyings keep their mode, primitive id and layer become outputs,
      fragment inputs and outputs demand a fragment shader and their
      direction, system values turn inputs into system values. */
  datatype BuiltinKind = PerVertex | MadeOutput | FragmentIn | FragmentOut | System | Unsupported

  function KindOfBuiltin(builtin: nat): (k: BuiltinKind)
    ensures k == Unsupported <==> BuiltinSlot(builtin).None?
    ensures k == MadeOutput <==> builtin == BuiltInPrimitiveId || builtin == BuiltInLayer
    ensures k == System <==> IsSystemValueBuiltin(builtin)
  {
    if builtin == BuiltInPosition || builtin == BuiltInPointSize || builtin == BuiltInClipDistance then PerVertex
    else if builtin == BuiltInPrimitiveId || builtin == BuiltInLayer then MadeOutput
    else if builtin == BuiltInFragCoord || builtin == BuiltInPointCoord || builtin == BuiltInFrontFacing then FragmentIn
    else if builtin == BuiltInFragDepth then FragmentOut
    else if IsSystemValueBuiltin(builtin) then System
    else Unsupported
  }

  /** `vtn_get_builtin_location`: the slot of `builtin` and the mode its
      variable takes, given the mode it was declared or requested with.
      Cull distances, tessellation built-ins, `WorkgroupSize` (handled
      before this point), helper invocations and unknown built-ins fail. */
  function BuiltinLocation(stage: Stage, builtin: nat, mode: Mode): (r: Result<(Slot, Mode)>)
    ensures r.Ok? ==> BuiltinSlot(builtin) == Some(r.value.0)
    ensures r.Ok? ==> r.value.1 == mode || r.value.1 == SystemValue || r.value.1 == ShaderOut
    ensures KindOfBuiltin(builtin) == MadeOutput ==> r.Ok? && r.value.1 == ShaderOut
  {
    match KindOfBuiltin(builtin)
    case PerVertex => :- PerVertexMode(stage, mode); Ok((BuiltinSlot(builtin).value, mode))
    case MadeOutput => Ok((BuiltinSlot(builtin).value, ShaderOut))
    case FragmentIn => FragmentOnly(stage, mode, ShaderIn, BuiltinSlot(builtin).value)
    case FragmentOut => FragmentOnly(stage, mode, ShaderOut, BuiltinSlot(builtin).value)
    case System =>
      var m :- SystemValueMode(mode);
      Ok((BuiltinSlot(builtin).value, m))
    case Unsupported => Abort("unsupported built-in")
  }

  /** A built-in's variable is a system value exactly for the
      system-value built-ins declared as inputs or system values. */
  lemma SystemValueModes(stage: Stage, builtin: nat, mode: Mode)
    ensures var r := BuiltinLocation(stage, builtin, mode);
            r.Ok? && r.value.1 == SystemValue <==>
              IsSystemValueBuiltin(builtin) && (mode == ShaderIn || mode == SystemValue)
  {
    var k := KindOfBuiltin(builtin);
    if k == System {
      SystemKindModes(stage, builtin, mode);
    } else if k == PerVertex {
      PerVertexNotSystem(stage, builtin, mode);
    } else if k == FragmentIn || k == FragmentOut {
      FragmentNotSystem(stage, builtin, mode);
    }
  }

  lemma PerVertexNotSystem(stage: Stage, builtin: nat, mode: Mode)
    requires KindOfBuiltin(builtin) == PerVertex
    ensures var r := BuiltinLocation(stage, builtin, mode);
            r.Ok? ==> r.value.1 == mode && mode != SystemValue
  {
  }

  lemma FragmentNotSystem(stage: Stage, builtin: nat, mode: Mode)
    requires KindOfBuiltin(builtin) == FragmentIn || KindOfBuiltin(builtin) == FragmentOut
    ensures var r := BuiltinLocation(stage, builtin, mode);
            r.Ok? ==> r.value.1 == mode && (mode == ShaderIn || mode == ShaderOut) && stage == Fragment
  {
  }

  lemma SystemKindModes(stage: Stage, builtin: nat, mode: Mode)
    requires KindOfBuiltin(builtin) == System
    ensures var r := BuiltinLocation(stage, builtin, mode);
            (r.Ok? <==> mode == ShaderIn || mode == SystemValue) && (r.Ok? ==> r.value.1 == SystemValue)
  {
  }

  /** Only primitive id and layer turn a declared mode into an output, and
      fragment built-ins are accepted only in fragment shaders. */
  lemma OutputRewrites(stage: Stage, builtin: nat, mode: Mode)
    ensures var r := BuiltinLocation(stage, builtin, mode);
            && (r.Ok? && r.value.1 != mode && r.value.1 == ShaderOut ==>
                  builtin == BuiltInPrimitiveId || builtin == BuiltInLayer)
            && (r.Ok? && (KindOfBuiltin(builtin) == FragmentIn || KindOfBuiltin(builtin) == FragmentOut) ==>
                  stage == Fragment)
  {
    var k := KindOfBuiltin(builtin);
    if k == System {
      SystemKindModes(stage, builtin, mode);
    } else if k == PerVertex {
      PerVertexNotSystem(stage, builtin, mode);
    } else if k == FragmentIn || k == FragmentOut {
      FragmentNotSystem(stage, builtin, mode);
    }
  }


  /** The built-in a slot belongs to; the position slot is also the
      fragment coordinate. */
  function SlotOwner(slot: Slot): nat {
    match slot
    case VaryingPos => BuiltInPosition
    case VaryingPsiz => BuiltInPointSize
    case VaryingClipDist0 => BuiltInClipDistance
    case VaryingPrimitiveId => BuiltInPrimitiveId
    case VaryingLayer => BuiltInLayer
    case VaryingPntc => BuiltInPointCoord
    case VaryingFace => BuiltInFrontFacing
    case FragResultDepth => BuiltInFragDepth
    case SysVertexIdZeroBase => BuiltInVertexId
    case SysInstanceId => BuiltInInstanceId
    case SysInvocationId => BuiltInInvocationId
    case SysSampleId => BuiltInSampleId
    case SysSamplePos => BuiltInSamplePosition
    case SysSampleMaskIn => BuiltInSampleMask
    case SysNumWorkGroups => BuiltInNumWorkgroups
    case SysWorkGroupId => BuiltInWorkgroupId
    case SysLocalInvocationId => BuiltInLocalInvocationId
    case SysLocalInvocationIndex => BuiltInLocalInvocationIndex
    case SysGlobalInvocationId => BuiltInGlobalInvocationId
  }

  /** Every supported built-in has a slot of its own, except that vertex
      positions and fragment coordinates share one. */
  lemma SlotsOfBuiltins(b: nat, b': nat)
    requires BuiltinSlot(b).Some? && BuiltinSlot(b) == BuiltinSlot(b')
    ensures b == b' || {b, b'} == {BuiltInPosition, BuiltInFragCoord}
  {
    OwnerOfSlot(b);
    OwnerOfSlot(b');
  }

  lemma OwnerOfSlot(b: nat)
    requires BuiltinSlot(b).Some?
    ensures b == SlotOwner(BuiltinSlot(b).value) || (b == BuiltInFragCoord && BuiltinSlot(b) == Some(VaryingPos))
  {
  }

  // ---------------------------------------------------------------------
  // Variables and the shader they are declared in

  /** `constant_initializer`: none, an `OpConstant*` result, or the
      workgroup size the `WorkgroupSize` built-in becomes. */
  datatype Init = NoInit | ConstantInit(id: Word) | LocalSizeInit(size: seq<Word>)

  /** The `data` fields of a `nir_variable` the modelled code writes. */
  datatype VarData = VarData(
    mode: Mode, readOnly: bool,
    location: Location, explicitLocation: bool, locationFrac: Word,
    index: Word, explicitIndex: bool,
    binding: int, explicitBinding: bool, descSet: int,
    interp: Interp, centroid: bool, sample: bool, isInvariant: bool,
    originUpperLeft: bool, imageFormat: nat)

  /** A zeroed `nir_variable` of mode `m`, as `rzalloc` leaves it. */
  function ZeroData(m: Mode): VarData {
    VarData(m, false, At(0), false, 0, 0, false, 0, false, 0, InterpNone, false, false, false, false, 0)
  }

  datatype Variable = Variable(id: nat, ty: GType, iface: Option<GType>, data: VarData, init: Init)

  /** The shader fields the variable handling reads and writes.  `vars`
      holds every variable by identity; `shaderVars` and `localVars` are the
      shader's and the function's variable lists. */
  datatype Shader = Shader(
    stage: Stage, info: Info, originUpperLeft: bool, bound: nat,
    numSsbos: nat, numUbos: nat, numImages: nat, numTextures: nat, numUniforms: Word,
    vars: map<nat, Variable>, shaderVars: seq<nat>, localVars: seq<nat>,
    builtinIn: map<nat, nat>, builtinOut: map<nat, nat>, nextId: nat)

  /** Identities are unique and below `nextId`, declared ones below `bound`,
      and the built-in caches point at existing variables. */
  predicate ShaderWf(s: Shader) {
    && s.bound <= s.nextId
    && (forall id :: id in s.vars ==> id < s.nextId && s.vars[id].id == id)
    && (forall b :: b in s.builtinIn ==> s.builtinIn[b] in s.vars)
    && (forall b :: b in s.builtinOut ==> s.builtinOut[b] in s.vars)
  }

  /** A shader before any variable is declared. */
  function EmptyShader(stage: Stage, info: Info, bound: nat): (s: Shader)
    ensures ShaderWf(s)
  {
    Shader(stage, info, info.originUpperLeft, bound, 0, 0, 0, 0, 0, map[], [], [], map[], map[], bound)
  }

  /** The dereference of a variable, as the load and store code sees it. */
  function AsDerefVariable(v: Variable): Derefs.Variable {
    Derefs.Variable(v.id, v.ty, v.data.mode, v.data.descSet, v.data.binding, v.iface)
  }

  /** The cache `get_builtin_variable` consults for a request of mode `m`. */
  function CacheFor(s: Shader, m: Mode): map<nat, nat> {
    if m == ShaderOut then s.builtinOut else s.builtinIn
  }

  /** Records variable `id` as the built-in `builtin` of mode `m`. */
  function Cache(s: Shader, m: Mode, builtin: nat, id: nat): (s': Shader)
    ensures CacheFor(s', m) == CacheFor(s, m)[builtin := id]
    ensures m == ShaderOut ==> s'.builtinIn == s.builtinIn
    ensures m != ShaderOut ==> s'.builtinOut == s.builtinOut
    ensures s'.vars == s.vars && s'.nextId == s.nextId && s'.bound == s.bound
    ensures s'.shaderVars == s.shaderVars && s'.localVars == s.localVars
    ensures ShaderWf(s) && id in s.vars ==> ShaderWf(s')
  {
    if m == ShaderOut then s.(builtinOut := s.builtinOut[builtin := id])
    else s.(builtinIn := s.builtinIn[builtin := id])
  }

  /** `get_builtin_variable`: the cached variable of `builtin` for a request
      of mode `mode`, or a new shader variable of type `ty` at the
      built-in's slot, cached under the mode the built-in gives it. */
  function GetBuiltinVariable(s: Shader, mode: Mode, ty: GType, builtin: nat): (r: Result<(Shader, nat)>)
    requires ShaderWf(s)
    ensures r.Ok? ==> ShaderWf(r.value.0) && r.value.1 in r.value.0.vars
    ensures builtin in CacheFor(s, mode) ==> r == Ok((s, CacheFor(s, mode)[builtin]))
    ensures builtin !in CacheFor(s, mode) ==> (r.Ok? <==> BuiltinLocation(s.stage, builtin, mode).Ok?)
    ensures builtin !in CacheFor(s, mode) && r.Ok? ==>
              var (slot, m) := BuiltinLocation(s.stage, builtin, mode).value;
              var (s', id) := r.value;
              && id !in s.vars && s'.vars == s.vars[id := s'.vars[id]]
              && s'.shaderVars == s.shaderVars + [id] && s'.localVars == s.localVars
              && CacheFor(s', m) == CacheFor(s, m)[builtin := id]
              && s'.vars[id].ty == ty && s'.vars[id].data.mode == m
              && s'.vars[id].data.location == Named(slot) && s'.vars[id].data.explicitLocation
  {
    var cache := CacheFor(s, mode);
    if builtin in cache then Ok((s, cache[builtin]))
    else
      var (slot, m) :- BuiltinLocation(s.stage, builtin, mode);
      var id := s.nextId;
      var origin := if builtin == BuiltInFragCoord || builtin == BuiltInSamplePosition then s.originUpperLeft else false;
      var v := Variable(id, ty, None, ZeroData(m).(location := Named(slot), explicitLocation := true,
                                                   originUpperLeft := origin), NoInit);
      var s1 := s.(vars := s.vars[id := v], shaderVars := s.shaderVars + [id], nextId := id + 1);
      Ok((Cache(s1, m, builtin, id), id))
  }

  /** A built-in whose mode keeps its direction is created once: asking
      again returns the same variable and changes nothing. */
  lemma BuiltinCreatedOnce(s: Shader, mode: Mode, ty: GType, ty': GType, builtin: nat)
    requires ShaderWf(s) && GetBuiltinVariable(s, mode, ty, builtin).Ok?
    requires BuiltinLocation(s.stage, builtin, mode).Ok? ==>
               (BuiltinLocation(s.stage, builtin, mode).value.1 == ShaderOut <==> mode == ShaderOut)
    ensures var (s', id) := GetBuiltinVariable(s, mode, ty, builtin).value;
            GetBuiltinVariable(s', mode, ty', builtin) == Ok((s', id))
  {
    var (s', id) := GetBuiltinVariable(s, mode, ty, builtin).value;
    if builtin !in CacheFor(s, mode) {
      var m := BuiltinLocation(s.stage, builtin, mode).value.1;
      assert CacheFor(s', m) == CacheFor(s, m)[builtin := id];
      assert CacheFor(s', mode) == CacheFor(s', m);
    }
  }

  /** An input request for `PrimitiveId` or `Layer` is never answered from
      the cache: the variable is stored under the output direction, so a
      second input request creates a second variable. */
  lemma BuiltinInputNeverCached(s: Shader, ty: GType, builtin: nat)
    requires ShaderWf(s) && (builtin == BuiltInPrimitiveId || builtin == BuiltInLayer) && builtin !in s.builtinIn
    ensures GetBuiltinVariable(s, ShaderIn, ty, builtin).Ok?
    ensures var (s', id) := GetBuiltinVariable(s, ShaderIn, ty, builtin).value;
            && GetBuiltinVariable(s', ShaderIn, ty, builtin).Ok?
            && GetBuiltinVariable(s', ShaderIn, ty, builtin).value.1 != id
  {
    var (s', id) := GetBuiltinVariable(s, ShaderIn, ty, builtin).value;
    assert s'.builtinIn == s.builtinIn;
    assert id in s'.vars;
  }

  // ---------------------------------------------------------------------
  // Decorations on a variable

  /** The decorations `var_decoration_cb` accepts without effect. */
  predicate IgnoredDecoration(k: nat) {
    (k == DecRelaxedPrecision || k == DecRowMajor || k == DecColMajor || k == DecGLSLShared || k == DecPatch || k == DecRestrict || k == DecAliased || k == DecVolatile || k == DecCoherent || k == DecNonReadable || k == DecUniform || k == DecCPacked || k == DecSaturatedConversion || k == DecStream || k == DecOffset || k == DecXfbBuffer || k == DecFuncParamAttr || k == DecFPRoundingMode || k == DecFPFastMathMode || k == DecLinkageAttributes || k == DecSpecId)
  }

  /** `BuiltIn` on a variable: the workgroup size becomes a read-only
      global holding the local size; any other built-in takes its slot and
      mode, is read-only as an input or system value, and becomes the
      cached variable for its direction. */
  function BuiltinDecoration(s: Shader, v: Variable, builtin: nat): (r: Result<(Shader, Variable)>)
    requires ShaderWf(s) && v.id in s.vars
    ensures r.Ok? ==> BuiltinApplied(s, v, builtin, r.value.0, r.value.1)
    ensures builtin != BuiltInWorkgroupSize ==> (r.Ok? <==> BuiltinLocation(s.stage, builtin, v.data.mode).Ok?)
  {
    if builtin == BuiltInWorkgroupSize then
      Ok((s, v.(data := v.data.(mode := Global, readOnly := true), init := LocalSizeInit(s.info.localSize))))
    else
      var loc :- BuiltinLocation(s.stage, builtin, v.data.mode);
      var (slot, m) := loc;
      var origin := if builtin == BuiltInFragCoord || builtin == BuiltInSamplePosition
                    then s.originUpperLeft else v.data.originUpperLeft;
      var d := v.data.(location := Named(slot), explicitLocation := true, mode := m,
                       readOnly := v.data.readOnly || m == ShaderIn || m == SystemValue,
                       originUpperLeft := origin);
      LocatedApplied(s, v, builtin, d);
      Ok((Cache(s, m, builtin, v.id), v.(data := d)))
  }

  /** A built-in with a location: the variable takes the slot, becomes
      final, takes the mode, and is cached under it. */
  lemma LocatedApplied(s: Shader, v: Variable, builtin: nat, d: VarData)
    requires ShaderWf(s) && v.id in s.vars && builtin != BuiltInWorkgroupSize
    requires BuiltinLocation(s.stage, builtin, v.data.mode).Ok?
    requires var (slot, m) := BuiltinLocation(s.stage, builtin, v.data.mode).value;
             d.location == Named(slot) && d.explicitLocation && d.mode == m
             && (m == ShaderIn || m == SystemValue ==> d.readOnly)
    ensures var m := BuiltinLocation(s.stage, builtin, v.data.mode).value.1;
            BuiltinApplied(s, v, builtin, Cache(s, m, builtin, v.id), v.(data := d))
  {
  }

  /** What `BuiltIn` does to variable `v` (now `v'`) and shader `s` (now
      `s'`). */
  predicate BuiltinApplied(s: Shader, v: Variable, builtin: nat, s': Shader, v': Variable) {
    && ShaderWf(s') && s'.vars == s.vars && v'.id == v.id && v'.ty == v.ty && v'.iface == v.iface
    && if builtin == BuiltInWorkgroupSize then
         && s' == s && v'.data.mode == Global && v'.data.readOnly
         && v'.init == LocalSizeInit(s.info.localSize)
       else
         && BuiltinLocation(s.stage, builtin, v.data.mode).Ok?
         && var (slot, m) := BuiltinLocation(s.stage, builtin, v.data.mode).value;
         && v'.init == v.init
         && v'.data.location == Named(slot) && v'.data.explicitLocation && v'.data.mode == m
         && (m == ShaderIn || m == SystemValue ==> v'.data.readOnly)
         && s' == Cache(s, m, builtin, v.id)
  }

  /** The decorations that set a field of the variable's own data. */
  function DataDecoration(v: Variable, dec: Decoration): (r: Result<VarData>)
    ensures r.Ok? ==> r.value.mode == v.data.mode && r.value.explicitLocation == v.data.explicitLocation
    ensures r.Ok? && dec.kind != DecLocation ==> r.value.location == v.data.location
    ensures r.Ok? && dec.kind == DecLocation ==> |dec.literals| > 0 && r.value.location == At(dec.literals[0])
    ensures r.Ok? && dec.kind == DecConstant ==> v.init != NoInit && r.value.readOnly
    ensures r.Ok? && dec.kind == DecBinding ==> |dec.literals| > 0 && r.value.explicitBinding && r.value.binding == dec.literals[0]
    ensures r.Ok? && dec.kind == DecDescriptorSet ==> |dec.literals| > 0 && r.value.descSet == dec.literals[0]
    ensures dec.kind == DecNoPerspective ==> r == Ok(v.data.(interp := InterpNoPerspective))
    ensures dec.kind == DecFlat ==> r == Ok(v.data.(interp := InterpFlat))
    ensures dec.kind == DecCentroid ==> r == Ok(v.data.(centroid := true))
    ensures dec.kind == DecSample ==> r == Ok(v.data.(sample := true))
    ensures dec.kind == DecInvariant ==> r == Ok(v.data.(isInvariant := true))
    ensures dec.kind == DecNonWritable ==> r == Ok(v.data.(readOnly := true))
    ensures dec.kind == DecConstant ==> (r.Ok? <==> v.init != NoInit) && (r.Ok? ==> r.value == v.data.(readOnly := true))
    ensures dec.kind == DecLocation ==>
              (r.Ok? <==> |dec.literals| > 0) && (r.Ok? ==> r.value == v.data.(location := At(dec.literals[0])))
    ensures dec.kind == DecComponent ==>
              (r.Ok? <==> |dec.literals| > 0) && (r.Ok? ==> r.value == v.data.(locationFrac := dec.literals[0]))
    ensures dec.kind == DecIndex ==>
              (r.Ok? <==> |dec.literals| > 0)
              && (r.Ok? ==> r.value == v.data.(explicitIndex := true, index := dec.literals[0]))
    ensures dec.kind == DecBinding ==>
              (r.Ok? <==> |dec.literals| > 0)
              && (r.Ok? ==> r.value == v.data.(explicitBinding := true, binding := dec.literals[0]))
    ensures dec.kind == DecDescriptorSet ==>
              (r.Ok? <==> |dec.literals| > 0) && (r.Ok? ==> r.value == v.data.(descSet := dec.literals[0]))
    ensures r.Ok? ==> (dec.kind == DecNoPerspective || dec.kind == DecFlat || dec.kind == DecCentroid || dec.kind == DecSample || dec.kind == DecInvariant || dec.kind == DecConstant || dec.kind == DecNonWritable || dec.kind == DecLocation || dec.kind == DecComponent || dec.kind == DecIndex || dec.kind == DecBinding || dec.kind == DecDescriptorSet)
  {
    var k := dec.kind;
    if k == DecNoPerspective then Ok(v.data.(interp := InterpNoPerspective))
    else if k == DecFlat then Ok(v.data.(interp := InterpFlat))
    else if k == DecCentroid then Ok(v.data.(centroid := true))
    else if k == DecSample then Ok(v.data.(sample := true))
    else if k == DecInvariant then Ok(v.data.(isInvariant := true))
    else if k == DecConstant then
      if v.init == NoInit then Abort("Constant decoration without an initializer")
      else Ok(v.data.(readOnly := true))
    else if k == DecNonWritable then Ok(v.data.(readOnly := true))
    else if k == DecLocation then
      var l :- Literal0(dec); Ok(v.data.(location := At(l)))
    else if k == DecComponent then
      var l :- Literal0(dec); Ok(v.data.(locationFrac := l))
    else if k == DecIndex then
      var l :- Literal0(dec); Ok(v.data.(explicitIndex := true, index := l))
    else if k == DecBinding then
      var l :- Literal0(dec); Ok(v.data.(explicitBinding := true, binding := l))
    else if k == DecDescriptorSet then
      var l :- Literal0(dec); Ok(v.data.(descSet := l))
    else Abort("Unhandled variable decoration")
  }

  /** Shader `s'` differs from `s` at most in the built-in caches and in
      the data and initializer of variable `id`, whose initializer is at
      most replaced by the workgroup size. */
  predicate OnlyDecorated(s: Shader, s': Shader, id: nat) {
    && id in s.vars && ShaderWf(s') && s'.vars.Keys == s.vars.Keys
    && s' == s.(vars := s'.vars, builtinIn := s'.builtinIn, builtinOut := s'.builtinOut)
    && (forall x :: x in s.vars && x != id ==> s'.vars[x] == s.vars[x])
    && s'.vars[id] == s.vars[id].(data := s'.vars[id].data, init := s'.vars[id].init)
    && s'.vars[id].init in {s.vars[id].init, LocalSizeInit(s.info.localSize)}
  }

  /** A decoration other than `BuiltIn` keeps the mode and whether the
      location is final, and only `Location` moves the location. */
  predicate KeepsPlacement(d: VarData, d': VarData, kind: nat) {
    d'.mode == d.mode && d'.explicitLocation == d.explicitLocation
    && (kind != DecLocation ==> d'.location == d.location)
  }

  /** `var_decoration_cb` for one decoration of variable `id`.  The member
      index is not consulted. */
  function VarDecoration(s: Shader, id: nat, e: Effective): (r: Result<Shader>)
    requires ShaderWf(s) && id in s.vars
    ensures r.Ok? ==> OnlyDecorated(s, r.value, id)
    ensures r.Ok? && e.dec.kind == DecBuiltIn ==>
              |e.dec.literals| > 0 && BuiltinApplied(s, s.vars[id], e.dec.literals[0], r.value.(vars := s.vars), r.value.vars[id])
    ensures r.Ok? && e.dec.kind != DecBuiltIn ==> KeepsPlacement(s.vars[id].data, r.value.vars[id].data, e.dec.kind)
    ensures IgnoredDecoration(e.dec.kind) ==> r == Ok(s)
  {
    var v := s.vars[id];
    var k := e.dec.kind;
    if IgnoredDecoration(k) then Ok(s)
    else if k == DecBuiltIn then
      var b :- Literal0(e.dec);
      var (s', v') :- BuiltinDecoration(s, v, b);
      BuiltinOnlyDecorates(s, id, b, s', v');
      Ok(s'.(vars := s'.vars[id := v']))
    else
      var d :- DataDecoration(v, e.dec);
      Ok(s.(vars := s.vars[id := v.(data := d)]))
  }

  /** `BuiltIn` changes the variable's data and the built-in caches only. */
  lemma BuiltinOnlyDecorates(s: Shader, id: nat, b: nat, s': Shader, v': Variable)
    requires ShaderWf(s) && id in s.vars
    requires BuiltinApplied(s, s.vars[id], b, s', v')
    ensures OnlyDecorated(s, s'.(vars := s'.vars[id := v']), id)
  {
    var v := s.vars[id];
    assert v' == v.(data := v'.data, init := v'.init);
    if b != BuiltInWorkgroupSize {
      var m := BuiltinLocation(s.stage, b, v.data.mode).value.1;
      CacheOnlyDecorates(s, id, m, b, v');
    }
  }

  /** Caching a built-in and updating the variable's data and initializer
      changes nothing else. */
  lemma CacheOnlyDecorates(s: Shader, id: nat, m: Mode, b: nat, v': Variable)
    requires ShaderWf(s) && id in s.vars
    requires v' == s.vars[id].(data := v'.data, init := v'.init) && v'.init == s.vars[id].init
    ensures var s' := Cache(s, m, b, id);
            OnlyDecorated(s, s'.(vars := s'.vars[id := v']), id)
  {
    var s' := Cache(s, m, b, id);
    var t := s'.(vars := s'.vars[id := v']);
    assert ShaderWf(t);
    assert t == s.(vars := t.vars, builtinIn := t.builtinIn, builtinOut := t.builtinOut);
  }

  /** The decorations of variable `id`, applied in list order. */
  function VarDecorations(s: Shader, id: nat, es: seq<Effective>): (r: Result<Shader>)
    requires ShaderWf(s) && id in s.vars
    ensures r.Ok? ==> OnlyDecorated(s, r.value, id)
    decreases |es|
  {
    if |es| == 0 then Ok(s)
    else
      var s' :- VarDecoration(s, id, es[0]);
      VarDecorations(s', id, es[1..])
  }

  // ---------------------------------------------------------------------
  // OpVariable

  predicate IsInterfaceType(n: TypeNode) {
    n.block || n.bufferBlock || n.glsl.GSampler? || n.glsl.GImage?
  }

  /** The interface type of a variable of type `r`: the type itself, or
      the element of an array of interface types. */
  function InterfaceType(a: Arena, r: TypeRef): (res: Result<Option<TypeRef>>)
    requires Wf(a) && r < |a|
    ensures res.Ok? && res.value.Some? ==> res.value.value < |a| && IsInterfaceType(a[res.value.value])
    ensures res.Ok? && res.value.Some? && res.value.value != r ==> a[r].glsl.GArray? && a[r].elem == res.value
    ensures res.Ok? && res.value.None? ==> !IsInterfaceType(a[r])
  {
    assert NodeWf(a, a[r]);
    assert a[r].elem.Some? ==> a[r].elem.value in Children(a[r]);
    if IsInterfaceType(a[r]) then Ok(Some(r))
    else if a[r].glsl.GArray? then
      if a[r].elem.None? then Abort("array type without an element type")
      else if IsInterfaceType(a[a[r].elem.value]) then Ok(Some(a[r].elem.value))
      else Ok(None)
    else Ok(None)
  }

  /** What the storage class decides for a variable of type `ty` with
      interface type `iface`: its mode, read-only flag and binding, and the
      resource counters it bumps.  Push constants size the uniform space
      from the block size, four units per byte, at 32 bits. */
  function StorageClass(s: Shader, a: Arena, ty: TypeRef, iface: Option<TypeRef>, storage: Word): (r: Result<(Shader, VarData)>)
    requires Wf(a) && ty < |a| && (iface.Some? ==> iface.value < |a|)
    ensures r.Ok? ==> (storage == StorageUniform || storage == StorageUniformConstant || storage == StoragePushConstant || storage == StorageInput || storage == StorageOutput || storage == StoragePrivate || storage == StorageFunction)
    ensures r.Ok? ==> r.value.0 == s.(numSsbos := r.value.0.numSsbos, numUbos := r.value.0.numUbos,
                                      numImages := r.value.0.numImages, numTextures := r.value.0.numTextures,
                                      numUniforms := r.value.0.numUniforms)
    ensures r.Ok? && storage in {StorageUniform, StorageUniformConstant} ==>
              if iface.Some? && a[iface.value].bufferBlock
              then r.value.1.mode == ShaderStorage && r.value.0.numSsbos == s.numSsbos + 1
              else r.value.1.mode == Uniform && r.value.1.readOnly
    ensures r.Ok? && storage == StoragePushConstant ==>
              && iface.Some? && a[iface.value].block && s.numUniforms == 0
              && BlockSize(a, ty).Ok? && r.value.0.numUniforms == (BlockSize(a, ty).value * 4) % U32
              && r.value.1.mode == Uniform && r.value.1.readOnly
              && r.value.1.descSet == -1 && r.value.1.binding == -1
    ensures r.Ok? && storage == StorageInput ==> r.value.1.mode == ShaderIn && r.value.1.readOnly
    ensures r.Ok? && storage == StorageOutput ==> r.value.1.mode == ShaderOut
    ensures r.Ok? && storage == StoragePrivate ==> r.value.1.mode == Global
    ensures r.Ok? && storage == StorageFunction ==> r.value.1.mode == Local
    ensures r.Ok? ==> r.value.1.location == At(0) && !r.value.1.explicitLocation
  {
    if storage == StorageUniform || storage == StorageUniformConstant then
      if iface.Some? && a[iface.value].bufferBlock then
        Ok((s.(numSsbos := s.numSsbos + 1), ZeroData(ShaderStorage)))
      else
        var d := ZeroData(Uniform).(readOnly := true);
        if iface.None? then Ok((s, d))
        else if a[iface.value].glsl.GImage? then
          Ok((s.(numImages := s.numImages + 1), d.(imageFormat := a[iface.value].imageFormat)))
        else if a[iface.value].glsl.GSampler? then Ok((s.(numTextures := s.numTextures + 1), d))
        else if a[iface.value].glsl.GStruct? then Ok((s.(numUbos := s.numUbos + 1), d))
        else Abort("uniform interface type is not a struct")
    else if storage == StoragePushConstant then
      if iface.None? || !a[iface.value].block then Abort("push constant is not a block")
      else if s.numUniforms != 0 then Abort("more than one push constant block")
      else
        var size :- BlockSize(a, ty);
        Ok((s.(numUniforms := (size * 4) % U32), ZeroData(Uniform).(readOnly := true, descSet := -1, binding := -1)))
    else if storage == StorageInput then Ok((s, ZeroData(ShaderIn).(readOnly := true)))
    else if storage == StorageOutput then Ok((s, ZeroData(ShaderOut)))
    else if storage == StoragePrivate then Ok((s, ZeroData(Global)))
    else if storage == StorageFunction then Ok((s, ZeroData(Local)))
    else Abort("Unhandled variable storage class")
  }

  /** Counts a location no decoration made final from the first generic
      slot: fragment outputs from the first colour result, vertex inputs
      from the first generic attribute, other inputs and outputs from the
      first generic varying. */
  function PlaceLocation(stage: Stage, d: VarData): (d': VarData)
    ensures d'.explicitLocation == d.explicitLocation && d'.mode == d.mode
    ensures d.explicitLocation || !d.location.At? ==> d' == d
    ensures !d.explicitLocation && d.location.At? ==>
              (d'.location.From? <==> d.mode == ShaderIn || d.mode == ShaderOut)
    ensures d'.location.From? && !d.location.From? ==>
              d'.location.n == d.location.n
              && (d'.location.base == FragResultData0 <==> stage == Fragment && d.mode == ShaderOut)
              && (d'.location.base == VertAttribGeneric0 <==> stage == Vertex && d.mode == ShaderIn)
  {
    match d.location
    case At(n) =>
      if d.explicitLocation then d
      else if stage == Fragment && d.mode == ShaderOut then d.(location := From(FragResultData0, n))
      else if stage == Vertex && d.mode == ShaderIn then d.(location := From(VertAttribGeneric0, n))
      else if d.mode == ShaderIn || d.mode == ShaderOut then d.(location := From(VaryingSlotVar0, n))
      else d
    case _ => d
  }

  /** The result of `OpVariable`: a dereference of the new variable and the
      variable's type, which access chains through blocks keep. */
  datatype DerefValue = DerefValue(deref: Derefs.Deref, derefType: Option<TypeRef>)

  /** What `OpVariable` does after the decorations: places a location no
      decoration made final, drops the descriptor set and binding of a push
      constant, and lists the variable with the function if it is local and
      with the shader otherwise, unless it is an interface block. */
  function FinishVariable(s: Shader, a: Arena, iface: Option<TypeRef>, id: nat, storage: Word): (s': Shader)
    requires ShaderWf(s) && id in s.vars
    requires iface.Some? ==> iface.value < |a|
    ensures ShaderWf(s') && s'.vars.Keys == s.vars.Keys
    ensures s'.vars[id] == s.vars[id].(data := s'.vars[id].data)
    ensures s'.vars[id].data.mode == s.vars[id].data.mode
    ensures storage == StoragePushConstant ==> s'.vars[id].data.descSet == -1 && s'.vars[id].data.binding == -1
    ensures s'.vars[id].data == (var d := PlaceLocation(s.stage, s.vars[id].data);
                                 if storage == StoragePushConstant then d.(descSet := -1, binding := -1) else d)
    ensures if iface.Some? && a[iface.value].glsl.GStruct? then s'.shaderVars == s.shaderVars && s'.localVars == s.localVars
            else if s.vars[id].data.mode == Local then s'.localVars == s.localVars + [id] && s'.shaderVars == s.shaderVars
            else s'.shaderVars == s.shaderVars + [id] && s'.localVars == s.localVars
  {
    var v := s.vars[id];
    var d := PlaceLocation(s.stage, v.data);
    var d' := if storage == StoragePushConstant then d.(descSet := -1, binding := -1) else d;
    var s1 := s.(vars := s.vars[id := v.(data := d')]);
    if iface.Some? && a[iface.value].glsl.GStruct? then s1
    else if v.data.mode == Local then s1.(localVars := s1.localVars + [id])
    else s1.(shaderVars := s1.shaderVars + [id])
  }

  /** `OpVariable` with words `w`, given the decorations of the result id
      as `vtn_foreach_decoration` delivers them.  `bound` holds the ids the
      builder's value table has already bound to anything, `constants`
      those bound to constants. */
  function HandleVariable(s: Shader, t: TypeTable, bound: set<Word>, constants: set<Word>, decs: seq<Effective>,
                          w: seq<Word>): (r: Result<(Shader, DerefValue)>)
    requires ShaderWf(s) && TableWf(t)
    ensures r.Ok? ==>
              && |w| in {4, 5} && w[2] < s.bound && w[2] !in s.vars && w[2] !in bound && w[2] in r.value.0.vars
              && (|w| == 5 ==> w[4] in constants)
              && TypeOperand(t, w, 1).Ok?
              && r.value.1 == DerefValue(Derefs.Deref(AsDerefVariable(r.value.0.vars[w[2]]), []),
                                         Some(TypeOperand(t, w, 1).value))
    ensures r.Ok? ==> ShaderWf(r.value.0) && r.value.0.vars.Keys == s.vars.Keys + {w[2]}
    ensures r.Ok? ==> r.value.0.vars[w[2]].init in {if |w| == 5 then ConstantInit(w[4]) else NoInit,
                                                      LocalSizeInit(s.info.localSize)}
    ensures r.Ok? && w[3] == StoragePushConstant ==>
              r.value.0.vars[w[2]].data.descSet == -1 && r.value.0.vars[w[2]].data.binding == -1
    ensures r.Ok? ==>
              var v := r.value.0.vars[w[2]];
              if v.iface.Some? && v.iface.value.GStruct? then
                r.value.0.shaderVars == s.shaderVars && r.value.0.localVars == s.localVars
              else if v.data.mode == Local then
                r.value.0.localVars == s.localVars + [w[2]] && r.value.0.shaderVars == s.shaderVars
              else r.value.0.shaderVars == s.shaderVars + [w[2]] && r.value.0.localVars == s.localVars
  {
    var (s2, iface) :- DeclareVariable(s, t, bound, constants, w);
    var s3 :- VarDecorations(s2, w[2], decs);
    var s5 := FinishVariable(s3, t.arena, iface, w[2], w[3]);
    Ok((s5, DerefValue(Derefs.Deref(AsDerefVariable(s5.vars[w[2]]), []), Some(TypeOperand(t, w, 1).value))))
  }

  /** The part of `OpVariable` before the decorations: the new variable
      with the mode its storage class gives it, added by identity, and its
      interface type. */
  function DeclareVariable(s: Shader, t: TypeTable, bound: set<Word>, constants: set<Word>, w: seq<Word>)
    : (r: Result<(Shader, Option<TypeRef>)>)
    requires ShaderWf(s) && TableWf(t)
    ensures |w| >= 4 && (w[2] in bound || (|w| == 5 && w[4] !in constants)) ==> r.Abort?
    ensures r.Ok? ==>
              && |w| in {4, 5} && w[2] < s.bound && w[2] !in s.vars && w[2] !in bound && TypeOperand(t, w, 1).Ok?
              && (|w| == 5 ==> w[4] in constants)
              && var (s', iface) := r.value;
              && ShaderWf(s') && s'.vars.Keys == s.vars.Keys + {w[2]}
              && (iface.Some? ==> iface.value < |t.arena|)
              && s'.stage == s.stage && s'.info == s.info
              && s'.shaderVars == s.shaderVars && s'.localVars == s.localVars
              && s'.vars[w[2]].init == (if |w| == 5 then ConstantInit(w[4]) else NoInit)
              && s'.vars[w[2]].iface == (if iface.Some? then Some(t.arena[iface.value].glsl) else None)
              && s'.vars[w[2]].data.location == At(0) && !s'.vars[w[2]].data.explicitLocation
              && (w[3] == StorageInput ==> s'.vars[w[2]].data.mode == ShaderIn)
              && (w[3] == StorageOutput ==> s'.vars[w[2]].data.mode == ShaderOut)
  {
    if |w| < 4 then Abort("OpVariable too short")
    else
      var ty :- TypeOperand(t, w, 1);
      var a := t.arena;
      var id := w[2];
      if id >= s.bound || id in s.vars || id in bound then Abort("result id already defined or out of range")
      else
        var iface :- InterfaceType(a, ty);
        var (s1, d0) :- StorageClass(s, a, ty, iface, w[3]);
        if |w| > 5 then Abort("OpVariable too long")
        else if |w| == 5 && w[4] !in constants then Abort("initializer is not a constant")
        else
          var init := if |w| == 5 then ConstantInit(w[4]) else NoInit;
          var ifaceType := if iface.Some? then Some(a[iface.value].glsl) else None;
          var v := Variable(id, a[ty].glsl, ifaceType, d0, init);
          Ok((s1.(vars := s1.vars[id := v]), iface))
  }

  /** A fragment shader output without a `BuiltIn` or `Location`
      decoration sits at the first colour result, and an input or output
      of another kind of shader at its stage's first generic slot. */
  lemma UndecoratedLocation(s: Shader, t: TypeTable, bound: set<Word>, constants: set<Word>, decs: seq<Effective>,
                            w: seq<Word>)
    requires ShaderWf(s) && TableWf(t) && HandleVariable(s, t, bound, constants, decs, w).Ok?
    requires w[3] in {StorageInput, StorageOutput}
    requires forall i :: 0 <= i < |decs| ==> decs[i].dec.kind != DecBuiltIn && decs[i].dec.kind != DecLocation
    ensures var d := HandleVariable(s, t, bound, constants, decs, w).value.0.vars[w[2]].data;
            && !d.explicitLocation
            && d.location == From(if s.stage == Fragment && w[3] == StorageOutput then FragResultData0
                                  else if s.stage == Vertex && w[3] == StorageInput then VertAttribGeneric0
                                  else VaryingSlotVar0, 0)
  {
    var (s2, iface) := DeclareVariable(s, t, bound, constants, w).value;
    var s3 := VarDecorations(s2, w[2], decs).value;
    NoBuiltinKeepsLocation(s2, w[2], decs);
    var d3 := s3.vars[w[2]].data;
    assert d3.location == At(0) && !d3.explicitLocation;
    assert d3.mode == ShaderIn || d3.mode == ShaderOut;
    assert w[3] == StorageOutput <==> d3.mode == ShaderOut;
    assert HandleVariable(s, t, bound, constants, decs, w).value.0 == FinishVariable(s3, t.arena, iface, w[2], w[3]);
  }

  /** Without `BuiltIn` and `Location` decorations the location, its
      finality and the mode stay as they were. */
  lemma {:induction false} NoBuiltinKeepsLocation(s: Shader, id: nat, es: seq<Effective>)
    requires ShaderWf(s) && id in s.vars && VarDecorations(s, id, es).Ok?
    requires forall i :: 0 <= i < |es| ==> es[i].dec.kind != DecBuiltIn && es[i].dec.kind != DecLocation
    ensures var d := VarDecorations(s, id, es).value.vars[id].data;
            d.mode == s.vars[id].data.mode && d.location == s.vars[id].data.location
            && d.explicitLocation == s.vars[id].data.explicitLocation
    decreases |es|
  {
    if |es| > 0 {
      var s' := VarDecoration(s, id, es[0]).value;
      assert forall i :: 0 <= i < |es[1..]| ==> es[1..][i] == es[i + 1];
      NoBuiltinKeepsLocation(s', id, es[1..]);
    }
  }

  // ---------------------------------------------------------------------
  // OpAccessChain

  /** An index operand: the first word of a constant, or an SSA value of
      type `ty`. */
  datatype Index = ConstIndex(value: Word) | SsaIndex(def: Def, ty: GType)

  /** The step an index makes: a constant selects directly (a struct field
      or an array element), an SSA value selects indirectly from base 0. */
  predicate StepMatches(idx: Index, step: Step) {
    match idx
    case ConstIndex(c) => step == Direct(c) || step == Step.Field(c)
    case SsaIndex(def, _) => step == Indirect(0, def)
  }

  /** One index applied to a link of type `tail` whose vtn type is `dt`
      (`None` for the scalar type made up for a vector component): the new
      selector and the vtn type it leads to. */
  function Select(a: Arena, tail: GType, dt: Option<TypeRef>, idx: Index): (r: Result<(Derefs.Selector, Option<TypeRef>)>)
    requires Wf(a) && (dt.Some? ==> dt.value < |a|)
    ensures r.Ok? && r.value.1.Some? ==> r.value.1.value < |a|
    ensures r.Ok? ==> StepMatches(idx, r.value.0.step)
    ensures r.Ok? ==> (r.value.0.step.Field? <==> tail.GStruct?)
    ensures r.Ok? ==> tail.GVec? || tail.GMat? || tail.GArray? || tail.GStruct?
    ensures r.Ok? && IsVector(tail) ==> r.value.0.ty == GVec(tail.base, 1) && r.value.1.None?
    ensures r.Ok? && tail.GStruct? ==>
              dt.Some? && idx.ConstIndex? && idx.value < |a[dt.value].members|
              && r.value.1 == Some(a[dt.value].members[idx.value])
    ensures tail.GVec? && tail.n <= 1 ==> r.Abort?
  {
    assert dt.Some? ==> NodeWf(a, a[dt.value]);
    if tail.GVec? || tail.GMat? || tail.GArray? then
      var (sel, dt') :-
        if tail.GArray? || tail.GMat? then
          if dt.None? || a[dt.value].elem.None? then Abort("element type missing")
          else
            assert a[dt.value].elem.value in Children(a[dt.value]);
            Ok((a[a[dt.value].elem.value].glsl, a[dt.value].elem))
        else if IsVector(tail) then Ok((GVec(tail.base, 1), None))
        else Abort("component of a scalar");
      var step :-
        match idx
        case ConstIndex(c) => Ok(Direct(c))
        case SsaIndex(def, ity) => if IsScalar(ity) then Ok(Indirect(0, def)) else Abort("index is not a scalar");
      Ok((Derefs.Selector(step, sel), dt'))
    else if tail.GStruct? then
      match idx
      case SsaIndex(_, _) => Abort("struct index is not a constant")
      case ConstIndex(c) =>
        if dt.None? || c >= |a[dt.value].members| then Abort("member out of range")
        else
          var m := a[dt.value].members[c];
          assert m in Children(a[dt.value]);
          Ok((Derefs.Selector(Step.Field(c), a[m].glsl), Some(m)))
    else Abort("Invalid type for deref")
  }

  /** The access chain under construction. */
  datatype Chain = Chain(s: Shader, d: Derefs.Deref, dt: Option<TypeRef>)

  predicate ChainWf(a: Arena, c: Chain) {
    ShaderWf(c.s) && (c.dt.Some? ==> c.dt.value < |a|)
  }

  predicate NoBuiltins(a: Arena) {
    forall r :: 0 <= r < |a| ==> !a[r].isBuiltin
  }

  /** Reaching a built-in member `m` with chain `sels` so far: the chain
      restarts at the built-in's variable.  From an arrayed (per-vertex)
      base, which only geometry shader inputs may be, the variable is an
      array of the built-in over the input vertices and the chain keeps its
      first link, which must be an array index. */
  function BuiltinJump(a: Arena, base: Derefs.Variable, s: Shader, sels: seq<Derefs.Selector>, m: TypeRef): (r: Result<Chain>)
    requires Wf(a) && m < |a| && ShaderWf(s) && |sels| > 0
    ensures r.Ok? ==> ChainWf(a, r.value) && r.value.dt == Some(m)
    ensures r.Ok? ==> r.value.d.v.id in r.value.s.vars && r.value.d.v == AsDerefVariable(r.value.s.vars[r.value.d.v.id])
    ensures r.Ok? ==> if base.ty.GArray? then r.value.d.sels == [Derefs.Selector(sels[0].step, a[m].glsl)]
                      else r.value.d.sels == []
    ensures r.Ok? && base.ty.GArray? ==> s.stage == Geometry && base.mode == ShaderIn && !sels[0].step.Field?
  {
    var ty := a[m].glsl;
    if base.ty.GArray? then
      if s.stage != Geometry then Abort("per-vertex built-in outside a geometry shader")
      else if base.mode != ShaderIn then Abort("per-vertex built-in is not an input")
      else if sels[0].step.Field? then Abort("first link of a per-vertex built-in is not an array index")
      else
        var (s', id) :- GetBuiltinVariable(s, base.mode, GArray(ty, s.info.verticesIn), a[m].builtin);
        Ok(Chain(s', Derefs.Deref(AsDerefVariable(s'.vars[id]), [Derefs.Selector(sels[0].step, ty)]), Some(m)))
    else
      var (s', id) :- GetBuiltinVariable(s, base.mode, ty, a[m].builtin);
      Ok(Chain(s', Derefs.Deref(AsDerefVariable(s'.vars[id]), []), Some(m)))
  }

  /** One iteration of the access chain loop. */
  function ChainStep(a: Arena, base: Derefs.Variable, c: Chain, idx: Index): (r: Result<Chain>)
    requires Wf(a) && ChainWf(a, c)
    ensures r.Ok? ==> ChainWf(a, r.value)
    ensures r.Ok? && NoBuiltins(a) ==>
              && r.value.s == c.s && r.value.d.v == c.d.v
              && |r.value.d.sels| == |c.d.sels| + 1 && r.value.d.sels[..|c.d.sels|] == c.d.sels
              && StepMatches(idx, r.value.d.sels[|c.d.sels|].step)
  {
    var (sel, dt) :- Select(a, Derefs.TypeAt(c.d, |c.d.sels|), c.dt, idx);
    var sels := c.d.sels + [sel];
    if dt.Some? && a[dt.value].isBuiltin then BuiltinJump(a, base, c.s, sels, dt.value)
    else
      assert sels[..|c.d.sels|] == c.d.sels;
      Ok(Chain(c.s, Derefs.Deref(c.d.v, sels), dt))
  }

  function ChainSteps(a: Arena, base: Derefs.Variable, c: Chain, idxs: seq<Index>): (r: Result<Chain>)
    requires Wf(a) && ChainWf(a, c)
    ensures r.Ok? ==> ChainWf(a, r.value)
    decreases |idxs|
  {
    if |idxs| == 0 then Ok(c)
    else
      var c' :- ChainStep(a, base, c, idxs[0]);
      ChainSteps(a, base, c', idxs[1..])
  }

  /** `OpAccessChain` on the dereference `v` with indices `idxs`.  A chain
      into a uniform or storage block keeps the block's own type, since its
      offsets are resolved only when it is loaded or stored. */
  function AccessChain(s: Shader, a: Arena, v: DerefValue, idxs: seq<Index>): (r: Result<(Shader, DerefValue)>)
    requires ShaderWf(s) && Wf(a) && (v.derefType.Some? ==> v.derefType.value < |a|)
    ensures r.Ok? ==> ShaderWf(r.value.0)
    ensures r.Ok? && Derefs.IsExternalBlock(v.deref.v) ==> r.value.1.derefType == v.derefType
  {
    var c :- ChainSteps(a, v.deref.v, Chain(s, v.deref, v.derefType), idxs);
    var dt := if Derefs.IsExternalBlock(v.deref.v) then v.derefType else c.dt;
    Ok((c.s, DerefValue(c.d, dt)))
  }

  /** Without built-in members an access chain appends one selector per
      index to the base dereference, a constant selecting directly and an
      SSA value selecting indirectly from base 0, and creates nothing. */
  lemma {:induction false} ChainAppends(a: Arena, base: Derefs.Variable, c: Chain, idxs: seq<Index>)
    requires Wf(a) && ChainWf(a, c) && NoBuiltins(a) && ChainSteps(a, base, c, idxs).Ok?
    ensures var r := ChainSteps(a, base, c, idxs).value;
            && r.s == c.s && r.d.v == c.d.v
            && |r.d.sels| == |c.d.sels| + |idxs| && r.d.sels[..|c.d.sels|] == c.d.sels
            && forall i :: 0 <= i < |idxs| ==> StepMatches(idxs[i], r.d.sels[|c.d.sels| + i].step)
    decreases |idxs|
  {
    if |idxs| > 0 {
      var c' := ChainStep(a, base, c, idxs[0]).value;
      ChainAppends(a, base, c', idxs[1..]);
      assert ChainSteps(a, base, c, idxs) == ChainSteps(a, base, c', idxs[1..]);
      AppendedLink(c, c', ChainSteps(a, base, c', idxs[1..]).value, idxs);
    }
  }

  /** The selectors one access-chain index appends, followed by those the
      remaining indices append, are the selectors all the indices append. */
  lemma AppendedLink(c: Chain, c': Chain, r: Chain, idxs: seq<Index>)
    requires |idxs| > 0
    requires c'.s == c.s && c'.d.v == c.d.v
             && |c'.d.sels| == |c.d.sels| + 1 && c'.d.sels[..|c.d.sels|] == c.d.sels
             && StepMatches(idxs[0], c'.d.sels[|c.d.sels|].step)
    requires r.s == c'.s && r.d.v == c'.d.v
             && |r.d.sels| == |c'.d.sels| + |idxs| - 1 && r.d.sels[..|c'.d.sels|] == c'.d.sels
             && forall i :: 0 <= i < |idxs| - 1 ==> StepMatches(idxs[1..][i], r.d.sels[|c'.d.sels| + i].step)
    ensures r.s == c.s && r.d.v == c.d.v
            && |r.d.sels| == |c.d.sels| + |idxs| && r.d.sels[..|c.d.sels|] == c.d.sels
            && forall i :: 0 <= i < |idxs| ==> StepMatches(idxs[i], r.d.sels[|c.d.sels| + i].step)
  {
    var n := |c.d.sels|;
    assert r.d.sels[..n] == r.d.sels[..n + 1][..n];
    forall i | 0 <= i < |idxs|
      ensures StepMatches(idxs[i], r.d.sels[n + i].step)
    {
      if i == 0 {
        assert r.d.sels[n] == r.d.sels[..n + 1][n];
      } else {
        assert idxs[i] == idxs[1..][i - 1];
      }
    }
  }

  /** A constant index reaching a built-in member of a struct variable
      that is not an array continues at the built-in's variable with an
      empty chain: the cached one when there is one, a new one otherwise. */
  lemma BuiltinMemberJumps(s: Shader, a: Arena, v: DerefValue, k: Word)
    requires ShaderWf(s) && Wf(a) && v.derefType.Some? && v.derefType.value < |a|
    requires v.deref.sels == [] && v.deref.v.ty.GStruct? && !v.deref.v.ty.GArray?
    requires k < |a[v.derefType.value].members| && a[v.derefType.value].members[k] < |a|
    requires a[a[v.derefType.value].members[k]].isBuiltin
    requires AccessChain(s, a, v, [ConstIndex(k)]).Ok?
    ensures var (s', r) := AccessChain(s, a, v, [ConstIndex(k)]).value;
            var b := a[a[v.derefType.value].members[k]].builtin;
            && r.deref.sels == [] && r.deref.v.id in s'.vars
            && (b in CacheFor(s, v.deref.v.mode) ==> s' == s && r.deref.v.id == CacheFor(s, v.deref.v.mode)[b])
            && (b !in CacheFor(s, v.deref.v.mode) ==> r.deref.v.id !in s.vars)
  {
    var m := a[v.derefType.value].members[k];
    var c0 := Chain(s, v.deref, v.derefType);
    assert Derefs.TypeAt(v.deref, 0) == v.deref.v.ty;
    var sel := Select(a, v.deref.v.ty, v.derefType, ConstIndex(k)).value;
    assert ChainStep(a, v.deref.v, c0, ConstIndex(k)) == BuiltinJump(a, v.deref.v, s, [sel.0], m);
    assert ChainSteps(a, v.deref.v, c0, [ConstIndex(k)]) == ChainStep(a, v.deref.v, c0, ConstIndex(k)) by {
      var c1 := ChainStep(a, v.deref.v, c0, ConstIndex(k)).value;
      assert [ConstIndex(k)][1..] == [];
      assert ChainSteps(a, v.deref.v, c1, []) == Ok(c1);
    }
  }
}

=== FILE: vectors.dfy ===
/** Component-level vector operations: static and dynamic extract and insert,
    shuffle and construct.  Each emits a small NIR term; the contracts state
    the value of every result component. */
module Vectors {
  import opened Wrappers
  import opened Nir

  const ShuffleUndef: nat := 0xFFFF_FFFF

  /** `create_vec`: NIR only has `fmov`, `vec2`, `vec3` and `vec4`. */
  function CreateVec(lanes: seq<Lane>): (r: Result<Def>)
    ensures r.Ok? <==> 1 <= |lanes| <= 4
    ensures r.Ok? ==> r.value == Vec(lanes)
  {
    if 1 <= |lanes| <= 4 then Ok(Vec(lanes)) else Abort("bad vector size")
  }

  /** `vtn_vector_extract`: a one-component swizzle. */
  function Extract(src: Def, index: nat): (r: Def)
    ensures Width(r) == 1
    ensures forall env :: EvalLane(env, r, 0) == EvalLane(env, src, index)
  {
    Swizzle(src, [index])
  }

  /** The lanes of `vtn_vector_insert`: `insert` at `index`, `src` elsewhere. */
  function InsertLanes(src: Def, insert: Def, index: nat, n: nat): (ls: seq<Lane>)
    ensures |ls| == n
    ensures forall k :: 0 <= k < n ==> ls[k] == if k == index then Lane(insert, 0) else Lane(src, k)
  {
    seq(n, k requires 0 <= k < n => if k == index then Lane(insert, 0) else Lane(src, k))
  }

  /** `vtn_vector_insert`: component `index` replaced by the first component of
      `insert`; an index past the end changes nothing. */
  function Insert(src: Def, insert: Def, index: nat): (r: Result<Def>)
    ensures r.Ok? <==> 1 <= Width(src) <= 4
    ensures r.Ok? ==> Width(r.value) == Width(src)
    ensures r.Ok? ==> forall env, k :: 0 <= k < Width(src) ==>
              EvalLane(env, r.value, k) == if k == index then EvalLane(env, insert, 0) else EvalLane(env, src, k)
  {
    CreateVec(InsertLanes(src, insert, index, Width(src)))
  }

  /** The component a dynamic index selects among `n`: the index itself when
      it is in range, component 0 otherwise. */
  function Selected(index: nat, n: nat): (s: nat)
    ensures n > 0 ==> s < n
  {
    if index < n then index else 0
  }

  /** The select chain `vtn_vector_extract_dynamic` builds over components
      below `n`: each link compares the index with its component number and
      the innermost falls back to component 0. */
  function ExtractChain(src: Def, index: Def, n: nat): (r: Def)
    requires n <= 4
    ensures forall env :: EvalLane(env, r, 0)
              == EvalLane(env, src, if 1 <= EvalLane(env, index, 0) < n then EvalLane(env, index, 0) else 0)
  {
    if n <= 1 then Extract(src, 0)
    else
      var rest := ExtractChain(src, index, n - 1);
      forall env ensures EvalLane(env, Bcsel(Ieq(index, ImmInt(n - 1)), Extract(src, n - 1), rest), 0)
                         == if EvalLane(env, index, 0) == n - 1 then EvalLane(env, src, n - 1) else EvalLane(env, rest, 0) {
        SelectStep(env, index, n - 1, Extract(src, n - 1), rest, 0);
      }
      Bcsel(Ieq(index, ImmInt(n - 1)), Extract(src, n - 1), rest)
  }

  /** `vtn_vector_extract_dynamic`: agrees with the static extract at the
      selected component. */
  function ExtractDynamic(src: Def, index: Def): (r: Def)
    requires Width(src) <= 4
    ensures forall env :: EvalLane(env, r, 0)
                          == EvalLane(env, Extract(src, Selected(EvalLane(env, index, 0), Width(src))), 0)
  {
    ExtractChain(src, index, Width(src))
  }

  /** The select chain `vtn_vector_insert_dynamic` builds over components
      below `n`, falling back to inserting at component 0. */
  function InsertChain(src: Def, insert: Def, index: Def, n: nat): (r: Def)
    requires 1 <= Width(src) <= 4 && n <= Width(src) && Width(index) == 1
    ensures Width(r) == Width(src)
    ensures forall env, k :: 0 <= k < Width(src) ==>
              EvalLane(env, r, k) == EvalLane(env, Insert(src, insert, Selected(EvalLane(env, index, 0), n)).value, k)
  {
    if n <= 1 then Insert(src, insert, 0).value
    else
      var rest := InsertChain(src, insert, index, n - 1);
      var here := Insert(src, insert, n - 1).value;
      var cond := Ieq(index, ImmInt(n - 1));
      assert Width(cond) == 1;
      forall env, k | 0 <= k < Width(src)
        ensures EvalLane(env, Bcsel(cond, here, rest), k)
                == EvalLane(env, Insert(src, insert, Selected(EvalLane(env, index, 0), n)).value, k) {
        InsertLink(env, src, insert, index, n, rest, k);
      }
      Bcsel(cond, here, rest)
  }

  /** One link of the insert chain, given what the links below it select. */
  lemma InsertLink(env: Env, src: Def, insert: Def, index: Def, n: nat, rest: Def, k: nat)
    requires 2 <= n <= Width(src) <= 4 && Width(index) == 1 && k < Width(src) && Width(rest) == Width(src)
    requires EvalLane(env, rest, k) == EvalLane(env, Insert(src, insert, Selected(EvalLane(env, index, 0), n - 1)).value, k)
    ensures EvalLane(env, Bcsel(Ieq(index, ImmInt(n - 1)), Insert(src, insert, n - 1).value, rest), k)
            == EvalLane(env, Insert(src, insert, Selected(EvalLane(env, index, 0), n)).value, k)
  {
    var here := Insert(src, insert, n - 1).value;
    var i := EvalLane(env, index, 0);
    SelectStep(env, index, n - 1, here, rest, k);
    assert Pick(Width(here), k) == k && Pick(Width(rest), k) == k;
    if i == n - 1 {
      assert Selected(i, n) == n - 1;
    } else {
      assert Selected(i, n) == Selected(i, n - 1);
    }
  }

  /** `vtn_vector_insert_dynamic`: agrees with the static insert at the
      selected component. */
  function InsertDynamic(src: Def, insert: Def, index: Def): (r: Result<Def>)
    requires Width(index) == 1
    ensures r.Ok? <==> 1 <= Width(src) <= 4
    ensures r.Ok? ==> Width(r.value) == Width(src)
    ensures r.Ok? ==> forall env, k :: 0 <= k < Width(src) ==>
              EvalLane(env, r.value, k)
              == EvalLane(env, Insert(src, insert, Selected(EvalLane(env, index, 0), Width(src))).value, k)
  {
    if 1 <= Width(src) <= 4 then Ok(InsertChain(src, insert, index, Width(src)))
    else Abort("bad vector size")
  }

  /** One link of a select chain: component `k` comes from `here` when the
      index equals `i`, and from `dest` otherwise. */
  lemma SelectStep(env: Env, index: Def, i: nat, here: Def, dest: Def, k: nat)
    requires i < U32 && (Width(index) == 1 || k == 0)
    ensures EvalLane(env, Bcsel(Ieq(index, ImmInt(i)), here, dest), k)
            == if EvalLane(env, index, 0) == i then EvalLane(env, here, Pick(Width(here), k))
               else EvalLane(env, dest, Pick(Width(dest), k))
  {
    var cond := Ieq(index, ImmInt(i));
    CompareLane(env, index, i, k);
    assert EvalLane(env, cond, Pick(Width(cond), k)) != 0 <==> EvalLane(env, index, 0) == i;
  }

  /** The comparison that guards one link, read at any lane `k` of the
      select: it compares the scalar index with `i`. */
  lemma CompareLane(env: Env, index: Def, i: nat, k: nat)
    requires i < U32 && (Width(index) == 1 || k == 0)
    ensures var cond := Ieq(index, ImmInt(i));
            EvalLane(env, cond, Pick(Width(cond), k))
            == if EvalLane(env, index, 0) == i then NirTrue else NirFalse
  {
    var imm := ImmInt(i);
    assert Width(imm) == 1;
    assert Pick(Width(Ieq(index, imm)), k) == 0;
    assert Pick(Width(index), 0) == 0 && Pick(1, 0) == 0;
    assert EvalLane(env, imm, 0) == i;
  }

  /** The lanes of a shuffle: `0xFFFFFFFF` is an undefined component, smaller
      indices count through `src0` and then `src1`.  No index is range-checked:
      anything at or past the width of `src0` reads `src1`. */
  function ShuffleLanes(src0: Def, src1: Def, indices: seq<nat>): (r: seq<Lane>)
    ensures |r| == |indices|
    decreases |indices|
  {
    if |indices| == 0 then []
    else
      var i := indices[0];
      var lane := if i == ShuffleUndef then Lane(Undef(1), 0)
                  else if i < Width(src0) then Lane(src0, i)
                  else Lane(src1, i - Width(src0));
      [lane] + ShuffleLanes(src0, src1, indices[1..])
  }

  /** `vtn_vector_shuffle` producing `n` components from `indices`. */
  function Shuffle(n: nat, src0: Def, src1: Def, indices: seq<nat>): (r: Result<Def>)
    ensures r.Ok? <==> n <= |indices| && 1 <= n <= 4
    ensures r.Ok? ==> Width(r.value) == n
  {
    if |indices| < n then Abort("shuffle operand missing")
    else CreateVec(ShuffleLanes(src0, src1, indices[..n]))
  }

  /** Component `k` of a shuffle is the undefined value or component
      `indices[k]` of the concatenation of the two sources. */
  lemma {:induction false} ShuffleReadsConcatenation(env: Env, src0: Def, src1: Def, indices: seq<nat>, k: nat)
    requires k < |indices|
    requires indices[k] == ShuffleUndef || indices[k] < Width(src0) + Width(src1)
    ensures var l := ShuffleLanes(src0, src1, indices)[k];
            var both := Eval(env, src0) + Eval(env, src1);
            EvalLane(env, l.src, l.comp) == if indices[k] == ShuffleUndef then 0 else both[indices[k]]
    decreases |indices|
  {
    if k > 0 {
      assert indices[1..][k - 1] == indices[k];
      ShuffleReadsConcatenation(env, src0, src1, indices[1..], k - 1);
    }
  }

  /** The value of a whole shuffle, when every index is in range. */
  lemma ShuffleValue(env: Env, n: nat, src0: Def, src1: Def, indices: seq<nat>)
    requires Shuffle(n, src0, src1, indices).Ok?
    requires forall k :: 0 <= k < n ==> indices[k] == ShuffleUndef || indices[k] < Width(src0) + Width(src1)
    ensures forall k :: 0 <= k < n ==>
              EvalLane(env, Shuffle(n, src0, src1, indices).value, k)
              == if indices[k] == ShuffleUndef then 0 else (Eval(env, src0) + Eval(env, src1))[indices[k]]
  {
    forall k | 0 <= k < n
      ensures EvalLane(env, Shuffle(n, src0, src1, indices).value, k)
              == if indices[k] == ShuffleUndef then 0 else (Eval(env, src0) + Eval(env, src1))[indices[k]]
    {
      ShuffleComponent(env, n, src0, src1, indices, k);
    }
  }

  lemma ShuffleComponent(env: Env, n: nat, src0: Def, src1: Def, indices: seq<nat>, k: nat)
    requires Shuffle(n, src0, src1, indices).Ok? && k < n
    requires indices[k] == ShuffleUndef || indices[k] < Width(src0) + Width(src1)
    ensures EvalLane(env, Shuffle(n, src0, src1, indices).value, k)
            == if indices[k] == ShuffleUndef then 0 else (Eval(env, src0) + Eval(env, src1))[indices[k]]
  {
    var ls := ShuffleLanes(src0, src1, indices[..n]);
    assert Shuffle(n, src0, src1, indices).value == Vec(ls);
    assert indices[..n][k] == indices[k];
    ShuffleReadsConcatenation(env, src0, src1, indices[..n], k);
    assert EvalLane(env, Vec(ls), k) == EvalLane(env, ls[k].src, ls[k].comp);
  }

  /** Every component of every source, in order (`vtn_vector_construct`'s loop). */
  function Spread(srcs: seq<Def>): (ls: seq<Lane>)
  {
    if |srcs| == 0 then []
    else seq(Width(srcs[0]), j requires 0 <= j => Lane(srcs[0], j)) + Spread(srcs[1..])
  }

  function Concat(vs: seq<seq<nat>>): seq<nat> {
    if |vs| == 0 then [] else vs[0] + Concat(vs[1..])
  }

  function EvalAll(env: Env, srcs: seq<Def>): (vs: seq<seq<nat>>)
    ensures |vs| == |srcs| && forall i :: 0 <= i < |srcs| ==> vs[i] == Eval(env, srcs[i])
  {
    seq(|srcs|, i requires 0 <= i < |srcs| => Eval(env, srcs[i]))
  }

  lemma {:induction false} SpreadIsConcat(env: Env, srcs: seq<Def>)
    ensures |Spread(srcs)| == |Concat(EvalAll(env, srcs))|
    ensures forall k :: 0 <= k < |Spread(srcs)| ==>
              EvalLane(env, Spread(srcs)[k].src, Spread(srcs)[k].comp) == Concat(EvalAll(env, srcs))[k]
    decreases |srcs|
  {
    if |srcs| > 0 {
      SpreadIsConcat(env, srcs[1..]);
      assert EvalAll(env, srcs)[1..] == EvalAll(env, srcs[1..]);
    }
  }

  /** `vtn_vector_construct`: `n` components concatenated from the sources;
      the component counts must add up to `n`. */
  function Construct(n: nat, srcs: seq<Def>): (r: Result<Def>)
    ensures r.Ok? ==> Width(r.value) == n
    ensures r.Ok? ==> forall env :: Eval(env, r.value) == Concat(EvalAll(env, srcs))
  {
    var ls := Spread(srcs);
    if |ls| != n then Abort("component count mismatch")
    else
      var v :- CreateVec(ls);
      assert forall env :: Eval(env, v) == Concat(EvalAll(env, srcs)) by {
        forall env ensures Eval(env, v) == Concat(EvalAll(env, srcs)) {
          SpreadIsConcat(env, srcs);
        }
      }
      Ok(v)
  }
}

=== FILE: vtn_types.dfy ===
/** The translator's own type records (`struct vtn_type`) and the handling of
    the `OpType*` instructions.

    Type records are shared by reference in the source: a struct's members,
    an array's element and a matrix's column type point at other records, a
    pointer type reuses its pointee's record outright, and a member decoration
    may either copy a member record first (`BuiltIn`) or write straight into the
    shared one (`MatrixStride`).  The model keeps every record in an arena
    indexed by `TypeRef`; each record carries a height that exceeds its
    children's, which is what lets recursive walks over records terminate.
 */
module VtnTypes {
  import opened Spv
  import opened Wrappers
  import opened Glsl
  import opened Decorations
  import Nir

  type TypeRef = nat

  /** One `struct vtn_type`.  `offsets[i]` is `None` until an `Offset`
      decoration gives member `i` one (the source leaves it uninitialised). */
  datatype TypeNode = TypeNode(
    glsl: GType,
    elem: Option<TypeRef>,
    members: seq<TypeRef>,
    offsets: seq<Option<Word>>,
    stride: Word,
    rowMajor: bool,
    isBuiltin: bool,
    builtin: Word,
    block: bool,
    bufferBlock: bool,
    builtinBlock: bool,
    imageFormat: nat,
    height: nat)

  type Arena = seq<TypeNode>

  function Children(n: TypeNode): seq<TypeRef> {
    (if n.elem.Some? then [n.elem.value] else []) + n.members
  }

  /** Children exist and sit lower than their parent; a struct record has one
      member record and one offset per field and no element record, and only
      a struct record has member records. */
  predicate Wf(a: Arena) {
    forall r {:trigger NodeWf(a, a[r])} :: 0 <= r < |a| ==> NodeWf(a, a[r])
  }

  predicate NodeWf(a: Arena, n: TypeNode) {
    && (forall c :: c in Children(n) ==> c < |a| && a[c].height < n.height)
    && Shape(n)
  }

  predicate Shape(n: TypeNode) {
    && |n.offsets| == |n.members|
    && (n.glsl.GStruct? ==> |n.glsl.fields| == |n.members| && n.elem.None?)
    && (!n.glsl.GStruct? ==> n.members == [])
  }

  /** A record with no children and nothing decorated. */
  function Leaf(t: GType): TypeNode {
    TypeNode(t, None, [], [], 0, false, false, 0, false, false, false, 0, 0)
  }

  function MaxHeight(a: Arena, refs: seq<TypeRef>): (h: nat)
    requires forall c :: c in refs ==> c < |a|
    ensures forall c :: c in refs ==> a[c].height <= h
  {
    if |refs| == 0 then 0
    else
      assert forall c :: c in refs[1..] ==> c in refs;
      var rest := MaxHeight(a, refs[1..]);
      assert forall c :: c in refs ==> c == refs[0] || c in refs[1..];
      assert refs[0] in refs;
      if a[refs[0]].height > rest then a[refs[0]].height else rest
  }

  /** Appends a record whose children already exist, one level above them. */
  function Append(a: Arena, n: TypeNode): (r: (Arena, TypeRef))
    requires Wf(a) && forall c :: c in Children(n) ==> c < |a|
    requires Shape(n)
    ensures Wf(r.0) && r.1 == |a| && |r.0| == |a| + 1 && r.0[..|a|] == a
    ensures r.0[r.1] == n.(height := 1 + MaxHeight(a, Children(n)))
  {
    var h := 1 + MaxHeight(a, Children(n));
    var a' := a + [n.(height := h)];
    assert NodeWf(a', a'[|a|]);
    assert forall r :: 0 <= r < |a| ==> a'[r] == a[r] && NodeWf(a, a[r]);
    (a', |a|)
  }

  /** `vtn_type_copy`: a shallow copy appended to the arena.  Only the fields the
      source copies for the record's kind are carried over; the others, which
      the source leaves uninitialised, are modelled as cleared. */
  function TypeCopy(a: Arena, src: TypeRef): (r: Result<(Arena, TypeRef)>)
    requires Wf(a) && src < |a|
    ensures r.Ok? <==> a[src].glsl.GVec? || a[src].glsl.GMat? || a[src].glsl.GArray? || a[src].glsl.GStruct?
    ensures r.Ok? ==> var (a', c) := r.value;
              Wf(a') && c == |a| && |a'| == |a| + 1 && a'[..|a|] == a
              && a'[c].glsl == a[src].glsl && a'[c].height == a[src].height
              && a'[c].isBuiltin == a[src].isBuiltin
              && (a[src].isBuiltin ==> a'[c].builtin == a[src].builtin)
              && (a[src].glsl.GArray? ==> a'[c].elem == a[src].elem && a'[c].stride == a[src].stride)
              && (a[src].glsl.GMat? ==> a'[c].rowMajor == a[src].rowMajor && a'[c].stride == a[src].stride)
              && (a[src].glsl.GStruct? ==> a'[c].members == a[src].members && a'[c].offsets == a[src].offsets)
  {
    var s := a[src];
    var base := Leaf(s.glsl).(isBuiltin := s.isBuiltin, builtin := if s.isBuiltin then s.builtin else 0,
                               height := s.height);
    var copy :-
      match s.glsl
      case GVec(_, _) => Ok(base)
      case GArray(_, _) => Ok(base.(elem := s.elem, stride := s.stride))
      case GMat(_, _, _) => Ok(base.(rowMajor := s.rowMajor, stride := s.stride))
      case GStruct(_) => Ok(base.(members := s.members, offsets := s.offsets))
      case _ => Abort("unhandled type");
    assert NodeWf(a, s);
    assert forall c :: c in Children(copy) ==> c in Children(s);
    var a' := a + [copy];
    forall r | 0 <= r < |a'| ensures NodeWf(a', a'[r]) {
      if r < |a| {
        assert a'[r] == a[r] && NodeWf(a, a[r]);
      }
    }
    Ok((a', |a|))
  }

  /** Replaces record `r` by `n`, which keeps the children and the height. */
  function Update(a: Arena, r: TypeRef, n: TypeNode): (a': Arena)
    requires Wf(a) && r < |a|
    requires n.elem == a[r].elem && n.members == a[r].members && n.height == a[r].height
    requires Shape(n)
    ensures Wf(a') && |a'| == |a| && a'[r] == n
    ensures forall q :: 0 <= q < |a| && q != r ==> a'[q] == a[q]
  {
    var a' := a[r := n];
    assert forall q :: 0 <= q < |a| ==> a'[q].height == a[q].height && Children(a'[q]) == Children(a[q]);
    assert forall q :: 0 <= q < |a| ==> NodeWf(a, a[q]);
    a'
  }

  /** Points member `m` of struct record `s` at `c` and marks the struct as a
      built-in block; `c` must sit lower than the struct. */
  function Relink(a: Arena, s: TypeRef, m: nat, c: TypeRef): (a': Arena)
    requires Wf(a) && s < |a| && c < |a| && m < |a[s].members| && a[c].height < a[s].height
    ensures Wf(a') && |a'| == |a|
    ensures a'[s] == a[s].(members := a[s].members[m := c], builtinBlock := true)
    ensures forall q :: 0 <= q < |a| && q != s ==> a'[q] == a[q]
  {
    RelinkWf(a, s, m, c);
    a[s := a[s].(members := a[s].members[m := c], builtinBlock := true)]
  }

  lemma RelinkWf(a: Arena, s: TypeRef, m: nat, c: TypeRef)
    requires Wf(a) && s < |a| && c < |a| && m < |a[s].members| && a[c].height < a[s].height
    ensures Wf(a[s := a[s].(members := a[s].members[m := c], builtinBlock := true)])
  {
    var n := a[s].(members := a[s].members[m := c], builtinBlock := true);
    var a' := a[s := n];
    forall q | 0 <= q < |a'| ensures NodeWf(a', a'[q]) {
      assert NodeWf(a, a[q]);
      if q == s {
        forall x | x in Children(n) ensures x < |a'| && a'[x].height < n.height {
          assert x == c || x in Children(a[s]);
          assert a'[x].height == a[x].height;
        }
      } else {
        forall x | x in Children(a[q]) ensures a'[x].height == a[x].height {
        }
      }
    }
  }

  function Literal0(d: Decoration): Result<Word> {
    if |d.literals| == 0 then Abort("decoration literal missing") else Ok(d.literals[0])
  }

  /** The struct being built while its member decorations are applied. */
  datatype MemberCtx = MemberCtx(arena: Arena, fields: seq<Field>)

  predicate CtxWf(c: MemberCtx, s: TypeRef) {
    Wf(c.arena) && s < |c.arena| && |c.fields| == |c.arena[s].members|
  }

  /** The member decorations that change type records rather than the
      field: `BuiltIn` marks a private copy of the member's type, `Offset`
      sets the member's offset, `MatrixStride` the member type's stride. */
  function MemberLayoutDecoration(c: MemberCtx, s: TypeRef, m: nat, k: nat, lit: Word): (r: Result<MemberCtx>)
    requires CtxWf(c, s) && m < |c.fields|
    ensures r.Ok? ==> CtxWf(r.value, s) && |r.value.arena| >= |c.arena| && r.value.fields == c.fields
    ensures r.Ok? ==> r.value.arena[s].height == c.arena[s].height
    ensures r.Ok? ==> forall q :: 0 <= q < |c.arena| ==> r.value.arena[q].glsl == c.arena[q].glsl
    ensures k == DecOffset ==>
              m < |c.arena[s].offsets| && r.Ok? && |r.value.arena| == |c.arena|
              && r.value.arena[s] == c.arena[s].(offsets := c.arena[s].offsets[m := Some(lit)])
              && forall q :: 0 <= q < |c.arena| && q != s ==> r.value.arena[q] == c.arena[q]
    ensures k == DecMatrixStride ==>
              var t := c.arena[s].members[m];
              t < |c.arena| && r.Ok? && |r.value.arena| == |c.arena|
              && r.value.arena[t] == c.arena[t].(stride := lit)
              && forall q :: 0 <= q < |c.arena| && q != t ==> r.value.arena[q] == c.arena[q]
  {
    var a := c.arena;
    var node := a[s];
    assert NodeWf(a, node) && node.members[m] in Children(node);
    if k == DecBuiltIn then MemberBuiltin(c, s, m, lit)
    else if k == DecOffset then
      Ok(c.(arena := Update(a, s, node.(offsets := node.offsets[m := Some(lit)]))))
    else
      var target := node.members[m];
      assert NodeWf(a, a[target]);
      Ok(c.(arena := Update(a, target, a[target].(stride := lit))))
  }

  /** `BuiltIn` on member `m`: the member's type is copied, the copy marked
      with the built-in, and the member relinked to it. */
  function MemberBuiltin(c: MemberCtx, s: TypeRef, m: nat, lit: Word): (r: Result<MemberCtx>)
    requires CtxWf(c, s) && m < |c.fields|
    ensures r.Ok? ==> CtxWf(r.value, s) && |r.value.arena| >= |c.arena| && r.value.fields == c.fields
    ensures r.Ok? ==> r.value.arena[s].height == c.arena[s].height
    ensures r.Ok? ==> forall q :: 0 <= q < |c.arena| ==> r.value.arena[q].glsl == c.arena[q].glsl
  {
    var a := c.arena;
    var node := a[s];
    assert NodeWf(a, node) && node.members[m] in Children(node);
    var (a1, copy) :- TypeCopy(a, node.members[m]);
    assert NodeWf(a1, a1[copy]);
    var a2 := Update(a1, copy, a1[copy].(isBuiltin := true, builtin := lit));
    assert a2[s] == node;
    var a3 := Relink(a2, s, m, copy);
    Ok(MemberCtx(a3, c.fields))
  }

  /** The decorations `struct_member_decoration_cb` has a case for. */
  const MemberDecorationKinds: set<nat> :=
    {DecRelaxedPrecision, DecColMajor, DecNoPerspective, DecFlat, DecCentroid, DecSample,
     DecLocation, DecBuiltIn, DecOffset, DecMatrixStride}

  /** `d` differs from `c` at most in field `m`. */
  predicate OnlyField(c: MemberCtx, d: MemberCtx, m: nat) {
    && d.arena == c.arena && |d.fields| == |c.fields|
    && forall i :: 0 <= i < |c.fields| && i != m ==> d.fields[i] == c.fields[i]
  }

  /** `struct_member_decoration_cb` for one effective decoration on struct `s`.
      The qualifier decorations write one field of member `m`, `Location`
      its location; the layout ones are stated on `MemberLayoutDecoration`;
      whole-struct entries are ignored and unknown kinds refused. */
  function MemberDecoration(c: MemberCtx, s: TypeRef, e: Effective): (r: Result<MemberCtx>)
    requires CtxWf(c, s)
    ensures r.Ok? ==> CtxWf(r.value, s) && |r.value.arena| >= |c.arena| && |r.value.fields| == |c.fields|
    ensures r.Ok? ==> r.value.arena[s].height == c.arena[s].height
    ensures r.Ok? ==> forall q :: 0 <= q < |c.arena| ==> r.value.arena[q].glsl == c.arena[q].glsl
    ensures e.member < 0 ==> r == Ok(c)
    ensures e.member >= |c.fields| ==> r.Abort?
    ensures 0 <= e.member < |c.fields| ==>
              var m := e.member;
              var f := c.fields[m];
              var k := e.dec.kind;
              && (k == DecRelaxedPrecision || k == DecColMajor ==> r == Ok(c))
              && (k == DecNoPerspective ==> r.Ok? && OnlyField(c, r.value, m) && r.value.fields[m] == f.(interp := InterpNoPerspective))
              && (k == DecFlat ==> r.Ok? && OnlyField(c, r.value, m) && r.value.fields[m] == f.(interp := InterpFlat))
              && (k == DecCentroid ==> r.Ok? && OnlyField(c, r.value, m) && r.value.fields[m] == f.(centroid := true))
              && (k == DecSample ==> r.Ok? && OnlyField(c, r.value, m) && r.value.fields[m] == f.(sample := true))
              && (k in {DecLocation, DecOffset, DecMatrixStride} ==> (r.Ok? <==> |e.dec.literals| > 0))
              && (k == DecBuiltIn && r.Ok? ==> |e.dec.literals| > 0)
              && (k == DecLocation && r.Ok? ==>
                    OnlyField(c, r.value, m) && r.value.fields[m] == f.(location := e.dec.literals[0]))
              && (k in {DecOffset, DecMatrixStride} && r.Ok? ==>
                    r == MemberLayoutDecoration(c, s, m, k, e.dec.literals[0]))
              && (k !in MemberDecorationKinds ==> r.Abort?)
  {
    var a := c.arena;
    var node := a[s];
    if e.member < 0 then Ok(c)
    else if e.member >= |c.fields| then Abort("member index out of range")
    else
      var m := e.member;
      var f := c.fields[m];
      var k := e.dec.kind;
      if k == DecRelaxedPrecision || k == DecColMajor then Ok(c)
      else if k == DecNoPerspective then Ok(c.(fields := c.fields[m := f.(interp := InterpNoPerspective)]))
      else if k == DecFlat then Ok(c.(fields := c.fields[m := f.(interp := InterpFlat)]))
      else if k == DecCentroid then Ok(c.(fields := c.fields[m := f.(centroid := true)]))
      else if k == DecSample then Ok(c.(fields := c.fields[m := f.(sample := true)]))
      else if k == DecLocation then
        var lit :- Literal0(e.dec);
        Ok(c.(fields := c.fields[m := f.(location := lit)]))
      else if k == DecBuiltIn || k == DecOffset || k == DecMatrixStride then
        var lit :- Literal0(e.dec);
        MemberLayoutDecoration(c, s, m, k, lit)
      else Abort("unhandled member decoration")
  }

  function MemberDecorations(c: MemberCtx, s: TypeRef, es: seq<Effective>): (r: Result<MemberCtx>)
    requires CtxWf(c, s)
    ensures r.Ok? ==> CtxWf(r.value, s) && |r.value.arena| >= |c.arena| && |r.value.fields| == |c.fields|
    ensures r.Ok? ==> r.value.arena[s].height == c.arena[s].height
    ensures r.Ok? ==> forall q :: 0 <= q < |c.arena| ==> r.value.arena[q].glsl == c.arena[q].glsl
    decreases |es|
  {
    if |es| == 0 then Ok(c)
    else
      var c' :- MemberDecoration(c, s, es[0]);
      MemberDecorations(c', s, es[1..])
  }

  /** `type_decoration_cb` for one effective decoration on record `r`. */
  function TypeDecoration(a: Arena, r: TypeRef, e: Effective): (res: Result<Arena>)
    requires Wf(a) && r < |a|
    ensures res.Ok? ==> Wf(res.value) && |res.value| == |a|
    ensures res.Ok? ==> forall q :: 0 <= q < |a| && q != r ==> res.value[q] == a[q]
    ensures res.Ok? ==> res.value[r].glsl == a[r].glsl
    ensures e.member != -1 ==> res == Ok(a)
    ensures e.member == -1 ==>
              var k := e.dec.kind;
              var lits := e.dec.literals;
              && (k == DecArrayStride ==>
                    (res.Ok? <==> |lits| > 0) && (res.Ok? ==> res.value[r] == a[r].(stride := lits[0])))
              && (k == DecBlock ==> res.Ok? && res.value[r] == a[r].(block := true))
              && (k == DecBufferBlock ==> res.Ok? && res.value[r] == a[r].(bufferBlock := true))
              && (k == DecGLSLShared || k == DecGLSLPacked ==> res == Ok(a))
              && (k == DecStream ==> (res.Ok? <==> |lits| > 0 && lits[0] == 0) && (res.Ok? ==> res.value == a))
              && (k !in {DecArrayStride, DecBlock, DecBufferBlock, DecGLSLShared, DecGLSLPacked, DecStream} ==>
                    res.Abort?)
  {
    var n := a[r];
    assert NodeWf(a, n);
    var k := e.dec.kind;
    if e.member != -1 then Ok(a)
    else if k == DecArrayStride then
      var lit :- Literal0(e.dec);
      Ok(Update(a, r, n.(stride := lit)))
    else if k == DecBlock then Ok(Update(a, r, n.(block := true)))
    else if k == DecBufferBlock then Ok(Update(a, r, n.(bufferBlock := true)))
    else if k == DecGLSLShared || k == DecGLSLPacked then Ok(a)
    else if k == DecStream then
      var lit :- Literal0(e.dec);
      if lit != 0 then Abort("non-zero stream") else Ok(a)
    else Abort("unhandled type decoration")
  }

  function TypeDecorations(a: Arena, r: TypeRef, es: seq<Effective>): (res: Result<Arena>)
    requires Wf(a) && r < |a|
    ensures res.Ok? ==> Wf(res.value) && |res.value| == |a|
    ensures res.Ok? ==> forall q :: 0 <= q < |a| && q != r ==> res.value[q] == a[q]
    ensures res.Ok? ==> res.value[r].glsl == a[r].glsl
    decreases |es|
  {
    if |es| == 0 then Ok(a)
    else
      var a' :- TypeDecoration(a, r, es[0]);
      TypeDecorations(a', r, es[1..])
  }

  const ImageFormatRg16ui: nat := 36
  const ImageFormatR16ui: nat := 38

  /** `translate_image_format`: SPIR-V image formats 0..39 (section 3.11) to GL
      internal-format enums; anything past `R8ui` is rejected. */
  function TranslateImageFormat(format: nat): (r: Result<nat>)
    ensures r.Ok? <==> format < 40
  {
    match format
    case 0 => Ok(0x0000)
    case 1 => Ok(0x8814)
    case 2 => Ok(0x881A)
    case 3 => Ok(0x822E)
    case 4 => Ok(0x8058)
    case 5 => Ok(0x8F97)
    case 6 => Ok(0x8230)
    case 7 => Ok(0x822F)
    case 8 => Ok(0x8C3A)
    case 9 => Ok(0x822D)
    case 10 => Ok(0x805B)
    case 11 => Ok(0x8059)
    case 12 => Ok(0x822C)
    case 13 => Ok(0x822B)
    case 14 => Ok(0x822A)
    case 15 => Ok(0x8229)
    case 16 => Ok(0x8F9B)
    case 17 => Ok(0x8F99)
    case 18 => Ok(0x8F95)
    case 19 => Ok(0x8F98)
    case 20 => Ok(0x8F94)
    case 21 => Ok(0x8D82)
    case 22 => Ok(0x8D88)
    case 23 => Ok(0x8D8E)
    case 24 => Ok(0x8235)
    case 25 => Ok(0x823B)
    case 26 => Ok(0x8239)
    case 27 => Ok(0x8237)
    case 28 => Ok(0x8233)
    case 29 => Ok(0x8231)
    case 30 => Ok(0x8D70)
    case 31 => Ok(0x8D76)
    case 32 => Ok(0x8D7C)
    case 33 => Ok(0x8236)
    case 34 => Ok(0x906F)
    case 35 => Ok(0x823C)
    case 36 => Ok(0x823A)
    case 37 => Ok(0x8238)
    case 38 => Ok(0x823A)
    case 39 => Ok(0x8232)
    case _ => Abort("invalid image format")
  }

  /** Reference inverse, written from the GL side: the SPIR-V format each GL
      internal-format enum stands for.  `GL_RG16UI` (0x823A) stands for `Rg16ui`
      only, and `GL_R16UI` (0x8234) for `R16ui`. */
  function GlEnumFormat(gl: nat): Option<nat> {
    match gl
    case 0x0000 => Some(0)
    case 0x8814 => Some(1)
    case 0x881A => Some(2)
    case 0x822E => Some(3)
    case 0x8058 => Some(4)
    case 0x8F97 => Some(5)
    case 0x8230 => Some(6)
    case 0x822F => Some(7)
    case 0x8C3A => Some(8)
    case 0x822D => Some(9)
    case 0x805B => Some(10)
    case 0x8059 => Some(11)
    case 0x822C => Some(12)
    case 0x822B => Some(13)
    case 0x822A => Some(14)
    case 0x8229 => Some(15)
    case 0x8F9B => Some(16)
    case 0x8F99 => Some(17)
    case 0x8F95 => Some(18)
    case 0x8F98 => Some(19)
    case 0x8F94 => Some(20)
    case 0x8D82 => Some(21)
    case 0x8D88 => Some(22)
    case 0x8D8E => Some(23)
    case 0x8235 => Some(24)
    case 0x823B => Some(25)
    case 0x8239 => Some(26)
    case 0x8237 => Some(27)
    case 0x8233 => Some(28)
    case 0x8231 => Some(29)
    case 0x8D70 => Some(30)
    case 0x8D76 => Some(31)
    case 0x8D7C => Some(32)
    case 0x8236 => Some(33)
    case 0x906F => Some(34)
    case 0x823C => Some(35)
    case 0x823A => Some(36)
    case 0x8238 => Some(37)
    case 0x8234 => Some(38)
    case 0x8232 => Some(39)
    case _ => None
  }

  /** Reading the translation back through the GL side recovers every format
      except `R16ui`, which the source maps to the enum of `Rg16ui`. */
  lemma ImageFormatInverse(format: nat)
    requires format < 40
    ensures GlEnumFormat(TranslateImageFormat(format).value)
            == Some(if format == ImageFormatR16ui then ImageFormatRg16ui else format)
  {
  }

  lemma ImageFormatCollision(f1: nat, f2: nat)
    requires f1 < f2 < 40
    ensures TranslateImageFormat(f1) == TranslateImageFormat(f2)
            <==> f1 == ImageFormatRg16ui && f2 == ImageFormatR16ui
  {
    ImageFormatInverse(f1);
    ImageFormatInverse(f2);
  }

  /** Which value ids name types, and the record each one names. */
  datatype TypeTable = TypeTable(arena: Arena, typeOf: map<nat, TypeRef>)

  predicate TableWf(t: TypeTable) {
    Wf(t.arena) && forall id :: id in t.typeOf ==> t.typeOf[id] < |t.arena|
  }

  /** `vtn_value(b, inst[i], vtn_value_type_type)`. */
  function TypeOperand(t: TypeTable, inst: seq<Word>, i: nat): (r: Result<TypeRef>)
    requires TableWf(t)
    ensures r.Ok? <==> i < |inst| && inst[i] in t.typeOf
    ensures r.Ok? ==> r.value == t.typeOf[inst[i]] && r.value < |t.arena|
  {
    if i >= |inst| then Abort("operand missing")
    else if inst[i] !in t.typeOf then Abort("operand is not a type")
    else Ok(t.typeOf[inst[i]])
  }

  function TypeOperands(t: TypeTable, ws: seq<Word>): (r: Result<seq<TypeRef>>)
    requires TableWf(t)
    ensures r.Ok? ==> |r.value| == |ws|
    ensures r.Ok? ==> forall k :: 0 <= k < |ws| ==> ws[k] in t.typeOf && r.value[k] == t.typeOf[ws[k]]
    ensures r.Ok? ==> forall c :: c in r.value ==> c < |t.arena|
    decreases |ws|
  {
    if |ws| == 0 then Ok([])
    else
      var first :- TypeOperand(t, ws, 0);
      var rest :- TypeOperands(t, ws[1..]);
      assert forall k :: 1 <= k < |ws| ==> ws[k] == ws[1..][k - 1];
      Ok([first] + rest)
  }

  function SamplerDimOf(dim: Word): Result<SamplerDim> {
    if dim == Spv.Dim1D then Ok(Glsl.Dim1D)
    else if dim == Spv.Dim2D then Ok(Glsl.Dim2D)
    else if dim == Spv.Dim3D then Ok(Glsl.Dim3D)
    else if dim == Spv.DimCube then Ok(Glsl.DimCube)
    else if dim == Spv.DimRect then Ok(Glsl.DimRect)
    else if dim == Spv.DimBuffer then Ok(DimBuf)
    else Abort("invalid sampler dimension")
  }

  /** What a type instruction leaves behind before its whole-type decorations:
      the new arena and the record the id names. */
  datatype Built = Built(arena: Arena, ref: TypeRef)

  predicate BuiltFrom(a: Arena, b: Built) {
    Wf(b.arena) && b.ref < |b.arena| && |b.arena| >= |a|
    && forall q :: 0 <= q < |a| ==> b.arena[q].glsl == a[q].glsl
  }

  function AppendBuilt(a: Arena, n: TypeNode): (b: Built)
    requires Wf(a) && forall c :: c in Children(n) ==> c < |a|
    requires Shape(n)
    ensures BuiltFrom(a, b) && b.ref == |a| && b.arena[b.ref].glsl == n.glsl
  {
    var (a', r) := Append(a, n);
    assert forall q :: 0 <= q < |a| ==> a'[q] == a'[..|a|][q];
    Built(a', r)
  }

  /** Gives struct record `s` its final GLSL type. */
  function SetStructType(a: Arena, s: TypeRef, fields: seq<Field>): (a': Arena)
    requires Wf(a) && s < |a| && a[s].glsl.GStruct? && |fields| == |a[s].members|
    ensures Wf(a') && |a'| == |a| && a'[s].glsl == GStruct(fields) && a'[s].members == a[s].members
    ensures forall q :: 0 <= q < |a| && q != s ==> a'[q] == a[q]
  {
    assert NodeWf(a, a[s]);
    Update(a, s, a[s].(glsl := GStruct(fields)))
  }

  /** The struct case: member records from the operands, member decorations
      applied, then the GLSL struct type built from the decorated fields. */
  function BuildStruct(t: TypeTable, decs: DecorationTable, fuel: nat, id: nat, inst: seq<Word>): (r: Result<Built>)
    requires TableWf(t) && |inst| >= 2
    ensures r.Ok? ==> BuiltFrom(t.arena, r.value) && r.value.ref == |t.arena|
    ensures r.Ok? ==> r.value.arena[r.value.ref].glsl.GStruct?
                      && |r.value.arena[r.value.ref].members| == |inst| - 2
  {
    var members :- TypeOperands(t, inst[2..]);
    var c0 := StructShell(t.arena, members);
    var es :- ForeachDecoration(decs, id, fuel);
    var c :- MemberDecorations(c0, |t.arena|, es);
    var b := Built(c0.arena, |t.arena|);
    Ok(FinishStruct(t.arena, b, c))
  }

  /** The undecorated struct record appended to the arena: one field per
      member, each with the member's GLSL type and no location. */
  function StructShell(a: Arena, members: seq<TypeRef>): (c: MemberCtx)
    requires Wf(a) && forall i :: 0 <= i < |members| ==> members[i] < |a|
    ensures CtxWf(c, |a|) && BuiltFrom(a, Built(c.arena, |a|)) && |c.fields| == |members|
    ensures c.arena[|a|].glsl == GStruct(c.fields) && c.arena[|a|].members == members
  {
    var fields := seq(|members|, i requires 0 <= i < |members| => Field(a[members[i]].glsl, -1, InterpNone, false, false));
    var node := Leaf(GStruct(fields)).(members := members, offsets := seq(|members|, _ => None));
    assert Children(node) == members && Shape(node);
    var b := AppendBuilt(a, node);
    MemberCtx(b.arena, fields)
  }

  /** The last step of the struct case: the decorated fields become the
      struct record's GLSL type. */
  function FinishStruct(a: Arena, b: Built, c: MemberCtx): (r: Built)
    requires BuiltFrom(a, b) && b.ref == |a| && b.arena[b.ref].glsl.GStruct?
    requires CtxWf(c, b.ref) && |c.arena| >= |b.arena| && c.arena[b.ref].glsl == b.arena[b.ref].glsl
    requires forall q :: 0 <= q < |a| ==> c.arena[q].glsl == a[q].glsl
    ensures BuiltFrom(a, r) && r.ref == |a|
    ensures r.arena[r.ref].glsl == GStruct(c.fields) && |r.arena[r.ref].members| == |c.fields|
  {
    Built(SetStructType(c.arena, b.ref, c.fields), b.ref)
  }

  /** The vector, matrix and array cases of `vtn_handle_type`. */
  function BuildComposite(t: TypeTable, consts: map<nat, Word>, opcode: nat, inst: seq<Word>): (r: Result<Built>)
    requires TableWf(t) && |inst| >= 2
    ensures r.Ok? ==> BuiltFrom(t.arena, r.value)
  {
    var a := t.arena;
    if opcode == OpTypeVector then
      var base :- TypeOperand(t, inst, 2);
      var g := a[base].glsl;
      if !IsScalar(g) then Abort("vector of a non-scalar")
      else if |inst| < 4 then Abort("operand missing")
      else if !(1 <= inst[3] <= 4) then Abort("no such vector type")
      else Ok(AppendBuilt(a, Leaf(GVec(g.base, inst[3]))))
    else if opcode == OpTypeMatrix then
      var col :- TypeOperand(t, inst, 2);
      var g := a[col].glsl;
      if !IsVector(g) then Abort("matrix of a non-vector")
      else if |inst| < 4 then Abort("operand missing")
      else if !MatrixExists(g.base, g.n, inst[3]) then Abort("no such matrix type")
      else Ok(AppendBuilt(a, Leaf(GMat(g.base, g.n, inst[3])).(elem := Some(col))))
    else
      var elem :- TypeOperand(t, inst, 2);
      var len :-
        if opcode == OpTypeRuntimeArray then Ok(0)
        else if |inst| < 4 then Abort("operand missing")
        else if inst[3] !in consts then Abort("array length is not a constant")
        else Ok(consts[inst[3]]);
      Ok(AppendBuilt(a, Leaf(GArray(a[elem].glsl, len)).(elem := Some(elem))))
  }

  /** The image case of `vtn_handle_type`. */
  function BuildImage(t: TypeTable, inst: seq<Word>): (r: Result<Built>)
    requires TableWf(t) && |inst| >= 2
    ensures r.Ok? ==> BuiltFrom(t.arena, r.value)
  {
    var a := t.arena;
    var sampled :- TypeOperand(t, inst, 2);
    var g := a[sampled].glsl;
    if !IsVectorOrScalar(g) then Abort("image of a non-vector type")
    else if |inst| < 9 then Abort("operand missing")
    else
      var dim :- SamplerDimOf(inst[3]);
      var shadow := inst[4] != 0;
      var arrayed := inst[5] != 0;
      if inst[6] != 0 then Abort("multisampled images are not handled")
      else
        var format :- TranslateImageFormat(inst[8]);
        var img :-
          if inst[7] == 1 then Ok(GSampler(dim, shadow, arrayed, g.base))
          else if inst[7] == 2 then
            if format == 0 then Abort("storage image without a format")
            else if shadow then Abort("shadow storage image")
            else Ok(GImage(dim, arrayed, g.base))
          else Abort("image neither sampled nor storage");
        Ok(AppendBuilt(a, Leaf(img).(imageFormat := format)))
  }

  /** The opcode switch of `vtn_handle_type`. */
  function BuildType(t: TypeTable, decs: DecorationTable, consts: map<nat, Word>, fuel: nat,
                     opcode: nat, inst: seq<Word>): (r: Result<Built>)
    requires TableWf(t) && |inst| >= 2
    ensures r.Ok? ==> BuiltFrom(t.arena, r.value)
  {
    var a := t.arena;
    if opcode == OpTypeVoid then Ok(AppendBuilt(a, Leaf(GVoid)))
    else if opcode == OpTypeBool then Ok(AppendBuilt(a, Leaf(GVec(BoolT, 1))))
    else if opcode == OpTypeInt then Ok(AppendBuilt(a, Leaf(GVec(IntT, 1))))
    else if opcode == OpTypeFloat then Ok(AppendBuilt(a, Leaf(GVec(FloatT, 1))))
    else if opcode == OpTypeVector || opcode == OpTypeMatrix || opcode == OpTypeArray || opcode == OpTypeRuntimeArray then
      BuildComposite(t, consts, opcode, inst)
    else if opcode == OpTypeStruct then
      BuildStruct(t, decs, fuel, inst[1], inst)
    else if opcode == OpTypeFunction then
      var ret :- TypeOperand(t, inst, 2);
      var params :- TypeOperands(t, inst[3..]);
      Ok(AppendBuilt(a, Leaf(GFunction(a[ret].glsl, seq(|params|, i requires 0 <= i < |params| => a[params[i]].glsl)))))
    else if opcode == OpTypePointer then
      var pointee :- TypeOperand(t, inst, 3);
      Ok(Built(a, pointee))
    else if opcode == OpTypeImage then BuildImage(t, inst)
    else if opcode == OpTypeSampledImage then
      var image :- TypeOperand(t, inst, 2);
      Ok(Built(a, image))
    else if opcode == OpTypeSampler then Ok(AppendBuilt(a, Leaf(BareSampler)))
    else Abort("unhandled type opcode")
  }

  /** `vtn_handle_type`: defines `inst[1]` as a type, then applies the
      whole-type decorations of that id to the record it names. */
  function HandleType(t: TypeTable, decs: DecorationTable, consts: map<nat, Word>, fuel: nat,
                      opcode: nat, inst: seq<Word>): (r: Result<TypeTable>)
    requires TableWf(t)
    ensures r.Ok? ==> TableWf(r.value) && |r.value.arena| >= |t.arena|
    ensures r.Ok? ==> |inst| >= 2 && inst[1] !in t.typeOf && inst[1] !in consts && inst[1] in r.value.typeOf
                      && r.value.typeOf == t.typeOf[inst[1] := r.value.typeOf[inst[1]]]
    ensures r.Ok? ==> forall q :: 0 <= q < |t.arena| ==> r.value.arena[q].glsl == t.arena[q].glsl
  {
    if |inst| < 2 then Abort("type instruction without a result id")
    else
      var id := inst[1];
      if id >= decs.bound then Abort("result id out of range")
      else if id in t.typeOf || id in consts then Abort("value defined twice")
      else
        var b :- BuildType(t, decs, consts, fuel, opcode, inst);
        var es :- ForeachDecoration(decs, id, fuel);
        var a' :- TypeDecorations(b.arena, b.ref, es);
        var typeOf' := t.typeOf[id := b.ref];
        assert forall x :: x in typeOf' ==> typeOf'[x] < |a'|;
        Ok(TypeTable(a', typeOf'))
  }

  /** `OpTypePointer` and `OpTypeSampledImage` name the very record of their
      operand type, so a decoration on the pointer lands on the pointee. */
  lemma PointerAliasesPointee(t: TypeTable, decs: DecorationTable, consts: map<nat, Word>, fuel: nat, inst: seq<Word>)
    requires TableWf(t)
    requires HandleType(t, decs, consts, fuel, OpTypePointer, inst).Ok?
    ensures |inst| >= 4 && inst[3] in t.typeOf
    ensures HandleType(t, decs, consts, fuel, OpTypePointer, inst).value.typeOf[inst[1]] == t.typeOf[inst[3]]
  {
  }

  /** `OpTypeInt` ignores its signedness operand and always yields a signed
      scalar; `OpTypeFloat` ignores its width. */
  lemma ScalarTypes(t: TypeTable, decs: DecorationTable, consts: map<nat, Word>, fuel: nat, opcode: nat, inst: seq<Word>)
    requires TableWf(t) && (opcode == OpTypeInt || opcode == OpTypeFloat)
    requires HandleType(t, decs, consts, fuel, opcode, inst).Ok?
    ensures var t' := HandleType(t, decs, consts, fuel, opcode, inst).value;
            t'.arena[t'.typeOf[inst[1]]].glsl == GVec(if opcode == OpTypeInt then IntT else FloatT, 1)
  {
  }

  /** `OpTypeVector` succeeds only on a scalar component type and one to four
      lanes, and then names a fresh vector of that base. */
  lemma VectorTypes(t: TypeTable, decs: DecorationTable, consts: map<nat, Word>, fuel: nat, inst: seq<Word>)
    requires TableWf(t)
    requires HandleType(t, decs, consts, fuel, OpTypeVector, inst).Ok?
    ensures |inst| >= 4 && inst[2] in t.typeOf && 1 <= inst[3] <= 4
    ensures IsScalar(t.arena[t.typeOf[inst[2]]].glsl)
    ensures var t' := HandleType(t, decs, consts, fuel, OpTypeVector, inst).value;
            t'.typeOf[inst[1]] == |t.arena|
            && t'.arena[|t.arena|].glsl == GVec(t.arena[t.typeOf[inst[2]]].glsl.base, inst[3])
  {
  }

  /** A `BuiltIn` member decoration copies the member record first: the struct
      now points at a fresh built-in record of the same GLSL type, and the
      record it used to share is left untouched. */
  lemma BuiltinCopiesMember(c: MemberCtx, s: TypeRef, e: Effective)
    requires CtxWf(c, s) && e.dec.kind == DecBuiltIn && 0 <= e.member < |c.fields|
    requires MemberDecoration(c, s, e).Ok?
    ensures var r := MemberDecoration(c, s, e).value;
            var was := c.arena[s].members[e.member];
            var now := r.arena[s].members[e.member];
            now == |c.arena| && now < |r.arena| && r.arena[now].isBuiltin && r.arena[now].builtin == e.dec.literals[0]
            && was < |c.arena| && r.arena[now].glsl == c.arena[was].glsl
            && r.arena[was] == c.arena[was]
            && r.arena[s].builtinBlock
  {
    var r := MemberDecoration(c, s, e).value;
    assert NodeWf(c.arena, c.arena[s]) && c.arena[s].members[e.member] in Children(c.arena[s]);
    assert NodeWf(r.arena, r.arena[s]) && r.arena[s].members[e.member] in Children(r.arena[s]);
  }

  /** A `MatrixStride` member decoration writes the member record in place, so
      every other record that shares it as a member sees the new stride too. */
  lemma MatrixStrideIsShared(c: MemberCtx, s: TypeRef, e: Effective, q: TypeRef, k: nat)
    requires CtxWf(c, s) && e.dec.kind == DecMatrixStride && 0 <= e.member < |c.fields|
    requires MemberDecoration(c, s, e).Ok?
    requires q < |c.arena| && k < |c.arena[q].members|
    requires c.arena[q].members[k] == c.arena[s].members[e.member]
    ensures var r := MemberDecoration(c, s, e).value;
            r.arena[q].members[k] == c.arena[q].members[k] && r.arena[q].members[k] < |r.arena|
            && r.arena[r.arena[q].members[k]].stride == e.dec.literals[0]
  {
    var a := c.arena;
    var target := a[s].members[e.member];
    assert NodeWf(a, a[s]) && target in Children(a[s]);
    assert NodeWf(a, a[q]) && a[q].members[k] in Children(a[q]);
  }

  /** `vtn_type_block_size`: bytes a record occupies in an explicitly laid out
      block, in 32-bit unsigned arithmetic.  Vectors and scalars take 4 bytes a
      lane (8 for doubles), matrices `stride` per column, arrays `stride` per
      element, structs reach to their furthest member end. */
  function BlockSize(a: Arena, r: TypeRef): Result<Word>
    requires Wf(a) && r < |a|
    decreases a[r].height, 1, 0
  {
    var n := a[r];
    match KindOf(n.glsl)
    case Numeric(b) =>
      var cols := if n.rowMajor then VectorElements(n.glsl) else MatrixColumns(n.glsl);
      if cols > 1 then
        if n.stride == 0 then Abort("matrix without a stride")
        else Ok((n.stride * cols) % Nir.U32)
      else if b == DoubleT then Ok((VectorElements(n.glsl) * 8) % Nir.U32)
      else Ok((VectorElements(n.glsl) * 4) % Nir.U32)
    case StructKind => StructExtent(a, r, 0, 0)
    case ArrayKind =>
      if n.stride == 0 then Abort("array without a stride")
      else if Length(n.glsl) == 0 then Abort("unsized array in a block")
      else Ok((n.stride * Length(n.glsl)) % Nir.U32)
    case _ => Abort("invalid block type")
  }

  /** The end of member `f` of struct record `r`: its offset plus its size. */
  function FieldEnd(a: Arena, r: TypeRef, f: nat): Result<Word>
    requires Wf(a) && r < |a| && a[r].glsl.GStruct? && f < |a[r].members|
    decreases a[r].height, 0, 0
  {
    var n := a[r];
    assert NodeWf(a, n) && n.members[f] in Children(n);
    if n.offsets[f].None? then Abort("member offset never decorated")
    else
      var size :- BlockSize(a, n.members[f]);
      Ok((n.offsets[f].value + size) % Nir.U32)
  }

  /** The member loop of the struct case, from member `f` with running maximum `acc`. */
  function StructExtent(a: Arena, r: TypeRef, f: nat, acc: Word): Result<Word>
    requires Wf(a) && r < |a| && a[r].glsl.GStruct? && f <= |a[r].members|
    decreases a[r].height, 0, |a[r].members| - f
  {
    if f == |a[r].members| then Ok(acc)
    else
      var end :- FieldEnd(a, r, f);
      StructExtent(a, r, f + 1, if end > acc then end else acc)
  }

  lemma {:induction false} StructExtentIsMax(a: Arena, r: TypeRef, f: nat, acc: Word)
    requires Wf(a) && r < |a| && a[r].glsl.GStruct? && f <= |a[r].members|
    requires StructExtent(a, r, f, acc).Ok?
    ensures var size := StructExtent(a, r, f, acc).value;
            acc <= size
            && (forall g :: f <= g < |a[r].members| ==> FieldEnd(a, r, g).Ok? && FieldEnd(a, r, g).value <= size)
            && (size == acc || exists g :: f <= g < |a[r].members| && FieldEnd(a, r, g) == Ok(size))
    decreases |a[r].members| - f
  {
    if f < |a[r].members| {
      var end := FieldEnd(a, r, f).value;
      var acc' := if end > acc then end else acc;
      StructExtentIsMax(a, r, f + 1, acc');
      assert StructExtent(a, r, f, acc) == StructExtent(a, r, f + 1, acc');
      var size := StructExtent(a, r, f, acc).value;
      if size == acc' && acc' == end {
        assert f <= f < |a[r].members| && FieldEnd(a, r, f) == Ok(size);
        assert exists g :: f <= g < |a[r].members| && FieldEnd(a, r, g) == Ok(size);
      } else if size != acc' {
        var g :| f + 1 <= g < |a[r].members| && FieldEnd(a, r, g) == Ok(size);
        assert f <= g;
      }
    }
  }

  /** A struct's block size is the largest member end: no member reaches past
      it, and unless the struct is empty some member reaches exactly to it. */
  lemma StructSizeIsLargestEnd(a: Arena, r: TypeRef)
    requires Wf(a) && r < |a| && a[r].glsl.GStruct? && BlockSize(a, r).Ok?
    ensures forall f :: 0 <= f < |a[r].members| ==>
              FieldEnd(a, r, f).Ok? && FieldEnd(a, r, f).value <= BlockSize(a, r).value
    ensures |a[r].members| == 0 ==> BlockSize(a, r).value == 0
    ensures |a[r].members| > 0 ==> exists f :: 0 <= f < |a[r].members| && FieldEnd(a, r, f) == BlockSize(a, r)
  {
    StructExtentIsMax(a, r, 0, 0);
    if |a[r].members| > 0 && BlockSize(a, r).value == 0 {
      assert FieldEnd(a, r, 0).Ok? && FieldEnd(a, r, 0).value <= 0;
    }
  }

  /** The non-struct rules: a vector or scalar is 4 bytes a lane (8 for
      doubles); a matrix is `stride` per column (per row when row-major) and
      needs a stride; an array is `stride` per element and needs both a
      stride and a length; anything else has no block size. */
  lemma BlockSizeRules(a: Arena, r: TypeRef)
    requires Wf(a) && r < |a|
    ensures var n := a[r];
            n.glsl.GVec? && (n.glsl.n <= 1 || !n.rowMajor) ==>
              BlockSize(a, r) == Ok((n.glsl.n * (if n.glsl.base == DoubleT then 8 else 4)) % Nir.U32)
    ensures var n := a[r];
            var cols := if n.rowMajor then VectorElements(n.glsl) else MatrixColumns(n.glsl);
            n.glsl.GMat? && cols > 1 ==>
              (BlockSize(a, r).Ok? <==> n.stride > 0)
              && (n.stride > 0 ==> BlockSize(a, r) == Ok((n.stride * cols) % Nir.U32))
    ensures var n := a[r];
            n.glsl.GArray? ==>
              (BlockSize(a, r).Ok? <==> n.stride > 0 && n.glsl.len > 0)
              && (BlockSize(a, r).Ok? ==> BlockSize(a, r).value == (n.stride * n.glsl.len) % Nir.U32)
    ensures !a[r].glsl.GVec? && !a[r].glsl.GMat? && !a[r].glsl.GArray? && !a[r].glsl.GStruct? ==>
              BlockSize(a, r).Abort?
  {
  }

  /** The worked example: ids 1 (int), 2 (four-lane vector of 1) and 3 (array
      of ten 2s, with `ArrayStride` 16); id 4 is the constant 10. */
  const ExampleDecorations: DecorationTable :=
    DecorationTable(8, map[3 := [Decoration(WholeValue, DecArrayStride, [16], None)]], {})
  const ExampleConstants: map<nat, Word> := map[4 := 10]
  const IntRecord: TypeNode := Leaf(GVec(IntT, 1)).(height := 1)
  const Vec4Record: TypeNode := Leaf(GVec(IntT, 4)).(height := 1)
  const ArrayRecord: TypeNode := Leaf(GArray(GVec(IntT, 4), 10)).(elem := Some(1), stride := 16, height := 2)

  lemma ExampleInt()
    ensures HandleType(TypeTable([], map[]), ExampleDecorations, ExampleConstants, 1, OpTypeInt, [0, 1, 32, 1])
            == Ok(TypeTable([IntRecord], map[1 := 0]))
  {
    assert ForeachDecoration(ExampleDecorations, 1, 1) == Ok([]);
  }

  lemma ExampleVector()
    ensures TableWf(TypeTable([IntRecord], map[1 := 0]))
    ensures HandleType(TypeTable([IntRecord], map[1 := 0]), ExampleDecorations, ExampleConstants, 1, OpTypeVector, [0, 2, 1, 4])
            == Ok(TypeTable([IntRecord, Vec4Record], map[1 := 0, 2 := 1]))
  {
    ExampleVectorBuilt();
    assert ForeachDecoration(ExampleDecorations, 2, 1) == Ok([]);
  }

  lemma ExampleVectorBuilt()
    ensures TableWf(TypeTable([IntRecord], map[1 := 0]))
    ensures BuildType(TypeTable([IntRecord], map[1 := 0]), ExampleDecorations, ExampleConstants, 1, OpTypeVector, [0, 2, 1, 4])
            == Ok(Built([IntRecord, Vec4Record], 1))
  {
    var t := TypeTable([IntRecord], map[1 := 0]);
    assert TypeOperand(t, [0, 2, 1, 4], 2) == Ok(0);
    assert NodeWf([IntRecord], IntRecord) && Shape(Leaf(GVec(IntT, 4))) && Children(Leaf(GVec(IntT, 4))) == [];
    assert AppendBuilt([IntRecord], Leaf(GVec(IntT, 4))) == Built([IntRecord, Vec4Record], 1);
    assert BuildComposite(t, ExampleConstants, OpTypeVector, [0, 2, 1, 4]) == Ok(Built([IntRecord, Vec4Record], 1));
  }

  lemma ExampleArrayStride()
    ensures ForeachDecoration(ExampleDecorations, 3, 1)
            == Ok([Effective(-1, Decoration(WholeValue, DecArrayStride, [16], None))])
  {
    var d := Decoration(WholeValue, DecArrayStride, [16], None);
    assert DecorationsOf(ExampleDecorations, 3) == [d];
    assert ExpandOne(ExampleDecorations, -1, d, 1) == Ok([Effective(-1, d)]);
    assert ExpandList(ExampleDecorations, -1, [d][1..], 1) == Ok([]);
    assert [Effective(-1, d)] + [] == [Effective(-1, d)];
  }

  lemma ExampleArrayBuilt()
    ensures TableWf(TypeTable([IntRecord, Vec4Record], map[1 := 0, 2 := 1]))
    ensures BuildType(TypeTable([IntRecord, Vec4Record], map[1 := 0, 2 := 1]), ExampleDecorations, ExampleConstants, 1, OpTypeArray, [0, 3, 2, 4])
            == Ok(Built([IntRecord, Vec4Record, ArrayRecord.(stride := 0)], 2))
  {
    var t := TypeTable([IntRecord, Vec4Record], map[1 := 0, 2 := 1]);
    var leaf := Leaf(GArray(GVec(IntT, 4), 10)).(elem := Some(1));
    ExampleTableWf();
    assert Children(leaf) == [1] && Shape(leaf);
    assert TypeOperand(t, [0, 3, 2, 4], 2) == Ok(1);
    assert BuildType(t, ExampleDecorations, ExampleConstants, 1, OpTypeArray, [0, 3, 2, 4])
        == Ok(AppendBuilt([IntRecord, Vec4Record], leaf));
    ExampleArrayAppended();
  }

  lemma ExampleTableWf()
    ensures Wf([IntRecord, Vec4Record])
    ensures TableWf(TypeTable([IntRecord, Vec4Record], map[1 := 0, 2 := 1]))
  {
    assert NodeWf([IntRecord, Vec4Record], IntRecord) && NodeWf([IntRecord, Vec4Record], Vec4Record);
  }

  lemma ExampleArrayAppended()
    ensures Wf([IntRecord, Vec4Record])
    ensures AppendBuilt([IntRecord, Vec4Record], Leaf(GArray(GVec(IntT, 4), 10)).(elem := Some(1)))
            == Built([IntRecord, Vec4Record, ArrayRecord.(stride := 0)], 2)
  {
    ExampleTableWf();
    var leaf := Leaf(GArray(GVec(IntT, 4), 10)).(elem := Some(1));
    assert Children(leaf) == [1] && Shape(leaf);
    assert MaxHeight([IntRecord, Vec4Record], [1]) == 1;
  }

  lemma ExampleArrayDecorated()
    ensures Wf([IntRecord, Vec4Record, ArrayRecord.(stride := 0)])
    ensures TypeDecorations([IntRecord, Vec4Record, ArrayRecord.(stride := 0)], 2,
                            [Effective(-1, Decoration(WholeValue, DecArrayStride, [16], None))])
            == Ok([IntRecord, Vec4Record, ArrayRecord])
  {
    var a := [IntRecord, Vec4Record, ArrayRecord.(stride := 0)];
    var e := Effective(-1, Decoration(WholeValue, DecArrayStride, [16], None));
    assert a[2 := a[2].(stride := 16)] == [IntRecord, Vec4Record, ArrayRecord];
    assert TypeDecoration(a, 2, e) == Ok([IntRecord, Vec4Record, ArrayRecord]);
  }

  lemma ExampleArray()
    ensures TableWf(TypeTable([IntRecord, Vec4Record], map[1 := 0, 2 := 1]))
    ensures HandleType(TypeTable([IntRecord, Vec4Record], map[1 := 0, 2 := 1]), ExampleDecorations, ExampleConstants, 1, OpTypeArray, [0, 3, 2, 4])
            == Ok(TypeTable([IntRecord, Vec4Record, ArrayRecord], map[1 := 0, 2 := 1, 3 := 2]))
  {
    ExampleArrayStride();
    ExampleArrayBuilt();
    ExampleArrayDecorated();
  }

  lemma ExampleBlockSize()
    ensures Wf([IntRecord, Vec4Record, ArrayRecord])
    ensures BlockSize([IntRecord, Vec4Record, ArrayRecord], 2) == Ok(160)
  {
    var a := [IntRecord, Vec4Record, ArrayRecord];
    assert NodeWf(a, a[0]) && NodeWf(a, a[1]);
    assert Children(ArrayRecord) == [1];
    assert NodeWf(a, a[2]);
    assert KindOf(a[2].glsl) == ArrayKind && Length(a[2].glsl) == 10;
  }

  /** Declaring a 32-bit int, a four-lane vector of it and an array of ten
      such vectors with `ArrayStride` 16 gives the array a block size of 160. */
  lemma ArrayOfTenVectorsIs160()
    ensures TableWf(TypeTable([IntRecord, Vec4Record, ArrayRecord], map[1 := 0, 2 := 1, 3 := 2]))
    ensures HandleType(TypeTable([], map[]), ExampleDecorations, ExampleConstants, 1, OpTypeInt, [0, 1, 32, 1])
            == Ok(TypeTable([IntRecord], map[1 := 0]))
    ensures HandleType(TypeTable([IntRecord], map[1 := 0]), ExampleDecorations, ExampleConstants, 1, OpTypeVector, [0, 2, 1, 4])
            == Ok(TypeTable([IntRecord, Vec4Record], map[1 := 0, 2 := 1]))
    ensures HandleType(TypeTable([IntRecord, Vec4Record], map[1 := 0, 2 := 1]), ExampleDecorations, ExampleConstants, 1, OpTypeArray, [0, 3, 2, 4])
            == Ok(TypeTable([IntRecord, Vec4Record, ArrayRecord], map[1 := 0, 2 := 1, 3 := 2]))
    ensures BlockSize([IntRecord, Vec4Record, ArrayRecord], 2) == Ok(160)
  {
    ExampleBlockSize();
    ExampleInt();
    ExampleVector();
    ExampleArray();
    ExampleArrayDecorated();
  }
}

=== FILE: walker.dfy ===
/** The instruction-stream walker and the module header check.

    Section 2.3 of the SPIR-V specification lays every instruction out as a
    first word holding the opcode in its low 16 bits and the total word count
    in its high 16 bits, followed by the operand words.  The walker visits the
    instructions of a word range in order, skipping `OpNop`, and hands every
    other one to a handler; a handler that answers `false` stops the walk at
    that instruction so that the next pass can resume there.
 */
module Walker {
  import opened Spv
  import opened Wrappers

  function Opcode(w: Word): nat {
    w % OpCodeMod
  }

  function WordCount(w: Word): nat {
    w / OpCodeMod
  }

  /** Builds an instruction's first word; used to state the layout round trip. */
  function FirstWord(opcode: nat, count: nat): Word
    requires opcode < OpCodeMod && count < OpCodeMod
  {
    count * OpCodeMod + opcode
  }

  lemma FirstWordRoundTrip(opcode: nat, count: nat)
    requires opcode < OpCodeMod && count < OpCodeMod
    ensures Opcode(FirstWord(opcode, count)) == opcode
    ensures WordCount(FirstWord(opcode, count)) == count
  {
  }

  /** A handler sees the opcode and the instruction's words (first word included). */
  type Handler = (nat, seq<Word>) -> bool

  /** Where a walk ends: stopped by the handler at an instruction, or at the end. */
  datatype WalkEnd = Stopped(at: nat) | Done(at: nat)

  /** The instruction at `pos` is well formed: count >= 1 and it fits before the end. */
  predicate Fits(words: seq<Word>, pos: nat)
    requires pos < |words|
  {
    WordCount(words[pos]) >= 1 && pos + WordCount(words[pos]) <= |words|
  }

  /** Reference definition of the walk, one instruction per step. */
  function WalkFrom(words: seq<Word>, pos: nat, handler: Handler): Result<WalkEnd>
    requires pos <= |words|
    decreases |words| - pos
  {
    if pos == |words| then Ok(Done(pos))
    else if !Fits(words, pos) then Abort("instruction word count out of range")
    else
      var op := Opcode(words[pos]);
      var count := WordCount(words[pos]);
      if op == OpNop then WalkFrom(words, pos + 1, handler)
      else if !handler(op, words[pos..pos + count]) then Ok(Stopped(pos))
      else WalkFrom(words, pos + count, handler)
  }

  /** `vtn_foreach_instruction` over `words[start..]`. */
  method ForeachInstruction(words: seq<Word>, start: nat, handler: Handler)
    returns (r: Result<WalkEnd>)
    requires start <= |words|
    ensures r == WalkFrom(words, start, handler)
    ensures r.Ok? && r.value.Done? ==> r.value.at == |words|
    ensures r.Ok? && r.value.Stopped? ==>
              start <= r.value.at < |words| && Fits(words, r.value.at)
              && Opcode(words[r.value.at]) != OpNop
              && !handler(Opcode(words[r.value.at]),
                          words[r.value.at..r.value.at + WordCount(words[r.value.at])])
  {
    var w := start;
    while w < |words|
      invariant start <= w <= |words|
      invariant WalkFrom(words, w, handler) == WalkFrom(words, start, handler)
      decreases |words| - w
    {
      var opcode := Opcode(words[w]);
      var count := WordCount(words[w]);
      if !(count >= 1 && w + count <= |words|) {
        return Abort("instruction word count out of range");
      }
      if opcode == OpNop {
        w := w + 1;
        continue;
      }
      if !handler(opcode, words[w..w + count]) {
        return Ok(Stopped(w));
      }
      w := w + count;
    }
    return Ok(Done(w));
  }

  /** A completed walk always ends exactly at the end of the range. */
  lemma {:induction false} WalkDoneAtEnd(words: seq<Word>, pos: nat, handler: Handler)
    requires pos <= |words|
    requires WalkFrom(words, pos, handler).Ok?
    requires WalkFrom(words, pos, handler).value.Done?
    ensures WalkFrom(words, pos, handler).value.at == |words|
    decreases |words| - pos
  {
    if pos < |words| {
      var count := WordCount(words[pos]);
      if Opcode(words[pos]) == OpNop {
        WalkDoneAtEnd(words, pos + 1, handler);
      } else {
        WalkDoneAtEnd(words, pos + count, handler);
      }
    }
  }

  /** A walk that stops does so at a well-formed, non-Nop instruction that the
      handler refused, never before `pos`. */
  lemma {:induction false} WalkStopsAtRefusal(words: seq<Word>, pos: nat, handler: Handler)
    requires pos <= |words|
    requires WalkFrom(words, pos, handler).Ok?
    requires WalkFrom(words, pos, handler).value.Stopped?
    ensures var q := WalkFrom(words, pos, handler).value.at;
            pos <= q < |words| && Fits(words, q) && Opcode(words[q]) != OpNop
            && !handler(Opcode(words[q]), words[q..q + WordCount(words[q])])
    decreases |words| - pos
  {
    var count := WordCount(words[pos]);
    if Opcode(words[pos]) == OpNop {
      WalkStopsAtRefusal(words, pos + 1, handler);
    } else if handler(Opcode(words[pos]), words[pos..pos + count]) {
      WalkStopsAtRefusal(words, pos + count, handler);
    }
  }

  /** A well-formed `OpNop` advances the walk by exactly one word. */
  lemma NopAdvancesOneWord(words: seq<Word>, pos: nat, handler: Handler)
    requires pos < |words| && Fits(words, pos) && Opcode(words[pos]) == OpNop
    ensures WalkFrom(words, pos, handler) == WalkFrom(words, pos + 1, handler)
  {
  }

  /** A handler that accepts everything walks a stream of well-formed
      instructions to its end. */
  lemma {:induction false} AcceptingHandlerReachesEnd(words: seq<Word>, pos: nat, handler: Handler)
    requires pos <= |words|
    requires forall op, ws :: handler(op, ws)
    requires forall q :: pos <= q < |words| ==> Fits(words, q)
    ensures WalkFrom(words, pos, handler) == Ok(Done(|words|))
    decreases |words| - pos
  {
    if pos < |words| {
      assert Fits(words, pos);
      if Opcode(words[pos]) == OpNop {
        AcceptingHandlerReachesEnd(words, pos + 1, handler);
      } else {
        AcceptingHandlerReachesEnd(words, pos + WordCount(words[pos]), handler);
      }
    }
  }

  /** The fixed five-word module header: magic, version, generator, id bound, zero. */
  datatype Header = Header(version: Word, generator: Word, idBound: Word)

  /** The header checks at the start of `spirv_to_nir`. */
  function ParseHeader(words: seq<Word>): (r: Result<Header>)
    ensures r.Ok? <==> |words| > 5 && words[0] == MagicNumber
                       && words[1] >= MinVersion && words[4] == 0
    ensures r.Ok? ==> r.value.idBound == words[3] && r.value.version == words[1]
  {
    if |words| <= 5 then Abort("module shorter than its header")
    else if words[0] != MagicNumber then Abort("bad magic number")
    else if words[1] < MinVersion then Abort("version too old")
    else if words[4] != 0 then Abort("reserved header word is not zero")
    else Ok(Header(words[1], words[2], words[3]))
  }

  /** Section boundaries found by the driver: the preamble pass runs from the
      word after the header, and the declarations pass resumes where it stopped. */
  datatype Sections = Sections(header: Header, preambleEnd: nat, declarationsEnd: nat)

  method SplitSections(words: seq<Word>, preamble: Handler, declarations: Handler)
    returns (r: Result<Sections>)
    ensures r.Ok? ==> ParseHeader(words).Ok? && r.value.header == ParseHeader(words).value
    ensures r.Ok? ==> 5 <= r.value.preambleEnd <= r.value.declarationsEnd <= |words|
    ensures r.Ok? ==> WalkFrom(words, 5, preamble).Ok?
                      && WalkFrom(words, 5, preamble).value.at == r.value.preambleEnd
    ensures r.Ok? ==> WalkFrom(words, r.value.preambleEnd, declarations).Ok?
                      && WalkFrom(words, r.value.preambleEnd, declarations).value.at
                         == r.value.declarationsEnd
    ensures ParseHeader(words).Abort? ==> r.Abort?
  {
    var header :- ParseHeader(words);
    var first := ForeachInstruction(words, 5, preamble);
    if first.Abort? {
      return Abort(first.reason);
    }
    var second := ForeachInstruction(words, first.value.at, declarations);
    if second.Abort? {
      return Abort(second.reason);
    }
    return Ok(Sections(header, first.value.at, second.value.at));
  }
}

=== FILE: wrappers.dfy ===
/** Failure-compatible result types shared by every module of the model.

    The translator has no recoverable error path: a malformed or unsupported
    input trips an `assert` or `unreachable` and translation stops.  The model
    turns each of those into an `Abort` carrying a short reason, so that every
    operation is a total function and its error conditions can be stated.
 */
module Wrappers {

  datatype Option<+T> = None | Some(value: T) {
    function GetOr(default: T): T {
      match this
      case Some(v) => v
      case None => default
    }
  }

  datatype Result<+T> = Ok(value: T) | Abort(reason: string) {
    predicate IsFailure() {
      Abort?
    }

    function PropagateFailure<U>(): Result<U>
      requires Abort?
    {
      Abort(reason)
    }

    function Extract(): T
      requires Ok?
    {
      value
    }
  }

  /** `Need(c, why)` aborts with `why` unless `c` holds (the source's `assert`). */
  datatype Check = Pass | Fail(reason: string) {
    predicate IsFailure() {
      Fail?
    }

    function PropagateFailure<U>(): Result<U>
      requires Fail?
    {
      Abort(reason)
    }
  }

  function Need(condition: bool, reason: string): (c: Check)
  {
    if condition then Pass else Fail(reason)
  }
}
